=== FILE: README.md ===
# SolChat message core in Dafny

This project models the client-side message core of SolChat, a wallet-based chat
application. SolChat stores messages as pinned objects on IPFS (through the
Pinata pinning service) and keeps per-wallet state in the browser. The model
covers the following parts, one Dafny module each:

- **Sync index and synchronizer** (`MessageSync`, from `app/lib/ipfs-message-sync.ts`).
  The index records the wallet's known CIDs, one pointer per CID with its
  `synced` flag and retry count, a per-counterparty conversation cache of CIDs,
  and the time of the last sync. A sync cycle discovers new CIDs from the pin
  listing and builds a work queue of unsynced pointers with retries left. It
  retrieves them, marks successes, counts failures, files retrieved messages
  under their counterparty and stamps the sync time. A re-entrancy flag turns
  overlapping calls into no-ops.
- **Conversation manager** (`Conversations`, from `app/lib/conversation-manager.ts`).
  It keeps per-contact conversation states and per-contact listeners. It merges
  the locally stored messages with sync results: deduplicated by id, the local
  copy first, sorted by time. It also handles unread counts, read marking and
  notifications.
- **Local message store** (`Messages`, from `app/lib/messages.ts`): per-wallet
  message lists with upsert by id, status and read updates, unread aggregation
  by sender, deletion, per-conversation queries and import.
- **Pinata discovery and pointer cache** (`IpfsMessaging`, from `app/lib/ipfs-messaging.ts`):
  the relevance filters, the paginated pin listing, discovery and the pointer
  cache.
- **Older IPFS service** (`IpfsIndex`, from `app/lib/ipfs.ts`): the per-wallet hash
  index, the local fallback store, the queries with their deduplication,
  discovery of incoming messages and the age-based cleanup.
- **Groups** (`Groups`, from `app/lib/groups.ts`), **spam scoring** (`Spam`, from
  `app/lib/spam-protection.ts`) and the **offline retry queue** (`Offline`, from
  `app/lib/offline-sync.ts`).
- **Smaller services**: contacts (`Contacts`), storage-backend routing
  (`Storage`), message search (`Search`), the display helpers of `lib/utils.js`
  (`Utils`), the demonstration XOR cipher (`Encryption`) and the
  address-validation cache (`Solana`).
- **Shared definitions.** `Common` holds option and result types, a stable sort,
  filters, first-occurrence deduplication, an insertion-ordered map (the
  model of a JS `Map`) and string helpers. `ContentStore` holds the shapes the
  external services hand back: a stored message object and a Pinata pin row.

State that the source keeps in objects and in `localStorage` becomes fields of
Dafny classes. Each `localStorage` entry keyed by wallet is a map from wallet
to list. Each method states the new state in terms of specification functions
on values, and lemmas prove what the source promises about those functions.

Some inputs are not computed by the model and are passed in as parameters:

- the clock (`now`) and random id suffixes;
- the answers of Pinata and the IPFS gateways, as functions from page offset
  or CID to an optional answer;
- upload outcomes, the browser's online flag, the RPC health and network checks;
- the Solana public-key constructor, as the predicate `accepts`.

The project verifies with Dafny 4.11.

## Model

| member | source | states |
|---|---|---|
| Messages.MergeFacts | app/lib/messages.ts:61 | the merged record takes id, parties, content and timestamp from the update; each of status, read flag, Arweave id, encrypted content and message kind is the update's whenever the update has that property, even an explicit `undefined`, which erases the stored value, and the stored one only when the update lacks the property; an update carrying all five replaces the record; merging the same update again changes nothing more |
| Messages.PlacedFacts | app/lib/messages.ts:57-65 | before the sort: the list grows by one only for a new id, holds the stored record, keeps every message with another id, adds no other message, and keeps ids unique |
| Messages.UpsertFacts | app/lib/messages.ts:53-70 | `saveMessage`'s list is sorted by timestamp, grows only for a new id, holds the merged (or new) record under the id, keeps every other message, adds nothing else, and keeps ids unique with one record per id |
| Messages.SaveSentFacts | app/lib/messages.ts:78-88 | a saved sent message is stored once, with status `sent` and read, whatever the caller passed |
| Messages.SaveReceivedFacts | app/lib/messages.ts:90-100 | a saved received message is stored once, with status `delivered` and unread, whatever the caller passed |
| Messages.UpdateStatusFacts | app/lib/messages.ts:102-111 | only the first record with the id changes, and only its status; an absent id leaves the list as it is |
| Messages.MarkOneReadFacts | app/lib/messages.ts:184-192 | only the first record with the id changes, and only its read flag; an absent id leaves the list as it is |
| Messages.MaxTime | app/lib/messages.ts:130 | the `Math.max` fold is the latest timestamp of the messages |
| Messages.TallyDistinct | app/lib/messages.ts:125-137 | one step of the per-sender tally never makes two entries for one sender |
| Messages.TallySum | app/lib/messages.ts:128-137 | one step adds exactly one to the total count |
| Messages.TallyLookup | app/lib/messages.ts:125-137 | one step touches only the sender's entry: its count goes up by one and its timestamp becomes the later of the two, or a new entry with count 1 is made |
| Messages.UnreadCountsDistinct | app/lib/messages.ts:117-141 | the unread aggregation has at most one entry per sender |
| Messages.UnreadCountsSum | app/lib/messages.ts:117-141 | the counts add up to the number of unread messages addressed to the wallet |
| Messages.UnreadCountsLookup | app/lib/messages.ts:117-141 | a sender has an entry exactly when it sent the wallet an unread message, and the entry holds the number of those messages and the latest of their timestamps |
| Messages.UnreadCountsEntries | app/lib/messages.ts:117-141 | every entry of the aggregation is its sender's expected entry |
| Messages.TotalOf | app/lib/messages.ts:150-155 | the `reduce` over the per-sender entries adds up their counts |
| Messages.MarkReadFacts | app/lib/messages.ts:158-177 | afterwards no message of the conversation is unread; other messages are unchanged; only read flags move; a conversation with nothing unread is left as it was; marking again changes nothing |
| Messages.MarkReadClearsUnread | app/lib/messages.ts:117-177 | after a conversation is marked read, the contact has no entry in the wallet's unread counts |
| Messages.DeleteFacts | app/lib/messages.ts:199-203 | no message with the id is left; the others stay in order; an absent id changes nothing; unique ids stay unique |
| Messages.ConversationFacts | app/lib/messages.ts:210-219 | the conversation holds exactly the messages between the two addresses in either direction, each as often as it is stored, sorted by timestamp |
| Messages.ImportFacts | app/lib/messages.ts:253-259 | the imported list has one message per id, loses no id of either list, keeps the stored copy when an id is already stored, and keeps every stored message when stored ids are unique |
| Messages.MessageService.SaveMessage | app/lib/messages.ts:53-76 | the wallet's list becomes the upsert of the message, and ids stay unique |
| Messages.MessageService.SaveSentMessage | app/lib/messages.ts:78-88 | the message is upserted as sent and read |
| Messages.MessageService.SaveReceivedMessage | app/lib/messages.ts:90-100 | the message is upserted as delivered and unread |
| Messages.MessageService.UpdateMessageStatus | app/lib/messages.ts:102-115 | the list is written back with the first matching record's status changed only when the id exists; otherwise the store is unchanged |
| Messages.MessageService.GetUnreadCounts | app/lib/messages.ts:117-146 | the loop's result is the per-sender aggregation: one entry per sender, each its expected count and latest timestamp |
| Messages.MessageService.GetTotalUnreadCount | app/lib/messages.ts:148-156 | the total is the number of unread messages addressed to the wallet |
| Messages.MessageService.MarkConversationAsRead | app/lib/messages.ts:158-182 | the loop marks every conversation message read and writes back only when something was unread; ids stay unique |
| Messages.MessageService.MarkMessageAsRead | app/lib/messages.ts:184-197 | the first record with the id is marked read, and the list written back, only when it exists and is unread |
| Messages.MessageService.DeleteMessage | app/lib/messages.ts:199-208 | the filtered list is always written back; ids stay unique |
| Messages.MessageService.ClearAllMessages | app/lib/messages.ts:226-234 | the wallet's list is removed and nothing else changes |
| Messages.MessageService.GetConversationMessages | app/lib/messages.ts:210-219 | exactly the wallet's stored messages between the wallet and the contact, in either direction, oldest first |
| Messages.MessageService.ImportMessages | app/lib/messages.ts:246-266 | input that is not an array is refused with `Invalid message format` and nothing is stored; otherwise the deduplicated concatenation is stored; ids stay unique |
| IpfsMessaging.SearchPinsFacts | app/lib/ipfs-messaging.ts:359-406 | a failed listing yields nothing; with a target wallet the search keeps exactly the SolChat message pins from or to it, the same pins as the pagination filter; without one it keeps exactly the SolChat message pins |
| IpfsMessaging.ListingRelevant | app/lib/ipfs-messaging.ts:416-466 | every pin a successful listing collects from any page offset on is a SolChat message pin from or to the wallet |
| IpfsMessaging.AllPinsRelevant | app/lib/ipfs-messaging.ts:408-474 | every pin `getAllSolChatPins` returns is a SolChat message pin from or to the wallet |
| IpfsMessaging.LaterThrowDiscards | app/lib/ipfs-messaging.ts:470-473 | a full first page followed by a request that throws gives no pins at all: the outer `catch` discards the pins already collected |
| IpfsMessaging.ListingPages | app/lib/ipfs-messaging.ts:416-466 | the collected pins depend only on the pages at offsets 0, 1000, …, 10000: the safety cap ends the loop after at most eleven requests |
| IpfsMessaging.HarvestFacts | app/lib/ipfs-messaging.ts:297-340 | a pointer is made exactly for each listed pin that is not already known, not older than the sync point, and whose content was retrieved; it carries the message's addresses and timestamp and the discovery time, and the message sits at the same position |
| IpfsMessaging.HarvestKnown | app/lib/ipfs-messaging.ts:302-306 | when every listed pin is already known, discovery finds no message and makes no pointer |
| IpfsMessaging.SetAllFacts | app/lib/ipfs-messaging.ts:343-345 | adding the new pointers keeps the cache well formed, adds exactly their CIDs, leaves every other entry as it was, and files each pointer under its own CID |
| IpfsMessaging.FetchedFacts | app/lib/ipfs-messaging.ts:491-511 | the retrieved messages are exactly those some pointer's retrieval returned; failed retrievals are dropped |
| IpfsMessaging.KnownMessagesFacts | app/lib/ipfs-messaging.ts:479-514 | the known messages are sorted by timestamp and are exactly the retrieved messages of cached pointers from or to the wallet |
| IpfsMessaging.ConversationFacts | app/lib/ipfs-messaging.ts:519-529 | a conversation is sorted and holds exactly the known messages of the first address exchanged with the second, in either direction |
| IpfsMessaging.IpfsMessagingService.StoreMessage | app/lib/ipfs-messaging.ts:135-174 | without credentials the store is refused and nothing changes; a failed upload is refused with `IPFS storage failed: ` followed by the upload's error text, and nothing changes; a successful one returns the CID and caches a pointer under it with the message's addresses and timestamp |
| IpfsMessaging.IpfsMessagingService.GetAllSolChatPins | app/lib/ipfs-messaging.ts:408-474 | the pagination loop returns the listing: the relevant pins of each page, stopping at a short page, a failed response or the offset cap; a page that throws makes the whole answer `[]` |
| IpfsMessaging.IpfsMessagingService.DiscoverMessages | app/lib/ipfs-messaging.ts:276-357 | without credentials nothing is found and nothing changes; otherwise the harvested messages come back sorted by timestamp, the harvested pointers are added to the cache, and the last sync time is set |
| IpfsMessaging.IpfsMessagingService.GetKnownMessages | app/lib/ipfs-messaging.ts:479-514 | the loop over the cached pointers returns the known messages of the wallet |
| IpfsMessaging.IpfsMessagingService.GetConversation | app/lib/ipfs-messaging.ts:519-529 | returns the conversation between the two addresses |
| IpfsMessaging.IpfsMessagingService.SyncMessages | app/lib/ipfs-messaging.ts:534-556 | discovery runs from the last sync time (0 when there is none), with the same outcome as discovery |
| IpfsMessaging.IpfsMessagingService.ClearCache | app/lib/ipfs-messaging.ts:581-586 | the pointer cache and the last sync time are cleared; credentials stay |
| MessageSync.SetPointerWellFormed | app/lib/ipfs-message-sync.ts:171 | `Map.set` keeps the insertion order listing each key once and adds exactly the new key |
| MessageSync.LoadPointersFacts | app/lib/ipfs-message-sync.ts:52 | rebuilding the pointer map from storage keeps the order well formed and files each loaded pointer under its own CID |
| MessageSync.LoadOrCreateIndexFacts | app/lib/ipfs-message-sync.ts:43-67 | the loaded or new index belongs to the wallet and is well formed; with nothing stored it is empty, consistent and has last sync 0 |
| MessageSync.DiscoverRowsFacts | app/lib/ipfs-message-sync.ts:148-172 | discovery keeps the index consistent, changes only the known CIDs and the pointers, keeps every existing pointer, and each pointer found is fresh (unknown before, recorded in both the known set and the map, unsynced, retry count 0, not older than one minute before the last sync), with distinct CIDs and a found pointer for every new key |
| MessageSync.CoveredMonotone | app/lib/ipfs-message-sync.ts:149-157 | once every row is skipped, it stays skipped when more CIDs become known |
| MessageSync.DiscoverRowsCovers | app/lib/ipfs-message-sync.ts:148-172 | after a pass every row is skipped by the next one: each recorded row's CID is now known |
| MessageSync.RediscoverIsNoop | app/lib/ipfs-message-sync.ts:153 | a pass over rows that are all skipped finds nothing and changes nothing |
| MessageSync.DiscoverIdempotent | app/lib/ipfs-message-sync.ts:148-172 | rediscovering the same rows, at any later time, finds nothing and leaves the index as it was |
| MessageSync.DiscoverRecordsRecent | app/lib/ipfs-message-sync.ts:148-172 | a row with metadata, an unknown CID and a recent enough timestamp is recorded in both the known set and the pointer map |
| MessageSync.DiscoveredKnownHasPointer | app/lib/ipfs-message-sync.ts:170-171 | every CID discovery adds to the known set also has a pointer |
| MessageSync.CacheListTransfer | app/lib/ipfs-message-sync.ts:334-338 | a conversation list stays ordered when pointers are added or changed without changing their timestamps |
| MessageSync.UnsyncedFacts | app/lib/ipfs-message-sync.ts:251-253 | the unsynced list holds exactly the stored pointers that are unsynced with fewer than three retries |
| MessageSync.MarkFailedFacts | app/lib/ipfs-message-sync.ts:217-222 | a failed retrieval bumps that pointer's retry counter by one, never past three, keeps the index consistent and changes nothing else |
| MessageSync.FindFrom | app/lib/ipfs-message-sync.ts:344-357 | the scan returns the first pointer from position `k` on, in insertion order, with the same addresses and a timestamp within one second, or none when no such pointer exists |
| MessageSync.FindCIDForMessage | app/lib/ipfs-message-sync.ts:344-357 | returns the first matching pointer in insertion order, or none exactly when no pointer matches |
| MessageSync.CacheUpdateConsistent | app/lib/ipfs-message-sync.ts:318-342 | the conversation cache update keeps the index invariant: each list holds no repeats, only known CIDs, in timestamp order |
| MessageSync.CacheUpdateFiles | app/lib/ipfs-message-sync.ts:318-342 | only the counterparty's list can change; with no matching CID nothing changes; otherwise the CID is in the list and was added once unless already there |
| MessageSync.NewCacheListOk | app/lib/ipfs-message-sync.ts:330-338 | appending a new known CID and sorting by pointer timestamp gives a valid conversation list |
| MessageSync.RetrieveStepFacts | app/lib/ipfs-message-sync.ts:261-288 | one retrieval keeps the index consistent and touches only its own pointer: a success marks it synced and reports the message; a failure bumps its retry counter up to three |
| MessageSync.RetrieveAllConsistent | app/lib/ipfs-message-sync.ts:258-294 | the batch loop keeps the index consistent |
| MessageSync.RetrieveAllCollects | app/lib/ipfs-message-sync.ts:283-288 | the reported messages are the successful retrievals of the queue, in queue order |
| MessageSync.RetrieveAllUntouched | app/lib/ipfs-message-sync.ts:258-294 | a pointer not in the queue is left as it was |
| MessageSync.RetrieveAllSynced | app/lib/ipfs-message-sync.ts:264-267 | a queued pointer whose content is retrievable ends synced |
| MessageSync.RetrieveAllRetries | app/lib/ipfs-message-sync.ts:217-222 | a queued pointer whose retrieval fails gains one retry per occurrence in the queue, capped at three, and stays unsynced |
| MessageSync.WorkQueueFacts | app/lib/ipfs-message-sync.ts:251-255 | the queue holds only stored pointers, never a synced or exhausted one, and every new or pending pointer at least once |
| MessageSync.CycleFacts | app/lib/ipfs-message-sync.ts:230-316 | a sync cycle keeps the index consistent, sets the last sync to now, loses no known CID, reports messages sorted by timestamp, and counts them |
| MessageSync.CycleOutcomes | app/lib/ipfs-message-sync.ts:230-316 | a cycle leaves synced and exhausted pointers as they were; each new or pending pointer ends synced when its content is retrievable, and otherwise unsynced with more retries than before |
| MessageSync.StatsFacts | app/lib/ipfs-message-sync.ts:419-439 | synced and pending pointers are disjoint parts of all pointers, and the pending count is the length of the unsynced list |
| MessageSync.Deliveries | app/lib/ipfs-message-sync.ts:305-306 | the notification makes one call per registered callback, in registration order, each with the result |
| MessageSync.CycleReports | app/lib/ipfs-message-sync.ts:255-301 | a cycle reports exactly the successful retrievals of its queue (new pointers, then pending ones), sorted by timestamp, with their number |
| MessageSync.NewPointersQueuedTwice | app/lib/ipfs-message-sync.ts:248-255 | a CID discovered in a cycle is queued twice, once as new and once as unsynced: a successful retrieval is reported at least twice, and a failing one is charged at least two retries |
| MessageSync.MessageSyncManager.constructor | app/lib/ipfs-message-sync.ts:37-41 | the index is the loaded or new index of the wallet; no sync is running and no callback is registered |
| MessageSync.MessageSyncManager.DiscoverNewCIDs | app/lib/ipfs-message-sync.ts:98-184 | the two listing loops update the index as the discovery pass does and return the found pointers sorted by timestamp |
| MessageSync.MessageSyncManager.DiscoverOne | app/lib/ipfs-message-sync.ts:148-172 | one row leaves the index and the found list as one step of the discovery pass: a pin without metadata, already known or older than the last sync less the one-minute buffer changes nothing; otherwise its CID is known and its unsynced pointer stored and appended |
| MessageSync.MessageSyncManager.RetrieveMessage | app/lib/ipfs-message-sync.ts:189-225 | returns what the gateways returned and, on failure, bumps the pointer's retry counter up to three |
| MessageSync.MessageSyncManager.UpdateConversationCache | app/lib/ipfs-message-sync.ts:318-342 | the index becomes the cache update of the message |
| MessageSync.MessageSyncManager.SyncPointer | app/lib/ipfs-message-sync.ts:261-279 | one queued retrieval has the effect of the retrieval step |
| MessageSync.MessageSyncManager.SyncBatch | app/lib/ipfs-message-sync.ts:258-289 | a batch has the effect of the retrieval loop over its pointers |
| MessageSync.MessageSyncManager.BeginSync | app/lib/ipfs-message-sync.ts:231-236 | the guard reports whether no sync was running and marks one running |
| MessageSync.MessageSyncManager.RetrieveQueue | app/lib/ipfs-message-sync.ts:258-294 | the loop over batches of ten has the effect of the retrieval loop over the whole queue and counts the messages |
| MessageSync.MessageSyncManager.CompleteSync | app/lib/ipfs-message-sync.ts:244-315 | discovery, retrieval, time stamp and sort together are one sync cycle; the callbacks receive the cycle's report in registration order up to and including the first that throws; the result is the report, with `Sync failed: ` and that callback's error appended when one threw; the running flag is cleared |
| MessageSync.MessageSyncManager.SyncMessages | app/lib/ipfs-message-sync.ts:230-316 | a call while a sync is running returns an empty result, notifies nobody and changes nothing; otherwise the index is that of one sync cycle, the callbacks are called with its report until one throws, and a throw adds `Sync failed: ` and its error to the returned errors; when no callback throws, the result is the cycle's and each callback is called once with it; the index invariant is kept |
| MessageSync.MessageSyncManager.ClearCache | app/lib/ipfs-message-sync.ts:444-451 | the index is emptied and the last sync reset to 0, for the same wallet |
| MessageSync.Notified | app/lib/ipfs-message-sync.ts:306 | the callbacks `forEach` reaches are a prefix of those registered, none but the last of them throws, and when some are not reached the last reached one threw |
| MessageSync.FirstThrow | app/lib/ipfs-message-sync.ts:306 | there is a thrown error exactly when some registered callback throws; it is the error of the last callback reached, and with none thrown every callback is reached |
| MessageSync.AfterCallbacks | app/lib/ipfs-message-sync.ts:305-312 | with no throw the report is returned as it is; a throw appends `Sync failed: ` and its message to the errors and leaves messages, conversations and count alone |
| MessageSync.MessageSyncManager.OnSync | app/lib/ipfs-message-sync.ts:412-414 | the callback is registered last; the index and the running flag are unchanged |
| MessageSync.MessageSyncManager.NotifySync | app/lib/ipfs-message-sync.ts:305-306 | the loop calls the registered callbacks with the result in registration order, stopping after the first that throws, whose error it answers; nothing else changes |
| IpfsIndex.AddHashFacts | app/lib/ipfs.ts:255-261 | adding a hash puts it in the wallet's list without repeating it (adding twice is adding once), keeps the old hashes and every other wallet's list, and keeps lists free of repeats |
| IpfsIndex.RetrieveLocalFacts | app/lib/ipfs.ts:263-324 | an `ipfs_local_` id is answered from the fallback store alone, whatever the gateways do: the first entry with that id, or nothing when there is none |
| IpfsIndex.FallbackRetrievable | app/lib/ipfs.ts:244-253 | a message saved under a fresh local id is found again under that id |
| IpfsIndex.CollectedFacts | app/lib/ipfs.ts:334-356 | the retrieval loop keeps exactly the hashes whose message was retrieved and involves the wallet |
| IpfsIndex.ByAddressFacts | app/lib/ipfs.ts:326-360 | the wallet's indexed messages are sorted by timestamp and are exactly its indexed hashes whose message was retrieved and involves the wallet |
| IpfsIndex.LocalForFacts | app/lib/ipfs.ts:368-373 | the fallback part holds exactly the stored entries whose message involves the wallet, under their entry id |
| Common.DedupSortFacts | app/lib/ipfs.ts:376-381 | first-occurrence deduplication and sorting give one message per id, sorted, with no id lost and the earlier source's copy kept |
| Common.SortByStable | app/lib/ipfs-message-sync.ts:301 | the sort is stable: the elements sharing a key come out in the order they went in, so messages with equal timestamps keep their arrival order |
| IpfsIndex.AllForUserFacts | app/lib/ipfs.ts:362-386 | the merged view is sorted, has one message per id, all involving the wallet, loses no id of either source, and prefers the indexed copy over the local one |
| IpfsIndex.NewIncomingFacts | app/lib/ipfs.ts:466-474 | the new messages are addressed to the wallet, have ids not known before and one message per id, come from the search or the index, and the search's copy is preferred; conversely, for every unknown id the first message carrying it is returned whenever it is addressed to the wallet |
| IpfsIndex.CleanedFacts | app/lib/ipfs.ts:534-554 | cleanup keeps every wallet, and keeps exactly the hashes whose message is retrievable and younger than the maximum age, in order and without repeats |
| IpfsIndex.PinataFoundFacts | app/lib/ipfs.ts:415-440 | a message is collected exactly when some SolChat pin of the listing has its hash, the hash retrieves it and it involves the wallet |
| IpfsIndex.AddFoundKeeps | app/lib/ipfs.ts:423-429 | indexing the collected hashes keeps the wallet's earlier hashes, leaves every other wallet's list alone and keeps lists free of repeats |
| IpfsIndex.AddFoundMembers | app/lib/ipfs.ts:423-429 | afterwards the wallet's list holds exactly its earlier hashes and the collected ones |
| IpfsIndex.PinataSearchFacts | app/lib/ipfs.ts:389-453 | with credentials and a listing, the search returns, oldest first, exactly the messages of the SolChat pins that retrieve and involve the wallet, each with its hash, and every such hash is then in the wallet's index |
| IpfsIndex.IpfsService.AddToMessageIndex | app/lib/ipfs.ts:255-261 | the index becomes the one with the hash added to the wallet's list |
| IpfsIndex.IpfsService.StoreViaPinataFile | app/lib/ipfs.ts:185-232 | a pinned file upload answers its CID and stores nothing; a failed one stores the stamped message under the content hash and throws `All IPFS upload methods failed: ` with the reason |
| IpfsIndex.IpfsService.StoreViaPinata | app/lib/ipfs.ts:139-183 | per path: the JSON upload's CID; after a JSON throw, one file upload; after a non-OK JSON answer, the file upload and, when it fails, a second one from the `catch`; each failed file upload leaves one content-hash copy, so a pinned retry still leaves one copy and a failed retry leaves two |
| IpfsIndex.IpfsService.StoreMessage | app/lib/ipfs.ts:108-136 | without credentials the call is refused and nothing changes; whichever request pins, its CID is returned and indexed for sender and receiver, with a content-hash copy left behind when a first file upload failed before the retry pinned; when nothing pins, the index is unchanged, the store gains one content-hash copy per failed file upload (one or two) followed by the `ipfs_local_` copy, and the call fails with the error text of both wrappers around the last reason |
| IpfsIndex.IpfsService.GetMessagesByAddress | app/lib/ipfs.ts:326-360 | the loop returns the wallet's indexed messages |
| IpfsIndex.IpfsService.GetAllMessagesForUser | app/lib/ipfs.ts:362-386 | returns the merged view of the indexed and the fallback messages |
| IpfsIndex.IpfsService.SearchPinataForMessages | app/lib/ipfs.ts:389-453 | the loop returns the search's messages and leaves the index as the search does: each collected hash added to the wallet's list in turn |
| IpfsIndex.IpfsService.DiscoverNewMessages | app/lib/ipfs.ts:455-494 | the index is left as the search leaves it; the result is the new-incoming filter of the search's messages and the merged view taken after the search: only unknown messages addressed to the wallet, one per id, and every unknown id's first message that is addressed to the wallet |
| IpfsIndex.IpfsService.CleanHashes | app/lib/ipfs.ts:535-551 | the inner loop keeps exactly the young retrievable hashes, in order |
| IpfsIndex.IpfsService.CleanupOldMessages | app/lib/ipfs.ts:527-565 | the index becomes its cleaned version; the fallback store is untouched |
| IpfsIndex.IpfsService.RetrieveMessage | app/lib/ipfs.ts:263-324 | an `ipfs_local_` id is found exactly when the fallback store has an entry with it; any other CID gets the gateways' answer when there is one; any other answer comes from a fallback entry with that id |
| Conversations.RefreshedFacts | app/lib/conversation-manager.ts:80-115 | the refreshed state's messages are sorted, one per id, drawn from the stored and the new messages with no id lost and the stored copy preferred; its unread count is the number of unread messages to the wallet; its last time is the latest timestamp (0 when empty); it is neither loading nor failed |
| Conversations.ConvertedReplaces | app/lib/conversation-manager.ts:43-55 | saving a synced message over a stored copy replaces that copy whole: the converted record lists every optional property, so a stored encrypted content the synced message lacks is erased |
| Conversations.GroupedKeys | app/lib/conversation-manager.ts:62-68 | the grouping has an entry exactly for each conversation partner of the messages |
| Conversations.GroupedMessages | app/lib/conversation-manager.ts:62-68 | each partner's group is the partner's messages in arrival order |
| Conversations.UpsertKeys | app/lib/messages.ts:53-70 | saving a message adds exactly its id to the list's ids |
| Conversations.ReceiveAllOthers | app/lib/conversation-manager.ts:57-60 | saving the synced messages touches only the wallet's list, and nothing when none is addressed to the wallet |
| Conversations.ReceiveAllKeys | app/lib/conversation-manager.ts:57-60 | the wallet's stored ids grow by exactly the ids of the messages addressed to it |
| Conversations.ReceiveAllUnique | app/lib/conversation-manager.ts:57-60 | saving the synced messages keeps stored ids unique |
| Conversations.ReceiveStep | app/lib/conversation-manager.ts:40-72 | one iteration saves the message if it is addressed to the wallet and appends it to its partner's group |
| Conversations.AppliedStep | app/lib/conversation-manager.ts:75-77 | one iteration of the update loop sets the partner's refreshed state and tells its listeners |
| Conversations.AppliedFacts | app/lib/conversation-manager.ts:75-77 | after the loop each updated partner holds the refreshed state of its stored and new messages |
| Conversations.AppliedUntouched | app/lib/conversation-manager.ts:75-77 | a contact not updated keeps its state |
| Conversations.RefreshKeepsValid | app/lib/conversation-manager.ts:80-115 | a refresh keeps every state's unread count and last time coherent with its messages |
| Conversations.AppliedKeepsValid | app/lib/conversation-manager.ts:75-77 | the update loop keeps every state coherent |
| Conversations.UnsubscribedFacts | app/lib/conversation-manager.ts:248-257 | after unsubscribing, the callback is gone from the contact's listeners; the others stay, in order; the entry is deleted exactly when no listener is left; other contacts are untouched |
| Conversations.SubscribeRoundTrip | app/lib/conversation-manager.ts:240-257 | subscribing a new callback and then calling its unsubscribe function restores the listeners as they were |
| Conversations.AllReadFacts | app/lib/conversation-manager.ts:268-279 | marking a state read leaves no unread message, changes only read flags and keeps the state coherent |
| Conversations.SumUnreadReplace | app/lib/conversation-manager.ts:306-308 | replacing one state changes the unread total by the difference of the two counts |
| Conversations.MarkReadTotal | app/lib/conversation-manager.ts:263-308 | marking a conversation read lowers the unread total by exactly its unread count |
| Conversations.AllConversationsFacts | app/lib/conversation-manager.ts:299-301 | the list holds every state exactly once and runs from the latest last-message time to the oldest |
| Conversations.ConversationManager.NotifyListeners | app/lib/conversation-manager.ts:138-147 | each listener of the contact is called once with the state, in subscription order |
| Conversations.ConversationManager.UpdateConversation | app/lib/conversation-manager.ts:80-136 | the contact's state becomes the refreshed state of the stored and new messages, and its listeners are told |
| Conversations.ConversationManager.HandleSyncResult | app/lib/conversation-manager.ts:30-78 | an empty sync result changes nothing; otherwise the converted messages addressed to the wallet are saved as received, each replacing a stored copy with the same id whole, and each partner's conversation is refreshed and announced in order of first appearance |
| Conversations.ConversationManager.SaveAndGroup | app/lib/conversation-manager.ts:40-72 | the conversion loop saves the received messages and returns the grouping by partner |
| Conversations.ConversationManager.UpdateAll | app/lib/conversation-manager.ts:75-77 | the update loop applies and announces every group |
| Conversations.ConversationManager.LoadConversation | app/lib/conversation-manager.ts:152-181 | the state is first marked loading and announced, then refreshed from the store and announced again, and returned |
| Conversations.ConversationManager.MarkLoading | app/lib/conversation-manager.ts:155-167 | the current or initial state is stored as loading and announced |
| Conversations.ConversationManager.SubscribeToConversation | app/lib/conversation-manager.ts:240-246 | the callback is appended to the contact's listeners |
| Conversations.ConversationManager.Unsubscribe | app/lib/conversation-manager.ts:248-257 | the contact's listeners lose the callback, and the entry is dropped when none is left |
| Conversations.ConversationManager.MarkConversationAsRead | app/lib/conversation-manager.ts:263-287 | the store marks the conversation read; a known conversation's state is marked read with unread count 0 and announced; an unknown one changes nothing |
| Conversations.ConversationManager.GetTotalUnreadCount | app/lib/conversation-manager.ts:306-308 | the loop sums the unread counts of all states |
| Conversations.ConversationManager.SyncMessages | app/lib/conversation-manager.ts:225-235 | the IPFS sync's messages are handled as a sync result |
| Conversations.ConversationManager.ClearAllData | app/lib/conversation-manager.ts:370-382 | states and listeners are emptied and the IPFS pointer cache and last sync are cleared; credentials stay |
| Conversations.ConversationManager.GetConversationState | app/lib/conversation-manager.ts:292-294 | a contact's tracked state is one of the listed conversations and belongs to that contact; an untracked contact appears in no listed conversation |
| Conversations.ConversationManager.GetAllConversations | app/lib/conversation-manager.ts:299-301 | every tracked state is listed once, the latest conversation first |
| Groups.NewGroupFacts | app/lib/groups.ts:45-67 | creation is accepted exactly for 2 to 7 invitees; the new group has the creator first followed by the invitees, the creator as sole admin and creator, both timestamps set to now, 3 to 8 members and is well formed; its member list is free of repeats exactly when the invitees are distinct and exclude the creator |
| Groups.WithMemberFacts | app/lib/groups.ts:97-113 | an accepted addition implies the caller is an admin, the address is not yet a member and the group is below 8 members; the address is appended, admins are untouched, the group stays well formed, within 8 members and free of repeats |
| Groups.WithoutMemberFacts | app/lib/groups.ts:137-144 | removal is allowed exactly for an admin or for members removing themselves; afterwards the address is in neither the member nor the admin list, every other address keeps its membership and admin status, both lists keep their order, and well-formedness and repeat-freedom are preserved |
| Groups.TouchedFacts | app/lib/groups.ts:206-218 | stamping activity keeps the list length, changes at most groups with that id and only their lastActivity, keeps every group with another id, is a no-op when the matching groups already carry now, and keeps every group well formed |
| Groups.StampedAt | app/lib/groups.ts:112-119 | after a group stamped now replaces the first group with its id, the activity stamp done by the following system message changes nothing, and a well-formed replacement keeps the list valid |
| Groups.ReplacedFacts | app/lib/groups.ts:220-228 | updateGroup keeps the length, puts the group in the list when its id is present, leaves the list unchanged when the id is absent, touches no position with another id, and keeps the list valid for a well-formed group |
| Groups.DeletedFacts | app/lib/groups.ts:235-244 | deleteGroup keeps, in order, exactly the groups with another id and exactly the messages of other groups, and keeps the list valid |
| Groups.ForGroupFacts | app/lib/groups.ts:182-185 | a group's messages are sorted by timestamp and are exactly the stored messages carrying its id, each with its stored multiplicity |
| Groups.GroupService.CreateGroup | app/lib/groups.ts:45-84 | fewer than 2 or more than 7 invitees is an error with nothing changed; otherwise the result is the new id, the new group is appended to the wallet's list, the creation notice is appended to the wallet's group messages, and the validity of all lists is preserved |
| Groups.GroupService.AddMemberToGroup | app/lib/groups.ts:86-124 | a missing group, a non-admin caller, an existing member or a full group is the matching error with nothing changed; otherwise the group at the found index gains the member, the notice is appended, and validity is preserved |
| Groups.GroupService.RemoveMemberFromGroup | app/lib/groups.ts:126-156 | a missing group, or a non-admin removing someone else, is the matching error with nothing changed; otherwise the member leaves both lists of the found group, a left/removed notice is appended, and validity is preserved |
| Groups.GroupService.ReplaceAndAnnounce | app/lib/groups.ts:112-119 | the changed group replaces the one at its index and the notice is appended to the wallet's group messages, preserving validity |
| Groups.GroupService.SaveGroupMessage | app/lib/groups.ts:168-180 | the message is appended to the wallet's group messages and the group's activity is stamped, preserving validity |
| Groups.GroupService.AddSystemMessage | app/lib/groups.ts:192-204 | a system message from "system" with the content and now is appended and the group's activity is stamped |
| Groups.GroupService.UpdateGroupActivity | app/lib/groups.ts:206-218 | only the wallet's group list changes, by the activity stamp; messages are untouched |
| Groups.GroupService.UpdateGroup | app/lib/groups.ts:220-233 | only the wallet's group list changes, by replacing the first group with the same id; messages are untouched |
| Groups.GroupService.DeleteGroup | app/lib/groups.ts:235-249 | the wallet's groups with that id and their messages are removed; validity is preserved |
| Groups.GroupService.GetMessagesForGroup | app/lib/groups.ts:182-185 | the group's stored messages, exactly those carrying its id, oldest first |
| Spam.RateFacts | app/lib/spam-protection.ts:135-165 | the kept timestamps end with now, are all less than an hour old, include every stored timestamp less than an hour old and number at most one more than before; the score is at least 60 above 10 messages in the last minute, reaches 50 exactly when the minute limit is exceeded or both the hourly limit and the minute warning level are, and never exceeds 100 |
| Spam.ContentScoreFacts | app/lib/spam-protection.ts:167-202 | the content score is capped at 60; the keyword matches are exactly the suspicious keywords in the lowercased content; any match scores at least 15; without caps or pattern penalties and at most 4 matches the score is 15 per match; pattern penalties never lower it |
| Spam.DistanceStep | app/lib/spam-protection.ts:247-258 | each matrix cell is its diagonal neighbour for equal characters and otherwise one more than the least of its three neighbours |
| Spam.DistanceBounds | app/lib/spam-protection.ts:236-262 | the edit distance is at most the longer length and at least the difference of the lengths |
| Spam.DistanceZero | app/lib/spam-protection.ts:236-262 | the edit distance is 0 exactly for equal strings |
| Spam.DistanceSymmetric | app/lib/spam-protection.ts:226-233 | the edit distance does not depend on argument order, so swapping longer and shorter does not change it |
| Spam.SimilarFacts | app/lib/spam-protection.ts:226-234 | similarity above 0.8 is reflexive and symmetric, and similar strings have lengths within a factor 5/4 of each other (or the longer is empty) |
| Spam.DuplicateFacts | app/lib/spam-protection.ts:204-224 | the duplicate score is 50 exactly when the last day holds 3 or more exact copies, 25 exactly when it holds fewer copies but 2 or more similar messages, 0 otherwise; exact copies never outnumber similar messages |
| Spam.CountImplied | app/lib/spam-protection.ts:212-218 | a filter by a weaker predicate keeps at least as many elements |
| Spam.KeptFacts | app/lib/spam-protection.ts:289-292 | the history keeps the newest min(length, 50) entries, in order, ending with the latest |
| Spam.AssessedFacts | app/lib/spam-protection.ts:90-127 | the score is the sum of the four parts; block at 80 or more, warn from 40 to 79, allow below 40; one reason per nonzero part; the suspicious-content reason appears exactly for a nonzero content score and the rate-exceeded reason exactly for a rate score of 50 or more; no reasons exactly for score 0 |
| Spam.SpamProtectionService.AnalyzeMessage | app/lib/spam-protection.ts:75-133 | a blocked sender gets block with score 100 and the blocked reason, with no state changed; otherwise the verdict combines the rate, content, duplicate and length scores, the rate timestamps and the conversation history are updated, the block list is untouched and histories stay within 50 entries |
| Spam.SpamProtectionService.Verdict | app/lib/spam-protection.ts:90-127 | the verdict assembled reason by reason is the combined assessment of the four scores |
| Spam.SpamProtectionService.CheckRateLimit | app/lib/spam-protection.ts:135-165 | the sender's timestamps become the recent ones plus now, and the score is the rate score of that list; nothing else changes |
| Spam.SpamProtectionService.CheckDuplicateMessages | app/lib/spam-protection.ts:204-224 | the score is the duplicate score of the conversation's stored history |
| Spam.SpamProtectionService.CalculateSimilarity | app/lib/spam-protection.ts:226-234 | the loop's answer is the similarity predicate (similarity above 0.8, compared over integers) |
| Spam.SpamProtectionService.LevenshteinDistance | app/lib/spam-protection.ts:236-262 | the matrix computed row by row ends in the edit distance of the two strings |
| Spam.FillRow | app/lib/spam-protection.ts:248-258 | filling one row from the row above leaves every cell of that row and the rows above equal to the edit distance of the corresponding prefixes, and changes no other row |
| Spam.SpamProtectionService.StoreMessage | app/lib/spam-protection.ts:278-295 | the conversation's history gains the new entry and is cut to its newest 50; nothing else changes |
| Spam.SpamProtectionService.BlockAddress | app/lib/spam-protection.ts:297-300 | the address joins the blocked set, so `isBlocked` answers true for it; the histories are untouched |
| Spam.SpamProtectionService.UnblockAddress | app/lib/spam-protection.ts:302-305 | the address leaves the blocked set, so `isBlocked` answers false for it; the histories are untouched |
| Spam.SpamProtectionService.ClearMessageHistory | app/lib/spam-protection.ts:315-318 | both histories are emptied and the blocked set is kept |
| Offline.BumpedAt | app/lib/offline-sync.ts:88-106 | after the loop has seen a prefix of the distinct ids, the queue has the same ids, each unsent message among them has its retry count raised by exactly one, and every other message is as it was |
| Offline.BumpedNext | app/lib/offline-sync.ts:88-106 | the loop never adds or removes ids, and the message it visits next has not been touched yet |
| Offline.DeleteAllFacts | app/lib/offline-sync.ts:108-116 | deleting a list of ids leaves exactly the queued messages whose id is not listed, unchanged and in order |
| Offline.PassFacts | app/lib/offline-sync.ts:78-133 | after a pass the queue holds exactly the messages that were not sent and still have a retry left, each with one more retry counted, so every queued message stays below the retry limit |
| Offline.OfflineSyncService.QueueMessage | app/lib/offline-sync.ts:59-76 | the draft is queued under the new id with retry count 0 and the id is returned; every queued message still has a retry left |
| Offline.OfflineSyncService.SyncPendingMessages | app/lib/offline-sync.ts:78-133 | a pass already running, being offline or an empty queue changes nothing; otherwise the queue becomes the pass's result, one completion event reports how many were sent, how many failed for good and how many remain, and the in-progress flag is cleared |
| Offline.OfflineSyncService.Announce | app/lib/offline-sync.ts:120-132 | the completion event carries the counts and the remaining queue size, and the in-progress flag is cleared |
| Offline.OfflineSyncService.AttemptAll | app/lib/offline-sync.ts:84-106 | the loop lists, in queue order, the sent ids and the ids whose retries are used up, and raises every unsent message's retry count |
| Offline.OfflineSyncService.DeleteIds | app/lib/offline-sync.ts:108-116 | the listed ids are deleted from the queue and nothing else changes |
| Offline.OfflineSyncService.ClearPendingMessages | app/lib/offline-sync.ts:165-168 | the queue is emptied |
| Offline.OfflineSyncService.RemovePendingMessage | app/lib/offline-sync.ts:170-176 | the answer is whether the id was queued; afterwards it is not, and every other id keeps its place |
| Offline.OfflineSyncService.RetryMessage | app/lib/offline-sync.ts:178-188 | a queued message has its retry count reset to 0 and no other message changes; an unknown id changes nothing |
| Offline.OfflineSyncService.GetPendingMessagesCount | app/lib/offline-sync.ts:157-159 | the count is the number of queued messages listed |
| Contacts.MergeContact | app/lib/contacts.ts:42 | the merged contact takes address, addedAt and verified from the update; each of nickname, avatar and public key is the update's whenever the update has that property, even an explicit `undefined`, which clears the stored value, and the stored one only when the update lacks it |
| Contacts.UpsertedFacts | app/lib/contacts.ts:38-46 | an existing address keeps the list length, a new one is appended at the end; the address is in the result; contacts with other addresses stay in place; unique addresses stay unique |
| Contacts.ReplacedFacts | app/lib/contacts.ts:77-83 | updateContact writes back exactly when the address is present; the result has the same length, holds the new contact and keeps every contact with another address in place |
| Contacts.Removed | app/lib/contacts.ts:92-93 | the result holds exactly the stored contacts with another address, and is no longer |
| Contacts.RemovedFacts | app/lib/contacts.ts:90-99 | the address is gone afterwards, the others keep their order, an absent address changes nothing, and unique addresses stay unique |
| Contacts.ContactService.AddContact | app/lib/contacts.ts:25-73 | an empty wallet or contact address is the missing-parameters error with nothing stored; otherwise the wallet's list becomes the upsert of the contact, an edit merged over the stored contact property by property; uniqueness of addresses is preserved |
| Contacts.ContactService.UpdateContact | app/lib/contacts.ts:75-88 | a present address is replaced in place; an absent one changes nothing; uniqueness is preserved |
| Contacts.ContactService.RemoveContact | app/lib/contacts.ts:90-99 | the wallet's list loses every contact with the address; uniqueness is preserved |
| Contacts.ContactService.GetContacts | app/lib/contacts.ts:15-23 | a wallet with nothing saved has no contacts; no address appears twice while the store keeps addresses unique |
| Storage.ParsePreference | app/lib/storage-manager.ts:39-48 | a stored preference is accepted exactly when it is "arweave", "ipfs" or "local", and is then the backend of that name |
| Storage.PreferenceRoundTrip | app/lib/storage-manager.ts:50-65 | a saved backend name loads back as the same backend |
| Storage.LocalId | app/lib/storage-manager.ts:86-88 | a local id starts with "local_" |
| Storage.RetrieveRoute | app/lib/storage-manager.ts:92-102 | ids starting with "arweave_" go to Arweave; otherwise ids starting with "Qm" or "bafy" go to IPFS; every other id is not retrieved |
| Storage.LocalIdsStayLocal | app/lib/storage-manager.ts:86-101 | an id made in local mode is never routed to a backend for retrieval |
| Storage.Received | app/lib/storage-manager.ts:138-149 | the converted message keeps id, parties, content and timestamp; its encrypted content is the message's, or an explicit `undefined`; it is unread, has no status, and has the message's kind or text when it has none |
| Storage.IncomingFacts | app/lib/storage-manager.ts:136-155 | the forwarded messages are no more than the synced ones, all unread and addressed to the wallet and each the conversion of a synced message; no synced message to the wallet is dropped |
| Storage.StorageManager.constructor | app/lib/storage-manager.ts:39-48 | a valid stored preference is the current backend, anything else leaves local; no callback is registered yet |
| Storage.StorageManager.SetCurrentStorage | app/lib/storage-manager.ts:62-65 | the backend changes and its name is saved, so the saved preference parses back to it |
| Storage.StorageManager.StoreMessage | app/lib/storage-manager.ts:67-90 | in Arweave mode the Arweave id is returned unless the upload threw or returned a failure id, in which case the IPFS store's answer is, id or rejection; IPFS mode returns the IPFS store's answer, id or rejection; local mode returns a "local_" id that is never routed to a backend; a rejection only ever comes from the IPFS store |
| Storage.StorageManager.StartPolling | app/lib/storage-manager.ts:104-105 | the callback is registered and nothing else changes |
| Storage.StorageManager.CheckForNewMessages | app/lib/storage-manager.ts:126-165 | outside IPFS mode nothing is delivered; in IPFS mode the converted messages to the wallet are delivered in one batch when there is at least one and a callback is registered; the backend and registration are unchanged |
| Search.DirectHits | app/lib/search.ts:11 | a direct message is in the result exactly when its lowercased content contains the lowercased query |
| Search.GroupHits | app/lib/search.ts:13-15 | a group message is in the result exactly when its lowercased content contains the lowercased query |
| Search.SearchFacts | app/lib/search.ts:4-20 | the results are exactly the matching messages of both kinds, each as often as in the filtered lists, no more than the inputs, from newest to oldest |
| Search.EmptyQueryFindsAll | app/lib/search.ts:9-15 | an empty query finds every message of both kinds |
| Search.AllMatchKeepsLength | app/lib/search.ts:11-15 | with an empty query neither filter drops a message |
| Utils.TruthyNames | lib/utils.js:6 | the kept class names are exactly the non-empty strings among the arguments, never more of them |
| Utils.JoinFacts | lib/utils.js:6 | a join has the total length of the parts plus one separator between each pair, starts with the first part and ends with the last; joining nothing gives "" |
| Utils.CnFacts | lib/utils.js:5-7 | a falsy or empty argument changes nothing; only falsy arguments give ""; otherwise the length is the names' total plus the spaces between them |
| Utils.FormatTimestamp | lib/utils.js:10-24 | "Just now" exactly under a minute; n minutes ago with 1 <= n < 60 and the age within the n-th minute; n hours ago with 1 <= n < 24 and the age within the n-th hour; the locale date exactly from a day on |
| Utils.FormatMonotone | lib/utils.js:10-24 | as the clock moves on, the age a message is shown with never decreases |
| Utils.TruncateAddressAsWritten | lib/utils.js:27-31 | as written: an address of at most length+4 characters is kept, a longer one becomes its first length characters, "..." and its last 4 |
| Utils.TruncateAddressLengthens | lib/utils.js:29-30 | as written, a 13-character address truncated to 8 becomes 15 characters long |
| Utils.TruncateAddress | lib/utils.js:27-31 | corrected: an address of at most length+7 characters is kept, a longer one becomes its first length characters, "..." and its last 4 |
| Utils.TruncateAddressFacts | lib/utils.js:27-31 | the corrected truncation never lengthens an address and agrees with the code as written everywhere except lengths length+5 to length+7 |
| Utils.CharRange | lib/utils.js:37 | a character range holds exactly the characters between its ends, one each |
| Utils.Base58AlphabetFacts | lib/utils.js:37 | the character class has exactly 58 characters and is the base58 alphabet |
| Utils.IsValidSolanaAddress | lib/utils.js:34-39 | an address is valid exactly when it has 32 to 44 characters, all from the base58 alphabet; a valid address contains none of 0, O, I and l |
| Utils.ToInt32 | lib/utils.js:52-53 | the 32-bit wrap gives a signed 32-bit value congruent to its argument modulo 2^32 |
| Utils.ToInt32Congruent | lib/utils.js:52-53 | congruent numbers wrap to the same 32-bit value |
| Utils.CongruentStep | lib/utils.js:52 | one hash step preserves congruence modulo 2^32 |
| Utils.HashIsPolynomial | lib/utils.js:51-54 | the hash with a wrap at every step equals the wrapped polynomial sum of the character codes in powers of 31 |
| Utils.ModSum | lib/utils.js:52 | a sum of multiples of 2^32 is a multiple of 2^32 |
| Utils.ColorIndex | lib/utils.js:56 | the colour index is within the five colours |
| Utils.GenerateAvatarColor | lib/utils.js:42-57 | the colour is one of the five gradients, the one at the address's index |
| Utils.AvatarColorFromPolynomial | lib/utils.js:42-57 | addresses whose polynomial sums agree modulo 2^32 get the same colour |
| Encryption.DerivePublicKey | app/lib/encryption.ts:15-19 | the public key has 32 bytes, each the private-key byte at that position XOR 0x42, with missing bytes read as 0 |
| Encryption.DeriveInvolution | app/lib/encryption.ts:15-19 | for a 32-byte key, deriving twice gives the key back |
| Encryption.XorWithKey | app/lib/encryption.ts:34-60 | the XOR keeps the length of the bytes |
| Encryption.EncryptBytes | app/lib/encryption.ts:34-42 | the ciphertext is as long as the message |
| Encryption.DecryptBytes | app/lib/encryption.ts:44-60 | the plaintext is as long as the ciphertext |
| Encryption.RoundTrip | app/lib/encryption.ts:34-60 | decrypting with the key that encrypted gives back the message bytes |
| Encryption.OtherKeyGarbles | app/lib/encryption.ts:34-60 | decrypting with a 32-byte key that differs from the sender's at a used position gives a different byte there |
| Encryption.XorDiffers | app/lib/encryption.ts:39 | XOR with two different bytes in turn changes a byte |
| Encryption.EncryptionService.GenerateOrLoadKeys | app/lib/encryption.ts:21-32 | a stored pair is returned unchanged; otherwise the pair made from the random key and its derived public key is stored and returned; afterwards the wallet's stored pair is the returned one |
| Solana.IsValidAddress | app/lib/solana.ts:15-28 | an empty address, or one with fewer than 32 or more than 44 characters, is invalid; any other is valid exactly when the key constructor accepts it |
| Solana.CachedValidation | app/lib/solana.ts:33-39 | a cached result is returned exactly when the address is cached and was stored less than five minutes before, and it is the stored result |
| Solana.CacheWindow | app/lib/solana.ts:33-49 | a result stored at time t is returned by every lookup before t plus five minutes and by none from then on |
| Solana.SolanaService.constructor | app/lib/solana.ts:5-6 | the cache starts empty |
| Solana.SolanaService.SetCachedValidation | app/lib/solana.ts:44-49 | the address's entry is replaced by the result and the time, and a lookup at that time returns the result |
| Solana.SolanaService.ValidateAddress | app/lib/solana.ts:97-145 | the answer is always the format check's; a fresh cached result is returned marked as cached with the cache unchanged; otherwise an invalid address gets the format error, a valid one is valid with a network issue flagged exactly when the network check failed while the browser is offline, the result is cached and is served for the next five minutes |
| Solana.SolanaService.ClearCache | app/lib/solana.ts:194-196 | the cache is emptied, so no lookup finds a result |
| Solana.SolanaService.RecoverConnection | app/lib/solana.ts:73-92 | the cache is cleared and the outcome is the health check's |

Behaviour of the code that a reader might not expect, which the model
reproduces:

- The conversation merge keeps the first copy of a repeated id, so the locally
  stored copy wins over a synced one with the same id.
- The conversation manager's `markConversationAsRead` marks every message of
  the state as read, those the wallet sent included.
- A failed upload in `app/lib/ipfs.ts` falls back to the local store and still
  fails: the message is kept locally and the call ends in an error.
- In `app/lib/ipfs.ts`, a non-OK answer to the JSON upload followed by a failed
  file upload runs the file upload a second time, so the fallback store can
  hold two identical content-hash copies, or one beside a successfully pinned
  CID.
- A newly discovered CID can enter a cycle's work queue twice, once as new and
  once as unsynced.

## Left out

- Network I/O, timeouts, gateway fallback order and rate-limit sleeps: every
  answer from Pinata, the IPFS gateways, Arweave and the Solana RPC is a
  parameter.
- Timers: the `setInterval` polling of `startPolling`, `startAutoSync` and
  `startSync`, and `stopPolling`. Only the registration of the polling callback
  is modelled.
- MessageSync.MessageSyncManager.NotifySync: the callbacks are handed the
  result object itself, so the error the `catch` appends after a throw is
  visible through it later; the log records the report as it was at each call.
- IpfsIndex.IpfsService.StoreMessage: the content-hash copy of a failed file
  upload also carries `type: "solchat_message"` and `version: "1.0"`, which the
  message record has no field for; the model keeps only its new timestamp. The
  SHA-256 content hash itself is the parameter `contentHash`.
- `Promise.allSettled` batches: they become sequential loops over the batch.
  The retrieval oracle is fixed for one call, so a CID queued twice in a cycle
  gets the same outcome both times.
- `localStorage` and JSON: each entry is an in-memory map or list. A JSON parse
  failure, which the source turns into an empty list, is not modelled. Neither
  is the addContact check that re-reads the saved list and compares its length,
  which always passes in memory.
- UTF-8 and base64 codecs around the XOR cipher: only the byte-level layer is
  modelled. Strings are sequences of `char`, not UTF-16 code units.
- The XOR cipher is demonstration cryptography, not authenticated encryption.
  Decryption recovers the message only with the private key that encrypted it
  (`Encryption.RoundTrip`, `Encryption.OtherKeyGarbles`). It does not recover
  it with a recipient's own key.
- Regular expressions in the spam content score (runs of `!`/`?`, URLs and
  crypto addresses): their contribution is the parameter `patternScore`.
  `getBlockedAddresses` and `getSpamStats` are not modelled. Floating-point
  ratios (caps ratio, similarity above 0.8) are restated as exact integer
  comparisons.
- `createGroup` does not remove duplicate invitees, and neither does the model;
  `Groups.NewGroupFacts` states exactly when the member list is free of repeats.
- The immediate sync after `queueMessage` and `retryMessage` runs when online,
  as a separate `SyncPendingMessages` call.
- `getSyncStatus` of the offline queue, `getStorageStats` and `formatBytes`
  (floating point) are not modelled.
- `cn` arguments other than strings and falsy values, and a negative
  `truncateAddress` length, are not modelled.
- Each operation reads the clock once, where the source calls `Date.now()`
  more than once.
- `loadConversation`'s background sync is not started by the model; the caller
  runs `SyncMessages`.
- `Number.parseInt` yielding `NaN` for a malformed pin timestamp is not
  modelled. The optional `signature` field of a message is not carried.
- The `pinDate` that the Pinata search in `app/lib/ipfs.ts` attaches to each
  message found is not carried; the message and its hash are.
- `Solana`: `checkConnectionHealth` and `checkNetworkExistence` are parameters.
  `getBalance` is not modelled (floating-point lamports to SOL). The catch
  blocks of `validateAddress` are unreachable, since the network check never
  throws, and are not modelled.

- Search.Matches: lower-casing folds only the ASCII letters A-Z, where
  JavaScript's `toLowerCase` folds every cased Unicode letter. A query "é" finds
  "CAFÉ" in the source but not in the model, and so does "k" in a text holding
  the Kelvin sign.
- Search.DirectHits: its matches are those of `Search.Matches`, so a direct
  message that matches only through non-ASCII case folding is left out.
- Search.GroupHits: its matches are those of `Search.Matches`, so a group
  message that matches only through non-ASCII case folding is left out.
- Search.SearchFacts: states the results over the ASCII-only `Search.Matches`.
- Spam.KeywordMatches: lower-cases the content ASCII-only before looking for
  the keywords. The keywords are ASCII, but a non-ASCII character that folds
  to an ASCII letter (the Kelvin sign folds to "k") is not folded, so a
  keyword spelled with it is missed.
- Spam.ContentScoreFacts: states the keyword matches over the ASCII-only
  lower-casing of `Spam.KeywordMatches`.

## Findings

| source | as written | input that shows it | evidently intended | confidence | as-written member | corrected member |
|---|---|---|---|---|---|---|
| lib/utils.js:29 | an address is kept whole only up to `length + 4` characters, but the shortened form has `length + 7` | `truncateAddress("ABCDEFGHIJKLM", 8)` turns 13 characters into the 15-character `"ABCDEFGH...JKLM"` | keep addresses of up to `length + 7` characters whole, so truncation never lengthens | medium, not executed | Utils.TruncateAddressAsWritten, Utils.TruncateAddressLengthens | Utils.TruncateAddress, Utils.TruncateAddressFacts |

=== FILE: common.dfy ===
/**
 * Shared vocabulary: the Option/Result wrappers, the stable sort that stands for
 * JavaScript's `Array.prototype.sort` with a `(a, b) => key(a) - key(b)`
 * comparator, `Array.prototype.filter`, the "keep the first occurrence of each id"
 * deduplication idiom, and the few string operations the application uses.
 */
module Common {

  datatype Option<+T> = None | Some(value: T)

  datatype Result<+T> = Ok(value: T) | Err(error: string)

  /**
   * An optional property of a JavaScript object: not there at all, there
   * with the value `undefined`, or there with a value. Readers cannot tell
   * the first two apart (and `JSON.stringify` turns the second into the
   * first), but an object spread copies a property that is there, even one
   * whose value is `undefined`.
   */
  datatype Prop<+T> = Missing | Undefined | Has(value: T)

  /** The property `{ ...prev, ...next }` ends up with: `next`'s, unless `next` lacks it. */
  function Spread<T>(prev: Prop<T>, next: Prop<T>): Prop<T> {
    if next.Missing? then prev else next
  }

  /** `key: source` in an object literal, where `source` may be `undefined`. */
  function Written<T>(source: Option<T>): Prop<T> {
    if source.Some? then Has(source.value) else Undefined
  }

  // ---------------------------------------------------------------------------
  // Stable sorting by an integer key
  // ---------------------------------------------------------------------------

  ghost predicate SortedBy<T>(s: seq<T>, key: T -> int) {
    forall i, j :: 0 <= i < j < |s| ==> key(s[i]) <= key(s[j])
  }

  /** Inserts `x` after every element whose key is at most `key(x)`. */
  function InsertBy<T(==)>(s: seq<T>, x: T, key: T -> int): (r: seq<T>)
    ensures multiset(r) == multiset(s) + multiset{x}
    ensures |r| == |s| + 1
  {
    if s == [] then [x]
    else if key(s[|s| - 1]) <= key(x) then s + [x]
    else
      assert s == s[..|s| - 1] + [s[|s| - 1]];
      InsertBy(s[..|s| - 1], x, key) + [s[|s| - 1]]
  }

  /** Inserting into a sorted sequence keeps it sorted. */
  lemma {:induction false} InsertBySorted<T>(s: seq<T>, x: T, key: T -> int)
    requires SortedBy(s, key)
    ensures SortedBy(InsertBy(s, x, key), key)
  {
    if s != [] && key(x) < key(s[|s| - 1]) {
      var init, last := s[..|s| - 1], s[|s| - 1];
      InsertBySorted(init, x, key);
      var mid := InsertBy(init, x, key);
      var r := InsertBy(s, x, key);
      assert r == mid + [last];
      forall k | 0 <= k < |mid| ensures key(mid[k]) <= key(last) {
        var y := mid[k];
        assert y in multiset(mid);
        if y != x {
          assert y in multiset(init);
          var m :| 0 <= m < |init| && init[m] == y;
          assert s[m] == y;
        }
      }
      forall i, j | 0 <= i < j < |r| ensures key(r[i]) <= key(r[j]) {
        if j < |mid| {
          assert r[i] == mid[i] && r[j] == mid[j];
        } else {
          assert r[i] == mid[i] && r[j] == last;
        }
      }
    }
  }

  /**
   * A stable sort: the model of `s.sort((a, b) => key(a) - key(b))` for a
   * JavaScript engine whose sort is stable (required since ES2019).
   */
  function SortBy<T(==)>(s: seq<T>, key: T -> int): (r: seq<T>)
    ensures multiset(r) == multiset(s)
    ensures |r| == |s|
    ensures SortedBy(r, key)
  {
    if s == [] then []
    else
      assert s == s[..|s| - 1] + [s[|s| - 1]];
      InsertBySorted(SortBy(s[..|s| - 1], key), s[|s| - 1], key);
      InsertBy(SortBy(s[..|s| - 1], key), s[|s| - 1], key)
  }

  /** The elements whose key is `k`. */
  function HasKey<T>(key: T -> int, k: int): T -> bool {
    x => key(x) == k
  }

  /** Insertion puts `x` after every element of its own key, and everything after `x` has a larger key. */
  lemma {:induction false} InsertByFilter<T(!new)>(s: seq<T>, x: T, key: T -> int, k: int)
    ensures Filter(InsertBy(s, x, key), HasKey(key, k)) == Filter(s, HasKey(key, k)) + (if key(x) == k then [x] else [])
  {
    var p := HasKey(key, k);
    var added := if key(x) == k then [x] else [];
    if s == [] {
      assert Filter([x], p) == Filter([], p) + (if p(x) then [x] else []);
    } else if key(s[|s| - 1]) <= key(x) {
      assert InsertBy(s, x, key) == s + [x];
      assert (s + [x])[..|s|] == s;
    } else {
      var init, last := s[..|s| - 1], s[|s| - 1];
      var kept := if key(last) == k then [last] else [];
      var mid := InsertBy(init, x, key);
      assert Filter(mid, p) == Filter(init, p) + added by {
        InsertByFilter(init, x, key, k);
      }
      assert Filter(InsertBy(s, x, key), p) == Filter(mid, p) + kept by {
        assert InsertBy(s, x, key) == mid + [last];
        assert (mid + [last])[..|mid|] == mid;
      }
      assert Filter(s, p) == Filter(init, p) + kept;
      var before := Filter(init, p);
      if key(x) == k {
        assert kept == [];
        assert before + added + [] == before + added && before + [] == before;
      } else {
        assert added == [];
        assert before + [] == before && before + kept + [] == before + kept;
      }
    }
  }

  /**
   * The sort is stable: the elements that share a key come out in the order
   * they went in.
   */
  lemma {:induction false} SortByStable<T(!new)>(s: seq<T>, key: T -> int, k: int)
    ensures Filter(SortBy(s, key), HasKey(key, k)) == Filter(s, HasKey(key, k))
  {
    if s != [] {
      var init := s[..|s| - 1];
      SortByStable(init, key, k);
      InsertByFilter(SortBy(init, key), s[|s| - 1], key, k);
    }
  }

  lemma SortByMembership<T>(s: seq<T>, key: T -> int, x: T)
    ensures x in SortBy(s, key) <==> x in s
  {
    assert x in SortBy(s, key) <==> x in multiset(SortBy(s, key));
    assert x in s <==> x in multiset(s);
  }

  /** No element occurs twice. */
  ghost predicate Distinct<T>(s: seq<T>) {
    forall x | x in s :: multiset(s)[x] == 1
  }

  lemma DistinctAppend<T>(s: seq<T>, x: T)
    requires Distinct(s) && x !in s
    ensures Distinct(s + [x])
  {
    assert multiset(s + [x]) == multiset(s) + multiset{x};
  }

  lemma DistinctSplit<T>(s: seq<T>, x: T)
    requires Distinct(s + [x])
    ensures Distinct(s) && x !in s
  {
    assert multiset(s + [x]) == multiset(s) + multiset{x};
    assert x in s + [x];
    forall y | y in s ensures multiset(s)[y] == 1 {
      assert y in s + [x];
    }
  }

  lemma {:induction false} DistinctCard<T>(s: seq<T>)
    requires Distinct(s)
    ensures |set x | x in s| == |s|
  {
    if s != [] {
      var init, last := s[..|s| - 1], s[|s| - 1];
      assert s == init + [last];
      assert multiset(s) == multiset(init) + multiset{last};
      assert last !in init by {
        assert last in s;
        assert multiset(s)[last] == multiset(init)[last] + 1;
      }
      assert Distinct(init) by {
        forall y | y in init ensures multiset(init)[y] == 1 {
          assert y in s;
        }
      }
      DistinctCard(init);
      assert (set x | x in s) == (set x | x in init) + {last};
    }
  }

  // ---------------------------------------------------------------------------
  // Filtering and counting
  // ---------------------------------------------------------------------------

  /** `s.filter(p)`, defined from the back so that loops can build it element by element. */
  function Filter<T(==,!new)>(s: seq<T>, p: T -> bool): (r: seq<T>)
    ensures |r| <= |s|
    ensures forall x :: x in r <==> x in s && p(x)
  {
    if s == [] then []
    else
      assert s == s[..|s| - 1] + [s[|s| - 1]];
      Filter(s[..|s| - 1], p) + (if p(s[|s| - 1]) then [s[|s| - 1]] else [])
  }

  /** `Filter` of the first `n` elements, indexed so that a loop over positions can build it. */
  function FilterUpTo<T>(s: seq<T>, n: nat, p: T -> bool): seq<T>
    requires n <= |s|
  {
    if n == 0 then [] else FilterUpTo(s, n - 1, p) + (if p(s[n - 1]) then [s[n - 1]] else [])
  }

  lemma {:induction false} FilterUpToPrefix<T(!new)>(s: seq<T>, n: nat, p: T -> bool)
    requires n <= |s|
    ensures FilterUpTo(s, n, p) == Filter(s[..n], p)
  {
    if n > 0 {
      FilterUpToPrefix(s, n - 1, p);
      assert s[..n][..n - 1] == s[..n - 1];
    }
  }

  /** One more element seen by a loop that builds a filter. */
  lemma FilterStep<T(!new)>(s: seq<T>, k: nat, p: T -> bool)
    requires k < |s|
    ensures Filter(s[..k + 1], p) == Filter(s[..k], p) + (if p(s[k]) then [s[k]] else [])
  {
    assert s[..k + 1][..k] == s[..k];
  }

  lemma {:induction false} FilterAppend<T(!new)>(a: seq<T>, b: seq<T>, p: T -> bool)
    ensures Filter(a + b, p) == Filter(a, p) + Filter(b, p)
  {
    if b == [] {
      assert a + b == a;
    } else {
      var b0 := b[..|b| - 1];
      assert (a + b)[..|a + b| - 1] == a + b0;
      FilterAppend(a, b0, p);
    }
  }

  lemma {:induction false} FilterAll<T(!new)>(s: seq<T>, p: T -> bool)
    requires forall x :: x in s ==> p(x)
    ensures Filter(s, p) == s
  {
    if s != [] {
      FilterAll(s[..|s| - 1], p);
      assert s == s[..|s| - 1] + [s[|s| - 1]];
    }
  }

  lemma {:induction false} FilterNone<T(!new)>(s: seq<T>, p: T -> bool)
    requires forall x :: x in s ==> !p(x)
    ensures Filter(s, p) == []
  {
    if s != [] {
      FilterNone(s[..|s| - 1], p);
    }
  }

  /** Filters with predicates that agree on the elements give the same result. */
  lemma {:induction false} FilterSame<T(!new)>(s: seq<T>, p: T -> bool, q: T -> bool)
    requires forall x :: x in s ==> p(x) == q(x)
    ensures Filter(s, p) == Filter(s, q)
  {
    if s != [] {
      FilterSame(s[..|s| - 1], p, q);
    }
  }

  lemma {:induction false} FilterMultiset<T(!new)>(s: seq<T>, p: T -> bool, x: T)
    ensures multiset(Filter(s, p))[x] == if p(x) then multiset(s)[x] else 0
  {
    if s != [] {
      FilterMultiset(s[..|s| - 1], p, x);
      assert s == s[..|s| - 1] + [s[|s| - 1]];
    }
  }

  /** The number of elements of `s` satisfying `p` (`s.filter(p).length`). */
  function Count<T(==,!new)>(s: seq<T>, p: T -> bool): nat {
    |Filter(s, p)|
  }

  /** Two conditions that never hold together count no more elements than there are. */
  lemma {:induction false} CountDisjoint<T(!new)>(s: seq<T>, p: T -> bool, q: T -> bool)
    requires forall x :: !(p(x) && q(x))
    ensures Count(s, p) + Count(s, q) <= |s|
  {
    if s != [] {
      CountDisjoint(s[..|s| - 1], p, q);
    }
  }

  function Max(a: int, b: int): int {
    if a >= b then a else b
  }

  /** `s.findIndex(p)`, with `None` for -1. */
  function FindIndex<T>(s: seq<T>, p: T -> bool): (r: Option<nat>)
    ensures r.None? <==> forall j :: 0 <= j < |s| ==> !p(s[j])
    ensures r.Some? ==> r.value < |s| && p(s[r.value]) && forall j :: 0 <= j < r.value ==> !p(s[j])
  {
    if s == [] then None
    else if p(s[0]) then Some(0)
    else
      match FindIndex(s[1..], p)
      case None =>
        assert forall j :: 1 <= j < |s| ==> s[j] == s[1..][j - 1];
        None
      case Some(i) =>
        assert forall j :: 1 <= j <= i ==> s[j] == s[1..][j - 1];
        Some(i + 1)
  }

  /** `findIndex` only looks at the predicate's value at each position. */
  lemma FindIndexSame<T>(s: seq<T>, t: seq<T>, p: T -> bool)
    requires |s| == |t|
    requires forall i :: 0 <= i < |s| ==> p(s[i]) == p(t[i])
    ensures FindIndex(s, p) == FindIndex(t, p)
  {
    var a, b := FindIndex(s, p), FindIndex(t, p);
    if a.Some? && b.Some? {
      assert !(a.value < b.value) && !(b.value < a.value);
    }
  }

  /** `findIndex` on a sequence grown at the end. */
  lemma FindIndexAppend<T>(s: seq<T>, x: T, p: T -> bool)
    ensures FindIndex(s + [x], p) ==
      if FindIndex(s, p).Some? then FindIndex(s, p)
      else if p(x) then Some(|s|)
      else None
  {
    var a, b := FindIndex(s, p), FindIndex(s + [x], p);
    assert forall i :: 0 <= i < |s| ==> (s + [x])[i] == s[i];
    assert (s + [x])[|s|] == x;
    if a.Some? && b.Some? {
      assert !(a.value < b.value) && !(b.value < a.value);
    }
  }

  /** No two elements share a key. */
  ghost predicate KeysDistinct<T, K>(s: seq<T>, key: T -> K) {
    forall i, j :: 0 <= i < j < |s| ==> key(s[i]) != key(s[j])
  }

  lemma SecondOccurrence<T>(s: seq<T>, x: T) returns (a: nat, b: nat)
    requires multiset(s)[x] >= 2
    ensures a < b < |s| && s[a] == x && s[b] == x
  {
    assert x in multiset(s);
    var k :| 0 <= k < |s| && s[k] == x;
    assert s == s[..k] + [x] + s[k + 1..];
    assert multiset(s) == multiset(s[..k]) + multiset{x} + multiset(s[k + 1..]);
    if x in s[..k] {
      var i :| 0 <= i < k && s[..k][i] == x;
      a, b := i, k;
    } else {
      assert x in multiset(s[k + 1..]);
      var i :| 0 <= i < |s| - k - 1 && s[k + 1..][i] == x;
      a, b := k, k + 1 + i;
    }
  }

  /** Reordering keeps keys distinct. */
  lemma KeysDistinctPerm<T, K>(s: seq<T>, t: seq<T>, key: T -> K)
    requires KeysDistinct(s, key) && multiset(s) == multiset(t)
    ensures KeysDistinct(t, key)
  {
    forall i, j | 0 <= i < j < |t| ensures key(t[i]) != key(t[j]) {
      assert t[i] in multiset(s) && t[j] in multiset(s);
      if t[i] == t[j] {
        assert t == t[..j] + [t[j]] + t[j + 1..];
        assert t[i] in t[..j];
        assert multiset(t) == multiset(t[..j]) + multiset{t[j]} + multiset(t[j + 1..]);
        var a, b := SecondOccurrence(s, t[i]);
      } else {
        var a :| 0 <= a < |s| && s[a] == t[i];
        var b :| 0 <= b < |s| && s[b] == t[j];
      }
    }
  }

  /** With distinct keys, an element is determined by its key. */
  lemma KeysDistinctUnique<T, K>(s: seq<T>, key: T -> K, x: T, y: T)
    requires KeysDistinct(s, key) && x in s && y in s && key(x) == key(y)
    ensures x == y
  {
    var i :| 0 <= i < |s| && s[i] == x;
    var j :| 0 <= j < |s| && s[j] == y;
    assert !(i < j) && !(j < i);
  }

  /** Filtering keeps keys distinct. */
  lemma {:induction false} FilterKeysDistinct<T(!new), K>(s: seq<T>, p: T -> bool, key: T -> K)
    requires KeysDistinct(s, key)
    ensures KeysDistinct(Filter(s, p), key)
  {
    if s != [] {
      var init, last := s[..|s| - 1], s[|s| - 1];
      assert KeysDistinct(init, key);
      FilterKeysDistinct(init, p, key);
      if p(last) {
        var f := Filter(init, p);
        assert Filter(s, p) == f + [last];
        forall i | 0 <= i < |f| ensures key(f[i]) != key(last) {
          assert f[i] in init;
          var k :| 0 <= k < |init| && init[k] == f[i];
          assert s[k] == f[i] && s[|s| - 1] == last;
        }
      }
    }
  }

  /** `r` is `s` with some elements left out and the rest in their order. */
  ghost predicate Subsequence<T>(r: seq<T>, s: seq<T>)
    decreases |s|
  {
    if r == [] then true
    else if s == [] then false
    else if r[|r| - 1] == s[|s| - 1] then Subsequence(r[..|r| - 1], s[..|s| - 1])
    else Subsequence(r, s[..|s| - 1])
  }

  lemma {:induction false} SubsequenceDropLast<T>(r: seq<T>, s: seq<T>)
    requires r != [] && Subsequence(r, s)
    ensures Subsequence(r[..|r| - 1], s)
    decreases |s|, 0
  {
    var r0 := r[..|r| - 1];
    if r0 != [] {
      if r[|r| - 1] == s[|s| - 1] {
        SubsequenceDropLast(r0, s[..|s| - 1]);
        SubsequenceExtend(r0[..|r0| - 1], s[..|s| - 1], s[|s| - 1]);
        assert s[..|s| - 1] + [s[|s| - 1]] == s;
      } else {
        SubsequenceDropLast(r, s[..|s| - 1]);
        SubsequenceExtend(r0, s[..|s| - 1], s[|s| - 1]);
        assert s[..|s| - 1] + [s[|s| - 1]] == s;
      }
    }
  }

  /** A subsequence stays one when the sequence grows at the end. */
  lemma {:induction false} SubsequenceExtend<T>(r: seq<T>, s: seq<T>, x: T)
    requires Subsequence(r, s)
    ensures Subsequence(r, s + [x])
    decreases |s|, 1
  {
    if r != [] && r[|r| - 1] == x {
      assert (s + [x])[..|s|] == s;
      SubsequenceDropLast(r, s);
    } else {
      assert (s + [x])[..|s|] == s;
    }
  }

  /** Filtering keeps the surviving elements in their order. */
  lemma {:induction false} FilterSubsequence<T(!new)>(s: seq<T>, p: T -> bool)
    ensures Subsequence(Filter(s, p), s)
  {
    if s != [] {
      var init := s[..|s| - 1];
      FilterSubsequence(init, p);
      if p(s[|s| - 1]) {
        var r := Filter(s, p);
        assert r == Filter(init, p) + [s[|s| - 1]];
        assert r[..|r| - 1] == Filter(init, p);
      } else {
        assert Filter(s, p) == Filter(init, p);
        SubsequenceExtend(Filter(init, p), init, s[|s| - 1]);
        assert init + [s[|s| - 1]] == s;
      }
    }
  }

  // ---------------------------------------------------------------------------
  // First-occurrence deduplication:
  //   s.filter((x, i, a) => a.findIndex(y => key(y) === key(x)) === i)
  // ---------------------------------------------------------------------------

  function KeysOf<T(==), K(==)>(s: seq<T>, key: T -> K): set<K> {
    set x | x in s :: key(x)
  }

  /** `a.findIndex(y => key(y) === k)` for a key that occurs. */
  function FirstIndexOf<T(==), K(==)>(s: seq<T>, key: T -> K, k: K): (i: nat)
    requires k in KeysOf(s, key)
    ensures i < |s| && key(s[i]) == k
    ensures forall j :: 0 <= j < i ==> key(s[j]) != k
  {
    if key(s[0]) == k then 0
    else
      assert k in KeysOf(s[1..], key) by {
        var x :| x in s && key(x) == k;
        var j :| 0 <= j < |s| && s[j] == x;
        assert s[1..][j - 1] == x;
      }
      1 + FirstIndexOf(s[1..], key, k)
  }

  function DedupBy<T(==), K(==)>(s: seq<T>, key: T -> K): (r: seq<T>)
    ensures forall x :: x in r ==> x in s
    ensures KeysOf(r, key) == KeysOf(s, key)
    ensures forall i, j :: 0 <= i < j < |r| ==> key(r[i]) != key(r[j])
  {
    if s == [] then []
    else
      var init, last := s[..|s| - 1], s[|s| - 1];
      assert s == init + [last];
      var d := DedupBy(init, key);
      if key(last) in KeysOf(init, key) then d
      else
        assert KeysOf(d + [last], key) == KeysOf(d, key) + {key(last)};
        assert KeysOf(s, key) == KeysOf(init, key) + {key(last)};
        d + [last]
  }

  /**
   * The element that survives deduplication for a given key is the FIRST element
   * of the input that carries it.
   */
  lemma {:induction false} DedupKeepsFirst<T, K>(s: seq<T>, key: T -> K, x: T)
    requires x in DedupBy(s, key)
    ensures key(x) in KeysOf(s, key)
    ensures x == s[FirstIndexOf(s, key, key(x))]
  {
    var init, last := s[..|s| - 1], s[|s| - 1];
    assert s == init + [last];
    assert key(x) in KeysOf(s, key);
    if key(last) in KeysOf(init, key) || x in DedupBy(init, key) {
      assert x in DedupBy(init, key);
      DedupKeepsFirst(init, key, x);
      FirstIndexPrefix(init, [last], key, key(x));
    } else {
      assert x == last;
    }
  }

  /** The first element that carries a key survives deduplication. */
  lemma FirstSurvives<T, K>(s: seq<T>, key: T -> K, k: K)
    requires k in KeysOf(s, key)
    ensures s[FirstIndexOf(s, key, k)] in DedupBy(s, key)
  {
    assert k in KeysOf(DedupBy(s, key), key);
    var y :| y in DedupBy(s, key) && key(y) == k;
    DedupKeepsFirst(s, key, y);
  }

  /** Looking a key up in `a + b` finds it in `a` when `a` has it. */
  lemma FirstIndexPrefix<T, K>(a: seq<T>, b: seq<T>, key: T -> K, k: K)
    requires k in KeysOf(a, key)
    ensures k in KeysOf(a + b, key)
    ensures FirstIndexOf(a + b, key, k) == FirstIndexOf(a, key, k)
  {
    var x :| x in a && key(x) == k;
    assert x in a + b;
    var i := FirstIndexOf(a, key, k);
    var j := FirstIndexOf(a + b, key, k);
    assert (a + b)[i] == a[i];
  }

  /**
   * Merging `a ++ b` with first-occurrence deduplication: whenever `a` holds an
   * element with a given key, the survivor for that key comes from `a`.
   */
  lemma DedupPrefersLeft<T, K>(a: seq<T>, b: seq<T>, key: T -> K, x: T)
    requires x in DedupBy(a + b, key)
    requires key(x) in KeysOf(a, key)
    ensures x in a
  {
    DedupKeepsFirst(a + b, key, x);
    FirstIndexPrefix(a, b, key, key(x));
    var i := FirstIndexOf(a, key, key(x));
    assert (a + b)[i] == a[i];
  }

  /**
   * Merging `a ++ b` the way the application does everywhere (first occurrence
   * of each key kept, then a stable sort): one element per key, drawn from `a`
   * or `b`, every key of both present, the copy in `a` winning, sorted.
   */
  lemma DedupSortFacts<T, K>(a: seq<T>, b: seq<T>, key: T -> K, time: T -> int)
    ensures var r := SortBy(DedupBy(a + b, key), time);
      && SortedBy(r, time)
      && KeysDistinct(r, key)
      && (forall x :: x in r ==> x in a || x in b)
      && KeysOf(r, key) == KeysOf(a, key) + KeysOf(b, key)
      && (forall x :: x in r && key(x) in KeysOf(a, key) ==> x in a)
  {
    var d := DedupBy(a + b, key);
    var r := SortBy(d, time);
    forall x ensures x in r <==> x in d {
      SortByMembership(d, time, x);
    }
    assert KeysOf(r, key) == KeysOf(d, key);
    assert KeysOf(a + b, key) == KeysOf(a, key) + KeysOf(b, key) by {
      assert forall x :: x in a + b <==> x in a || x in b;
    }
    KeysDistinctPerm(d, r, key);
    forall x | x in r && key(x) in KeysOf(a, key) ensures x in a {
      DedupPrefersLeft(a, b, key, x);
    }
  }

  // ---------------------------------------------------------------------------
  // JavaScript `Map`s with string keys, which iterate in insertion order
  // ---------------------------------------------------------------------------

  /** `Array.from(m.values())` for entries `m` whose keys were inserted in `order`. */
  function ValuesInOrder<V>(m: map<string, V>, order: seq<string>): (r: seq<V>)
    ensures (forall c :: c in order ==> c in m) ==>
              |r| == |order| && forall i :: 0 <= i < |r| ==> r[i] == m[order[i]]
  {
    if order == [] then []
    else
      var last := order[|order| - 1];
      ValuesInOrder(m, order[..|order| - 1]) + (if last in m then [m[last]] else [])
  }

  /** A `Map<string, V>`: its entries and its keys in insertion order. */
  datatype OrderedMap<V> = OrderedMap(entries: map<string, V>, order: seq<string>)

  function EmptyMap<V>(): OrderedMap<V> {
    OrderedMap(map[], [])
  }

  /** The insertion order lists every key exactly once. */
  ghost predicate MapValid<V>(m: OrderedMap<V>) {
    Distinct(m.order) && forall k :: k in m.entries <==> k in m.order
  }

  /** `m.set(k, v)`: a new key goes to the end of the order, an existing one keeps its place. */
  function MapSet<V>(m: OrderedMap<V>, k: string, v: V): OrderedMap<V> {
    OrderedMap(m.entries[k := v], if k in m.entries then m.order else m.order + [k])
  }

  function KeyIsNot(k: string): string -> bool {
    x => x != k
  }

  /** Setting the same key twice is setting it once, to the later value. */
  lemma MapSetTwice<V>(m: OrderedMap<V>, k: string, v: V, w: V)
    ensures MapSet(MapSet(m, k, v), k, w) == MapSet(m, k, w)
  {
    assert m.entries[k := v][k := w] == m.entries[k := w];
  }

  /** `m.delete(k)` */
  function MapDelete<V>(m: OrderedMap<V>, k: string): OrderedMap<V> {
    OrderedMap(m.entries - {k}, Filter(m.order, KeyIsNot(k)))
  }

  function MapValues<V>(m: OrderedMap<V>): seq<V> {
    ValuesInOrder(m.entries, m.order)
  }

  /** One more key added to a union: `c == b + {k}` where `b == a + i` is `a + (i + {k})`. */
  lemma UnionStep<T>(a: set<T>, i: set<T>, b: set<T>, c: set<T>, k: T)
    requires b == a + i && c == b + {k}
    ensures c == a + (i + {k})
  {
  }

  /** Setting a key stores the value under it, keeps every other entry and the order valid. */
  lemma MapSetFacts<V>(m: OrderedMap<V>, k: string, v: V)
    requires MapValid(m)
    ensures MapValid(MapSet(m, k, v))
    ensures MapSet(m, k, v).entries == m.entries[k := v]
    ensures k in m.entries ==> MapSet(m, k, v).order == m.order
    ensures k !in m.entries ==> MapSet(m, k, v).order == m.order + [k]
  {
    if k !in m.entries {
      DistinctAppend(m.order, k);
    }
  }

  /** Deleting a key removes it, keeps every other entry and keeps the rest of the order. */
  lemma MapDeleteFacts<V>(m: OrderedMap<V>, k: string)
    requires MapValid(m)
    ensures MapValid(MapDelete(m, k))
    ensures MapDelete(m, k).entries == m.entries - {k}
    ensures Subsequence(MapDelete(m, k).order, m.order)
  {
    var o := Filter(m.order, KeyIsNot(k));
    FilterSubsequence(m.order, KeyIsNot(k));
    forall x | x in o ensures multiset(o)[x] == 1 {
      FilterMultiset(m.order, KeyIsNot(k), x);
    }
  }

  /** The values of a valid map are its entries, one per key, in insertion order. */
  lemma MapValuesFacts<V>(m: OrderedMap<V>)
    requires MapValid(m)
    ensures |MapValues(m)| == |m.order| == |m.entries|
    ensures forall i :: 0 <= i < |m.order| ==> MapValues(m)[i] == m.entries[m.order[i]]
    ensures forall v :: v in MapValues(m) <==> exists k :: k in m.entries && m.entries[k] == v
  {
    var vs := MapValues(m);
    DistinctCard(m.order);
    assert (set x | x in m.order) == m.entries.Keys;
    forall v ensures v in vs <==> exists k :: k in m.entries && m.entries[k] == v {
      if v in vs {
        var i :| 0 <= i < |vs| && vs[i] == v;
        assert m.order[i] in m.entries;
      }
      if exists k :: k in m.entries && m.entries[k] == v {
        var k :| k in m.entries && m.entries[k] == v;
        var i :| 0 <= i < |m.order| && m.order[i] == k;
        assert vs[i] == v;
      }
    }
  }

  // ---------------------------------------------------------------------------
  // Strings
  // ---------------------------------------------------------------------------

  predicate StartsWith(s: string, prefix: string) {
    |prefix| <= |s| && s[..|prefix|] == prefix
  }

  /** `s.includes(sub)`. */
  predicate Contains(s: string, sub: string)
    decreases |s|
  {
    StartsWith(s, sub) || (|s| > 0 && Contains(s[1..], sub))
  }

  lemma {:induction false} ContainsAt(s: string, sub: string, i: nat)
    requires i + |sub| <= |s| && s[i..i + |sub|] == sub
    ensures Contains(s, sub)
    decreases i
  {
    if i > 0 {
      assert s[1..][i - 1..i - 1 + |sub|] == s[i..i + |sub|];
      ContainsAt(s[1..], sub, i - 1);
    }
  }

  lemma {:induction false} ContainsWitness(s: string, sub: string) returns (i: nat)
    requires Contains(s, sub)
    ensures i + |sub| <= |s| && s[i..i + |sub|] == sub
    decreases |s|
  {
    if StartsWith(s, sub) {
      i := 0;
    } else {
      var j := ContainsWitness(s[1..], sub);
      i := j + 1;
      assert s[i..i + |sub|] == s[1..][j..j + |sub|];
    }
  }

  /** ASCII lower-casing (`String.prototype.toLowerCase` restricted to A-Z). */
  function LowerChar(c: char): char {
    if 'A' <= c <= 'Z' then (c as int + 32) as char else c
  }

  function ToLower(s: string): (r: string)
    ensures |r| == |s|
    ensures forall i :: 0 <= i < |s| ==> r[i] == LowerChar(s[i])
  {
    if s == [] then [] else [LowerChar(s[0])] + ToLower(s[1..])
  }

  function DigitChar(d: nat): char
    requires d < 10
  {
    "0123456789"[d]
  }

  /** `n.toString()` for a non-negative integer. */
  function NatToString(n: nat): (r: string)
    ensures |r| >= 1
    ensures forall i :: 0 <= i < |r| ==> '0' <= r[i] <= '9'
  {
    if n < 10 then [DigitChar(n)] else NatToString(n / 10) + [DigitChar(n % 10)]
  }

  function DigitValue(c: char): nat
    requires '0' <= c <= '9'
  {
    c as int - '0' as int
  }

  function ParseDigits(s: string): nat
    requires forall i :: 0 <= i < |s| ==> '0' <= s[i] <= '9'
  {
    if s == [] then 0 else 10 * ParseDigits(s[..|s| - 1]) + DigitValue(s[|s| - 1])
  }

  /** Reading the decimal text back gives the number: `parseInt(String(n)) === n`. */
  lemma {:induction false} NatToStringRoundTrip(n: nat)
    ensures ParseDigits(NatToString(n)) == n
  {
    if n >= 10 {
      NatToStringRoundTrip(n / 10);
      var s := NatToString(n);
      assert s[..|s| - 1] == NatToString(n / 10);
    }
  }

  /** `s.slice(0, n)` for `n >= 0`. */
  function Take<T>(s: seq<T>, n: nat): (r: seq<T>)
    ensures |r| == if n <= |s| then n else |s|
    ensures r == s[..|r|]
  {
    if n <= |s| then s[..n] else s
  }

  /** The characters `String.prototype.trim` strips: the ECMAScript WhiteSpace and LineTerminator code points. */
  predicate IsJsSpace(c: char) {
    var n := c as int;
    n == 0x09 || n == 0x0A || n == 0x0B || n == 0x0C || n == 0x0D || n == 0x20 || n == 0xA0 || n == 0x1680
    || (0x2000 <= n <= 0x200A) || n == 0x2028 || n == 0x2029 || n == 0x202F || n == 0x205F || n == 0x3000 || n == 0xFEFF
  }

  function TrimStart(s: string): string {
    if s != [] && IsJsSpace(s[0]) then TrimStart(s[1..]) else s
  }

  function TrimEnd(s: string): string {
    if s != [] && IsJsSpace(s[|s| - 1]) then TrimEnd(s[..|s| - 1]) else s
  }

  /** `s.trim()` */
  function Trim(s: string): string {
    TrimEnd(TrimStart(s))
  }

  lemma {:induction false} TrimStartBounds(s: string) returns (i: nat)
    ensures i <= |s| && TrimStart(s) == s[i..]
    ensures forall k :: 0 <= k < i ==> IsJsSpace(s[k])
    ensures i < |s| ==> !IsJsSpace(s[i])
  {
    if s != [] && IsJsSpace(s[0]) {
      var j := TrimStartBounds(s[1..]);
      i := j + 1;
      assert s[1..][j..] == s[i..];
      forall k | 0 < k < i ensures IsJsSpace(s[k]) {
        assert s[k] == s[1..][k - 1];
      }
    } else {
      i := 0;
    }
  }

  lemma {:induction false} TrimEndBounds(s: string) returns (j: nat)
    ensures j <= |s| && TrimEnd(s) == s[..j]
    ensures forall k :: j <= k < |s| ==> IsJsSpace(s[k])
    ensures 0 < j ==> !IsJsSpace(s[j - 1])
  {
    if s != [] && IsJsSpace(s[|s| - 1]) {
      j := TrimEndBounds(s[..|s| - 1]);
      assert s[..|s| - 1][..j] == s[..j];
      forall k | j <= k < |s| ensures IsJsSpace(s[k]) {
        if k < |s| - 1 {
          assert s[k] == s[..|s| - 1][k];
        }
      }
    } else {
      j := |s|;
    }
  }

  /**
   * The trimmed text is the slice `s[i..j]`: everything before `i` and from `j`
   * on is white space, and a non-empty result starts and ends with a character
   * that is not.
   */
  lemma TrimBounds(s: string) returns (i: nat, j: nat)
    ensures i <= j <= |s| && Trim(s) == s[i..j]
    ensures forall k :: 0 <= k < i || j <= k < |s| ==> IsJsSpace(s[k])
    ensures i < j ==> !IsJsSpace(s[i]) && !IsJsSpace(s[j - 1])
  {
    i := TrimStartBounds(s);
    var e := TrimEndBounds(s[i..]);
    j := i + e;
    assert s[i..][..e] == s[i..j];
    forall k | j <= k < |s| ensures IsJsSpace(s[k]) {
      assert s[k] == s[i..][k - i];
    }
    if i < j {
      assert s[i..][e - 1] == s[j - 1];
      assert s[i..][0] == s[i];
    }
  }

  /** `parts.join(sep)`. */
  function Join(parts: seq<string>, sep: string): string {
    if parts == [] then ""
    else if |parts| == 1 then parts[0]
    else Join(parts[..|parts| - 1], sep) + sep + parts[|parts| - 1]
  }
}

=== FILE: contacts.dfy ===
/**
 * The address book of app/lib/contacts.ts: one list of contacts per wallet
 * (the `contacts_<wallet>` entry of localStorage, here a map from wallet to
 * list), with upsert by address, replacement and removal.
 */
module Contacts {
  import opened Common

  const MISSING_PARAMETERS := "Missing required parameters: walletAddress or contact.address"

  /** A contact; each optional field is missing, explicitly `undefined`, or set. */
  datatype Contact = Contact(
    address: string,
    nickname: Prop<string>,
    avatar: Prop<string>,
    addedAt: int,
    verified: bool,
    publicKey: Prop<string>)

  function Address(c: Contact): string {
    c.address
  }

  function AddressIs(address: string): Contact -> bool {
    (c: Contact) => c.address == address
  }

  function AddressIsNot(address: string): Contact -> bool {
    (c: Contact) => c.address != address
  }

  /** A wallet with nothing stored has no contacts. */
  function LoadContacts(stored: map<string, seq<Contact>>, walletAddress: string): seq<Contact> {
    if walletAddress in stored then stored[walletAddress] else []
  }

  /** No two contacts of a list share an address. */
  ghost predicate AddressesUnique(contacts: seq<Contact>) {
    KeysDistinct(contacts, Address)
  }

  ghost predicate AllUnique(stored: map<string, seq<Contact>>) {
    forall w :: w in stored ==> AddressesUnique(stored[w])
  }

  // ---------------------------------------------------------------------------
  // Upsert
  // ---------------------------------------------------------------------------

  /**
   * `{ ...existing, ...update }`: a property the update has wins, even one
   * that is `undefined` (an edit that clears a nickname erases it), and one
   * the update lacks keeps the old value.
   */
  function MergeContact(existing: Contact, update: Contact): (r: Contact)
    ensures r.address == update.address && r.addedAt == update.addedAt && r.verified == update.verified
    ensures update.nickname.Missing? ==> r.nickname == existing.nickname
    ensures !update.nickname.Missing? ==> r.nickname == update.nickname
    ensures update.avatar.Missing? ==> r.avatar == existing.avatar
    ensures !update.avatar.Missing? ==> r.avatar == update.avatar
    ensures update.publicKey.Missing? ==> r.publicKey == existing.publicKey
    ensures !update.publicKey.Missing? ==> r.publicKey == update.publicKey
    ensures !update.nickname.Missing? && !update.avatar.Missing? && !update.publicKey.Missing? ==> r == update
  {
    Contact(
      update.address,
      Spread(existing.nickname, update.nickname),
      Spread(existing.avatar, update.avatar),
      update.addedAt,
      update.verified,
      Spread(existing.publicKey, update.publicKey))
  }

  /** The list `addContact` saves: the first contact with the address is merged, or the contact is appended. */
  function Upserted(contacts: seq<Contact>, contact: Contact): seq<Contact> {
    match FindIndex(contacts, AddressIs(contact.address))
    case Some(i) => contacts[i := MergeContact(contacts[i], contact)]
    case None => contacts + [contact]
  }

  /**
   * After an upsert the address is present: a
   * known address keeps its position and the list its length, a new one is
   * appended; every other contact stays where it was; and a list without
   * duplicate addresses stays without them.
   */
  lemma UpsertedFacts(contacts: seq<Contact>, contact: Contact)
    ensures var r := Upserted(contacts, contact);
      && (contact.address in KeysOf(contacts, Address) ==> |r| == |contacts|)
      && (contact.address !in KeysOf(contacts, Address) ==> r == contacts + [contact])
      && (exists i :: 0 <= i < |r| && r[i].address == contact.address)
      && (forall i :: 0 <= i < |contacts| && contacts[i].address != contact.address ==> r[i] == contacts[i])
      && (AddressesUnique(contacts) ==> AddressesUnique(r))
  {
    var r := Upserted(contacts, contact);
    match FindIndex(contacts, AddressIs(contact.address))
    case Some(i) =>
      assert contacts[i] in contacts;
      assert r[i].address == contact.address;
    case None =>
      assert contact.address !in KeysOf(contacts, Address);
      assert r[|contacts|].address == contact.address;
  }

  // ---------------------------------------------------------------------------
  // Replacement and removal
  // ---------------------------------------------------------------------------

  /** The list `updateContact` saves when the address is known: the first match is replaced whole. */
  function Replaced(contacts: seq<Contact>, contact: Contact): Option<seq<Contact>> {
    match FindIndex(contacts, AddressIs(contact.address))
    case Some(i) => Some(contacts[i := contact])
    case None => None
  }

  /**
   * A replacement happens exactly when the address is known; it puts the new
   * contact in the first matching position, leaves every other position as it
   * was, and keeps addresses unique.
   */
  lemma ReplacedFacts(contacts: seq<Contact>, contact: Contact)
    ensures Replaced(contacts, contact).Some? <==> contact.address in KeysOf(contacts, Address)
    ensures Replaced(contacts, contact).Some? ==>
      var r := Replaced(contacts, contact).value;
      && |r| == |contacts|
      && contact in r
      && (forall i :: 0 <= i < |contacts| && contacts[i].address != contact.address ==> r[i] == contacts[i])
      && (AddressesUnique(contacts) ==> AddressesUnique(r) && forall i :: 0 <= i < |r| && r[i] != contact ==> r[i] == contacts[i])
  {
    match FindIndex(contacts, AddressIs(contact.address))
    case Some(i) =>
      assert contacts[i] in contacts;
      assert contacts[i := contact][i] == contact;
    case None =>
  }

  /** The list `removeContact` saves: every contact with the address dropped, the rest in order. */
  function Removed(contacts: seq<Contact>, contactAddress: string): (r: seq<Contact>)
    ensures forall c :: c in r <==> c in contacts && c.address != contactAddress
    ensures |r| <= |contacts|
  {
    Filter(contacts, AddressIsNot(contactAddress))
  }

  /** Removal keeps the others in their order, leaves no contact with the address, and keeps addresses unique. */
  lemma RemovedFacts(contacts: seq<Contact>, contactAddress: string)
    ensures contactAddress !in KeysOf(Removed(contacts, contactAddress), Address)
    ensures Subsequence(Removed(contacts, contactAddress), contacts)
    ensures contactAddress !in KeysOf(contacts, Address) ==> Removed(contacts, contactAddress) == contacts
    ensures AddressesUnique(contacts) ==> AddressesUnique(Removed(contacts, contactAddress))
  {
    FilterSubsequence(contacts, AddressIsNot(contactAddress));
    if AddressesUnique(contacts) {
      FilterKeysDistinct(contacts, AddressIsNot(contactAddress), Address);
    }
    if contactAddress !in KeysOf(contacts, Address) {
      FilterAll(contacts, AddressIsNot(contactAddress));
    }
  }

  // ---------------------------------------------------------------------------
  // The service
  // ---------------------------------------------------------------------------

  class ContactService {
    /** The per-wallet lists kept under `contacts_<wallet>`. */
    var stored: map<string, seq<Contact>>

    constructor()
      ensures stored == map[]
    {
      stored := map[];
    }

    /** `getContacts`: the wallet's saved list, or none; no address appears twice while the store keeps them unique. */
    function GetContacts(walletAddress: string): (r: seq<Contact>)
      reads this
      ensures walletAddress !in stored ==> r == []
      ensures AllUnique(stored) ==> AddressesUnique(r)
    {
      LoadContacts(stored, walletAddress)
    }

    /**
     * `addContact`: refused when either address is empty; otherwise the
     * contact is upserted into the wallet's list and the list saved.
     */
    method AddContact(walletAddress: string, contact: Contact) returns (outcome: Result<()>)
      modifies this
      ensures walletAddress == "" || contact.address == "" ==>
        outcome == Err(MISSING_PARAMETERS) && stored == old(stored)
      ensures walletAddress != "" && contact.address != "" ==>
        outcome == Ok(()) && stored == old(stored)[walletAddress := Upserted(LoadContacts(old(stored), walletAddress), contact)]
      ensures old(AllUnique(stored)) ==> AllUnique(stored)
    {
      if walletAddress == "" || contact.address == "" {
        return Err(MISSING_PARAMETERS);
      }
      var contacts := GetContacts(walletAddress);
      var existingIndex := FindIndex(contacts, AddressIs(contact.address));
      if existingIndex.Some? {
        contacts := contacts[existingIndex.value := MergeContact(contacts[existingIndex.value], contact)];
      } else {
        contacts := contacts + [contact];
      }
      UpsertedFacts(LoadContacts(stored, walletAddress), contact);
      stored := stored[walletAddress := contacts];
      outcome := Ok(());
    }

    /** `updateContact`: the first contact with the address is replaced; an unknown address saves nothing. */
    method UpdateContact(walletAddress: string, contact: Contact)
      modifies this
      ensures Replaced(LoadContacts(old(stored), walletAddress), contact).Some? ==>
        stored == old(stored)[walletAddress := Replaced(LoadContacts(old(stored), walletAddress), contact).value]
      ensures Replaced(LoadContacts(old(stored), walletAddress), contact).None? ==> stored == old(stored)
      ensures old(AllUnique(stored)) ==> AllUnique(stored)
    {
      var contacts := GetContacts(walletAddress);
      var index := FindIndex(contacts, AddressIs(contact.address));
      if index.Some? {
        contacts := contacts[index.value := contact];
        ReplacedFacts(LoadContacts(stored, walletAddress), contact);
        stored := stored[walletAddress := contacts];
      }
    }

    /** `removeContact`: the wallet's list is saved without any contact with the address. */
    method RemoveContact(walletAddress: string, contactAddress: string)
      modifies this
      ensures stored == old(stored)[walletAddress := Removed(LoadContacts(old(stored), walletAddress), contactAddress)]
      ensures old(AllUnique(stored)) ==> AllUnique(stored)
    {
      var contacts := GetContacts(walletAddress);
      var filtered := Filter(contacts, AddressIsNot(contactAddress));
      RemovedFacts(contacts, contactAddress);
      stored := stored[walletAddress := filtered];
    }
  }
}

=== FILE: content_store.dfy ===
/**
 * What the two external services hand back to the application, as values.
 *
 * - A `WireMessage` is the JSON object stored at a content address (the IPFS
 *   message of app/lib/ipfs-messaging.ts, the `any` messages of
 *   app/lib/ipfs-message-sync.ts and app/lib/ipfs.ts). A missing `id` is the
 *   empty string.
 * - A `Pin` is one row of Pinata's `pinList` answer: its content address and the
 *   `metadata.keyvalues` object, absent when the pin carries none. Missing
 *   string key-values are the empty string; the `timestamp` key-value is given
 *   already parsed (`Number.parseInt(metadata.timestamp || "0")`).
 */
module ContentStore {
  import opened Common

  datatype MessageKind = Text | Image | File

  datatype WireMessage = WireMessage(
    id: string,
    from: string,
    to: string,
    content: string,
    encryptedContent: Option<string>,
    timestamp: int,
    messageType: Option<MessageKind>)

  datatype PinMeta = PinMeta(app: string, kind: string, from: string, to: string, timestamp: int)

  datatype Pin = Pin(hash: string, keyvalues: Option<PinMeta>)

  /** The metadata `app`/`type` pair every SolChat pin carries. */
  const APP_TAG := "solchat"
  const MESSAGE_TAG := "message"

  /** A retrieval from the gateways: `Some(message)` on the first gateway that answers, `None` when all fail. */
  type Retrieval = string -> Option<WireMessage>

  /** The sort key `a.timestamp` of the source's `(a, b) => a.timestamp - b.timestamp` comparators. */
  function WireTime(m: WireMessage): int {
    m.timestamp
  }

  /** `message.from === wallet || message.to === wallet`. */
  predicate Involves(m: WireMessage, wallet: string) {
    m.from == wallet || m.to == wallet
  }

  /** A message exchanged between `a` and `b`, in either direction. */
  predicate Between(m: WireMessage, a: string, b: string) {
    (m.from == a && m.to == b) || (m.from == b && m.to == a)
  }

  /** A pin with keyvalues tagged `app: "solchat"`, `type: "message"`. */
  predicate IsSolChatMessage(pin: Pin) {
    pin.keyvalues.Some? && pin.keyvalues.value.app == APP_TAG && pin.keyvalues.value.kind == MESSAGE_TAG
  }
}

=== FILE: conversations.dfy ===
/**
 * The conversation manager of app/lib/conversation-manager.ts: per-contact
 * conversation states kept in an insertion-ordered map, listeners per contact,
 * the merge of locally stored messages with the results of an IPFS sync, and
 * the read marking and unread totals over those states.
 *
 * A listener is named by an identity (`nat`) and a call `listener(state)` is an
 * entry of the `notifications` log, so the order in which listeners are told
 * is part of the state. The local message store and the IPFS messaging service
 * are the objects the manager was built with.
 */
module Conversations {
  import opened Common
  import opened ContentStore
  import opened Messages
  import IpfsMessaging

  datatype ConversationState = ConversationState(
    contactAddress: string,
    messages: seq<Message>,
    lastMessageTime: int,
    unreadCount: nat,
    isLoading: bool,
    hasError: bool,
    errorMessage: Option<string>)

  /** The call `listener(state)` of `notifyListeners`. */
  datatype Notification = Notification(listener: nat, state: ConversationState)

  /** The state a contact starts with when the map has none. */
  function Initial(contactAddress: string, isLoading: bool): ConversationState {
    ConversationState(contactAddress, [], 0, 0, isLoading, false, None)
  }

  /** `conversations.get(contact) || { ...initial }` */
  function Current(conversations: OrderedMap<ConversationState>, contactAddress: string, isLoading: bool): ConversationState {
    if contactAddress in conversations.entries then conversations.entries[contactAddress] else Initial(contactAddress, isLoading)
  }

  // ---------------------------------------------------------------------------
  // Merging a conversation
  // ---------------------------------------------------------------------------

  /** `[...local, ...incoming]`, first copy of each id kept, oldest first. */
  function Merged(local: seq<Message>, incoming: seq<Message>): seq<Message> {
    SortBy(DedupBy(local + incoming, MessageId), MessageTime)
  }

  /** The timestamp of the last message, or 0 for an empty conversation. */
  function LastTime(messages: seq<Message>): int {
    if messages == [] then 0 else messages[|messages| - 1].timestamp
  }

  /** `updateConversation`'s new state for a contact. */
  function Refreshed(current: ConversationState, local: seq<Message>, incoming: seq<Message>, wallet: string): ConversationState {
    var messages := Merged(local, incoming);
    current.(messages := messages, lastMessageTime := LastTime(messages),
             unreadCount := Count(messages, UnreadTo(wallet)), isLoading := false, hasError := false)
  }

  /** The summary fields of a state agree with its messages. */
  ghost predicate Coherent(s: ConversationState, wallet: string) {
    && s.unreadCount == Count(s.messages, UnreadTo(wallet))
    && s.lastMessageTime == LastTime(s.messages)
  }

  /**
   * A refreshed conversation holds one message per id, the local copy winning
   * over a synced one, every id of both sources, oldest first; its unread count
   * is the number of unread messages addressed to the wallet and its last
   * message time is the latest timestamp (0 when empty); it is neither loading
   * nor failed, and keeps the contact and error message it had.
   */
  lemma {:induction false} RefreshedFacts(current: ConversationState, local: seq<Message>, incoming: seq<Message>, wallet: string)
    ensures var r := Refreshed(current, local, incoming, wallet);
      && SortedBy(r.messages, MessageTime)
      && KeysDistinct(r.messages, MessageId)
      && (forall m :: m in r.messages ==> m in local || m in incoming)
      && KeysOf(r.messages, MessageId) == KeysOf(local, MessageId) + KeysOf(incoming, MessageId)
      && (forall m :: m in r.messages && m.id in KeysOf(local, MessageId) ==> m in local)
      && r.unreadCount == |Filter(r.messages, UnreadTo(wallet))|
      && (r.messages == [] ==> r.lastMessageTime == 0)
      && (forall m :: m in r.messages ==> m.timestamp <= r.lastMessageTime)
      && (r.messages != [] ==> exists m :: m in r.messages && m.timestamp == r.lastMessageTime)
      && !r.isLoading && !r.hasError
      && r.contactAddress == current.contactAddress && r.errorMessage == current.errorMessage
  {
    var ms := Merged(local, incoming);
    DedupSortFacts(local, incoming, MessageId, MessageTime);
    forall m | m in ms ensures m.timestamp <= LastTime(ms) {
      var i :| 0 <= i < |ms| && ms[i] == m;
      assert MessageTime(ms[i]) <= MessageTime(ms[|ms| - 1]);
    }
    if ms != [] {
      assert ms[|ms| - 1] in ms;
    }
  }

  // ---------------------------------------------------------------------------
  // Handling a sync result
  // ---------------------------------------------------------------------------

  /**
   * The app message built from a synced one: a missing id is replaced by the
   * generated `fallback`, and the message arrives unread and delivered.
   */
  function Converted(m: WireMessage, fallback: string, now: nat): Message {
    Message(
      if m.id != "" then m.id else fallback,
      m.from, m.to, m.content, Written(m.encryptedContent), m.timestamp,
      Has("ipfs_" + NatToString(now)),
      Has(false),
      Has(if m.messageType.Some? then m.messageType.value else Text),
      Has(Delivered))
  }

  /**
   * A converted message has every optional property, `encryptedContent`
   * included even when the synced message has none, so saving it over a
   * stored copy replaces that copy whole: a stored encrypted content the
   * synced copy lacks is erased.
   */
  lemma ConvertedReplaces(stored: Message, m: WireMessage, fallback: string, now: nat)
    ensures Merge(stored, AsReceived(Converted(m, fallback, now))) == AsReceived(Converted(m, fallback, now))
    ensures m.encryptedContent.None? ==> Merge(stored, AsReceived(Converted(m, fallback, now))).encryptedContent == Undefined
  {
    MergeFacts(stored, AsReceived(Converted(m, fallback, now)));
  }

  /** The conversion of each synced message, `fallbackId(i)` naming the i-th one that has no id. */
  function ConvertAll(ms: seq<WireMessage>, fallbackId: nat -> string, now: nat): seq<Message> {
    seq(|ms|, i requires 0 <= i < |ms| => Converted(ms[i], fallbackId(i), now))
  }

  /** The other party of a message: the recipient of one the wallet sent, otherwise the sender. */
  function Partner(m: Message, wallet: string): string {
    if m.from == wallet then m.to else m.from
  }

  function PartnerIs(wallet: string, partner: string): Message -> bool {
    (m: Message) => Partner(m, wallet) == partner
  }

  function Group(groups: OrderedMap<seq<Message>>, partner: string): seq<Message> {
    if partner in groups.entries then groups.entries[partner] else []
  }

  /** `conversationUpdates`: the messages grouped by partner, partners in order of first appearance. */
  function Grouped(ms: seq<Message>, wallet: string): OrderedMap<seq<Message>> {
    if ms == [] then EmptyMap()
    else
      var groups := Grouped(ms[..|ms| - 1], wallet);
      var last := ms[|ms| - 1];
      MapSet(groups, Partner(last, wallet), Group(groups, Partner(last, wallet)) + [last])
  }

  /** The groups are keyed exactly by the partners that occur, each key once. */
  lemma {:induction false} GroupedKeys(ms: seq<Message>, wallet: string)
    ensures MapValid(Grouped(ms, wallet))
    ensures forall p :: p in Grouped(ms, wallet).entries <==> exists m :: m in ms && Partner(m, wallet) == p
  {
    if ms != [] {
      var init, last := ms[..|ms| - 1], ms[|ms| - 1];
      GroupedKeys(init, wallet);
      MapSetFacts(Grouped(init, wallet), Partner(last, wallet), Group(Grouped(init, wallet), Partner(last, wallet)) + [last]);
      assert forall m :: m in ms <==> m in init || m == last;
    }
  }

  /** Each group holds its partner's messages in their original order. */
  lemma {:induction false} GroupedMessages(ms: seq<Message>, wallet: string, p: string)
    ensures Group(Grouped(ms, wallet), p) == Filter(ms, PartnerIs(wallet, p))
  {
    if ms != [] {
      var init, last := ms[..|ms| - 1], ms[|ms| - 1];
      GroupedMessages(init, wallet, p);
      assert Filter(ms, PartnerIs(wallet, p)) ==
        Filter(init, PartnerIs(wallet, p)) + (if Partner(last, wallet) == p then [last] else []);
    }
  }

  /** The store after `saveReceivedMessage` of each message addressed to the wallet, in turn. */
  function ReceiveAll(stored: map<string, seq<Message>>, wallet: string, ms: seq<Message>): map<string, seq<Message>> {
    if ms == [] then stored
    else
      var before := ReceiveAll(stored, wallet, ms[..|ms| - 1]);
      var last := ms[|ms| - 1];
      if last.to == wallet then before[wallet := Upsert(Load(before, wallet), AsReceived(last))] else before
  }

  /** An upsert adds the message's id to the ids of the list, and no other. */
  lemma UpsertKeys(list: seq<Message>, message: Message)
    ensures KeysOf(Upsert(list, message), MessageId) == KeysOf(list, MessageId) + {message.id}
  {
    UpsertFacts(list, message);
    var after := Upsert(list, message);
    assert Stored(list, message).id == message.id;
    forall k | k in KeysOf(list, MessageId) ensures k in KeysOf(after, MessageId) {
      var x :| x in list && x.id == k;
      if x.id != message.id {
        assert x in after;
      } else {
        assert Stored(list, message) in after;
      }
    }
    forall k | k in KeysOf(after, MessageId) ensures k in KeysOf(list, MessageId) + {message.id} {
      var x :| x in after && x.id == k;
      if x.id != message.id {
        assert x in list;
      }
    }
  }

  /** Receiving touches only the wallet's own list, and only when some message is addressed to it. */
  lemma {:induction false} ReceiveAllOthers(stored: map<string, seq<Message>>, wallet: string, ms: seq<Message>)
    ensures var r := ReceiveAll(stored, wallet, ms);
      && (forall w :: w != wallet ==> (w in r <==> w in stored) && Load(r, w) == Load(stored, w))
      && ((forall m :: m in ms ==> m.to != wallet) ==> r == stored)
  {
    if ms != [] {
      var init := ms[..|ms| - 1];
      ReceiveAllOthers(stored, wallet, init);
      assert forall m :: m in init ==> m in ms;
      assert ms[|ms| - 1] in ms;
    }
  }

  /** The ids of the messages addressed to the wallet. */
  function IncomingIds(ms: seq<Message>, wallet: string): set<string> {
    if ms == [] then {}
    else IncomingIds(ms[..|ms| - 1], wallet) + (if ms[|ms| - 1].to == wallet then {ms[|ms| - 1].id} else {})
  }

  /** The wallet's ids afterwards are its ids before plus those of the messages addressed to it. */
  lemma {:induction false} ReceiveAllKeys(stored: map<string, seq<Message>>, wallet: string, ms: seq<Message>)
    ensures KeysOf(Load(ReceiveAll(stored, wallet, ms), wallet), MessageId) ==
            KeysOf(Load(stored, wallet), MessageId) + IncomingIds(ms, wallet)
  {
    if ms != [] {
      var init, last := ms[..|ms| - 1], ms[|ms| - 1];
      assert ms == init + [last];
      ReceiveAllKeys(stored, wallet, init);
      var before := ReceiveAll(stored, wallet, init);
      var r := ReceiveAll(stored, wallet, ms);
      if last.to == wallet {
        assert r == before[wallet := Upsert(Load(before, wallet), AsReceived(last))];
        assert IncomingIds(ms, wallet) == IncomingIds(init, wallet) + {last.id};
        ReceivedKeys(before, wallet, last);
        UnionStep(KeysOf(Load(stored, wallet), MessageId), IncomingIds(init, wallet),
                  KeysOf(Load(before, wallet), MessageId), KeysOf(Load(r, wallet), MessageId), last.id);
      } else {
        assert r == before;
        assert IncomingIds(ms, wallet) == IncomingIds(init, wallet);
      }
    }
  }


  /** Saving one received message adds its id to the wallet's ids. */
  lemma ReceivedKeys(before: map<string, seq<Message>>, wallet: string, last: Message)
    ensures var after := before[wallet := Upsert(Load(before, wallet), AsReceived(last))];
      KeysOf(Load(after, wallet), MessageId) == KeysOf(Load(before, wallet), MessageId) + {last.id}
  {
    UpsertKeys(Load(before, wallet), AsReceived(last));
  }

  /** Receiving keeps the ids of every list unique. */
  lemma {:induction false} ReceiveAllUnique(stored: map<string, seq<Message>>, wallet: string, ms: seq<Message>)
    requires IdsUnique(stored)
    ensures IdsUnique(ReceiveAll(stored, wallet, ms))
  {
    if ms != [] {
      var init, last := ms[..|ms| - 1], ms[|ms| - 1];
      ReceiveAllUnique(stored, wallet, init);
      if last.to == wallet {
        UpsertFacts(Load(ReceiveAll(stored, wallet, init), wallet), AsReceived(last));
      }
    }
  }

  /** One more synced message: saved when addressed to the wallet, and appended to its partner's group. */
  lemma ReceiveStep(stored: map<string, seq<Message>>, wallet: string, ms: seq<Message>, i: nat)
    requires i < |ms|
    ensures var before := ReceiveAll(stored, wallet, ms[..i]);
      ReceiveAll(stored, wallet, ms[..i + 1]) ==
        if ms[i].to == wallet then before[wallet := Upsert(Load(before, wallet), AsReceived(ms[i]))] else before
    ensures var groups := Grouped(ms[..i], wallet);
      Grouped(ms[..i + 1], wallet) == MapSet(groups, Partner(ms[i], wallet), Group(groups, Partner(ms[i], wallet)) + [ms[i]])
  {
    assert ms[..i + 1][..i] == ms[..i];
  }

  /** The states after `updateConversation` for each partner of `order`, in turn. */
  function Applied(conversations: OrderedMap<ConversationState>, groups: OrderedMap<seq<Message>>, order: seq<string>,
                   stored: map<string, seq<Message>>, wallet: string): OrderedMap<ConversationState>
  {
    if order == [] then conversations
    else
      var before := Applied(conversations, groups, order[..|order| - 1], stored, wallet);
      var p := order[|order| - 1];
      MapSet(before, p, Refreshed(Current(before, p, false), LocalOf(stored, wallet, p), Group(groups, p), wallet))
  }

  /** `getConversationMessages(wallet, contact)` */
  function LocalOf(stored: map<string, seq<Message>>, wallet: string, contact: string): seq<Message> {
    ConversationOf(Load(stored, wallet), wallet, contact)
  }

  /** The notification log `told` extended by the listener calls those updates make, in order. */
  function Announced(told: seq<Notification>, conversations: OrderedMap<ConversationState>, groups: OrderedMap<seq<Message>>,
                     order: seq<string>, stored: map<string, seq<Message>>, wallet: string, listeners: map<string, seq<nat>>): seq<Notification>
  {
    if order == [] then told
    else
      var init := order[..|order| - 1];
      var p := order[|order| - 1];
      Announced(told, conversations, groups, init, stored, wallet, listeners) +
      Notify(listeners, p, Applied(conversations, groups, order, stored, wallet).entries[p])
  }

  /** One more partner: its refreshed state is stored and announced. */
  lemma AppliedStep(told: seq<Notification>, conversations: OrderedMap<ConversationState>, groups: OrderedMap<seq<Message>>,
                    order: seq<string>, j: nat, stored: map<string, seq<Message>>, wallet: string, listeners: map<string, seq<nat>>)
    requires j < |order|
    ensures var before := Applied(conversations, groups, order[..j], stored, wallet);
      var s := Refreshed(Current(before, order[j], false), LocalOf(stored, wallet, order[j]), Group(groups, order[j]), wallet);
      && Applied(conversations, groups, order[..j + 1], stored, wallet) == MapSet(before, order[j], s)
      && Announced(told, conversations, groups, order[..j + 1], stored, wallet, listeners) ==
         Announced(told, conversations, groups, order[..j], stored, wallet, listeners) + Notify(listeners, order[j], s)
  {
    assert order[..j + 1][..j] == order[..j];
  }

  /**
   * Updating the partners of a duplicate-free list one after the other leaves
   * each of them with the refresh of its state as it was before.
   */
  lemma {:induction false} AppliedFacts(conversations: OrderedMap<ConversationState>, groups: OrderedMap<seq<Message>>, order: seq<string>,
                                        stored: map<string, seq<Message>>, wallet: string)
    requires MapValid(conversations) && Distinct(order)
    ensures var r := Applied(conversations, groups, order, stored, wallet);
      && MapValid(r)
      && (forall p :: p in order ==>
            (p in r.entries && r.entries[p] == Refreshed(Current(conversations, p, false), LocalOf(stored, wallet, p), Group(groups, p), wallet)))
  {
    if order != [] {
      var init, p := order[..|order| - 1], order[|order| - 1];
      assert order == init + [p];
      DistinctSplit(init, p);
      AppliedFacts(conversations, groups, init, stored, wallet);
      AppliedUntouched(conversations, groups, init, stored, wallet, p);
      var before := Applied(conversations, groups, init, stored, wallet);
      var s := Refreshed(Current(before, p, false), LocalOf(stored, wallet, p), Group(groups, p), wallet);
      assert Current(before, p, false) == Current(conversations, p, false);
      MapSetFacts(before, p, s);
      var r := Applied(conversations, groups, order, stored, wallet);
      assert r == MapSet(before, p, s);
      forall q | q in order
        ensures q in r.entries && r.entries[q] == Refreshed(Current(conversations, q, false), LocalOf(stored, wallet, q), Group(groups, q), wallet)
      {
        if q != p {
          assert q in init;
        }
      }
    }
  }

  /** A contact outside the list keeps its state, or its absence. */
  lemma {:induction false} AppliedUntouched(conversations: OrderedMap<ConversationState>, groups: OrderedMap<seq<Message>>, order: seq<string>,
                                            stored: map<string, seq<Message>>, wallet: string, c: string)
    requires c !in order
    ensures var r := Applied(conversations, groups, order, stored, wallet);
      && (c in r.entries <==> c in conversations.entries)
      && (c in conversations.entries ==> r.entries[c] == conversations.entries[c])
      && Current(r, c, false) == Current(conversations, c, false)
  {
    if order != [] {
      AppliedUntouched(conversations, groups, order[..|order| - 1], stored, wallet, c);
    }
  }

  /** Every tracked state sits under its own contact, with summary fields in step with its messages. */
  ghost predicate StatesValid(conversations: OrderedMap<ConversationState>, wallet: string) {
    && MapValid(conversations)
    && forall c :: c in conversations.entries ==>
         conversations.entries[c].contactAddress == c && Coherent(conversations.entries[c], wallet)
  }

  /** Refreshing one contact keeps the states valid. */
  lemma RefreshKeepsValid(conversations: OrderedMap<ConversationState>, contact: string, local: seq<Message>, incoming: seq<Message>, wallet: string)
    requires StatesValid(conversations, wallet)
    ensures StatesValid(MapSet(conversations, contact, Refreshed(Current(conversations, contact, false), local, incoming, wallet)), wallet)
  {
    RefreshedFacts(Current(conversations, contact, false), local, incoming, wallet);
    MapSetFacts(conversations, contact, Refreshed(Current(conversations, contact, false), local, incoming, wallet));
  }

  /** Refreshing a duplicate-free list of partners keeps the states valid. */
  lemma AppliedKeepsValid(conversations: OrderedMap<ConversationState>, groups: OrderedMap<seq<Message>>, order: seq<string>,
                          stored: map<string, seq<Message>>, wallet: string)
    requires StatesValid(conversations, wallet) && Distinct(order)
    ensures StatesValid(Applied(conversations, groups, order, stored, wallet), wallet)
  {
    var r := Applied(conversations, groups, order, stored, wallet);
    AppliedFacts(conversations, groups, order, stored, wallet);
    forall c | c in r.entries
      ensures r.entries[c].contactAddress == c && Coherent(r.entries[c], wallet)
    {
      if c in order {
        RefreshedFacts(Current(conversations, c, false), LocalOf(stored, wallet, c), Group(groups, c), wallet);
      } else {
        AppliedUntouched(conversations, groups, order, stored, wallet, c);
      }
    }
  }

  // ---------------------------------------------------------------------------
  // Listeners
  // ---------------------------------------------------------------------------

  function Listeners(listeners: map<string, seq<nat>>, contactAddress: string): seq<nat> {
    if contactAddress in listeners then listeners[contactAddress] else []
  }

  /** No contact is kept with an empty list of listeners. */
  ghost predicate ListenersValid(listeners: map<string, seq<nat>>) {
    forall c :: c in listeners ==> listeners[c] != []
  }

  /** One call per listener of the contact, in subscription order. */
  function Notify(listeners: map<string, seq<nat>>, contactAddress: string, state: ConversationState): seq<Notification> {
    var ls := Listeners(listeners, contactAddress);
    seq(|ls|, i requires 0 <= i < |ls| => Notification(ls[i], state))
  }

  function Subscribed(listeners: map<string, seq<nat>>, contactAddress: string, callback: nat): map<string, seq<nat>> {
    listeners[contactAddress := Listeners(listeners, contactAddress) + [callback]]
  }

  function IsNot(callback: nat): nat -> bool {
    (l: nat) => l != callback
  }

  /** The unsubscribe closure: drop the callback, and the contact when nothing remains. */
  function Unsubscribed(listeners: map<string, seq<nat>>, contactAddress: string, callback: nat): map<string, seq<nat>> {
    var rest := Filter(Listeners(listeners, contactAddress), IsNot(callback));
    if rest == [] then listeners - {contactAddress} else listeners[contactAddress := rest]
  }

  /**
   * Unsubscribing removes exactly that callback from that contact, keeps the
   * others in their order, deletes the contact when none remain, and leaves
   * every other contact alone.
   */
  lemma UnsubscribedFacts(listeners: map<string, seq<nat>>, contactAddress: string, callback: nat)
    ensures var r := Unsubscribed(listeners, contactAddress, callback);
      && callback !in Listeners(r, contactAddress)
      && (forall l :: l != callback ==> (l in Listeners(r, contactAddress) <==> l in Listeners(listeners, contactAddress)))
      && Subsequence(Listeners(r, contactAddress), Listeners(listeners, contactAddress))
      && (contactAddress in r <==> exists l :: l in Listeners(listeners, contactAddress) && l != callback)
      && (forall c :: c != contactAddress ==> (c in r <==> c in listeners) && Listeners(r, c) == Listeners(listeners, c))
      && (ListenersValid(listeners) ==> ListenersValid(r))
  {
    var ls := Listeners(listeners, contactAddress);
    FilterSubsequence(ls, IsNot(callback));
    var rest := Filter(ls, IsNot(callback));
    if rest != [] {
      assert rest[0] in rest;
    }
  }

  /** Subscribing a new callback and calling the returned closure restores the listeners. */
  lemma SubscribeRoundTrip(listeners: map<string, seq<nat>>, contactAddress: string, callback: nat)
    requires ListenersValid(listeners) && callback !in Listeners(listeners, contactAddress)
    ensures Unsubscribed(Subscribed(listeners, contactAddress, callback), contactAddress, callback) == listeners
  {
    var ls := Listeners(listeners, contactAddress);
    FilterAppend(ls, [callback], IsNot(callback));
    FilterAll(ls, IsNot(callback));
    assert Filter([callback], IsNot(callback)) == [];
    assert Filter(ls + [callback], IsNot(callback)) == ls;
  }

  // ---------------------------------------------------------------------------
  // Reading and totals
  // ---------------------------------------------------------------------------

  /** The local-state update of `markConversationAsRead`. */
  function AllRead(s: ConversationState): ConversationState {
    s.(messages := seq(|s.messages|, i requires 0 <= i < |s.messages| => s.messages[i].(isRead := Has(true))), unreadCount := 0)
  }

  /**
   * A conversation marked read has no unread message left, the same messages
   * otherwise, and its summary stays in step with its messages.
   */
  lemma AllReadFacts(s: ConversationState, wallet: string)
    ensures var r := AllRead(s);
      && Filter(r.messages, UnreadTo(wallet)) == []
      && |r.messages| == |s.messages|
      && (forall i :: 0 <= i < |s.messages| ==> r.messages[i].(isRead := s.messages[i].isRead) == s.messages[i])
      && (Coherent(s, wallet) ==> Coherent(r, wallet))
  {
    FilterNone(AllRead(s).messages, UnreadTo(wallet));
  }

  function SumUnread(states: seq<ConversationState>): nat {
    if states == [] then 0 else SumUnread(states[..|states| - 1]) + states[|states| - 1].unreadCount
  }

  lemma {:induction false} SumUnreadUntouched(m: map<string, ConversationState>, order: seq<string>, k: string, v: ConversationState)
    requires k !in order
    ensures ValuesInOrder(m[k := v], order) == ValuesInOrder(m, order)
  {
    if order != [] {
      SumUnreadUntouched(m, order[..|order| - 1], k, v);
    }
  }

  lemma {:induction false} SumUnreadReplace(m: map<string, ConversationState>, order: seq<string>, k: string, v: ConversationState)
    requires Distinct(order) && k in m && k in order
    ensures SumUnread(ValuesInOrder(m[k := v], order)) + m[k].unreadCount == SumUnread(ValuesInOrder(m, order)) + v.unreadCount
  {
    var init, last := order[..|order| - 1], order[|order| - 1];
    assert order == init + [last];
    DistinctSplit(init, last);
    var a, b := ValuesInOrder(m[k := v], init), ValuesInOrder(m, init);
    var x := if last in m then [m[k := v][last]] else [];
    var y := if last in m then [m[last]] else [];
    SumUnreadAppend(a, x);
    SumUnreadAppend(b, y);
    if last == k {
      SumUnreadUntouched(m, init, k, v);
    } else {
      SumUnreadReplace(m, init, k, v);
    }
  }

  lemma SumUnreadAppend(a: seq<ConversationState>, b: seq<ConversationState>)
    requires |b| <= 1
    ensures SumUnread(a + b) == SumUnread(a) + SumUnread(b)
  {
    if b != [] {
      assert (a + b)[..|a + b| - 1] == a;
      assert SumUnread(b) == b[0].unreadCount by {
        assert b[..0] == [];
      }
    } else {
      assert a + b == a;
    }
  }

  /**
   * Marking one tracked conversation read lowers the total unread count by
   * exactly what that conversation had.
   */
  lemma MarkReadTotal(conversations: OrderedMap<ConversationState>, contactAddress: string)
    requires MapValid(conversations) && contactAddress in conversations.entries
    ensures var s := conversations.entries[contactAddress];
      SumUnread(MapValues(MapSet(conversations, contactAddress, AllRead(s)))) + s.unreadCount ==
      SumUnread(MapValues(conversations))
  {
    SumUnreadReplace(conversations.entries, conversations.order, contactAddress, AllRead(conversations.entries[contactAddress]));
  }

  function NewestFirst(s: ConversationState): int {
    -s.lastMessageTime
  }

  /** `getAllConversations`: the states, most recent conversation first. */
  function AllConversations(conversations: OrderedMap<ConversationState>): seq<ConversationState> {
    SortBy(MapValues(conversations), NewestFirst)
  }

  /** The list holds each tracked state exactly once, in descending order of last message time. */
  lemma AllConversationsFacts(conversations: OrderedMap<ConversationState>)
    requires MapValid(conversations)
    ensures var r := AllConversations(conversations);
      && (forall i, j :: 0 <= i < j < |r| ==> r[i].lastMessageTime >= r[j].lastMessageTime)
      && multiset(r) == multiset(MapValues(conversations))
      && |r| == |conversations.entries|
      && (forall s :: s in r <==> exists c :: c in conversations.entries && conversations.entries[c] == s)
  {
    var r := AllConversations(conversations);
    var vs := MapValues(conversations);
    assert |vs| == |conversations.entries|
        && forall s :: s in vs <==> exists c :: c in conversations.entries && conversations.entries[c] == s
    by {
      MapValuesFacts(conversations);
    }
    forall i, j | 0 <= i < j < |r| ensures r[i].lastMessageTime >= r[j].lastMessageTime {
      assert NewestFirst(r[i]) <= NewestFirst(r[j]);
    }
    forall s ensures s in r <==> s in vs {
      SortByMembership(vs, NewestFirst, s);
    }
  }

  // ---------------------------------------------------------------------------
  // The manager
  // ---------------------------------------------------------------------------

  class ConversationManager {
    const walletAddress: string
    const messageService: MessageService
    const ipfsService: IpfsMessaging.IpfsMessagingService
    var conversations: OrderedMap<ConversationState>
    /** Listener identities per contact, in subscription order. */
    var listeners: map<string, seq<nat>>
    /** Every listener call made so far. */
    var notifications: seq<Notification>

    /**
     * Every tracked state sits under its own contact with summary fields in
     * step with its messages, and no contact has an empty listener list.
     */
    ghost predicate Valid()
      reads this
    {
      StatesValid(conversations, walletAddress) && ListenersValid(listeners)
    }

    constructor(walletAddress: string, messageService: MessageService, ipfsService: IpfsMessaging.IpfsMessagingService)
      ensures Valid()
      ensures this.walletAddress == walletAddress && this.messageService == messageService && this.ipfsService == ipfsService
      ensures conversations == EmptyMap() && listeners == map[] && notifications == []
    {
      this.walletAddress := walletAddress;
      this.messageService := messageService;
      this.ipfsService := ipfsService;
      conversations := EmptyMap();
      listeners := map[];
      notifications := [];
    }

    method NotifyListeners(contactAddress: string, state: ConversationState)
      modifies this
      ensures notifications == old(notifications) + Notify(listeners, contactAddress, state)
      ensures conversations == old(conversations) && listeners == old(listeners)
    {
      var ls := Listeners(listeners, contactAddress);
      assert |Notify(listeners, contactAddress, state)| == |ls|;
      var i := 0;
      while i < |ls|
        invariant 0 <= i <= |ls|
        invariant conversations == old(conversations) && listeners == old(listeners)
        invariant notifications == old(notifications) + Notify(listeners, contactAddress, state)[..i]
      {
        assert Notify(listeners, contactAddress, state)[..i + 1] == Notify(listeners, contactAddress, state)[..i] + [Notification(ls[i], state)];
        notifications := notifications + [Notification(ls[i], state)];
        i := i + 1;
      }
      assert Notify(listeners, contactAddress, state)[..i] == Notify(listeners, contactAddress, state);
    }

    /** `updateConversation`: the stored conversation merged with `newMessages`, stored and announced. */
    method UpdateConversation(contactAddress: string, newMessages: seq<Message>)
      modifies this
      ensures var s := Refreshed(Current(old(conversations), contactAddress, false),
                                 messageService.GetConversationMessages(walletAddress, contactAddress), newMessages, walletAddress);
        && conversations == MapSet(old(conversations), contactAddress, s)
        && notifications == old(notifications) + Notify(listeners, contactAddress, s)
      ensures listeners == old(listeners)
    {
      var currentState := Current(conversations, contactAddress, false);
      var localMessages := messageService.GetConversationMessages(walletAddress, contactAddress);
      var uniqueMessages := SortBy(DedupBy(localMessages + newMessages, MessageId), MessageTime);
      var unreadCount := |Filter(uniqueMessages, UnreadTo(walletAddress))|;
      var updatedState := currentState.(
        messages := uniqueMessages,
        lastMessageTime := if |uniqueMessages| > 0 then uniqueMessages[|uniqueMessages| - 1].timestamp else 0,
        unreadCount := unreadCount,
        isLoading := false,
        hasError := false);
      assert updatedState == Refreshed(currentState, localMessages, newMessages, walletAddress);
      conversations := MapSet(conversations, contactAddress, updatedState);
      NotifyListeners(contactAddress, updatedState);
    }

    /**
     * `handleSyncResult`: each synced message is converted, saved as received
     * when addressed to the wallet, and grouped under its partner; then every
     * partner's conversation is refreshed, in order of first appearance.
     */
    method HandleSyncResult(newMessages: seq<WireMessage>, now: nat, fallbackId: nat -> string)
      requires Valid()
      modifies this, messageService
      ensures Valid()
      ensures newMessages == [] ==>
        messageService.stored == old(messageService.stored) && conversations == old(conversations) &&
        notifications == old(notifications)
      ensures var ms := ConvertAll(newMessages, fallbackId, now);
        var groups := Grouped(ms, walletAddress);
        && messageService.stored == ReceiveAll(old(messageService.stored), walletAddress, ms)
        && conversations == Applied(old(conversations), groups, groups.order, messageService.stored, walletAddress)
        && notifications == Announced(old(notifications), old(conversations), groups, groups.order, messageService.stored, walletAddress, listeners)
      ensures listeners == old(listeners)
    {
      if |newMessages| == 0 {
        return;
      }
      var ms := ConvertAll(newMessages, fallbackId, now);
      var conversationUpdates := SaveAndGroup(ms);
      GroupedKeys(ms, walletAddress);
      AppliedKeepsValid(conversations, conversationUpdates, conversationUpdates.order, messageService.stored, walletAddress);
      UpdateAll(conversationUpdates);
    }

    /** The first loop of `handleSyncResult`: save what is addressed to the wallet, group by partner. */
    method SaveAndGroup(ms: seq<Message>) returns (conversationUpdates: OrderedMap<seq<Message>>)
      modifies messageService
      ensures messageService.stored == ReceiveAll(old(messageService.stored), walletAddress, ms)
      ensures conversationUpdates == Grouped(ms, walletAddress)
    {
      conversationUpdates := EmptyMap();
      var i := 0;
      while i < |ms|
        invariant 0 <= i <= |ms|
        invariant messageService.stored == ReceiveAll(old(messageService.stored), walletAddress, ms[..i])
        invariant conversationUpdates == Grouped(ms[..i], walletAddress)
      {
        ReceiveStep(old(messageService.stored), walletAddress, ms, i);
        var message := ms[i];
        if message.to == walletAddress {
          messageService.SaveReceivedMessage(walletAddress, message);
        }
        var conversationPartner := if message.from == walletAddress then message.to else message.from;
        var conversationMessages := Group(conversationUpdates, conversationPartner);
        conversationUpdates := MapSet(conversationUpdates, conversationPartner, conversationMessages + [message]);
        i := i + 1;
      }
      assert ms[..i] == ms;
    }

    /** The second loop of `handleSyncResult`: one `updateConversation` per partner, in map order. */
    method UpdateAll(conversationUpdates: OrderedMap<seq<Message>>)
      modifies this
      ensures conversations == Applied(old(conversations), conversationUpdates, conversationUpdates.order, messageService.stored, walletAddress)
      ensures notifications ==
        Announced(old(notifications), old(conversations), conversationUpdates, conversationUpdates.order, messageService.stored, walletAddress, listeners)
      ensures listeners == old(listeners)
    {
      var order := conversationUpdates.order;
      var j := 0;
      while j < |order|
        invariant 0 <= j <= |order|
        invariant conversations == Applied(old(conversations), conversationUpdates, order[..j], messageService.stored, walletAddress)
        invariant notifications ==
          Announced(old(notifications), old(conversations), conversationUpdates, order[..j], messageService.stored, walletAddress, listeners)
        invariant listeners == old(listeners)
      {
        AppliedStep(old(notifications), old(conversations), conversationUpdates, order, j, messageService.stored, walletAddress, listeners);
        assert messageService.GetConversationMessages(walletAddress, order[j]) == LocalOf(messageService.stored, walletAddress, order[j]);
        ghost var s := Refreshed(Current(conversations, order[j], false), LocalOf(messageService.stored, walletAddress, order[j]),
                                 Group(conversationUpdates, order[j]), walletAddress);
        ghost var told := notifications;
        UpdateConversation(order[j], Group(conversationUpdates, order[j]));
        assert notifications == told + Notify(listeners, order[j], s);
        j := j + 1;
      }
      assert order[..j] == order;
    }

    /**
     * `loadConversation`: the contact's state is marked loading and announced,
     * then refreshed from the local store and announced again; the refreshed
     * state is returned.
     */
    method LoadConversation(contactAddress: string) returns (state: ConversationState)
      requires Valid()
      modifies this
      ensures Valid()
      ensures var loading := Current(old(conversations), contactAddress, true).(isLoading := true);
        && state == Refreshed(loading, messageService.GetConversationMessages(walletAddress, contactAddress), [], walletAddress)
        && conversations == MapSet(old(conversations), contactAddress, state)
        && notifications == old(notifications) + Notify(listeners, contactAddress, loading) + Notify(listeners, contactAddress, state)
      ensures listeners == old(listeners)
    {
      var currentState := MarkLoading(contactAddress);
      ghost var loaded := conversations;
      RefreshKeepsValid(loaded, contactAddress, messageService.GetConversationMessages(walletAddress, contactAddress), [], walletAddress);
      UpdateConversation(contactAddress, []);
      state := conversations.entries[contactAddress];
      assert Current(loaded, contactAddress, false) == currentState;
      MapSetTwice(old(conversations), contactAddress, currentState, state);
    }

    /** The first step of `loadConversation`: the contact's state, marked loading, is stored and announced. */
    method MarkLoading(contactAddress: string) returns (loading: ConversationState)
      requires Valid()
      modifies this
      ensures Valid()
      ensures loading == Current(old(conversations), contactAddress, true).(isLoading := true)
      ensures conversations == MapSet(old(conversations), contactAddress, loading)
      ensures notifications == old(notifications) + Notify(listeners, contactAddress, loading)
      ensures listeners == old(listeners)
    {
      loading := Current(conversations, contactAddress, true);
      loading := loading.(isLoading := true);
      MapSetFacts(conversations, contactAddress, loading);
      conversations := MapSet(conversations, contactAddress, loading);
      NotifyListeners(contactAddress, loading);
    }

    /** `subscribeToConversation` */
    method SubscribeToConversation(contactAddress: string, callback: nat)
      requires Valid()
      modifies this
      ensures Valid()
      ensures listeners == Subscribed(old(listeners), contactAddress, callback)
      ensures conversations == old(conversations) && notifications == old(notifications)
    {
      var ls := Listeners(listeners, contactAddress);
      listeners := listeners[contactAddress := ls + [callback]];
    }

    /** The closure `subscribeToConversation` returns. */
    method Unsubscribe(contactAddress: string, callback: nat)
      requires Valid()
      modifies this
      ensures Valid()
      ensures listeners == Unsubscribed(old(listeners), contactAddress, callback)
      ensures conversations == old(conversations) && notifications == old(notifications)
    {
      var currentListeners := Listeners(listeners, contactAddress);
      var updatedListeners := Filter(currentListeners, IsNot(callback));
      if |updatedListeners| == 0 {
        listeners := listeners - {contactAddress};
      } else {
        listeners := listeners[contactAddress := updatedListeners];
      }
      UnsubscribedFacts(old(listeners), contactAddress, callback);
    }

    /**
     * `markConversationAsRead`: the stored conversation is marked read, then a
     * tracked state has every message marked read and no unread count, and is
     * announced; an untracked contact gets no state.
     */
    method MarkConversationAsRead(contactAddress: string)
      requires Valid()
      modifies this, messageService
      ensures Valid()
      ensures var list := Load(old(messageService.stored), walletAddress);
        messageService.stored == if HasUnreadIn(list, walletAddress, contactAddress)
          then old(messageService.stored)[walletAddress := MarkRead(list, walletAddress, contactAddress)]
          else old(messageService.stored)
      ensures contactAddress in old(conversations.entries) ==>
        var s := AllRead(old(conversations.entries[contactAddress]));
        && conversations == MapSet(old(conversations), contactAddress, s)
        && notifications == old(notifications) + Notify(listeners, contactAddress, s)
      ensures contactAddress !in old(conversations.entries) ==>
        conversations == old(conversations) && notifications == old(notifications)
      ensures listeners == old(listeners)
    {
      messageService.MarkConversationAsRead(walletAddress, contactAddress);
      if contactAddress in conversations.entries {
        var state := conversations.entries[contactAddress];
        var updatedState := AllRead(state);
        AllReadFacts(state, walletAddress);
        MapSetFacts(conversations, contactAddress, updatedState);
        conversations := MapSet(conversations, contactAddress, updatedState);
        NotifyListeners(contactAddress, updatedState);
      }
    }

    /** `getConversationState`: the tracked state of the contact, one of the listed conversations. */
    function GetConversationState(contactAddress: string): (r: Option<ConversationState>)
      reads this
      ensures Valid() && r.Some? ==> r.value.contactAddress == contactAddress
      ensures Valid() && r.Some? ==> r.value in GetAllConversations()
      ensures Valid() && r.None? ==> forall s :: s in GetAllConversations() ==> s.contactAddress != contactAddress
    {
      assert Valid() ==> forall s :: s in GetAllConversations() <==>
        exists c :: c in conversations.entries && conversations.entries[c] == s
      by {
        if Valid() {
          assert MapValid(conversations);
          AllConversationsFacts(conversations);
        }
      }
      if contactAddress in conversations.entries then Some(conversations.entries[contactAddress]) else None
    }

    /** `getAllConversations`: every tracked state once, the latest conversation first. */
    function GetAllConversations(): (r: seq<ConversationState>)
      reads this
      ensures MapValid(conversations) ==> forall i, j :: 0 <= i < j < |r| ==> r[i].lastMessageTime >= r[j].lastMessageTime
      ensures MapValid(conversations) ==> multiset(r) == multiset(MapValues(conversations)) && |r| == |conversations.entries|
    {
      var r := AllConversations(conversations);
      assert MapValid(conversations) ==>
        && (forall i, j :: 0 <= i < j < |r| ==> r[i].lastMessageTime >= r[j].lastMessageTime)
        && multiset(r) == multiset(MapValues(conversations)) && |r| == |conversations.entries|
      by {
        if MapValid(conversations) {
          AllConversationsFacts(conversations);
        }
      }
      r
    }

    /** `getTotalUnreadCount`: the reduction over the states in map order. */
    method GetTotalUnreadCount() returns (total: nat)
      ensures total == SumUnread(MapValues(conversations))
    {
      var states := MapValues(conversations);
      total := 0;
      var i := 0;
      while i < |states|
        invariant 0 <= i <= |states|
        invariant total == SumUnread(states[..i])
      {
        assert states[..i + 1][..i] == states[..i];
        total := total + states[i].unreadCount;
        i := i + 1;
      }
      assert states[..i] == states;
    }

    /** `syncMessages`: an IPFS sync of the wallet, whose messages are then handled. */
    method SyncMessages(pages: IpfsMessaging.PinPages, retrieve: Retrieval, now: nat, fallbackId: nat -> string)
      requires Valid()
      modifies this, messageService, ipfsService
      ensures Valid()
      ensures var synced :=
          if old(ipfsService.credentials).None? then []
          else
            var since := if old(ipfsService.lastSync).Some? then old(ipfsService.lastSync).value else 0;
            SortBy(IpfsMessaging.HarvestPins(old(ipfsService.messagePointers).entries,
                     IpfsMessaging.AllPins(pages, walletAddress), since, retrieve, now).messages, WireTime);
        var ms := ConvertAll(synced, fallbackId, now);
        var groups := Grouped(ms, walletAddress);
        && messageService.stored == ReceiveAll(old(messageService.stored), walletAddress, ms)
        && conversations == Applied(old(conversations), groups, groups.order, messageService.stored, walletAddress)
        && notifications == Announced(old(notifications), old(conversations), groups, groups.order, messageService.stored, walletAddress, listeners)
      ensures listeners == old(listeners)
    {
      var newMessages := ipfsService.SyncMessages(walletAddress, pages, retrieve, now);
      HandleSyncResult(newMessages, now, fallbackId);
    }

    /** `clearAllData`: no conversation, no listener, and an empty IPFS pointer cache. */
    method ClearAllData()
      requires Valid()
      modifies this, ipfsService
      ensures Valid()
      ensures conversations == EmptyMap() && listeners == map[] && notifications == old(notifications)
      ensures ipfsService.messagePointers == EmptyMap() && ipfsService.lastSync.None?
      ensures ipfsService.credentials == old(ipfsService.credentials)
    {
      conversations := EmptyMap();
      listeners := map[];
      ipfsService.ClearCache();
    }
  }
}

=== FILE: encryption.dfy ===
/**
 * The demonstration cipher of app/lib/encryption.ts, at the byte level: the
 * simulated public-key derivation (each private-key byte XOR 0x42), the
 * repeating-key XOR that encrypts and decrypts message bytes, and the
 * per-wallet key pair that is generated once and then loaded.
 *
 * The UTF-8 and base64 codecs around the byte-level cipher are not part of
 * this model; the random bytes of a new private key are the parameter
 * `randomKey`.
 */
module Encryption {
  import opened Common

  type Byte = bv8

  const KEY_LENGTH := 32
  const DERIVE_MASK: Byte := 0x42

  datatype KeyPair = KeyPair(privateKey: seq<Byte>, publicKey: seq<Byte>)

  /** `privateKey[i]` for `i` past the end is `undefined`, which `^` reads as 0. */
  function ByteAt(s: seq<Byte>, i: nat): Byte {
    if i < |s| then s[i] else 0
  }

  /** `derivePublicKey`: 32 bytes, each the private-key byte at that position XOR 0x42. */
  function DerivePublicKey(privateKey: seq<Byte>): (publicKey: seq<Byte>)
    ensures |publicKey| == KEY_LENGTH
    ensures forall i :: 0 <= i < KEY_LENGTH ==> publicKey[i] == ByteAt(privateKey, i) ^ DERIVE_MASK
  {
    seq(KEY_LENGTH, i requires 0 <= i < KEY_LENGTH => ByteAt(privateKey, i) ^ DERIVE_MASK)
  }

  /** Applied to a 32-byte key, the derivation undoes itself. */
  lemma DeriveInvolution(privateKey: seq<Byte>)
    requires |privateKey| == KEY_LENGTH
    ensures DerivePublicKey(DerivePublicKey(privateKey)) == privateKey
  {
    var once := DerivePublicKey(privateKey);
    var twice := DerivePublicKey(once);
    forall i | 0 <= i < KEY_LENGTH ensures twice[i] == privateKey[i] {
      assert twice[i] == (privateKey[i] ^ DERIVE_MASK) ^ DERIVE_MASK;
    }
  }

  /**
   * `bytes.map((byte, i) => byte ^ key[i % key.length])` with the key cut to
   * its first 32 bytes; with an empty key `key[NaN]` is `undefined` and every
   * byte stays as it is.
   */
  function XorWithKey(bytes: seq<Byte>, privateKey: seq<Byte>): (r: seq<Byte>)
    ensures |r| == |bytes|
  {
    var key := Take(privateKey, KEY_LENGTH);
    if |key| == 0 then bytes
    else seq(|bytes|, i requires 0 <= i < |bytes| => bytes[i] ^ key[i % |key|])
  }

  /** `encryptMessage` on the encoded message bytes. */
  function EncryptBytes(messageBytes: seq<Byte>, senderPrivateKey: seq<Byte>): (r: seq<Byte>)
    ensures |r| == |messageBytes|
  {
    XorWithKey(messageBytes, senderPrivateKey)
  }

  /** `decryptMessage` on the decoded cipher bytes. */
  function DecryptBytes(encrypted: seq<Byte>, recipientPrivateKey: seq<Byte>): (r: seq<Byte>)
    ensures |r| == |encrypted|
  {
    XorWithKey(encrypted, recipientPrivateKey)
  }

  /** Decrypting with the key that encrypted gives back the message bytes. */
  lemma RoundTrip(messageBytes: seq<Byte>, privateKey: seq<Byte>)
    ensures DecryptBytes(EncryptBytes(messageBytes, privateKey), privateKey) == messageBytes
  {
    var key := Take(privateKey, KEY_LENGTH);
    if |key| > 0 {
      var e := EncryptBytes(messageBytes, privateKey);
      var d := DecryptBytes(e, privateKey);
      forall i | 0 <= i < |messageBytes| ensures d[i] == messageBytes[i] {
        assert d[i] == (messageBytes[i] ^ key[i % |key|]) ^ key[i % |key|];
      }
    }
  }

  /**
   * The cipher is symmetric in the private key: a recipient whose private key
   * differs from the sender's in a used position reads a different byte
   * there, so only the holder of the sender's private key recovers the
   * message.
   */
  lemma OtherKeyGarbles(messageBytes: seq<Byte>, senderKey: seq<Byte>, recipientKey: seq<Byte>, i: nat)
    requires |senderKey| == KEY_LENGTH && |recipientKey| == KEY_LENGTH
    requires i < |messageBytes| && senderKey[i % KEY_LENGTH] != recipientKey[i % KEY_LENGTH]
    ensures DecryptBytes(EncryptBytes(messageBytes, senderKey), recipientKey)[i] != messageBytes[i]
  {
    var s, r := senderKey[i % KEY_LENGTH], recipientKey[i % KEY_LENGTH];
    assert Take(senderKey, KEY_LENGTH) == senderKey;
    assert Take(recipientKey, KEY_LENGTH) == recipientKey;
    var b := messageBytes[i];
    assert DecryptBytes(EncryptBytes(messageBytes, senderKey), recipientKey)[i] == (b ^ s) ^ r;
    XorDiffers(b, s, r);
  }

  /** XOR with two different bytes in turn changes a byte. */
  lemma XorDiffers(b: Byte, s: Byte, r: Byte)
    requires s != r
    ensures (b ^ s) ^ r != b
  {
    assert (b ^ s) ^ r == b ^ (s ^ r);
    assert s ^ r != 0;
  }

  class EncryptionService {
    /** The `encryption_keys_<wallet>` entries of localStorage. */
    var stored: map<string, KeyPair>

    constructor()
      ensures stored == map[]
    {
      stored := map[];
    }

    /**
     * `generateOrLoadKeys`: a stored pair is returned as it is; otherwise a
     * new pair is made from the random private key and stored, so every
     * later call returns the same pair.
     */
    method GenerateOrLoadKeys(walletAddress: string, randomKey: seq<Byte>) returns (keys: KeyPair)
      modifies this
      ensures walletAddress in old(stored) ==> keys == old(stored)[walletAddress] && stored == old(stored)
      ensures walletAddress !in old(stored) ==>
        && keys == KeyPair(randomKey, DerivePublicKey(randomKey))
        && stored == old(stored)[walletAddress := keys]
      ensures walletAddress in stored && stored[walletAddress] == keys
    {
      if walletAddress in stored {
        return stored[walletAddress];
      }
      keys := KeyPair(randomKey, DerivePublicKey(randomKey));
      stored := stored[walletAddress := keys];
    }
  }
}

=== FILE: groups.dfy ===
/**
 * The group service of app/lib/groups.ts: per wallet, a list of groups (the
 * `groups_<wallet>` entry of localStorage) and a list of group messages (the
 * `group_messages_<wallet>` entry), here two maps from wallet to list.
 *
 * Group ids and message ids are built from the clock and `Math.random`, and
 * the timestamps from `Date.now()`: each operation receives them as `now`,
 * `groupId` and `messageId`, one clock reading per call.
 */
module Groups {
  import opened Common

  /** Invitees a new group must have, besides its creator. */
  const MIN_INVITEES := 2
  const MAX_INVITEES := 7
  /** The capacity checked by `addMemberToGroup`. */
  const MAX_MEMBERS := 8

  const TOO_FEW_MEMBERS := "Group must have at least 2 additional members"
  const TOO_MANY_MEMBERS := "Group cannot have more than 7 additional members"
  const GROUP_NOT_FOUND := "Group not found"
  const ONLY_ADMINS_ADD := "Only admins can add members"
  const ALREADY_MEMBER := "Member already in group"
  const GROUP_FULL := "Group is at maximum capacity (8 members)"
  const ONLY_ADMINS_REMOVE := "Only admins can remove members"

  datatype Group = Group(
    id: string,
    name: string,
    description: Option<string>,
    members: seq<string>,
    admins: seq<string>,
    createdBy: string,
    createdAt: int,
    avatar: Option<string>,
    lastActivity: int)

  datatype GroupMessageKind = TextMessage | SystemMessage

  datatype GroupMessage = GroupMessage(
    id: string,
    groupId: string,
    from: string,
    content: string,
    encryptedContent: Option<string>,
    timestamp: int,
    arweaveId: string,
    messageType: GroupMessageKind,
    replyTo: Option<string>)

  function GroupIdIs(id: string): Group -> bool {
    (g: Group) => g.id == id
  }

  function GroupIdIsNot(id: string): Group -> bool {
    (g: Group) => g.id != id
  }

  function InGroup(groupId: string): GroupMessage -> bool {
    (m: GroupMessage) => m.groupId == groupId
  }

  function NotInGroup(groupId: string): GroupMessage -> bool {
    (m: GroupMessage) => m.groupId != groupId
  }

  function GroupKey(g: Group): string {
    g.id
  }

  function GroupMessageTime(m: GroupMessage): int {
    m.timestamp
  }

  function LoadGroups(groups: map<string, seq<Group>>, wallet: string): seq<Group> {
    if wallet in groups then groups[wallet] else []
  }

  function LoadGroupMessages(messages: map<string, seq<GroupMessage>>, wallet: string): seq<GroupMessage> {
    if wallet in messages then messages[wallet] else []
  }

  /**
   * What every operation but `updateGroup` keeps true of a group: at most
   * `MAX_MEMBERS` members, and every admin is a member.
   */
  ghost predicate WellFormed(g: Group) {
    && |g.members| <= MAX_MEMBERS
    && forall a :: a in g.admins ==> a in g.members
  }

  ghost predicate ListValid(groups: seq<Group>) {
    forall g :: g in groups ==> WellFormed(g)
  }

  ghost predicate GroupsValid(groups: map<string, seq<Group>>) {
    forall w :: w in groups ==> ListValid(groups[w])
  }

  // ---------------------------------------------------------------------------
  // Creating a group
  // ---------------------------------------------------------------------------

  /** The group `createGroup` stores: the creator leads the member list and is its only admin. */
  function NewGroup(walletAddress: string, name: string, description: string, members: seq<string>,
                    now: int, groupId: string): Group
  {
    var d := Trim(description);
    Group(groupId, Trim(name), if d == "" then None else Some(d),
          [walletAddress] + members, [walletAddress], walletAddress, now, None, now)
  }

  /** The refusal `createGroup` raises for an invitee list, if any. */
  function CreateRefusal(members: seq<string>): Option<string> {
    if |members| < MIN_INVITEES then Some(TOO_FEW_MEMBERS)
    else if |members| > MAX_INVITEES then Some(TOO_MANY_MEMBERS)
    else None
  }

  /**
   * A group is created exactly for 2 to 7 invitees; it then has 3 to 8
   * members with the creator first, the creator as its sole admin, and is
   * well formed. Its member list repeats no address exactly when the invitees
   * are distinct and do not include the creator (creation does not check this).
   */
  lemma NewGroupFacts(walletAddress: string, name: string, description: string, members: seq<string>, now: int, groupId: string)
    ensures CreateRefusal(members).None? <==> MIN_INVITEES <= |members| <= MAX_INVITEES
    ensures var g := NewGroup(walletAddress, name, description, members, now, groupId);
      && g.id == groupId
      && g.members[0] == walletAddress && g.members[1..] == members
      && g.admins == [walletAddress] && g.createdBy == walletAddress
      && g.lastActivity == now && g.createdAt == now
      && (CreateRefusal(members).None? ==> 3 <= |g.members| <= MAX_MEMBERS && WellFormed(g))
      && (Distinct(g.members) <==> Distinct(members) && walletAddress !in members)
  {
    var g := NewGroup(walletAddress, name, description, members, now, groupId);
    assert g.members[1..] == members;
    assert g.members == [walletAddress] + members;
    assert multiset(g.members) == multiset{walletAddress} + multiset(members);
    if Distinct(g.members) {
      assert multiset(g.members)[walletAddress] == 1 + multiset(members)[walletAddress];
      forall x | x in multiset(members) ensures multiset(members)[x] == 1 {
        assert multiset(g.members)[x] >= multiset(members)[x];
        assert x in g.members;
      }
    }
    if Distinct(members) && walletAddress !in members {
      forall x | x in multiset(g.members) ensures multiset(g.members)[x] == 1 {
        if x == walletAddress {
          assert multiset(members)[x] == 0;
        } else {
          assert x in multiset(members);
        }
      }
    }
  }

  // ---------------------------------------------------------------------------
  // Membership changes
  // ---------------------------------------------------------------------------

  /** The refusal `addMemberToGroup` raises once the group is found, if any. */
  function AddRefusal(g: Group, walletAddress: string, memberAddress: string): Option<string> {
    if walletAddress !in g.admins then Some(ONLY_ADMINS_ADD)
    else if memberAddress in g.members then Some(ALREADY_MEMBER)
    else if |g.members| >= MAX_MEMBERS then Some(GROUP_FULL)
    else None
  }

  /** `group.members.push(member)` with the activity stamp. */
  function WithMember(g: Group, memberAddress: string, now: int): Group {
    g.(members := g.members + [memberAddress], lastActivity := now)
  }

  /**
   * An accepted addition comes from an admin, for an address not yet a member
   * of a group below capacity; it appends the address at the end, leaves the
   * admins alone, and keeps the group well formed and free of repeated members.
   */
  lemma WithMemberFacts(g: Group, walletAddress: string, memberAddress: string, now: int)
    requires AddRefusal(g, walletAddress, memberAddress).None?
    ensures walletAddress in g.admins && memberAddress !in g.members && |g.members| < MAX_MEMBERS
    ensures var r := WithMember(g, memberAddress, now);
      && r.members == g.members + [memberAddress] && r.admins == g.admins && r.id == g.id
      && |r.members| <= MAX_MEMBERS
      && (WellFormed(g) ==> WellFormed(r))
      && (Distinct(g.members) ==> Distinct(r.members))
  {
    var r := WithMember(g, memberAddress, now);
    if Distinct(g.members) {
      DistinctAppend(g.members, memberAddress);
    }
  }

  function IsNotAddress(a: string): string -> bool {
    (x: string) => x != a
  }

  /** The refusal `removeMemberFromGroup` raises once the group is found, if any. */
  function RemoveRefusal(g: Group, walletAddress: string, memberAddress: string): Option<string> {
    if walletAddress !in g.admins && memberAddress != walletAddress then Some(ONLY_ADMINS_REMOVE) else None
  }

  /** The address filtered out of both `members` and `admins`, with the activity stamp. */
  function WithoutMember(g: Group, memberAddress: string, now: int): Group {
    g.(members := Filter(g.members, IsNotAddress(memberAddress)),
       admins := Filter(g.admins, IsNotAddress(memberAddress)),
       lastActivity := now)
  }

  /**
   * A non-admin may only remove themselves. Removal takes the address out of
   * both lists, keeps every other member and admin in its order, and keeps
   * the group well formed and free of repeated members.
   */
  lemma WithoutMemberFacts(g: Group, walletAddress: string, memberAddress: string, now: int)
    ensures RemoveRefusal(g, walletAddress, memberAddress).None? <==> walletAddress in g.admins || memberAddress == walletAddress
    ensures var r := WithoutMember(g, memberAddress, now);
      && memberAddress !in r.members && memberAddress !in r.admins && r.id == g.id
      && (forall x :: x != memberAddress ==> (x in r.members <==> x in g.members) && (x in r.admins <==> x in g.admins))
      && Subsequence(r.members, g.members) && Subsequence(r.admins, g.admins)
      && (WellFormed(g) ==> WellFormed(r))
      && (Distinct(g.members) ==> Distinct(r.members))
  {
    var p := IsNotAddress(memberAddress);
    FilterSubsequence(g.members, p);
    FilterSubsequence(g.admins, p);
    var r := WithoutMember(g, memberAddress, now);
    if Distinct(g.members) {
      forall x | x in multiset(r.members) ensures multiset(r.members)[x] == 1 {
        FilterMultiset(g.members, p, x);
      }
    }
  }

  // ---------------------------------------------------------------------------
  // Activity, replacement and deletion
  // ---------------------------------------------------------------------------

  /** `updateGroupActivity`: the first group with the id gets `lastActivity := now`. */
  function Touched(groups: seq<Group>, groupId: string, now: int): seq<Group> {
    match FindIndex(groups, GroupIdIs(groupId))
    case None => groups
    case Some(i) => groups[i := groups[i].(lastActivity := now)]
  }

  /**
   * Touching changes at most the activity stamp of one group (the first with
   * the id), so the list keeps its length, ids, members and admins; a missing
   * id, or a group already stamped `now`, leaves the list as it was.
   */
  lemma TouchedFacts(groups: seq<Group>, groupId: string, now: int)
    ensures var r := Touched(groups, groupId, now);
      && |r| == |groups|
      && (forall i :: 0 <= i < |r| ==> r[i] == groups[i] || (groups[i].id == groupId && r[i] == groups[i].(lastActivity := now)))
      && (forall g :: g in groups && g.id != groupId ==> g in r)
      && ((forall i :: 0 <= i < |groups| && groups[i].id == groupId ==> groups[i].lastActivity == now) ==> r == groups)
      && (ListValid(groups) ==> ListValid(r))
  {
    var r := Touched(groups, groupId, now);
    var f := FindIndex(groups, GroupIdIs(groupId));
    if f.Some? {
      var i := f.value;
      forall g | g in groups && g.id != groupId ensures g in r {
        var k :| 0 <= k < |groups| && groups[k] == g;
        assert r[k] == g;
      }
      if ListValid(groups) {
        forall g | g in r ensures WellFormed(g) {
          var k :| 0 <= k < |r| && r[k] == g;
          assert groups[k] in groups;
        }
      }
    }
  }

  /**
   * Putting a group stamped `now` in place of the first one with its id: the
   * stamp that follows changes nothing more, and a well-formed replacement
   * keeps the list valid.
   */
  lemma StampedAt(groups: seq<Group>, i: nat, g: Group, now: int)
    requires FindIndex(groups, GroupIdIs(g.id)) == Some(i)
    requires g.lastActivity == now
    ensures Touched(groups[i := g], g.id, now) == groups[i := g]
    ensures ListValid(groups) && WellFormed(g) ==> ListValid(groups[i := g])
  {
    var r := groups[i := g];
    FindIndexSame(groups, r, GroupIdIs(g.id));
    assert r[i].(lastActivity := now) == r[i];
    if ListValid(groups) && WellFormed(g) {
      forall x | x in r ensures WellFormed(x) {
        var k :| 0 <= k < |r| && r[k] == x;
        if k != i {
          assert groups[k] in groups;
        }
      }
    }
  }

  /** `updateGroup`: the first group with the same id is replaced; nothing happens when there is none. */
  function Replaced(groups: seq<Group>, group: Group): seq<Group> {
    match FindIndex(groups, GroupIdIs(group.id))
    case None => groups
    case Some(i) => groups[i := group]
  }

  /**
   * Replacement puts the new group in place of the first one with its id and
   * leaves every other position alone; a list without that id is unchanged.
   */
  lemma ReplacedFacts(groups: seq<Group>, group: Group)
    ensures var r := Replaced(groups, group);
      && |r| == |groups|
      && (group.id !in KeysOf(groups, GroupKey) ==> r == groups)
      && (group.id in KeysOf(groups, GroupKey) ==> group in r)
      && (forall i :: 0 <= i < |r| ==> r[i] == groups[i] || (groups[i].id == group.id && r[i] == group))
      && (ListValid(groups) && WellFormed(group) ==> ListValid(r))
  {
    var r := Replaced(groups, group);
    var f := FindIndex(groups, GroupIdIs(group.id));
    if f.Some? {
      assert groups[f.value] in groups;
    }
    if group.id in KeysOf(groups, GroupKey) {
      var k :| 0 <= k < |groups| && groups[k].id == group.id;
      assert GroupIdIs(group.id)(groups[k]);
      assert r[f.value] == group;
    }
    if f.Some? && ListValid(groups) && WellFormed(group) {
      forall g | g in r ensures WellFormed(g) {
        var k :| 0 <= k < |r| && r[k] == g;
        if k != f.value {
          assert groups[k] in groups;
        }
      }
    }
  }

  /**
   * `deleteGroup` keeps, in order, exactly the groups with another id and the
   * messages of other groups.
   */
  lemma DeletedFacts(groups: seq<Group>, messages: seq<GroupMessage>, groupId: string)
    ensures var r := Filter(groups, GroupIdIsNot(groupId));
      && (forall g :: g in r <==> g in groups && g.id != groupId)
      && Subsequence(r, groups)
      && (ListValid(groups) ==> ListValid(r))
    ensures var r := Filter(messages, NotInGroup(groupId));
      && (forall m :: m in r <==> m in messages && m.groupId != groupId)
      && Subsequence(r, messages)
  {
    FilterSubsequence(groups, GroupIdIsNot(groupId));
    FilterSubsequence(messages, NotInGroup(groupId));
  }

  /** The system message announcing a change to a group. */
  function SystemNote(groupId: string, content: string, now: int, messageId: string): GroupMessage {
    GroupMessage(messageId, groupId, "system", content, None, now, "", SystemMessage, None)
  }

  function CreatedNote(name: string, walletAddress: string): string {
    "Group \"" + name + "\" was created by " + Take(walletAddress, 8) + "..."
  }

  function AddedNote(memberAddress: string): string {
    Take(memberAddress, 8) + "... was added to the group"
  }

  function RemovedNote(walletAddress: string, memberAddress: string): string {
    Take(memberAddress, 8) + "... " + (if memberAddress == walletAddress then "left" else "was removed from") + " the group"
  }

  /** `getMessagesForGroup`: that group's messages, oldest first. */
  function ForGroup(messages: seq<GroupMessage>, groupId: string): seq<GroupMessage> {
    SortBy(Filter(messages, InGroup(groupId)), GroupMessageTime)
  }

  /**
   * A group's messages are exactly the stored messages carrying its id, each
   * as often as it is stored, in ascending timestamp order.
   */
  lemma ForGroupFacts(messages: seq<GroupMessage>, groupId: string)
    ensures var r := ForGroup(messages, groupId);
      && SortedBy(r, GroupMessageTime)
      && (forall m :: m in r <==> m in messages && m.groupId == groupId)
      && (forall m: GroupMessage :: m.groupId == groupId ==> multiset(r)[m] == multiset(messages)[m])
      && (forall m: GroupMessage :: m.groupId != groupId ==> multiset(r)[m] == 0)
  {
    var f := Filter(messages, InGroup(groupId));
    var r := ForGroup(messages, groupId);
    assert multiset(r) == multiset(f);
    forall m: GroupMessage ensures multiset(r)[m] == if m.groupId == groupId then multiset(messages)[m] else 0 {
      FilterMultiset(messages, InGroup(groupId), m);
    }
    forall m ensures m in r <==> m in f {
      assert m in r <==> m in multiset(r);
      assert m in f <==> m in multiset(f);
    }
  }

  // ---------------------------------------------------------------------------
  // The service
  // ---------------------------------------------------------------------------

  class GroupService {
    var groups: map<string, seq<Group>>
    var groupMessages: map<string, seq<GroupMessage>>

    constructor()
      ensures groups == map[] && groupMessages == map[]
    {
      groups := map[];
      groupMessages := map[];
    }

    function GetGroups(walletAddress: string): seq<Group>
      reads this
    {
      LoadGroups(groups, walletAddress)
    }

    function GetGroupMessages(walletAddress: string): seq<GroupMessage>
      reads this
    {
      LoadGroupMessages(groupMessages, walletAddress)
    }

    /**
     * `createGroup`: for 2 to 7 invitees, the new group is appended, then its
     * creation notice is saved (which stamps the first group with that id).
     */
    method CreateGroup(walletAddress: string, name: string, description: string, members: seq<string>,
                       now: int, groupId: string, messageId: string) returns (result: Result<string>)
      modifies this
      ensures CreateRefusal(members).Some? ==>
        result == Err(CreateRefusal(members).value) && groups == old(groups) && groupMessages == old(groupMessages)
      ensures CreateRefusal(members).None? ==>
        && result == Ok(groupId)
        && groups == old(groups)[walletAddress :=
             Touched(LoadGroups(old(groups), walletAddress) + [NewGroup(walletAddress, name, description, members, now, groupId)], groupId, now)]
        && groupMessages == old(groupMessages)[walletAddress :=
             LoadGroupMessages(old(groupMessages), walletAddress) + [SystemNote(groupId, CreatedNote(name, walletAddress), now, messageId)]]
      ensures old(GroupsValid(groups)) ==> GroupsValid(groups)
    {
      if |members| < MIN_INVITEES {
        return Err(TOO_FEW_MEMBERS);
      }
      if |members| > MAX_INVITEES {
        return Err(TOO_MANY_MEMBERS);
      }
      var list := GetGroups(walletAddress);
      var group := NewGroup(walletAddress, name, description, members, now, groupId);
      NewGroupFacts(walletAddress, name, description, members, now, groupId);
      list := list + [group];
      ghost var before := groups;
      groups := groups[walletAddress := list];
      assert GroupsValid(before) ==> ListValid(list) by {
        if GroupsValid(before) {
          assert ListValid(LoadGroups(before, walletAddress));
        }
      }
      AddSystemMessage(walletAddress, groupId, CreatedNote(name, walletAddress), now, messageId);
      result := Ok(groupId);
    }

    /**
     * `addMemberToGroup`: refused when the group is missing, the caller is not
     * an admin, the address is already a member or the group is full;
     * otherwise the address is appended and the notice saved.
     */
    method AddMemberToGroup(walletAddress: string, groupId: string, memberAddress: string, now: int, messageId: string)
      returns (outcome: Result<()>)
      modifies this
      ensures var list := LoadGroups(old(groups), walletAddress);
        var found := FindIndex(list, GroupIdIs(groupId));
        var refusal := if found.None? then Some(GROUP_NOT_FOUND) else AddRefusal(list[found.value], walletAddress, memberAddress);
        && (refusal.Some? ==> outcome == Err(refusal.value) && groups == old(groups) && groupMessages == old(groupMessages))
        && (refusal.None? ==>
              && outcome == Ok(())
              && groups == old(groups)[walletAddress := list[found.value := WithMember(list[found.value], memberAddress, now)]]
              && groupMessages == old(groupMessages)[walletAddress :=
                   LoadGroupMessages(old(groupMessages), walletAddress) + [SystemNote(groupId, AddedNote(memberAddress), now, messageId)]])
      ensures old(GroupsValid(groups)) ==> GroupsValid(groups)
    {
      var list := GetGroups(walletAddress);
      var found := FindIndex(list, GroupIdIs(groupId));
      if found.None? {
        return Err(GROUP_NOT_FOUND);
      }
      var group := list[found.value];
      if walletAddress !in group.admins {
        return Err(ONLY_ADMINS_ADD);
      }
      if memberAddress in group.members {
        return Err(ALREADY_MEMBER);
      }
      if |group.members| >= MAX_MEMBERS {
        return Err(GROUP_FULL);
      }
      WithMemberFacts(group, walletAddress, memberAddress, now);
      group := group.(members := group.members + [memberAddress], lastActivity := now);
      ReplaceAndAnnounce(walletAddress, found.value, group, now, AddedNote(memberAddress), messageId);
      outcome := Ok(());
    }

    /**
     * `removeMemberFromGroup`: refused when the group is missing, or when a
     * non-admin removes someone else; otherwise the address leaves both
     * lists and the notice is saved. Removing a non-member is accepted.
     */
    method RemoveMemberFromGroup(walletAddress: string, groupId: string, memberAddress: string, now: int, messageId: string)
      returns (outcome: Result<()>)
      modifies this
      ensures var list := LoadGroups(old(groups), walletAddress);
        var found := FindIndex(list, GroupIdIs(groupId));
        var refusal := if found.None? then Some(GROUP_NOT_FOUND) else RemoveRefusal(list[found.value], walletAddress, memberAddress);
        && (refusal.Some? ==> outcome == Err(refusal.value) && groups == old(groups) && groupMessages == old(groupMessages))
        && (refusal.None? ==>
              && outcome == Ok(())
              && groups == old(groups)[walletAddress := list[found.value := WithoutMember(list[found.value], memberAddress, now)]]
              && groupMessages == old(groupMessages)[walletAddress :=
                   LoadGroupMessages(old(groupMessages), walletAddress) + [SystemNote(groupId, RemovedNote(walletAddress, memberAddress), now, messageId)]])
      ensures old(GroupsValid(groups)) ==> GroupsValid(groups)
    {
      var list := GetGroups(walletAddress);
      var found := FindIndex(list, GroupIdIs(groupId));
      if found.None? {
        return Err(GROUP_NOT_FOUND);
      }
      var group := list[found.value];
      if walletAddress !in group.admins && memberAddress != walletAddress {
        return Err(ONLY_ADMINS_REMOVE);
      }
      assert WellFormed(group) ==> WellFormed(WithoutMember(group, memberAddress, now)) by {
        WithoutMemberFacts(group, walletAddress, memberAddress, now);
      }
      group := WithoutMember(group, memberAddress, now);
      ReplaceAndAnnounce(walletAddress, found.value, group, now, RemovedNote(walletAddress, memberAddress), messageId);
      outcome := Ok(());
    }

    /**
     * The common tail of a membership change: the changed group, stamped
     * `now`, is written back in place of the first group with its id, and the
     * notice is saved (its stamp then changes nothing).
     */
    method ReplaceAndAnnounce(walletAddress: string, i: nat, group: Group, now: int, content: string, messageId: string)
      requires FindIndex(GetGroups(walletAddress), GroupIdIs(group.id)) == Some(i)
      requires group.lastActivity == now
      modifies this
      ensures groups == old(groups)[walletAddress := old(GetGroups(walletAddress))[i := group]]
      ensures groupMessages == old(groupMessages)[walletAddress :=
        LoadGroupMessages(old(groupMessages), walletAddress) + [SystemNote(group.id, content, now, messageId)]]
      ensures old(GroupsValid(groups)) && WellFormed(group) ==> GroupsValid(groups)
    {
      var list := GetGroups(walletAddress);
      StampedAt(list, i, group, now);
      list := list[i := group];
      groups := groups[walletAddress := list];
      AddSystemMessage(walletAddress, group.id, content, now, messageId);
    }

    /** `saveGroupMessage`: the message is appended, then its group is stamped. */
    method SaveGroupMessage(walletAddress: string, message: GroupMessage, now: int)
      modifies this
      ensures groupMessages == old(groupMessages)[walletAddress := LoadGroupMessages(old(groupMessages), walletAddress) + [message]]
      ensures groups == old(groups)[walletAddress := Touched(LoadGroups(old(groups), walletAddress), message.groupId, now)]
      ensures old(GroupsValid(groups)) ==> GroupsValid(groups)
    {
      var messages := GetGroupMessages(walletAddress);
      messages := messages + [message];
      groupMessages := groupMessages[walletAddress := messages];
      UpdateGroupActivity(walletAddress, message.groupId, now);
    }

    /** `addSystemMessage` */
    method AddSystemMessage(walletAddress: string, groupId: string, content: string, now: int, messageId: string)
      modifies this
      ensures groupMessages == old(groupMessages)[walletAddress :=
        LoadGroupMessages(old(groupMessages), walletAddress) + [SystemNote(groupId, content, now, messageId)]]
      ensures groups == old(groups)[walletAddress := Touched(LoadGroups(old(groups), walletAddress), groupId, now)]
      ensures old(GroupsValid(groups)) ==> GroupsValid(groups)
    {
      SaveGroupMessage(walletAddress, SystemNote(groupId, content, now, messageId), now);
    }

    /**
     * `updateGroupActivity`: the first group with the id gets the new activity
     * time. The source writes only when such a group exists; the model writes
     * the list back in every case, which reads back through `LoadGroups`
     * exactly as the untouched store would.
     */
    method UpdateGroupActivity(walletAddress: string, groupId: string, now: int)
      modifies this
      ensures groups == old(groups)[walletAddress := Touched(LoadGroups(old(groups), walletAddress), groupId, now)]
      ensures groupMessages == old(groupMessages)
      ensures old(GroupsValid(groups)) ==> GroupsValid(groups)
    {
      var list := GetGroups(walletAddress);
      TouchedFacts(list, groupId, now);
      var groupIndex := FindIndex(list, GroupIdIs(groupId));
      if groupIndex.Some? {
        list := list[groupIndex.value := list[groupIndex.value].(lastActivity := now)];
      }
      groups := groups[walletAddress := list];
    }

    /** `getMessagesForGroup`: the group's stored messages, oldest first. */
    function GetMessagesForGroup(walletAddress: string, groupId: string): (r: seq<GroupMessage>)
      reads this
      ensures SortedBy(r, GroupMessageTime)
      ensures forall m :: m in r <==> m in GetGroupMessages(walletAddress) && m.groupId == groupId
    {
      ForGroupFacts(GetGroupMessages(walletAddress), groupId);
      ForGroup(GetGroupMessages(walletAddress), groupId)
    }

    /** `updateGroup`: writes back only when a group has the id. */
    method UpdateGroup(walletAddress: string, group: Group)
      modifies this
      ensures groups == old(groups)[walletAddress := Replaced(LoadGroups(old(groups), walletAddress), group)]
      ensures groupMessages == old(groupMessages)
      ensures old(GroupsValid(groups)) && WellFormed(group) ==> GroupsValid(groups)
    {
      var list := GetGroups(walletAddress);
      ReplacedFacts(list, group);
      var index := FindIndex(list, GroupIdIs(group.id));
      if index.Some? {
        list := list[index.value := group];
      }
      groups := groups[walletAddress := list];
    }

    /** `deleteGroup`: the group and all of its messages go. */
    method DeleteGroup(walletAddress: string, groupId: string)
      modifies this
      ensures groups == old(groups)[walletAddress := Filter(LoadGroups(old(groups), walletAddress), GroupIdIsNot(groupId))]
      ensures groupMessages == old(groupMessages)[walletAddress :=
        Filter(LoadGroupMessages(old(groupMessages), walletAddress), NotInGroup(groupId))]
      ensures old(GroupsValid(groups)) ==> GroupsValid(groups)
    {
      var list := GetGroups(walletAddress);
      var messages := GetGroupMessages(walletAddress);
      DeletedFacts(list, messages, groupId);
      groups := groups[walletAddress := Filter(list, GroupIdIsNot(groupId))];
      groupMessages := groupMessages[walletAddress := Filter(messages, NotInGroup(groupId))];
    }
  }
}

=== FILE: ipfs_index.dfy ===
/**
 * The older IPFS service of app/lib/ipfs.ts: a per-wallet index of content
 * hashes (`solchat_message_index`), a local fallback store for messages whose
 * upload failed (`ipfs_local_messages`), retrieval with the local-prefix
 * shortcut, the per-wallet queries with their first-occurrence deduplication,
 * discovery of incoming messages and the age-based cleanup of the index.
 *
 * Gateway answers are the oracle `gateways` (`None` when every gateway fails),
 * the listing answer, the upload outcome and the clock are parameters.
 */
module IpfsIndex {
  import opened Common
  import opened ContentStore

  /** Ids of messages kept only in the local fallback store start with this. */
  const LOCAL_PREFIX := "ipfs_local_"
  /** The default `maxAge` of `cleanupOldMessages`: seven days in milliseconds. */
  const DEFAULT_MAX_AGE: int := 7 * 24 * 60 * 60 * 1000

  const NOT_CONFIGURED := "Pinata credentials not configured. Please set them in Settings."
  /** The error `storeViaPinataFile` throws: `reason` is the message of the file upload's failure. */
  function AllMethodsFailed(reason: string): string {
    "All IPFS upload methods failed: " + reason
  }

  /** The error `storeMessage` throws around the error of the upload. */
  function StorageFailed(error: string): string {
    "IPFS storage failed: " + error + ". Message saved locally as fallback."
  }

  /** An entry `{ id, message, timestamp }` of the local fallback store. */
  datatype LocalEntry = LocalEntry(id: string, message: WireMessage, timestamp: int)

  /** A message as the queries return it: `{ ...message, ipfsHash }`. */
  datatype Located = Located(message: WireMessage, ipfsHash: string)

  /** What one `pinFileToIPFS` request did: pinned under a CID, or failed with `reason`. */
  datatype FileOutcome = FilePinned(cid: string) | FileFailed(reason: string)

  /**
   * What the Pinata requests of one `storeViaPinata` answered. The JSON upload
   * pins, or throws and the file upload runs once, or answers non-OK and the
   * file upload runs inside the `try`; when that file upload fails, its throw
   * lands in the same `catch`, which runs the file upload again (`retry`,
   * consulted only then).
   */
  datatype Upload = JsonPinned(cid: string) | JsonThrew(file: FileOutcome) | JsonNotOk(first: FileOutcome, retry: FileOutcome)

  function LocatedTime(x: Located): int {
    x.message.timestamp
  }

  function LocatedId(x: Located): string {
    x.message.id
  }

  // ---------------------------------------------------------------------------
  // The index
  // ---------------------------------------------------------------------------

  function Hashes(index: map<string, seq<string>>, wallet: string): seq<string> {
    if wallet in index then index[wallet] else []
  }

  /** `addToMessageIndex`: the hash is appended to the wallet's list unless it is already there. */
  function AddHash(index: map<string, seq<string>>, wallet: string, hash: string): map<string, seq<string>> {
    var existing := Hashes(index, wallet);
    if hash !in existing then index[wallet := existing + [hash]] else index
  }

  /** Every wallet's list of hashes is duplicate-free. */
  ghost predicate IndexValid(index: map<string, seq<string>>) {
    forall w :: w in index ==> Distinct(index[w])
  }

  /**
   * Adding a hash is idempotent, keeps the lists duplicate-free, records the
   * hash for that wallet, keeps what was there in front, and leaves every other
   * wallet alone.
   */
  lemma AddHashFacts(index: map<string, seq<string>>, wallet: string, hash: string)
    ensures AddHash(AddHash(index, wallet, hash), wallet, hash) == AddHash(index, wallet, hash)
    ensures IndexValid(index) ==> IndexValid(AddHash(index, wallet, hash))
    ensures hash in Hashes(AddHash(index, wallet, hash), wallet)
    ensures Hashes(index, wallet) <= Hashes(AddHash(index, wallet, hash), wallet)
    ensures forall w :: w != wallet ==> Hashes(AddHash(index, wallet, hash), w) == Hashes(index, w)
  {
    var existing := Hashes(index, wallet);
    if hash !in existing {
      assert hash in existing + [hash];
      if IndexValid(index) {
        if wallet in index {
          DistinctAppend(existing, hash);
        } else {
          assert multiset([hash])[hash] == 1;
        }
      }
    }
  }

  // ---------------------------------------------------------------------------
  // Retrieval
  // ---------------------------------------------------------------------------

  function EntryIdIs(id: string): LocalEntry -> bool {
    (e: LocalEntry) => e.id == id
  }

  /** `retrieveLocalFallback`: the message of the first entry with the id. */
  function LocalLookup(store: seq<LocalEntry>, id: string): Option<WireMessage> {
    match FindIndex(store, EntryIdIs(id))
    case Some(i) => Some(store[i].message)
    case None => None
  }

  /** `retrieveMessage`: local ids go to the fallback store only; others try the gateways, then the store. */
  function Retrieve(store: seq<LocalEntry>, gateways: Retrieval, cid: string): Option<WireMessage> {
    if StartsWith(cid, LOCAL_PREFIX) then LocalLookup(store, cid)
    else if gateways(cid).Some? then gateways(cid)
    else LocalLookup(store, cid)
  }

  /**
   * A local id is answered from the fallback store alone, whatever the
   * gateways do: the message of the first entry with that id, or nothing.
   */
  lemma RetrieveLocalFacts(store: seq<LocalEntry>, gateways: Retrieval, other: Retrieval, cid: string)
    requires StartsWith(cid, LOCAL_PREFIX)
    ensures Retrieve(store, gateways, cid) == Retrieve(store, other, cid)
    ensures Retrieve(store, gateways, cid).None? <==> forall e :: e in store ==> e.id != cid
    ensures Retrieve(store, gateways, cid).Some? ==>
      exists i :: 0 <= i < |store| && store[i].id == cid && store[i].message == Retrieve(store, gateways, cid).value &&
        forall j :: 0 <= j < i ==> store[j].id != cid
  {
    match FindIndex(store, EntryIdIs(cid))
    case Some(i) =>
      assert store[i] in store;
    case None =>
  }

  /** A message kept under a fresh local id is found again under that id. */
  lemma FallbackRetrievable(store: seq<LocalEntry>, gateways: Retrieval, entries: seq<LocalEntry>, k: nat)
    requires k < |entries| && StartsWith(entries[k].id, LOCAL_PREFIX)
    requires forall e :: e in store ==> e.id != entries[k].id
    requires forall j :: 0 <= j < k ==> entries[j].id != entries[k].id
    ensures Retrieve(store + entries, gateways, entries[k].id) == Some(entries[k].message)
  {
    var s := store + entries;
    assert s[|store| + k] == entries[k];
    assert forall j :: 0 <= j < |store| ==> s[j] == store[j];
    assert forall j :: |store| <= j < |s| ==> s[j] == entries[j - |store|];
  }

  // ---------------------------------------------------------------------------
  // Per-wallet queries
  // ---------------------------------------------------------------------------

  /** The retrievals of `hashes` that involve the wallet, each with its hash. */
  function Collected(store: seq<LocalEntry>, gateways: Retrieval, wallet: string, hashes: seq<string>): seq<Located> {
    if hashes == [] then []
    else
      var h := hashes[|hashes| - 1];
      var m := Retrieve(store, gateways, h);
      Collected(store, gateways, wallet, hashes[..|hashes| - 1]) +
      (if m.Some? && Involves(m.value, wallet) then [Located(m.value, h)] else [])
  }

  /** `getMessagesByAddress`: the indexed messages involving the wallet, oldest first. */
  function ByAddress(index: map<string, seq<string>>, store: seq<LocalEntry>, gateways: Retrieval, wallet: string): seq<Located> {
    SortBy(Collected(store, gateways, wallet, Hashes(index, wallet)), LocatedTime)
  }

  lemma {:induction false} CollectedFacts(store: seq<LocalEntry>, gateways: Retrieval, wallet: string, hashes: seq<string>)
    ensures forall x :: x in Collected(store, gateways, wallet, hashes) <==>
      x.ipfsHash in hashes && Retrieve(store, gateways, x.ipfsHash) == Some(x.message) && Involves(x.message, wallet)
  {
    if hashes != [] {
      var init := hashes[..|hashes| - 1];
      CollectedFacts(store, gateways, wallet, init);
      assert forall h :: h in hashes <==> h in init || h == hashes[|hashes| - 1];
    }
  }

  /**
   * The messages of a wallet are exactly the retrievable contents of its
   * indexed hashes that involve it, each paired with its hash, oldest first.
   */
  lemma ByAddressFacts(index: map<string, seq<string>>, store: seq<LocalEntry>, gateways: Retrieval, wallet: string)
    ensures SortedBy(ByAddress(index, store, gateways, wallet), LocatedTime)
    ensures forall x :: x in ByAddress(index, store, gateways, wallet) <==>
      x.ipfsHash in Hashes(index, wallet) && Retrieve(store, gateways, x.ipfsHash) == Some(x.message) && Involves(x.message, wallet)
  {
    CollectedFacts(store, gateways, wallet, Hashes(index, wallet));
    forall x ensures x in ByAddress(index, store, gateways, wallet) <==> x in Collected(store, gateways, wallet, Hashes(index, wallet)) {
      SortByMembership(Collected(store, gateways, wallet, Hashes(index, wallet)), LocatedTime, x);
    }
  }

  /** The fallback entries whose message involves the wallet, located under their entry id. */
  function LocalFor(store: seq<LocalEntry>, wallet: string): seq<Located> {
    if store == [] then []
    else
      var e := store[|store| - 1];
      LocalFor(store[..|store| - 1], wallet) + (if Involves(e.message, wallet) then [Located(e.message, e.id)] else [])
  }

  lemma {:induction false} LocalForFacts(store: seq<LocalEntry>, wallet: string)
    ensures forall x :: x in LocalFor(store, wallet) <==>
      Involves(x.message, wallet) && exists e :: e in store && e.id == x.ipfsHash && e.message == x.message
  {
    if store != [] {
      var init := store[..|store| - 1];
      LocalForFacts(init, wallet);
      assert forall e :: e in store <==> e in init || e == store[|store| - 1];
    }
  }

  /** `getAllMessagesForUser`: indexed then local messages, first occurrence of each id kept, oldest first. */
  function AllForUser(index: map<string, seq<string>>, store: seq<LocalEntry>, gateways: Retrieval, wallet: string): seq<Located> {
    SortBy(DedupBy(ByAddress(index, store, gateways, wallet) + LocalFor(store, wallet), LocatedId), LocatedTime)
  }

  /**
   * The merged view holds one message per id, every one of them involving the
   * wallet, loses no id of either source, prefers the indexed copy over the
   * local one, and is sorted.
   */
  lemma AllForUserFacts(index: map<string, seq<string>>, store: seq<LocalEntry>, gateways: Retrieval, wallet: string)
    ensures var r := AllForUser(index, store, gateways, wallet);
      && SortedBy(r, LocatedTime)
      && KeysDistinct(r, LocatedId)
      && (forall x :: x in r ==> Involves(x.message, wallet))
      && KeysOf(r, LocatedId) == KeysOf(ByAddress(index, store, gateways, wallet), LocatedId) + KeysOf(LocalFor(store, wallet), LocatedId)
      && (forall x :: x in r && x.message.id in KeysOf(ByAddress(index, store, gateways, wallet), LocatedId) ==>
            x in ByAddress(index, store, gateways, wallet))
  {
    ByAddressFacts(index, store, gateways, wallet);
    LocalForFacts(store, wallet);
    DedupSortFacts(ByAddress(index, store, gateways, wallet), LocalFor(store, wallet), LocatedId, LocatedTime);
  }

  function IsNew(wallet: string, known: seq<string>): Located -> bool {
    (x: Located) => x.message.id !in known && x.message.to == wallet
  }

  /** `discoverNewMessages`' final filter over the merged, deduplicated messages. */
  function NewIncoming(found: seq<Located>, indexed: seq<Located>, wallet: string, known: seq<string>): seq<Located> {
    Filter(DedupBy(found + indexed, LocatedId), IsNew(wallet, known))
  }

  /**
   * Discovery returns only incoming messages whose id is not yet known, at most
   * one per id, the copy found on Pinata winning over the indexed one; and it
   * returns every unknown id of either source whose first copy (Pinata's
   * before the index's) is addressed to the wallet, as that copy.
   */
  lemma NewIncomingFacts(found: seq<Located>, indexed: seq<Located>, wallet: string, known: seq<string>)
    ensures var r := NewIncoming(found, indexed, wallet, known);
      && (forall x :: x in r ==> x.message.id !in known && x.message.to == wallet)
      && KeysDistinct(r, LocatedId)
      && (forall x :: x in r ==> x in found || x in indexed)
      && (forall x :: x in r && x.message.id in KeysOf(found, LocatedId) ==> x in found)
      && (forall k :: k in KeysOf(found + indexed, LocatedId) && k !in known ==>
            var first := (found + indexed)[FirstIndexOf(found + indexed, LocatedId, k)];
            first.message.to == wallet ==> first in r)
  {
    var d := DedupBy(found + indexed, LocatedId);
    FilterKeysDistinct(d, IsNew(wallet, known), LocatedId);
    forall x | x in NewIncoming(found, indexed, wallet, known) && x.message.id in KeysOf(found, LocatedId) ensures x in found {
      DedupPrefersLeft(found, indexed, LocatedId, x);
    }
    forall k | k in KeysOf(found + indexed, LocatedId) && k !in known
      ensures var first := (found + indexed)[FirstIndexOf(found + indexed, LocatedId, k)];
              first.message.to == wallet ==> first in NewIncoming(found, indexed, wallet, known)
    {
      FirstSurvives(found + indexed, LocatedId, k);
    }
  }

  // ---------------------------------------------------------------------------
  // The Pinata search
  // ---------------------------------------------------------------------------

  function PinHashes(pins: seq<Pin>): (r: seq<string>)
    ensures |r| == |pins| && forall i :: 0 <= i < |pins| ==> r[i] == pins[i].hash
  {
    seq(|pins|, i requires 0 <= i < |pins| => pins[i].hash)
  }

  /** What the loop of `searchPinataForMessages` collects: the SolChat pins' messages that involve the wallet. */
  function PinataFound(pins: seq<Pin>, store: seq<LocalEntry>, gateways: Retrieval, wallet: string): seq<Located> {
    Collected(store, gateways, wallet, PinHashes(Filter(pins, IsSolChatMessage)))
  }

  /**
   * A located message is collected exactly when some SolChat pin of the
   * listing has its hash, the hash retrieves the message, and the message
   * involves the wallet.
   */
  lemma PinataFoundFacts(pins: seq<Pin>, store: seq<LocalEntry>, gateways: Retrieval, wallet: string)
    ensures forall x :: x in PinataFound(pins, store, gateways, wallet) <==>
      && (exists pin :: pin in pins && IsSolChatMessage(pin) && pin.hash == x.ipfsHash)
      && Retrieve(store, gateways, x.ipfsHash) == Some(x.message) && Involves(x.message, wallet)
  {
    var solchat := Filter(pins, IsSolChatMessage);
    var hashes := PinHashes(solchat);
    CollectedFacts(store, gateways, wallet, hashes);
    forall h ensures h in hashes <==> exists pin :: pin in pins && IsSolChatMessage(pin) && pin.hash == h {
      if h in hashes {
        var i :| 0 <= i < |hashes| && hashes[i] == h;
        assert solchat[i] in solchat;
      }
      if exists pin :: pin in pins && IsSolChatMessage(pin) && pin.hash == h {
        var pin :| pin in pins && IsSolChatMessage(pin) && pin.hash == h;
        var i :| 0 <= i < |solchat| && solchat[i] == pin;
        assert hashes[i] == h;
      }
    }
  }

  /** The index after the search: each collected hash added under the wallet in turn. */
  function AddFound(index: map<string, seq<string>>, wallet: string, found: seq<Located>): map<string, seq<string>> {
    if found == [] then index
    else AddHash(AddFound(index, wallet, found[..|found| - 1]), wallet, found[|found| - 1].ipfsHash)
  }

  /**
   * Adding the collected hashes keeps the wallet's earlier hashes in front,
   * leaves every other wallet alone and keeps the lists duplicate-free.
   */
  lemma {:induction false} AddFoundKeeps(index: map<string, seq<string>>, wallet: string, found: seq<Located>)
    ensures var r := AddFound(index, wallet, found);
      && Hashes(index, wallet) <= Hashes(r, wallet)
      && (forall w :: w != wallet ==> Hashes(r, w) == Hashes(index, w))
      && (IndexValid(index) ==> IndexValid(r))
  {
    if found != [] {
      var init := found[..|found| - 1];
      AddFoundKeeps(index, wallet, init);
      AddHashFacts(AddFound(index, wallet, init), wallet, found[|found| - 1].ipfsHash);
    }
  }

  /** After the search the wallet has exactly its earlier hashes and the collected ones. */
  lemma {:induction false} AddFoundMembers(index: map<string, seq<string>>, wallet: string, found: seq<Located>)
    ensures forall h :: h in Hashes(AddFound(index, wallet, found), wallet) <==>
      h in Hashes(index, wallet) || exists x :: x in found && x.ipfsHash == h
  {
    if found != [] {
      var init := found[..|found| - 1];
      var last := found[|found| - 1];
      AddFoundMembers(index, wallet, init);
      var mid := AddFound(index, wallet, init);
      assert forall x :: x in found <==> x in init || x == last by {
        assert found == init + [last];
      }
      forall h ensures h in Hashes(AddFound(index, wallet, found), wallet) <==> h in Hashes(mid, wallet) || h == last.ipfsHash {
        AddHashMembers(mid, wallet, last.ipfsHash, h);
      }
    }
  }

  /** The hashes of a wallet after one addition: the old ones and the new one. */
  lemma AddHashMembers(index: map<string, seq<string>>, wallet: string, hash: string, h: string)
    ensures h in Hashes(AddHash(index, wallet, hash), wallet) <==> h in Hashes(index, wallet) || h == hash
  {
  }

  /** `searchPinataForMessages`' answer: nothing without credentials or on a failed listing. */
  function PinataSearch(configured: bool, answer: Option<seq<Pin>>, store: seq<LocalEntry>, gateways: Retrieval, wallet: string): seq<Located> {
    if !configured || answer.None? then []
    else SortBy(PinataFound(answer.value, store, gateways, wallet), LocatedTime)
  }

  /** The index after `searchPinataForMessages`. */
  function SearchedIndex(configured: bool, answer: Option<seq<Pin>>, index: map<string, seq<string>>,
                         store: seq<LocalEntry>, gateways: Retrieval, wallet: string): map<string, seq<string>> {
    if !configured || answer.None? then index
    else AddFound(index, wallet, PinataFound(answer.value, store, gateways, wallet))
  }

  /**
   * The search returns, oldest first, exactly the messages of the listing's
   * SolChat pins that retrieve and involve the wallet, each with its hash, and
   * every one of those hashes is then in the wallet's index.
   */
  lemma PinataSearchFacts(configured: bool, answer: Option<seq<Pin>>, index: map<string, seq<string>>,
                          store: seq<LocalEntry>, gateways: Retrieval, wallet: string)
    requires configured && answer.Some?
    ensures var r := PinataSearch(configured, answer, store, gateways, wallet);
      && SortedBy(r, LocatedTime)
      && (forall x :: x in r <==>
            && (exists pin :: pin in answer.value && IsSolChatMessage(pin) && pin.hash == x.ipfsHash)
            && Retrieve(store, gateways, x.ipfsHash) == Some(x.message) && Involves(x.message, wallet))
      && (forall x :: x in r ==> x.ipfsHash in Hashes(SearchedIndex(configured, answer, index, store, gateways, wallet), wallet))
  {
    var found := PinataFound(answer.value, store, gateways, wallet);
    PinataFoundFacts(answer.value, store, gateways, wallet);
    AddFoundMembers(index, wallet, found);
    forall x ensures x in SortBy(found, LocatedTime) <==> x in found {
      SortByMembership(found, LocatedTime, x);
    }
  }

  // ---------------------------------------------------------------------------
  // Cleanup
  // ---------------------------------------------------------------------------

  /** A hash survives the cleanup when its message is retrievable and younger than `maxAge`. */
  predicate Young(store: seq<LocalEntry>, gateways: Retrieval, now: int, maxAge: int, hash: string) {
    var m := Retrieve(store, gateways, hash);
    m.Some? && now - m.value.timestamp < maxAge
  }

  function YoungHash(store: seq<LocalEntry>, gateways: Retrieval, now: int, maxAge: int): string -> bool {
    (h: string) => Young(store, gateways, now, maxAge, h)
  }

  /** `cleanupOldMessages`' new index: each wallet keeps its young hashes. */
  function Cleaned(index: map<string, seq<string>>, store: seq<LocalEntry>, gateways: Retrieval, now: int, maxAge: int): map<string, seq<string>> {
    map w | w in index :: Filter(index[w], YoungHash(store, gateways, now, maxAge))
  }

  /**
   * After the cleanup every wallet keeps exactly its retrievable, young hashes,
   * in their order, and the lists stay duplicate-free.
   */
  lemma CleanedFacts(index: map<string, seq<string>>, store: seq<LocalEntry>, gateways: Retrieval, now: int, maxAge: int)
    ensures var r := Cleaned(index, store, gateways, now, maxAge);
      && r.Keys == index.Keys
      && (forall w :: w in r ==> Subsequence(r[w], index[w]))
      && (forall w, h :: w in r ==> (h in r[w] <==> h in index[w] && Young(store, gateways, now, maxAge, h)))
      && (IndexValid(index) ==> IndexValid(r))
  {
    var keep := YoungHash(store, gateways, now, maxAge);
    var r := Cleaned(index, store, gateways, now, maxAge);
    forall w | w in r ensures Subsequence(r[w], index[w]) {
      FilterSubsequence(index[w], keep);
    }
    if IndexValid(index) {
      forall w | w in r ensures Distinct(r[w]) {
        forall h | h in r[w] ensures multiset(r[w])[h] == 1 {
          FilterMultiset(index[w], keep, h);
        }
      }
    }
  }

  // ---------------------------------------------------------------------------
  // The service
  // ---------------------------------------------------------------------------

  class IpfsService {
    /** Whether `getPinataCredentials` finds credentials. */
    var configured: bool
    /** `messageIndex`: wallet address to content hashes. */
    var messageIndex: map<string, seq<string>>
    /** `ipfs_local_messages` */
    var localStore: seq<LocalEntry>

    constructor(configured: bool, storedIndex: map<string, seq<string>>, storedLocal: seq<LocalEntry>)
      ensures this.configured == configured && messageIndex == storedIndex && localStore == storedLocal
    {
      this.configured := configured;
      messageIndex := storedIndex;
      localStore := storedLocal;
    }

    method AddToMessageIndex(walletAddress: string, messageHash: string)
      modifies this
      ensures messageIndex == AddHash(old(messageIndex), walletAddress, messageHash)
      ensures configured == old(configured) && localStore == old(localStore)
    {
      var existing := Hashes(messageIndex, walletAddress);
      if messageHash !in existing {
        messageIndex := messageIndex[walletAddress := existing + [messageHash]];
      }
    }

    /**
     * `storeViaPinataFile`: a pinned file is the answer; a failure stores the
     * stamped message under the content hash of the upload and throws.
     */
    method StoreViaPinataFile(stamped: WireMessage, contentHash: string, file: FileOutcome, now: int)
      returns (r: Result<string>)
      modifies this
      ensures file.FilePinned? ==> r == Ok(file.cid) && localStore == old(localStore)
      ensures file.FileFailed? ==>
                r == Err(AllMethodsFailed(file.reason)) && localStore == old(localStore) + [LocalEntry(contentHash, stamped, now)]
      ensures configured == old(configured) && messageIndex == old(messageIndex)
    {
      match file
      case FilePinned(cid) =>
        r := Ok(cid);
      case FileFailed(reason) =>
        localStore := localStore + [LocalEntry(contentHash, stamped, now)];
        r := Err(AllMethodsFailed(reason));
    }

    /**
     * `storeViaPinata`: the JSON upload, then the file upload when it does not
     * pin, and the file upload once more when a file upload run from inside
     * the `try` throws. Each failed file upload leaves one content-hash copy.
     */
    method StoreViaPinata(stamped: WireMessage, contentHash: string, upload: Upload, now: int)
      returns (r: Result<string>)
      modifies this
      ensures var copy := LocalEntry(contentHash, stamped, now);
        match upload
        case JsonPinned(cid) => r == Ok(cid) && localStore == old(localStore)
        case JsonThrew(FilePinned(cid)) => r == Ok(cid) && localStore == old(localStore)
        case JsonThrew(FileFailed(reason)) => r == Err(AllMethodsFailed(reason)) && localStore == old(localStore) + [copy]
        case JsonNotOk(FilePinned(cid), _) => r == Ok(cid) && localStore == old(localStore)
        case JsonNotOk(FileFailed(_), FilePinned(cid)) => r == Ok(cid) && localStore == old(localStore) + [copy]
        case JsonNotOk(FileFailed(_), FileFailed(reason)) =>
          r == Err(AllMethodsFailed(reason)) && localStore == old(localStore) + [copy, copy]
      ensures configured == old(configured) && messageIndex == old(messageIndex)
    {
      match upload
      case JsonPinned(cid) =>
        r := Ok(cid);
      case JsonThrew(file) =>
        r := StoreViaPinataFile(stamped, contentHash, file, now);
      case JsonNotOk(first, retry) =>
        r := StoreViaPinataFile(stamped, contentHash, first, now);
        if r.Err? {
          r := StoreViaPinataFile(stamped, contentHash, retry, now);
        }
    }

    /**
     * `storeMessage`. The upload carries the message stamped with the time.
     * A pinned upload indexes the CID under both addresses; every failed file
     * upload on the way leaves a content-hash copy of the stamped message; and
     * when no request pins, the message itself is also stored under
     * `ipfs_local_<fallbackToken>` and the call fails.
     */
    method StoreMessage(message: WireMessage, upload: Upload, contentHash: string, now: int, fallbackToken: string)
      returns (r: Result<string>)
      modifies this
      ensures configured == old(configured)
      ensures !old(configured) ==> r == Err(NOT_CONFIGURED) && messageIndex == old(messageIndex) && localStore == old(localStore)
      ensures old(configured) && r.Ok? ==>
                messageIndex == AddHash(AddHash(old(messageIndex), message.from, r.value), message.to, r.value)
      ensures old(configured) && r.Err? ==> messageIndex == old(messageIndex)
      ensures old(configured) ==>
        var copy := LocalEntry(contentHash, message.(timestamp := now), now);
        var local := LocalEntry(LOCAL_PREFIX + fallbackToken, message, now);
        match upload
        case JsonPinned(cid) => r == Ok(cid) && localStore == old(localStore)
        case JsonThrew(FilePinned(cid)) => r == Ok(cid) && localStore == old(localStore)
        case JsonThrew(FileFailed(reason)) =>
          r == Err(StorageFailed(AllMethodsFailed(reason))) && localStore == old(localStore) + [copy, local]
        case JsonNotOk(FilePinned(cid), _) => r == Ok(cid) && localStore == old(localStore)
        case JsonNotOk(FileFailed(_), FilePinned(cid)) => r == Ok(cid) && localStore == old(localStore) + [copy]
        case JsonNotOk(FileFailed(_), FileFailed(reason)) =>
          r == Err(StorageFailed(AllMethodsFailed(reason))) && localStore == old(localStore) + [copy, copy, local]
    {
      if !configured {
        return Err(NOT_CONFIGURED);
      }
      var pinned := StoreViaPinata(message.(timestamp := now), contentHash, upload, now);
      match pinned
      case Ok(cid) =>
        AddToMessageIndex(message.from, cid);
        AddToMessageIndex(message.to, cid);
        r := Ok(cid);
      case Err(error) =>
        localStore := localStore + [LocalEntry(LOCAL_PREFIX + fallbackToken, message, now)];
        r := Err(StorageFailed(error));
    }

    /**
     * `retrieveMessage`: a local id is answered from the fallback store alone;
     * any other CID by the gateways when they answer, and otherwise from the
     * fallback store.
     */
    function RetrieveMessage(cid: string, gateways: Retrieval): (r: Option<WireMessage>)
      reads this
      ensures StartsWith(cid, LOCAL_PREFIX) ==> (r.None? <==> forall e :: e in localStore ==> e.id != cid)
      ensures !StartsWith(cid, LOCAL_PREFIX) && gateways(cid).Some? ==> r == gateways(cid)
      ensures r.Some? && r != gateways(cid) ==> exists e :: e in localStore && e.id == cid && e.message == r.value
    {
      assert StartsWith(cid, LOCAL_PREFIX) ==> (Retrieve(localStore, gateways, cid).None? <==> forall e :: e in localStore ==> e.id != cid) by {
        if StartsWith(cid, LOCAL_PREFIX) {
          RetrieveLocalFacts(localStore, gateways, gateways, cid);
        }
      }
      Retrieve(localStore, gateways, cid)
    }

    /** `getMessagesByAddress`: the batches of 5 run one after the other. */
    method GetMessagesByAddress(walletAddress: string, gateways: Retrieval) returns (messages: seq<Located>)
      ensures messages == ByAddress(messageIndex, localStore, gateways, walletAddress)
    {
      var messageHashes := Hashes(messageIndex, walletAddress);
      messages := [];
      var i := 0;
      while i < |messageHashes|
        invariant 0 <= i <= |messageHashes|
        invariant messages == Collected(localStore, gateways, walletAddress, messageHashes[..i])
      {
        assert messageHashes[..i + 1][..i] == messageHashes[..i];
        var hash := messageHashes[i];
        var message := RetrieveMessage(hash, gateways);
        if message.Some? && (message.value.from == walletAddress || message.value.to == walletAddress) {
          messages := messages + [Located(message.value, hash)];
        }
        i := i + 1;
      }
      assert messageHashes[..i] == messageHashes;
      messages := SortBy(messages, LocatedTime);
    }

    method GetAllMessagesForUser(walletAddress: string, gateways: Retrieval) returns (messages: seq<Located>)
      ensures messages == AllForUser(messageIndex, localStore, gateways, walletAddress)
    {
      var indexedMessages := GetMessagesByAddress(walletAddress, gateways);
      var localMessages := LocalFor(localStore, walletAddress);
      messages := SortBy(DedupBy(indexedMessages + localMessages, LocatedId), LocatedTime);
    }

    /**
     * `searchPinataForMessages`: each SolChat message pin whose content
     * involves the wallet is indexed under the wallet and returned with its
     * hash, oldest first; nothing happens without credentials or on a failed
     * listing.
     */
    method SearchPinataForMessages(walletAddress: string, answer: Option<seq<Pin>>, gateways: Retrieval)
      returns (messages: seq<Located>)
      modifies this
      ensures configured == old(configured) && localStore == old(localStore)
      ensures messages == PinataSearch(configured, answer, localStore, gateways, walletAddress)
      ensures messageIndex == SearchedIndex(configured, answer, old(messageIndex), localStore, gateways, walletAddress)
    {
      if !configured || answer.None? {
        return [];
      }
      var solchatPins := Filter(answer.value, IsSolChatMessage);
      ghost var hashes := PinHashes(solchatPins);
      var found: seq<Located> := [];
      var i := 0;
      while i < |solchatPins|
        invariant 0 <= i <= |solchatPins|
        invariant configured == old(configured) && localStore == old(localStore)
        invariant found == Collected(localStore, gateways, walletAddress, hashes[..i])
        invariant messageIndex == AddFound(old(messageIndex), walletAddress, found)
      {
        assert hashes[..i + 1][..i] == hashes[..i];
        var pin := solchatPins[i];
        var message := RetrieveMessage(pin.hash, gateways);
        if message.Some? && (message.value.to == walletAddress || message.value.from == walletAddress) {
          ghost var before := found;
          AddToMessageIndex(walletAddress, pin.hash);
          found := found + [Located(message.value, pin.hash)];
          assert found[..|found| - 1] == before;
        }
        i := i + 1;
      }
      assert hashes[..i] == hashes;
      messages := SortBy(found, LocatedTime);
    }

    /**
     * `discoverNewMessages`: a Pinata search (which also extends the index),
     * then the merged view over the extended index, deduplicated with the
     * search results first, keeping the incoming messages not yet known.
     */
    method DiscoverNewMessages(walletAddress: string, knownMessageIds: seq<string>, answer: Option<seq<Pin>>, gateways: Retrieval)
      returns (newMessages: seq<Located>)
      modifies this
      ensures configured == old(configured) && localStore == old(localStore)
      ensures messageIndex == SearchedIndex(configured, answer, old(messageIndex), localStore, gateways, walletAddress)
      ensures newMessages == NewIncoming(PinataSearch(configured, answer, localStore, gateways, walletAddress),
                                         AllForUser(messageIndex, localStore, gateways, walletAddress),
                                         walletAddress, knownMessageIds)
      ensures forall x :: x in newMessages ==> x.message.id !in knownMessageIds && x.message.to == walletAddress
      ensures KeysDistinct(newMessages, LocatedId)
    {
      var pinataMessages := SearchPinataForMessages(walletAddress, answer, gateways);
      var indexedMessages := GetAllMessagesForUser(walletAddress, gateways);
      newMessages := NewIncoming(pinataMessages, indexedMessages, walletAddress, knownMessageIds);
      NewIncomingFacts(pinataMessages, indexedMessages, walletAddress, knownMessageIds);
    }

    /** One wallet's part of `cleanupOldMessages`. */
    method CleanHashes(hashes: seq<string>, now: int, maxAge: int, gateways: Retrieval) returns (validHashes: seq<string>)
      ensures validHashes == Filter(hashes, YoungHash(localStore, gateways, now, maxAge))
    {
      validHashes := [];
      var i := 0;
      while i < |hashes|
        invariant 0 <= i <= |hashes|
        invariant validHashes == Filter(hashes[..i], YoungHash(localStore, gateways, now, maxAge))
      {
        assert hashes[..i + 1][..i] == hashes[..i];
        var message := RetrieveMessage(hashes[i], gateways);
        if message.Some? && now - message.value.timestamp < maxAge {
          validHashes := validHashes + [hashes[i]];
        }
        i := i + 1;
      }
      assert hashes[..i] == hashes;
    }

    /** `cleanupOldMessages`: every wallet's list is replaced by its young, retrievable hashes. */
    method CleanupOldMessages(now: int, maxAge: int, gateways: Retrieval)
      modifies this
      ensures messageIndex == Cleaned(old(messageIndex), localStore, gateways, now, maxAge)
      ensures configured == old(configured) && localStore == old(localStore)
    {
      var remaining := messageIndex.Keys;
      ghost var original := messageIndex;
      ghost var keep := YoungHash(localStore, gateways, now, maxAge);
      while remaining != {}
        invariant remaining <= original.Keys && messageIndex.Keys == original.Keys
        invariant configured == old(configured) && localStore == old(localStore)
        invariant forall w :: w in original && w !in remaining ==> messageIndex[w] == Filter(original[w], keep)
        invariant forall w :: w in remaining ==> messageIndex[w] == original[w]
        decreases remaining
      {
        var walletAddress :| walletAddress in remaining;
        var validHashes := CleanHashes(messageIndex[walletAddress], now, maxAge, gateways);
        messageIndex := messageIndex[walletAddress := validHashes];
        remaining := remaining - {walletAddress};
      }
      assert forall w :: w in original ==> messageIndex[w] == Cleaned(original, localStore, gateways, now, maxAge)[w];
    }
  }
}

=== FILE: ipfs_messaging.dfy ===
/**
 * The Pinata-backed messaging service of app/lib/ipfs-messaging.ts: a cache of
 * message pointers keyed by CID (a `Map`, so kept with its insertion order),
 * discovery of new messages from the paginated pin listing, the relevance
 * filters, and the queries over the cache.
 *
 * The listing is an oracle `pages` from a page offset to the rows of that page
 * (`None` for a non-OK response); retrieval and upload outcomes, the clock and
 * the configured credentials are parameters or fields.
 */
module IpfsMessaging {
  import opened Common
  import opened ContentStore

  /** `pageLimit` of the pagination loop. */
  const PAGE_LIMIT: nat := 1000
  /** The safety cap: the loop stops once `pageOffset` exceeds this. */
  const PAGE_OFFSET_CAP: nat := 10000

  datatype MessagePointer = MessagePointer(cid: string, from: string, to: string, timestamp: int, discovered: int)

  datatype Credentials = Credentials(apiKey: string, secretKey: string)

  /** What a `pinList` request for one page gives: its rows, a non-OK response, or an exception. */
  datatype PageAnswer = Rows(rows: seq<Pin>) | NotOk | Threw

  /** The `pinList` answer for each page offset. */
  type PinPages = nat -> PageAnswer

  const NOT_CONFIGURED := "Pinata credentials not configured. Please set them in Settings."
  /** The error a failed upload ends in, `reason` being the upload's own error message. */
  function StorageFailed(reason: string): string {
    "IPFS storage failed: " + reason
  }

  // ---------------------------------------------------------------------------
  // Relevance filters
  // ---------------------------------------------------------------------------

  /** The filter of `getAllSolChatPins`: a SolChat message sent by or to the wallet. */
  predicate Relevant(pin: Pin, wallet: string) {
    IsSolChatMessage(pin) && (pin.keyvalues.value.from == wallet || pin.keyvalues.value.to == wallet)
  }

  function RelevantTo(wallet: string): Pin -> bool {
    pin => Relevant(pin, wallet)
  }

  /** `keyvalues.sender?.value || keyvalues.receiver?.value`: the first non-empty one. */
  function SearchTarget(sender: Option<string>, receiver: Option<string>): Option<string> {
    if sender.Some? && sender.value != "" then sender
    else if receiver.Some? && receiver.value != "" then receiver
    else None
  }

  /** The filter of `searchPinataMessages`; without a target wallet every SolChat message passes. */
  predicate Matching(pin: Pin, target: Option<string>) {
    IsSolChatMessage(pin) &&
    (target.None? || pin.keyvalues.value.from == target.value || pin.keyvalues.value.to == target.value)
  }

  function MatchingTarget(target: Option<string>): Pin -> bool {
    pin => Matching(pin, target)
  }

  /** `searchPinataMessages` over one listing answer: nothing on a non-OK response. */
  function SearchPins(answer: Option<seq<Pin>>, sender: Option<string>, receiver: Option<string>): seq<Pin> {
    match answer
    case None => []
    case Some(rows) => Filter(rows, MatchingTarget(SearchTarget(sender, receiver)))
  }

  /**
   * The search filter keeps exactly the SolChat message pins involving its
   * target, which is the pagination filter for that wallet; without a target
   * it keeps every SolChat message pin; a failed listing yields nothing.
   */
  lemma SearchPinsFacts(answer: Option<seq<Pin>>, sender: Option<string>, receiver: Option<string>)
    ensures answer.None? ==> SearchPins(answer, sender, receiver) == []
    ensures answer.Some? && SearchTarget(sender, receiver).Some? ==>
      SearchPins(answer, sender, receiver) == Filter(answer.value, RelevantTo(SearchTarget(sender, receiver).value))
    ensures answer.Some? && SearchTarget(sender, receiver).None? ==>
      forall pin :: pin in SearchPins(answer, sender, receiver) <==> pin in answer.value && IsSolChatMessage(pin)
  {
    var target := SearchTarget(sender, receiver);
    if answer.Some? && target.Some? {
      FilterSame(answer.value, MatchingTarget(target), RelevantTo(target.value));
    }
  }

  // ---------------------------------------------------------------------------
  // Pagination
  // ---------------------------------------------------------------------------

  /**
   * The relevant pins of the listing from `pageOffset` on: a page is read, its
   * relevant rows kept, and the next page follows only when this one was full
   * and the next offset stays within the cap. A non-OK page ends the listing
   * with what was collected; a page that throws makes the whole listing fail
   * (`None`).
   */
  function Listing(pages: PinPages, wallet: string, pageOffset: nat): Option<seq<Pin>>
    requires pageOffset <= PAGE_OFFSET_CAP
    decreases PAGE_OFFSET_CAP - pageOffset
  {
    match pages(pageOffset)
    case Threw => None
    case NotOk => Some([])
    case Rows(rows) =>
      if |rows| == PAGE_LIMIT && pageOffset + PAGE_LIMIT <= PAGE_OFFSET_CAP then
        match Listing(pages, wallet, pageOffset + PAGE_LIMIT)
        case None => None
        case Some(rest) => Some(Filter(rows, RelevantTo(wallet)) + rest)
      else Some(Filter(rows, RelevantTo(wallet)))
  }

  /** A listing that fails stays failed; a successful one gets `prefix` in front. */
  function After(prefix: seq<Pin>, listing: Option<seq<Pin>>): Option<seq<Pin>> {
    match listing
    case None => None
    case Some(rest) => Some(prefix + rest)
  }

  /** `getAllSolChatPins`'s answer: the listing, or `[]` when a page threw. */
  function AllPins(pages: PinPages, wallet: string): seq<Pin> {
    match Listing(pages, wallet, 0)
    case Some(pins) => pins
    case None => []
  }

  /** Every pin the pagination returns is relevant to the wallet. */
  lemma {:induction false} ListingRelevant(pages: PinPages, wallet: string, pageOffset: nat)
    requires pageOffset <= PAGE_OFFSET_CAP
    ensures Listing(pages, wallet, pageOffset).Some? ==>
      forall pin :: pin in Listing(pages, wallet, pageOffset).value ==> Relevant(pin, wallet)
    decreases PAGE_OFFSET_CAP - pageOffset
  {
    match pages(pageOffset)
    case Threw =>
    case NotOk =>
    case Rows(rows) =>
      if |rows| == PAGE_LIMIT && pageOffset + PAGE_LIMIT <= PAGE_OFFSET_CAP {
        ListingRelevant(pages, wallet, pageOffset + PAGE_LIMIT);
      }
  }

  /** Every pin `getAllSolChatPins` returns is a SolChat message pin from or to the wallet. */
  lemma AllPinsRelevant(pages: PinPages, wallet: string)
    ensures forall pin :: pin in AllPins(pages, wallet) ==> Relevant(pin, wallet)
  {
    ListingRelevant(pages, wallet, 0);
  }

  /**
   * A page that throws discards the pins of the pages before it: a full
   * first page followed by a second request that throws gives no pins at
   * all, whatever the first page held.
   */
  lemma LaterThrowDiscards(pages: PinPages, wallet: string)
    requires pages(0).Rows? && |pages(0).rows| == PAGE_LIMIT && pages(PAGE_LIMIT) == Threw
    ensures AllPins(pages, wallet) == []
  {
    assert Listing(pages, wallet, PAGE_LIMIT) == None;
  }

  /**
   * The pagination reads at most the 11 pages at offsets 0, 1000, ..., 10000:
   * two listings that agree on those pages give the same pins.
   */
  lemma {:induction false} ListingPages(pages: PinPages, other: PinPages, wallet: string, k: nat)
    requires k <= 10
    requires forall j :: k <= j <= 10 ==> pages(PAGE_LIMIT * j) == other(PAGE_LIMIT * j)
    ensures Listing(pages, wallet, PAGE_LIMIT * k) == Listing(other, wallet, PAGE_LIMIT * k)
    decreases 10 - k
  {
    if k < 10 {
      ListingPages(pages, other, wallet, k + 1);
      assert PAGE_LIMIT * k + PAGE_LIMIT == PAGE_LIMIT * (k + 1);
    }
  }

  // ---------------------------------------------------------------------------
  // Discovery
  // ---------------------------------------------------------------------------

  /** The pins `discoverMessages` passes over. */
  predicate Skipped(known: map<string, MessagePointer>, pin: Pin, since: int) {
    || pin.keyvalues.None?
    || pin.hash in known
    || (since != 0 && pin.keyvalues.value.timestamp < since)
  }

  /** The messages retrieved and the pointers created, in the order of the pins. */
  datatype Harvest = Harvest(messages: seq<WireMessage>, pointers: seq<MessagePointer>)

  /** The loop over the listed pins, against the cache as it was before the loop. */
  function HarvestPins(known: map<string, MessagePointer>, pins: seq<Pin>, since: int,
                       retrieve: Retrieval, now: int): Harvest
  {
    if pins == [] then Harvest([], [])
    else
      var h := HarvestPins(known, pins[..|pins| - 1], since, retrieve, now);
      var pin := pins[|pins| - 1];
      if Skipped(known, pin, since) then h
      else match retrieve(pin.hash)
        case None => h
        case Some(m) =>
          Harvest(h.messages + [m], h.pointers + [MessagePointer(pin.hash, m.from, m.to, m.timestamp, now)])
  }

  /** `for (const pointer of newPointers) messagePointers.set(pointer.cid, pointer)` */
  function SetAll(cache: OrderedMap<MessagePointer>, pointers: seq<MessagePointer>): OrderedMap<MessagePointer> {
    if pointers == [] then cache
    else
      var last := pointers[|pointers| - 1];
      MapSet(SetAll(cache, pointers[..|pointers| - 1]), last.cid, last)
  }

  /**
   * A pointer is created exactly for each listed pin that is not skipped and
   * whose content was retrieved; it carries the message's addresses and
   * timestamp, and the message retrieved for it sits at the same position.
   */
  lemma {:induction false} HarvestFacts(known: map<string, MessagePointer>, pins: seq<Pin>, since: int,
                                        retrieve: Retrieval, now: int)
    ensures var h := HarvestPins(known, pins, since, retrieve, now);
      && |h.messages| == |h.pointers|
      && (forall i :: 0 <= i < |h.pointers| ==>
            && retrieve(h.pointers[i].cid) == Some(h.messages[i])
            && h.pointers[i] == MessagePointer(h.pointers[i].cid, h.messages[i].from, h.messages[i].to, h.messages[i].timestamp, now))
      && (forall p :: p in h.pointers ==> p.cid !in known && exists pin :: pin in pins && pin.hash == p.cid && !Skipped(known, pin, since))
      && (forall pin :: pin in pins && !Skipped(known, pin, since) && retrieve(pin.hash).Some? ==>
            exists p :: p in h.pointers && p.cid == pin.hash)
  {
    if pins != [] {
      var init, pin := pins[..|pins| - 1], pins[|pins| - 1];
      HarvestFacts(known, init, since, retrieve, now);
      assert forall x :: x in pins <==> x in init || x == pin;
      var h := HarvestPins(known, init, since, retrieve, now);
      var r := HarvestPins(known, pins, since, retrieve, now);
      if Skipped(known, pin, since) || retrieve(pin.hash).None? {
        assert r == h;
      } else {
        var m := retrieve(pin.hash).value;
        var ptr := MessagePointer(pin.hash, m.from, m.to, m.timestamp, now);
        assert r.messages == h.messages + [m] && r.pointers == h.pointers + [ptr];
        forall i | 0 <= i < |r.pointers|
          ensures && retrieve(r.pointers[i].cid) == Some(r.messages[i])
                  && r.pointers[i] == MessagePointer(r.pointers[i].cid, r.messages[i].from, r.messages[i].to, r.messages[i].timestamp, now)
        {
          if i < |h.pointers| {
            assert r.pointers[i] == h.pointers[i] && r.messages[i] == h.messages[i];
          }
        }
        assert forall p :: p in r.pointers <==> p in h.pointers || p == ptr;
      }
    }
  }

  /** Discovery against a cache that already points at every listed pin finds nothing. */
  lemma {:induction false} HarvestKnown(known: map<string, MessagePointer>, pins: seq<Pin>, since: int,
                                        retrieve: Retrieval, now: int)
    requires forall pin :: pin in pins ==> pin.hash in known
    ensures HarvestPins(known, pins, since, retrieve, now) == Harvest([], [])
  {
    if pins != [] {
      HarvestKnown(known, pins[..|pins| - 1], since, retrieve, now);
    }
  }

  /** The CIDs the pointers are for. */
  function Cids(pointers: seq<MessagePointer>): set<string> {
    set p | p in pointers :: p.cid
  }

  /** Setting the new pointers keeps the cache valid, adds exactly their CIDs and stores each under its CID. */
  lemma SetAllFacts(cache: OrderedMap<MessagePointer>, pointers: seq<MessagePointer>)
    requires MapValid(cache)
    ensures MapValid(SetAll(cache, pointers))
    ensures SetAll(cache, pointers).entries.Keys == cache.entries.Keys + Cids(pointers)
    ensures forall c :: c in cache.entries && (forall p :: p in pointers ==> p.cid != c) ==>
      SetAll(cache, pointers).entries[c] == cache.entries[c]
    ensures forall p :: p in pointers ==> SetAll(cache, pointers).entries[p.cid].cid == p.cid
  {
    SetAllValid(cache, pointers);
    SetAllKeys(cache, pointers);
    SetAllKeeps(cache, pointers);
    SetAllStores(cache, pointers);
  }

  lemma {:induction false} SetAllValid(cache: OrderedMap<MessagePointer>, pointers: seq<MessagePointer>)
    requires MapValid(cache)
    ensures MapValid(SetAll(cache, pointers))
  {
    if pointers != [] {
      var init, last := pointers[..|pointers| - 1], pointers[|pointers| - 1];
      SetAllValid(cache, init);
      MapSetFacts(SetAll(cache, init), last.cid, last);
    }
  }

  lemma {:induction false} SetAllKeys(cache: OrderedMap<MessagePointer>, pointers: seq<MessagePointer>)
    ensures SetAll(cache, pointers).entries.Keys == cache.entries.Keys + Cids(pointers)
  {
    if pointers != [] {
      var init, last := pointers[..|pointers| - 1], pointers[|pointers| - 1];
      SetAllKeys(cache, init);
      var before, after := SetAll(cache, init).entries, SetAll(cache, pointers).entries;
      assert after == before[last.cid := last];
      assert after.Keys == before.Keys + {last.cid};
      CidsSnoc(pointers, init, last);
      UnionStep(cache.entries.Keys, Cids(init), before.Keys, after.Keys, last.cid);
    }
  }

  /** The CIDs of a list with one more pointer are the CIDs before and that pointer's. */
  lemma CidsSnoc(pointers: seq<MessagePointer>, init: seq<MessagePointer>, last: MessagePointer)
    requires pointers == init + [last]
    ensures Cids(pointers) == Cids(init) + {last.cid}
  {
    forall p ensures p in pointers <==> p in init || p == last {
    }
  }

  lemma {:induction false} SetAllKeeps(cache: OrderedMap<MessagePointer>, pointers: seq<MessagePointer>)
    ensures forall c :: c in cache.entries && (forall p :: p in pointers ==> p.cid != c) ==>
      c in SetAll(cache, pointers).entries && SetAll(cache, pointers).entries[c] == cache.entries[c]
  {
    if pointers != [] {
      var init, last := pointers[..|pointers| - 1], pointers[|pointers| - 1];
      SetAllKeeps(cache, init);
      assert SetAll(cache, pointers).entries == SetAll(cache, init).entries[last.cid := last];
      forall c | c in cache.entries && (forall p :: p in pointers ==> p.cid != c)
        ensures c in SetAll(cache, pointers).entries && SetAll(cache, pointers).entries[c] == cache.entries[c]
      {
        assert last in pointers;
        assert forall p :: p in init ==> p in pointers;
      }
    }
  }

  lemma {:induction false} SetAllStores(cache: OrderedMap<MessagePointer>, pointers: seq<MessagePointer>)
    ensures forall p :: p in pointers ==> p.cid in SetAll(cache, pointers).entries && SetAll(cache, pointers).entries[p.cid].cid == p.cid
  {
    if pointers != [] {
      var init, last := pointers[..|pointers| - 1], pointers[|pointers| - 1];
      SetAllStores(cache, init);
      assert SetAll(cache, pointers).entries == SetAll(cache, init).entries[last.cid := last];
      forall p | p in pointers ensures p.cid in SetAll(cache, pointers).entries && SetAll(cache, pointers).entries[p.cid].cid == p.cid {
        if p != last {
          assert p in init;
        }
      }
    }
  }

  // ---------------------------------------------------------------------------
  // Queries over the cache
  // ---------------------------------------------------------------------------

  predicate PointerInvolves(p: MessagePointer, wallet: string) {
    p.from == wallet || p.to == wallet
  }

  function InvolvesWallet(wallet: string): MessagePointer -> bool {
    p => PointerInvolves(p, wallet)
  }

  /** The messages retrieved for `pointers`, in their order; failed retrievals are dropped. */
  function Fetched(pointers: seq<MessagePointer>, retrieve: Retrieval): seq<WireMessage> {
    if pointers == [] then []
    else
      var last := pointers[|pointers| - 1];
      Fetched(pointers[..|pointers| - 1], retrieve) + (if retrieve(last.cid).Some? then [retrieve(last.cid).value] else [])
  }

  /** `getKnownMessages` */
  function KnownMessages(cache: OrderedMap<MessagePointer>, wallet: string, retrieve: Retrieval): seq<WireMessage> {
    SortBy(Fetched(Filter(MapValues(cache), InvolvesWallet(wallet)), retrieve), WireTime)
  }

  lemma {:induction false} FetchedFacts(pointers: seq<MessagePointer>, retrieve: Retrieval)
    ensures forall m :: m in Fetched(pointers, retrieve) <==> exists p :: p in pointers && retrieve(p.cid) == Some(m)
  {
    if pointers != [] {
      var init, last := pointers[..|pointers| - 1], pointers[|pointers| - 1];
      FetchedFacts(init, retrieve);
      assert forall p :: p in pointers <==> p in init || p == last;
    }
  }

  /**
   * The known messages are exactly the retrievable contents of the cached
   * pointers that involve the wallet, oldest first.
   */
  lemma KnownMessagesFacts(cache: OrderedMap<MessagePointer>, wallet: string, retrieve: Retrieval)
    requires MapValid(cache)
    ensures SortedBy(KnownMessages(cache, wallet, retrieve), WireTime)
    ensures forall m :: m in KnownMessages(cache, wallet, retrieve) <==>
      exists c :: c in cache.entries && PointerInvolves(cache.entries[c], wallet) && retrieve(cache.entries[c].cid) == Some(m)
  {
    var relevant := Filter(MapValues(cache), InvolvesWallet(wallet));
    MapValuesFacts(cache);
    FetchedFacts(relevant, retrieve);
    forall m ensures m in KnownMessages(cache, wallet, retrieve) <==>
      exists c :: c in cache.entries && PointerInvolves(cache.entries[c], wallet) && retrieve(cache.entries[c].cid) == Some(m)
    {
      SortByMembership(Fetched(relevant, retrieve), WireTime, m);
      if exists c :: c in cache.entries && PointerInvolves(cache.entries[c], wallet) && retrieve(cache.entries[c].cid) == Some(m) {
        var c :| c in cache.entries && PointerInvolves(cache.entries[c], wallet) && retrieve(cache.entries[c].cid) == Some(m);
        assert cache.entries[c] in relevant;
      }
    }
  }

  function BetweenAddresses(a: string, b: string): WireMessage -> bool {
    m => Between(m, a, b)
  }

  /** `getConversation`: the known messages of the first address exchanged with the second. */
  function ConversationOf(cache: OrderedMap<MessagePointer>, a: string, b: string, retrieve: Retrieval): seq<WireMessage> {
    SortBy(Filter(KnownMessages(cache, a, retrieve), BetweenAddresses(a, b)), WireTime)
  }

  /** A conversation is exactly the known messages between the two addresses, in either direction, sorted. */
  lemma ConversationFacts(cache: OrderedMap<MessagePointer>, a: string, b: string, retrieve: Retrieval)
    ensures SortedBy(ConversationOf(cache, a, b, retrieve), WireTime)
    ensures forall m :: m in ConversationOf(cache, a, b, retrieve) <==>
      m in KnownMessages(cache, a, retrieve) && ((m.from == a && m.to == b) || (m.from == b && m.to == a))
  {
    forall m ensures m in ConversationOf(cache, a, b, retrieve) <==>
      m in KnownMessages(cache, a, retrieve) && ((m.from == a && m.to == b) || (m.from == b && m.to == a))
    {
      SortByMembership(Filter(KnownMessages(cache, a, retrieve), BetweenAddresses(a, b)), WireTime, m);
    }
  }

  // ---------------------------------------------------------------------------
  // The service
  // ---------------------------------------------------------------------------

  class IpfsMessagingService {
    /** What `getPinataCredentials` resolves to. */
    var credentials: Option<Credentials>
    /** The CID-to-pointer `Map` (`solchat_message_pointers`). */
    var messagePointers: OrderedMap<MessagePointer>
    /** `solchat_last_sync`, absent until a discovery completes. */
    var lastSync: Option<int>

    constructor(credentials: Option<Credentials>, storedPointers: OrderedMap<MessagePointer>, storedLastSync: Option<int>)
      ensures this.credentials == credentials && messagePointers == storedPointers && lastSync == storedLastSync
    {
      this.credentials := credentials;
      messagePointers := storedPointers;
      lastSync := storedLastSync;
    }

    /**
     * `storeMessage`: `upload` is the CID Pinata returns, or the error the
     * upload threw, which the result repeats after its own prefix. Only a
     * successful upload records a pointer, under the returned CID, with the
     * message's own timestamp.
     */
    method StoreMessage(message: WireMessage, upload: Result<string>, now: int) returns (r: Result<string>)
      modifies this
      ensures credentials == old(credentials) && lastSync == old(lastSync)
      ensures old(credentials).None? ==> r == Err(NOT_CONFIGURED) && messagePointers == old(messagePointers)
      ensures old(credentials).Some? && upload.Err? ==>
        r == Err(StorageFailed(upload.error)) && messagePointers == old(messagePointers)
      ensures old(credentials).Some? && upload.Ok? ==>
        && r == Ok(upload.value)
        && messagePointers == MapSet(old(messagePointers), upload.value,
             MessagePointer(upload.value, message.from, message.to, message.timestamp, now))
    {
      if credentials.None? {
        return Err(NOT_CONFIGURED);
      }
      if upload.Err? {
        return Err(StorageFailed(upload.error));
      }
      var cid := upload.value;
      var pointer := MessagePointer(cid, message.from, message.to, message.timestamp, now);
      messagePointers := MapSet(messagePointers, cid, pointer);
      r := Ok(cid);
    }

    /**
     * `getAllSolChatPins`: the `while (hasMore)` loop over the listing pages;
     * an exception on any page lands in the outer `catch`, which gives `[]`.
     */
    method GetAllSolChatPins(pages: PinPages, walletAddress: string) returns (allPins: seq<Pin>)
      ensures allPins == AllPins(pages, walletAddress)
    {
      allPins := [];
      var pageOffset: nat := 0;
      var hasMore := true;
      match Listing(pages, walletAddress, 0)
      case None =>
      case Some(all) => assert [] + all == all;
      while hasMore
        invariant pageOffset <= PAGE_OFFSET_CAP
        invariant hasMore ==> Listing(pages, walletAddress, 0) == After(allPins, Listing(pages, walletAddress, pageOffset))
        invariant !hasMore ==> Listing(pages, walletAddress, 0) == Some(allPins)
        decreases PAGE_OFFSET_CAP - pageOffset + (if hasMore then 1 else 0)
      {
        var response := pages(pageOffset);
        if response.Threw? {
          return [];
        }
        if response.NotOk? {
          assert allPins + [] == allPins;
          break;
        }
        var pins := response.rows;
        var relevantPins := Filter(pins, RelevantTo(walletAddress));
        if |pins| == PAGE_LIMIT && pageOffset + PAGE_LIMIT <= PAGE_OFFSET_CAP {
          match Listing(pages, walletAddress, pageOffset + PAGE_LIMIT)
          case None =>
          case Some(rest) =>
            assert allPins + (relevantPins + rest) == (allPins + relevantPins) + rest;
        } else {
          assert allPins + relevantPins + [] == allPins + relevantPins;
        }
        allPins := allPins + relevantPins;
        hasMore := |pins| == PAGE_LIMIT;
        pageOffset := pageOffset + PAGE_LIMIT;
        if pageOffset > PAGE_OFFSET_CAP {
          break;
        }
      }
    }

    /**
     * `discoverMessages`: without credentials nothing happens; otherwise the
     * listed pins are harvested against the cache as it was, the new pointers
     * are set, `lastSync` is stamped and the messages come back oldest first.
     */
    method DiscoverMessages(walletAddress: string, sinceTimestamp: int, pages: PinPages, retrieve: Retrieval, now: int)
      returns (messages: seq<WireMessage>)
      modifies this
      ensures credentials == old(credentials)
      ensures old(credentials).None? ==>
        messages == [] && messagePointers == old(messagePointers) && lastSync == old(lastSync)
      ensures old(credentials).Some? ==>
        var h := HarvestPins(old(messagePointers).entries, AllPins(pages, walletAddress), sinceTimestamp, retrieve, now);
        && messages == SortBy(h.messages, WireTime)
        && messagePointers == SetAll(old(messagePointers), h.pointers)
        && lastSync == Some(now)
    {
      if credentials.None? {
        return [];
      }
      var allPins := GetAllSolChatPins(pages, walletAddress);
      var found: seq<WireMessage> := [];
      var newPointers: seq<MessagePointer> := [];
      var i := 0;
      while i < |allPins|
        invariant 0 <= i <= |allPins|
        invariant Harvest(found, newPointers) == HarvestPins(messagePointers.entries, allPins[..i], sinceTimestamp, retrieve, now)
      {
        var pin := allPins[i];
        assert allPins[..i + 1][..i] == allPins[..i];
        if pin.keyvalues.None? {
        } else if pin.hash in messagePointers.entries {
        } else if sinceTimestamp != 0 && pin.keyvalues.value.timestamp < sinceTimestamp {
        } else {
          var message := retrieve(pin.hash);
          if message.Some? {
            found := found + [message.value];
            newPointers := newPointers + [MessagePointer(pin.hash, message.value.from, message.value.to, message.value.timestamp, now)];
          }
        }
        i := i + 1;
      }
      assert allPins[..i] == allPins;
      var j := 0;
      while j < |newPointers|
        invariant 0 <= j <= |newPointers|
        invariant messagePointers == SetAll(old(messagePointers), newPointers[..j])
        invariant credentials == old(credentials) && lastSync == old(lastSync)
      {
        assert newPointers[..j + 1][..j] == newPointers[..j];
        messagePointers := MapSet(messagePointers, newPointers[j].cid, newPointers[j]);
        j := j + 1;
      }
      assert newPointers[..j] == newPointers;
      lastSync := Some(now);
      messages := SortBy(found, WireTime);
    }

    /** `getKnownMessages`: retrieval of the wallet's cached pointers (the batches of 5 run one after the other). */
    method GetKnownMessages(walletAddress: string, retrieve: Retrieval) returns (messages: seq<WireMessage>)
      ensures messages == KnownMessages(messagePointers, walletAddress, retrieve)
    {
      var relevantPointers := Filter(MapValues(messagePointers), InvolvesWallet(walletAddress));
      messages := [];
      var i := 0;
      while i < |relevantPointers|
        invariant 0 <= i <= |relevantPointers|
        invariant messages == Fetched(relevantPointers[..i], retrieve)
      {
        assert relevantPointers[..i + 1][..i] == relevantPointers[..i];
        var message := retrieve(relevantPointers[i].cid);
        if message.Some? {
          messages := messages + [message.value];
        }
        i := i + 1;
      }
      assert relevantPointers[..i] == relevantPointers;
      messages := SortBy(messages, WireTime);
    }

    method GetConversation(address1: string, address2: string, retrieve: Retrieval) returns (messages: seq<WireMessage>)
      ensures messages == ConversationOf(messagePointers, address1, address2, retrieve)
    {
      var allMessages := GetKnownMessages(address1, retrieve);
      messages := SortBy(Filter(allMessages, BetweenAddresses(address1, address2)), WireTime);
    }

    /** `syncMessages`: discovery since the stored `lastSync`, or from the beginning. */
    method SyncMessages(walletAddress: string, pages: PinPages, retrieve: Retrieval, now: int)
      returns (messages: seq<WireMessage>)
      modifies this
      ensures credentials == old(credentials)
      ensures old(credentials).None? ==>
        messages == [] && messagePointers == old(messagePointers) && lastSync == old(lastSync)
      ensures old(credentials).Some? ==>
        var since := if old(lastSync).Some? then old(lastSync).value else 0;
        var h := HarvestPins(old(messagePointers).entries, AllPins(pages, walletAddress), since, retrieve, now);
        && messages == SortBy(h.messages, WireTime)
        && messagePointers == SetAll(old(messagePointers), h.pointers)
        && lastSync == Some(now)
    {
      var since := if lastSync.Some? then lastSync.value else 0;
      messages := DiscoverMessages(walletAddress, since, pages, retrieve, now);
    }

    /** `clearCache`: forgets every pointer and the last sync time. */
    method ClearCache()
      modifies this
      ensures messagePointers == EmptyMap() && lastSync.None? && credentials == old(credentials)
    {
      messagePointers := EmptyMap();
      lastSync := None;
    }
  }
}

=== FILE: message_store.dfy ===
/**
 * The local message store of app/lib/messages.ts: one list of messages per
 * wallet (the `solchat_messages_<wallet>` entry of localStorage, here a map from
 * wallet to list), with upsert by id, status and read-flag updates, per-sender
 * unread aggregation, deletion, per-conversation queries and import.
 */
module Messages {
  import opened Common
  import opened ContentStore

  datatype Status = Sending | Sent | Delivered | Failed

  /** A message; each optional field is missing, explicitly `undefined`, or set. */
  datatype Message = Message(
    id: string,
    from: string,
    to: string,
    content: string,
    encryptedContent: Prop<string>,
    timestamp: int,
    arweaveId: Prop<string>,
    isRead: Prop<bool>,
    messageType: Prop<MessageKind>,
    status: Prop<Status>)

  function MessageTime(m: Message): int {
    m.timestamp
  }

  function MessageId(m: Message): string {
    m.id
  }

  function IdIs(id: string): Message -> bool {
    (m: Message) => m.id == id
  }

  /** `!message.isRead`: a missing or `undefined` flag counts as unread. */
  predicate Unread(m: Message) {
    m.isRead != Has(true)
  }

  /** A message between `wallet` and `contact`, in either direction. */
  predicate InConversation(m: Message, wallet: string, contact: string) {
    (m.from == contact && m.to == wallet) || (m.from == wallet && m.to == contact)
  }

  /** An unread message addressed to `wallet`. */
  predicate UnreadFor(m: Message, wallet: string) {
    m.to == wallet && Unread(m)
  }

  /** `getMessages`: the stored list, or `[]` when the wallet has none. */
  function Load(stored: map<string, seq<Message>>, wallet: string): seq<Message> {
    if wallet in stored then stored[wallet] else []
  }

  /** No two messages of any wallet share an id. */
  ghost predicate IdsUnique(stored: map<string, seq<Message>>) {
    forall w :: w in stored ==> KeysDistinct(stored[w], MessageId)
  }

  /** Replacing one wallet's list with one whose ids are distinct keeps every wallet's ids distinct. */
  lemma IdsUniqueReplace(stored: map<string, seq<Message>>, wallet: string, list: seq<Message>)
    requires IdsUnique(stored) && KeysDistinct(list, MessageId)
    ensures IdsUnique(stored[wallet := list])
  {
  }

  /** Saving into one wallet's list keeps every wallet's ids distinct. */
  lemma UpsertKeepsUnique(stored: map<string, seq<Message>>, wallet: string, message: Message)
    ensures IdsUnique(stored) ==> IdsUnique(stored[wallet := Upsert(Load(stored, wallet), message)])
  {
    if IdsUnique(stored) {
      var list := Load(stored, wallet);
      assert KeysDistinct(list, MessageId);
      UpsertFacts(list, message);
      IdsUniqueReplace(stored, wallet, Upsert(list, message));
    }
  }

  // ---------------------------------------------------------------------------
  // saveMessage / saveSentMessage / saveReceivedMessage
  // ---------------------------------------------------------------------------

  /**
   * `{ ...prev, ...next }`: every property `next` has wins, even one that is
   * `undefined`, and one `next` lacks keeps `prev`'s.
   */
  function Merge(prev: Message, next: Message): Message {
    Message(next.id, next.from, next.to, next.content,
      Spread(prev.encryptedContent, next.encryptedContent), next.timestamp,
      Spread(prev.arweaveId, next.arweaveId), Spread(prev.isRead, next.isRead),
      Spread(prev.messageType, next.messageType), Spread(prev.status, next.status))
  }

  /**
   * The merged record takes the update's required fields and every optional
   * property the update has, so an explicit `undefined` erases the stored
   * value; a property the update lacks keeps the stored one. An update that
   * has every optional property replaces the record whole, and merging is
   * idempotent.
   */
  lemma MergeFacts(prev: Message, next: Message)
    ensures var r := Merge(prev, next);
      && r.id == next.id && r.from == next.from && r.to == next.to
      && r.content == next.content && r.timestamp == next.timestamp
      && (next.status.Missing? ==> r.status == prev.status)
      && (!next.status.Missing? ==> r.status == next.status)
      && (next.isRead.Missing? ==> r.isRead == prev.isRead)
      && (!next.isRead.Missing? ==> r.isRead == next.isRead)
      && (next.arweaveId.Missing? ==> r.arweaveId == prev.arweaveId)
      && (!next.arweaveId.Missing? ==> r.arweaveId == next.arweaveId)
      && (next.encryptedContent.Missing? ==> r.encryptedContent == prev.encryptedContent)
      && (!next.encryptedContent.Missing? ==> r.encryptedContent == next.encryptedContent)
      && (next.messageType.Missing? ==> r.messageType == prev.messageType)
      && (!next.messageType.Missing? ==> r.messageType == next.messageType)
    ensures (!next.encryptedContent.Missing? && !next.arweaveId.Missing? && !next.isRead.Missing?
      && !next.messageType.Missing? && !next.status.Missing?) ==> Merge(prev, next) == next
    ensures Merge(next, next) == next
    ensures Merge(Merge(prev, next), next) == Merge(prev, next)
  {
  }

  /** The list before the sort: the record with the id merged in place, or the message appended. */
  function Placed(list: seq<Message>, message: Message): seq<Message> {
    match FindIndex(list, IdIs(message.id))
    case Some(i) => list[i := Merge(list[i], message)]
    case None => list + [message]
  }

  /** The record `saveMessage` stores under the message's id. */
  function Stored(list: seq<Message>, message: Message): Message {
    match FindIndex(list, IdIs(message.id))
    case Some(i) => Merge(list[i], message)
    case None => message
  }

  /** `saveMessage`'s new list: upsert by id, then the stable sort by timestamp. */
  function Upsert(list: seq<Message>, message: Message): seq<Message> {
    SortBy(Placed(list, message), MessageTime)
  }

  lemma PlacedFacts(list: seq<Message>, message: Message)
    ensures |Placed(list, message)| == |list| + (if message.id in KeysOf(list, MessageId) then 0 else 1)
    ensures Stored(list, message) in Placed(list, message)
    ensures forall x :: x in list && x.id != message.id ==> x in Placed(list, message)
    ensures forall x :: x in Placed(list, message) && x.id != message.id ==> x in list
    ensures KeysDistinct(list, MessageId) ==> KeysDistinct(Placed(list, message), MessageId)
    ensures KeysDistinct(list, MessageId) ==>
      forall x :: x in Placed(list, message) && x.id == message.id ==> x == Stored(list, message)
  {
    var p := Placed(list, message);
    match FindIndex(list, IdIs(message.id))
    case Some(i) =>
      assert message.id in KeysOf(list, MessageId) by { assert list[i] in list; }
      assert p[i] == Stored(list, message);
      forall x | x in list && x.id != message.id ensures x in p {
        var k :| 0 <= k < |list| && list[k] == x;
        assert p[k] == x;
      }
      forall x | x in p && x.id != message.id ensures x in list {
        var k :| 0 <= k < |p| && p[k] == x;
        assert k != i && list[k] == x;
      }
      if KeysDistinct(list, MessageId) {
        assert forall k :: 0 <= k < |p| ==> p[k].id == list[k].id;
        forall x | x in p && x.id == message.id ensures x == Stored(list, message) {
          var k :| 0 <= k < |p| && p[k] == x;
          assert list[k].id == list[i].id;
        }
      }
    case None =>
      assert message.id !in KeysOf(list, MessageId);
      assert p[|list|] == message;
      if KeysDistinct(list, MessageId) {
        forall i, j | 0 <= i < j < |p| ensures p[i].id != p[j].id {
          if j == |list| {
            assert p[i] == list[i];
          } else {
            assert p[i] == list[i] && p[j] == list[j];
          }
        }
      }
  }

  /**
   * `saveMessage` upserts by id and sorts: the record under the id is the merge
   * (or the new message), every other message stays, nothing else appears, the
   * list grows only for a new id, ids stay unique and the list ends sorted.
   */
  lemma UpsertFacts(list: seq<Message>, message: Message)
    ensures var r := Upsert(list, message);
      && SortedBy(r, MessageTime)
      && |r| == |list| + (if message.id in KeysOf(list, MessageId) then 0 else 1)
      && Stored(list, message) in r
      && (forall x :: x in list && x.id != message.id ==> x in r)
      && (forall x :: x in r && x.id != message.id ==> x in list)
    ensures KeysDistinct(list, MessageId) ==>
      && KeysDistinct(Upsert(list, message), MessageId)
      && forall x :: x in Upsert(list, message) && x.id == message.id ==> x == Stored(list, message)
  {
    PlacedFacts(list, message);
    var p := Placed(list, message);
    var r := Upsert(list, message);
    assert forall x :: x in r <==> x in p by {
      forall x ensures x in r <==> x in p {
        assert x in r <==> x in multiset(r);
        assert x in p <==> x in multiset(p);
      }
    }
    if KeysDistinct(list, MessageId) {
      KeysDistinctPerm(p, r, MessageId);
    }
  }

  /** `{ ...message, status: "sent", isRead: true }` */
  function AsSent(m: Message): Message {
    m.(status := Has(Sent), isRead := Has(true))
  }

  /** `{ ...message, status: "delivered", isRead: false }` */
  function AsReceived(m: Message): Message {
    m.(status := Has(Delivered), isRead := Has(false))
  }

  /** A saved sent message is stored as sent and read, whatever the caller passed. */
  lemma SaveSentFacts(list: seq<Message>, message: Message)
    requires KeysDistinct(list, MessageId)
    ensures exists x :: x in Upsert(list, AsSent(message)) && x.id == message.id
    ensures forall x :: x in Upsert(list, AsSent(message)) && x.id == message.id ==>
      x.status == Has(Sent) && x.isRead == Has(true) && x.content == message.content
  {
    UpsertFacts(list, AsSent(message));
    assert Stored(list, AsSent(message)).id == message.id;
  }

  /** A saved received message is stored as delivered and unread, whatever the caller passed. */
  lemma SaveReceivedFacts(list: seq<Message>, message: Message)
    requires KeysDistinct(list, MessageId)
    ensures exists x :: x in Upsert(list, AsReceived(message)) && x.id == message.id
    ensures forall x :: x in Upsert(list, AsReceived(message)) && x.id == message.id ==>
      x.status == Has(Delivered) && x.isRead == Has(false) && x.content == message.content
  {
    UpsertFacts(list, AsReceived(message));
    assert Stored(list, AsReceived(message)).id == message.id;
  }

  // ---------------------------------------------------------------------------
  // updateMessageStatus / markMessageAsRead: change the first record with an id
  // ---------------------------------------------------------------------------

  function SetStatus(m: Message, status: Option<Status>): Message {
    m.(status := Written(status))
  }

  function SetRead(m: Message): Message {
    m.(isRead := Has(true))
  }

  /** `messages.find(m => m.id === id)` changed through `f`; the list is unchanged when none matches. */
  function UpdateFirst(list: seq<Message>, id: string, f: Message -> Message): seq<Message> {
    match FindIndex(list, IdIs(id))
    case Some(i) => list[i := f(list[i])]
    case None => list
  }

  /**
   * Changing the status of a message: the first record with that id gets the new
   * status and keeps every other field, every other record stays where it was,
   * and an absent id changes nothing.
   */
  lemma UpdateStatusFacts(list: seq<Message>, id: string, status: Option<Status>)
    ensures var r := UpdateFirst(list, id, m => SetStatus(m, status));
      && |r| == |list|
      && (forall j :: 0 <= j < |r| ==> r[j].(status := list[j].status) == list[j])
      && (forall j :: 0 <= j < |r| && r[j] != list[j] ==> list[j].id == id && r[j].status == Written(status))
      && (id in KeysOf(list, MessageId) ==> exists j :: 0 <= j < |r| && r[j].id == id && r[j].status == Written(status))
      && (id !in KeysOf(list, MessageId) ==> r == list)
  {
    var r := UpdateFirst(list, id, m => SetStatus(m, status));
    match FindIndex(list, IdIs(id))
    case Some(i) =>
      assert list[i] in list;
      assert r[i].id == id && r[i].status == Written(status);
    case None =>
      assert forall x :: x in list ==> x.id != id;
  }

  /** Marking one message read: only the first record with that id changes, and only its flag. */
  lemma MarkOneReadFacts(list: seq<Message>, id: string)
    ensures var r := UpdateFirst(list, id, SetRead);
      && |r| == |list|
      && (forall j :: 0 <= j < |r| ==> r[j].(isRead := list[j].isRead) == list[j])
      && (forall j :: 0 <= j < |r| && r[j] != list[j] ==> list[j].id == id && Unread(list[j]))
      && (id in KeysOf(list, MessageId) ==> exists j :: 0 <= j < |r| && r[j].id == id && !Unread(r[j]))
      && (id !in KeysOf(list, MessageId) ==> r == list)
  {
    var r := UpdateFirst(list, id, SetRead);
    match FindIndex(list, IdIs(id))
    case Some(i) =>
      assert list[i] in list;
      assert r[i].id == id && !Unread(r[i]);
    case None =>
      assert forall x :: x in list ==> x.id != id;
  }

  // ---------------------------------------------------------------------------
  // getUnreadCounts / getTotalUnreadCount
  // ---------------------------------------------------------------------------

  datatype UnreadCount = UnreadCount(contactAddress: string, count: nat, lastMessageTimestamp: int)

  function ContactOf(u: UnreadCount): string {
    u.contactAddress
  }

  function ContactIs(a: string): UnreadCount -> bool {
    (u: UnreadCount) => u.contactAddress == a
  }

  function UnreadTo(wallet: string): Message -> bool {
    m => UnreadFor(m, wallet)
  }

  function UnreadFrom(wallet: string, sender: string): Message -> bool {
    m => UnreadFor(m, wallet) && m.from == sender
  }

  /** One step of the `forEach`: bump the sender's entry, or add one in insertion order. */
  function Tally(counts: seq<UnreadCount>, m: Message): seq<UnreadCount> {
    match FindIndex(counts, ContactIs(m.from))
    case Some(j) =>
      counts[j := UnreadCount(m.from, counts[j].count + 1, Max(counts[j].lastMessageTimestamp, m.timestamp))]
    case None => counts + [UnreadCount(m.from, 1, m.timestamp)]
  }

  /** `Array.from(unreadCounts.values())` after the loop over `list`. */
  function UnreadCounts(list: seq<Message>, wallet: string): seq<UnreadCount>
    decreases |list|
  {
    if list == [] then []
    else
      var rest := UnreadCounts(list[..|list| - 1], wallet);
      if UnreadFor(list[|list| - 1], wallet) then Tally(rest, list[|list| - 1]) else rest
  }

  /** `reduce((total, count) => total + count.count, 0)` */
  function SumCounts(counts: seq<UnreadCount>): nat {
    if counts == [] then 0 else SumCounts(counts[..|counts| - 1]) + counts[|counts| - 1].count
  }

  /** The `reduce` of `getTotalUnreadCount`, adding up the counts front to back. */
  method TotalOf(counts: seq<UnreadCount>) returns (total: nat)
    ensures total == SumCounts(counts)
  {
    total := 0;
    var i := 0;
    while i < |counts|
      invariant 0 <= i <= |counts|
      invariant total == SumCounts(counts[..i])
    {
      assert counts[..i + 1][..i] == counts[..i];
      total := total + counts[i].count;
      i := i + 1;
    }
    assert counts[..i] == counts;
  }

  /** The entry kept for a sender (`unreadCounts.get(key)`). */
  function Lookup(counts: seq<UnreadCount>, sender: string): Option<UnreadCount> {
    match FindIndex(counts, ContactIs(sender))
    case Some(j) => Some(counts[j])
    case None => None
  }

  /** The latest timestamp of a non-empty list. */
  function MaxTime(s: seq<Message>): (r: int)
    requires s != []
    ensures forall x :: x in s ==> x.timestamp <= r
    ensures exists x :: x in s && x.timestamp == r
  {
    if |s| == 1 then s[0].timestamp
    else
      var init := s[..|s| - 1];
      assert forall x :: x in s ==> x in init || x == s[|s| - 1];
      assert forall x :: x in init ==> x in s;
      Max(MaxTime(init), s[|s| - 1].timestamp)
  }

  /** What the aggregation should hold for a sender: the size of its group and its latest timestamp. */
  function Expected(list: seq<Message>, wallet: string, sender: string): Option<UnreadCount> {
    Entry(sender, Filter(list, UnreadFrom(wallet, sender)))
  }

  /** The entry a sender's group of unread messages makes: its size and its latest timestamp. */
  function Entry(sender: string, group: seq<Message>): Option<UnreadCount> {
    if group == [] then None else Some(UnreadCount(sender, |group|, MaxTime(group)))
  }

  lemma {:induction false} SumUpdate(counts: seq<UnreadCount>, j: nat, u: UnreadCount)
    requires j < |counts|
    ensures SumCounts(counts[j := u]) == SumCounts(counts) - counts[j].count + u.count
    decreases |counts|
  {
    var c := counts[j := u];
    var n := |counts| - 1;
    assert c[..n] == if j < n then counts[..n][j := u] else counts[..n];
    if j < n {
      SumUpdate(counts[..n], j, u);
    }
  }

  lemma TallyDistinct(counts: seq<UnreadCount>, m: Message)
    requires KeysDistinct(counts, ContactOf)
    ensures KeysDistinct(Tally(counts, m), ContactOf)
  {
    var t := Tally(counts, m);
    match FindIndex(counts, ContactIs(m.from))
    case Some(j) =>
      assert forall k :: 0 <= k < |t| ==> t[k].contactAddress == counts[k].contactAddress;
    case None =>
      forall i, k | 0 <= i < k < |t| ensures t[i].contactAddress != t[k].contactAddress {
        if k == |counts| {
          assert !ContactIs(m.from)(counts[i]);
        } else {
          assert t[i] == counts[i] && t[k] == counts[k];
        }
      }
  }

  lemma TallySum(counts: seq<UnreadCount>, m: Message)
    ensures SumCounts(Tally(counts, m)) == SumCounts(counts) + 1
  {
    var t := Tally(counts, m);
    match FindIndex(counts, ContactIs(m.from))
    case Some(j) =>
      SumUpdate(counts, j, t[j]);
    case None =>
      assert t[..|t| - 1] == counts;
  }

  /** A tally step touches only the sender's entry, adding one message and keeping the latest timestamp. */
  lemma TallyLookup(counts: seq<UnreadCount>, m: Message, a: string)
    ensures a != m.from ==> Lookup(Tally(counts, m), a) == Lookup(counts, a)
    ensures a == m.from ==> (Lookup(Tally(counts, m), a) ==
      match Lookup(counts, m.from)
      case Some(u) => Some(UnreadCount(m.from, u.count + 1, Max(u.lastMessageTimestamp, m.timestamp)))
      case None => Some(UnreadCount(m.from, 1, m.timestamp)))
  {
    var t := Tally(counts, m);
    match FindIndex(counts, ContactIs(m.from))
    case Some(j) =>
      assert forall k :: 0 <= k < |t| ==> t[k].contactAddress == counts[k].contactAddress;
      FindIndexSame(t, counts, ContactIs(a));
      var fa := FindIndex(counts, ContactIs(a));
      if fa.Some? && a != m.from {
        assert counts[fa.value].contactAddress == a;
        assert fa.value != j;
        assert t[fa.value] == counts[fa.value];
      }
    case None =>
      FindIndexAppend(counts, UnreadCount(m.from, 1, m.timestamp), ContactIs(a));
  }

  /** The aggregation never holds two entries for one sender. */
  lemma {:induction false} UnreadCountsDistinct(list: seq<Message>, wallet: string)
    ensures KeysDistinct(UnreadCounts(list, wallet), ContactOf)
    decreases |list|
  {
    if list != [] {
      var init := list[..|list| - 1];
      UnreadCountsDistinct(init, wallet);
      if UnreadFor(list[|list| - 1], wallet) {
        TallyDistinct(UnreadCounts(init, wallet), list[|list| - 1]);
      }
    }
  }

  /** The counts add up to the number of unread messages addressed to the wallet. */
  lemma {:induction false} UnreadCountsSum(list: seq<Message>, wallet: string)
    ensures SumCounts(UnreadCounts(list, wallet)) == Count(list, UnreadTo(wallet))
    decreases |list|
  {
    if list != [] {
      var init, last := list[..|list| - 1], list[|list| - 1];
      UnreadCountsSum(init, wallet);
      assert Filter(list, UnreadTo(wallet)) ==
        if UnreadFor(last, wallet) then Filter(init, UnreadTo(wallet)) + [last] else Filter(init, UnreadTo(wallet));
      if UnreadFor(last, wallet) {
        TallySum(UnreadCounts(init, wallet), last);
      }
    }
  }

  /**
   * Grouping by sender: for every sender, the entry is present exactly when it
   * sent an unread message to the wallet, and then carries the number of such
   * messages and the latest of their timestamps.
   */
  lemma {:induction false} UnreadCountsLookup(list: seq<Message>, wallet: string, sender: string)
    ensures Lookup(UnreadCounts(list, wallet), sender) == Expected(list, wallet, sender)
    decreases |list|
  {
    if list != [] {
      var init, last := list[..|list| - 1], list[|list| - 1];
      UnreadCountsLookup(init, wallet, sender);
      ExpectedStep(list, wallet, sender);
      if UnreadFor(last, wallet) {
        TallyLookup(UnreadCounts(init, wallet), last, sender);
      }
    }
  }

  /** One more message bumps its sender's expected entry when it is unread for the wallet. */
  lemma ExpectedStep(list: seq<Message>, wallet: string, sender: string)
    requires list != []
    ensures var init, last := list[..|list| - 1], list[|list| - 1];
      && (!(UnreadFor(last, wallet) && last.from == sender) ==> Expected(list, wallet, sender) == Expected(init, wallet, sender))
      && (UnreadFor(last, wallet) && last.from == sender && Expected(init, wallet, sender).None? ==>
            Expected(list, wallet, sender) == Some(UnreadCount(sender, 1, last.timestamp)))
      && (UnreadFor(last, wallet) && last.from == sender && Expected(init, wallet, sender).Some? ==>
            var u := Expected(init, wallet, sender).value;
            Expected(list, wallet, sender) == Some(UnreadCount(sender, u.count + 1, Max(u.lastMessageTimestamp, last.timestamp))))
  {
    var init, last := list[..|list| - 1], list[|list| - 1];
    var unread := UnreadFrom(wallet, sender);
    var g0 := Filter(init, unread);
    assert unread(last) == (UnreadFor(last, wallet) && last.from == sender);
    if unread(last) {
      assert Filter(list, unread) == g0 + [last];
      EntrySnoc(sender, g0, last);
    } else {
      assert Filter(list, unread) == g0;
    }
  }

  /** One more message in a group adds one to its count and may raise its latest timestamp. */
  lemma EntrySnoc(sender: string, group: seq<Message>, m: Message)
    ensures Entry(sender, group + [m]) ==
      if group == [] then Some(UnreadCount(sender, 1, m.timestamp))
      else Some(UnreadCount(sender, |group| + 1, Max(MaxTime(group), m.timestamp)))
  {
    if group == [] {
      assert group + [m] == [m];
    } else {
      assert MaxTime(group + [m]) == Max(MaxTime(group), m.timestamp) by {
        MaxTimeSnoc(group, m);
      }
    }
  }

  lemma MaxTimeSnoc(s: seq<Message>, m: Message)
    requires s != []
    ensures MaxTime(s + [m]) == Max(MaxTime(s), m.timestamp)
  {
    assert (s + [m])[..|s|] == s;
  }

  /** Every entry of the aggregation is its sender's expected entry. */
  lemma UnreadCountsEntries(list: seq<Message>, wallet: string)
    ensures forall k :: 0 <= k < |UnreadCounts(list, wallet)| ==>
      Some(UnreadCounts(list, wallet)[k]) == Expected(list, wallet, UnreadCounts(list, wallet)[k].contactAddress)
  {
    var r := UnreadCounts(list, wallet);
    UnreadCountsDistinct(list, wallet);
    forall k | 0 <= k < |r| ensures Some(r[k]) == Expected(list, wallet, r[k].contactAddress) {
      UnreadCountsLookup(list, wallet, r[k].contactAddress);
      match FindIndex(r, ContactIs(r[k].contactAddress))
      case Some(j) =>
        assert !(j < k) && !(k < j);
      case None =>
        assert false;
    }
  }

  // ---------------------------------------------------------------------------
  // markConversationAsRead
  // ---------------------------------------------------------------------------

  /** One iteration of the `forEach`. */
  function ReadIn(m: Message, wallet: string, contact: string): Message {
    if InConversation(m, wallet, contact) && Unread(m) then SetRead(m) else m
  }

  function MarkRead(list: seq<Message>, wallet: string, contact: string): seq<Message> {
    seq(|list|, i requires 0 <= i < |list| => ReadIn(list[i], wallet, contact))
  }

  /** The flag `updated` ends the loop with: whether some conversation message was unread. */
  predicate HasUnreadIn(list: seq<Message>, wallet: string, contact: string) {
    exists j :: 0 <= j < |list| && InConversation(list[j], wallet, contact) && Unread(list[j])
  }

  /**
   * Marking a conversation read: afterwards no message of the conversation is
   * unread, every other message is unchanged, only the `isRead` flag moves, and
   * a conversation without unread messages is left exactly as it was.
   */
  lemma MarkReadFacts(list: seq<Message>, wallet: string, contact: string)
    ensures var r := MarkRead(list, wallet, contact);
      && |r| == |list|
      && (forall j :: 0 <= j < |r| && InConversation(list[j], wallet, contact) ==> !Unread(r[j]))
      && (forall j :: 0 <= j < |r| && !InConversation(list[j], wallet, contact) ==> r[j] == list[j])
      && (forall j :: 0 <= j < |r| ==> r[j].(isRead := list[j].isRead) == list[j])
      && (!HasUnreadIn(list, wallet, contact) ==> r == list)
      && MarkRead(r, wallet, contact) == r
  {
  }

  /** After marking a conversation read, the contact no longer appears in the wallet's unread counts. */
  lemma MarkReadClearsUnread(list: seq<Message>, wallet: string, contact: string)
    ensures Lookup(UnreadCounts(MarkRead(list, wallet, contact), wallet), contact).None?
  {
    var r := MarkRead(list, wallet, contact);
    UnreadCountsLookup(r, wallet, contact);
    forall x | x in r ensures !UnreadFrom(wallet, contact)(x) {
      var j :| 0 <= j < |r| && r[j] == x;
    }
    FilterNone(r, UnreadFrom(wallet, contact));
  }

  // ---------------------------------------------------------------------------
  // deleteMessage / getConversationMessages / importMessages
  // ---------------------------------------------------------------------------

  function IdIsNot(id: string): Message -> bool {
    (m: Message) => m.id != id
  }

  /** `deleteMessage`'s new list. */
  function Delete(list: seq<Message>, id: string): seq<Message> {
    Filter(list, IdIsNot(id))
  }

  /** Deletion removes every message with the id and keeps the others, in order. */
  lemma DeleteFacts(list: seq<Message>, id: string)
    ensures id !in KeysOf(Delete(list, id), MessageId)
    ensures forall x :: x in Delete(list, id) <==> x in list && x.id != id
    ensures Subsequence(Delete(list, id), list)
    ensures id !in KeysOf(list, MessageId) ==> Delete(list, id) == list
    ensures KeysDistinct(list, MessageId) ==> KeysDistinct(Delete(list, id), MessageId)
  {
    FilterSubsequence(list, IdIsNot(id));
    if id !in KeysOf(list, MessageId) {
      FilterAll(list, IdIsNot(id));
    }
    if KeysDistinct(list, MessageId) {
      FilterKeysDistinct(list, IdIsNot(id), MessageId);
    }
  }

  function Between2(wallet: string, contact: string): Message -> bool {
    m => InConversation(m, wallet, contact)
  }

  /** `getConversationMessages`. */
  function ConversationOf(list: seq<Message>, wallet: string, contact: string): seq<Message> {
    SortBy(Filter(list, Between2(wallet, contact)), MessageTime)
  }

  /**
   * A conversation holds exactly the messages between the two addresses, in
   * either direction, each as often as it is stored, sorted by timestamp.
   */
  lemma ConversationFacts(list: seq<Message>, wallet: string, contact: string)
    ensures SortedBy(ConversationOf(list, wallet, contact), MessageTime)
    ensures forall x :: x in ConversationOf(list, wallet, contact) <==> x in list && InConversation(x, wallet, contact)
    ensures forall x :: (multiset(ConversationOf(list, wallet, contact))[x] ==
      if InConversation(x, wallet, contact) then multiset(list)[x] else 0)
  {
    var f := Filter(list, Between2(wallet, contact));
    forall x ensures x in ConversationOf(list, wallet, contact) <==> x in list && InConversation(x, wallet, contact) {
      SortByMembership(f, MessageTime, x);
    }
    forall x ensures multiset(ConversationOf(list, wallet, contact))[x] ==
      if InConversation(x, wallet, contact) then multiset(list)[x] else 0
    {
      FilterMultiset(list, Between2(wallet, contact), x);
    }
  }

  /** `importMessages`' new list: existing then imported, first occurrence of each id kept, unsorted. */
  function Import(existing: seq<Message>, imported: seq<Message>): seq<Message> {
    DedupBy(existing + imported, MessageId)
  }

  /**
   * Import keeps one message per id, loses no id, and prefers the stored copy:
   * a message whose id is already stored is never replaced by an imported one.
   */
  lemma ImportFacts(existing: seq<Message>, imported: seq<Message>)
    ensures KeysDistinct(Import(existing, imported), MessageId)
    ensures KeysOf(Import(existing, imported), MessageId) == KeysOf(existing, MessageId) + KeysOf(imported, MessageId)
    ensures forall x :: x in Import(existing, imported) ==> x in existing || x in imported
    ensures forall x :: x in Import(existing, imported) && x.id in KeysOf(existing, MessageId) ==> x in existing
    ensures KeysDistinct(existing, MessageId) ==> forall x :: x in existing ==> x in Import(existing, imported)
  {
    var r := Import(existing, imported);
    assert KeysOf(existing + imported, MessageId) == KeysOf(existing, MessageId) + KeysOf(imported, MessageId) by {
      assert forall x :: x in existing + imported <==> x in existing || x in imported;
    }
    forall x | x in r && x.id in KeysOf(existing, MessageId) ensures x in existing {
      DedupPrefersLeft(existing, imported, MessageId, x);
    }
    if KeysDistinct(existing, MessageId) {
      forall x | x in existing ensures x in r {
        assert x.id in KeysOf(r, MessageId);
        var y :| y in r && y.id == x.id;
        DedupPrefersLeft(existing, imported, MessageId, y);
        KeysDistinctUnique(existing, MessageId, x, y);
      }
    }
  }

  // ---------------------------------------------------------------------------
  // The service
  // ---------------------------------------------------------------------------

  class MessageService {
    /** The per-wallet lists kept under `solchat_messages_<wallet>`. */
    var stored: map<string, seq<Message>>

    constructor()
      ensures stored == map[]
    {
      stored := map[];
    }

    function GetMessages(walletAddress: string): seq<Message>
      reads this
    {
      Load(stored, walletAddress)
    }

    method SaveMessage(walletAddress: string, message: Message)
      modifies this
      ensures stored == old(stored)[walletAddress := Upsert(Load(old(stored), walletAddress), message)]
      ensures old(IdsUnique(stored)) ==> IdsUnique(stored)
    {
      ghost var list := Load(stored, walletAddress);
      var messages := GetMessages(walletAddress);
      var existingIndex := FindIndex(messages, IdIs(message.id));
      if existingIndex.Some? {
        messages := messages[existingIndex.value := Merge(messages[existingIndex.value], message)];
      } else {
        messages := messages + [message];
      }
      assert messages == Placed(list, message);
      messages := SortBy(messages, MessageTime);
      assert messages == Upsert(list, message);
      UpsertKeepsUnique(stored, walletAddress, message);
      stored := stored[walletAddress := messages];
    }

    method SaveSentMessage(walletAddress: string, message: Message)
      modifies this
      ensures stored == old(stored)[walletAddress := Upsert(Load(old(stored), walletAddress), AsSent(message))]
      ensures old(IdsUnique(stored)) ==> IdsUnique(stored)
    {
      SaveMessage(walletAddress, AsSent(message));
    }

    method SaveReceivedMessage(walletAddress: string, message: Message)
      modifies this
      ensures stored == old(stored)[walletAddress := Upsert(Load(old(stored), walletAddress), AsReceived(message))]
      ensures old(IdsUnique(stored)) ==> IdsUnique(stored)
    {
      SaveMessage(walletAddress, AsReceived(message));
    }

    /** Writes back only when a message with the id exists. */
    method UpdateMessageStatus(walletAddress: string, messageId: string, status: Option<Status>)
      modifies this
      ensures var list := Load(old(stored), walletAddress);
        stored == if messageId in KeysOf(list, MessageId)
          then old(stored)[walletAddress := UpdateFirst(list, messageId, m => SetStatus(m, status))]
          else old(stored)
    {
      var messages := GetMessages(walletAddress);
      var found := FindIndex(messages, IdIs(messageId));
      if found.Some? {
        assert messages[found.value] in messages;
        messages := messages[found.value := SetStatus(messages[found.value], status)];
        stored := stored[walletAddress := messages];
      } else {
        assert forall x :: x in messages ==> x.id != messageId;
      }
    }

    /** The `forEach` over the stored list, filling the per-sender entries in insertion order. */
    method GetUnreadCounts(walletAddress: string) returns (counts: seq<UnreadCount>)
      ensures counts == UnreadCounts(Load(stored, walletAddress), walletAddress)
      ensures KeysDistinct(counts, ContactOf)
      ensures forall k :: 0 <= k < |counts| ==> Some(counts[k]) == Expected(Load(stored, walletAddress), walletAddress, counts[k].contactAddress)
    {
      var messages := GetMessages(walletAddress);
      counts := [];
      var i := 0;
      while i < |messages|
        invariant 0 <= i <= |messages|
        invariant counts == UnreadCounts(messages[..i], walletAddress)
      {
        var message := messages[i];
        assert messages[..i + 1][..i] == messages[..i];
        if message.to == walletAddress && Unread(message) {
          var existing := FindIndex(counts, ContactIs(message.from));
          if existing.Some? {
            var e := counts[existing.value];
            counts := counts[existing.value := UnreadCount(message.from, e.count + 1, Max(e.lastMessageTimestamp, message.timestamp))];
          } else {
            counts := counts + [UnreadCount(message.from, 1, message.timestamp)];
          }
        }
        i := i + 1;
      }
      assert messages[..i] == messages;
      UnreadCountsDistinct(messages, walletAddress);
      UnreadCountsEntries(messages, walletAddress);
    }

    /** The sum of the per-sender counts: the number of unread messages addressed to the wallet. */
    method GetTotalUnreadCount(walletAddress: string) returns (total: nat)
      ensures total == Count(Load(stored, walletAddress), UnreadTo(walletAddress))
    {
      var counts := GetUnreadCounts(walletAddress);
      total := TotalOf(counts);
      UnreadCountsSum(Load(stored, walletAddress), walletAddress);
    }

    /** Writes back only when some message of the conversation was unread. */
    method MarkConversationAsRead(walletAddress: string, contactAddress: string)
      modifies this
      ensures var list := Load(old(stored), walletAddress);
        stored == if HasUnreadIn(list, walletAddress, contactAddress)
          then old(stored)[walletAddress := MarkRead(list, walletAddress, contactAddress)]
          else old(stored)
      ensures old(IdsUnique(stored)) ==> IdsUnique(stored)
    {
      var list := GetMessages(walletAddress);
      var messages := list;
      var updated := false;
      var i := 0;
      while i < |messages|
        invariant 0 <= i <= |messages| == |list|
        invariant forall j :: 0 <= j < i ==> messages[j] == ReadIn(list[j], walletAddress, contactAddress)
        invariant forall j :: i <= j < |list| ==> messages[j] == list[j]
        invariant updated <==> exists j :: 0 <= j < i && InConversation(list[j], walletAddress, contactAddress) && Unread(list[j])
      {
        var message := messages[i];
        if InConversation(message, walletAddress, contactAddress) {
          if Unread(message) {
            messages := messages[i := SetRead(message)];
            updated := true;
          }
        }
        i := i + 1;
      }
      assert messages == MarkRead(list, walletAddress, contactAddress);
      if updated {
        assert forall j :: 0 <= j < |messages| ==> messages[j].id == list[j].id;
        stored := stored[walletAddress := messages];
      }
    }

    /** Writes back only when the first message with the id exists and is unread. */
    method MarkMessageAsRead(walletAddress: string, messageId: string)
      modifies this
      ensures var list := Load(old(stored), walletAddress);
        var found := FindIndex(list, IdIs(messageId));
        stored == if found.Some? && Unread(list[found.value])
          then old(stored)[walletAddress := UpdateFirst(list, messageId, SetRead)]
          else old(stored)
    {
      var messages := GetMessages(walletAddress);
      var found := FindIndex(messages, IdIs(messageId));
      if found.Some? && Unread(messages[found.value]) {
        messages := messages[found.value := SetRead(messages[found.value])];
        stored := stored[walletAddress := messages];
      }
    }

    /** Always writes the filtered list back. */
    method DeleteMessage(walletAddress: string, messageId: string)
      modifies this
      ensures stored == old(stored)[walletAddress := Delete(Load(old(stored), walletAddress), messageId)]
      ensures old(IdsUnique(stored)) ==> IdsUnique(stored)
    {
      var messages := GetMessages(walletAddress);
      DeleteFacts(messages, messageId);
      stored := stored[walletAddress := Delete(messages, messageId)];
    }

    /** `getConversationMessages`: the wallet's messages exchanged with the contact, oldest first. */
    function GetConversationMessages(walletAddress: string, contactAddress: string): (r: seq<Message>)
      reads this
      ensures SortedBy(r, MessageTime)
      ensures forall x :: x in r <==> x in Load(stored, walletAddress) && InConversation(x, walletAddress, contactAddress)
    {
      ConversationFacts(Load(stored, walletAddress), walletAddress, contactAddress);
      ConversationOf(Load(stored, walletAddress), walletAddress, contactAddress)
    }

    method ClearAllMessages(walletAddress: string)
      modifies this
      ensures stored == old(stored) - {walletAddress}
    {
      stored := stored - {walletAddress};
    }

    /** `importedMessages` is `None` when the parsed JSON is not an array. */
    method ImportMessages(walletAddress: string, importedMessages: Option<seq<Message>>) returns (outcome: Result<()>)
      modifies this
      ensures importedMessages.None? ==> outcome == Err("Invalid message format") && stored == old(stored)
      ensures importedMessages.Some? ==>
        (outcome == Ok(()) &&
         stored == old(stored)[walletAddress := Import(Load(old(stored), walletAddress), importedMessages.value)])
      ensures IdsUnique(old(stored)) ==> IdsUnique(stored)
    {
      if importedMessages.None? {
        return Err("Invalid message format");
      }
      var existingMessages := GetMessages(walletAddress);
      ImportFacts(existingMessages, importedMessages.value);
      stored := stored[walletAddress := Import(existingMessages, importedMessages.value)];
      outcome := Ok(());
    }
  }
}

=== FILE: message_sync.dfy ===
/**
 * The per-wallet sync index and the batch synchronizer that maintains it
 * (`MessageSyncManager` of app/lib/ipfs-message-sync.ts).
 *
 * The index is a value (`ChatIndex`); the specification functions below
 * describe one discovery pass, one retrieval and one whole sync cycle on it,
 * and the class `MessageSyncManager` performs the same steps by updating its
 * `chatIndex` field in place. The Pinata listing and the gateways are
 * oracles: a listing answer is `Option<seq<Pin>>` (`None` for a non-OK
 * response) and a retrieval is a `Retrieval` function. The registered sync
 * callbacks are numbered, and which of them throw (and with what message) is
 * the function `throws`.
 */
module MessageSync {
  import opened Common
  import opened ContentStore

  const MAX_RETRIES: nat := 3
  const BATCH_SIZE: nat := 10
  /** Pins up to one minute older than the last sync are still considered. */
  const RESYNC_BUFFER: int := 60000
  /** A pointer matches a message when their timestamps differ by less than a second. */
  const MATCH_TOLERANCE: int := 1000

  /** A `MessageCID`: where a message lives and how far its retrieval got. */
  datatype Pointer = Pointer(
    cid: string,
    from: string,
    to: string,
    timestamp: int,
    discovered: int,
    synced: bool,
    retryCount: nat)

  /**
   * The wallet's sync index. A JS `Map` iterates in insertion order, which
   * `findCIDForMessage` observes, so the keys of `messagePointers` are also
   * kept, in insertion order, in `pointerOrder`.
   */
  datatype ChatIndex = ChatIndex(
    walletAddress: string,
    lastSync: int,
    knownCIDs: set<string>,
    messagePointers: map<string, Pointer>,
    pointerOrder: seq<string>,
    conversationCache: map<string, seq<string>>)

  datatype SyncResult = SyncResult(
    newMessages: seq<WireMessage>,
    updatedConversations: seq<string>,
    errors: seq<string>,
    totalSynced: nat)

  /** The persisted index as read back from storage; each pointer is stored under its own CID. */
  datatype StoredIndex = StoredIndex(
    lastSync: int,
    knownCIDs: seq<string>,
    pointers: seq<Pointer>,
    conversationCache: map<string, seq<string>>)

  function EmptyResult(): SyncResult {
    SyncResult([], [], [], 0)
  }

  function EmptyIndex(walletAddress: string): ChatIndex {
    ChatIndex(walletAddress, 0, {}, map[], [], map[])
  }

  /** `messagePointers.set(cid, p)`: a new key goes to the end of the iteration order, an existing key keeps its place. */
  function SetPointer(ix: ChatIndex, cid: string, p: Pointer): ChatIndex {
    ix.(messagePointers := ix.messagePointers[cid := p],
        pointerOrder := if cid in ix.messagePointers then ix.pointerOrder else ix.pointerOrder + [cid])
  }

  /** The insertion order lists each key of `messagePointers` exactly once. */
  ghost predicate WellFormed(ix: ChatIndex) {
    && Distinct(ix.pointerOrder)
    && (forall c :: c in ix.messagePointers <==> c in ix.pointerOrder)
  }

  /** The pointer's timestamp, or 0 for a CID without a pointer (`pointerA?.timestamp || 0`). */
  function Ts(m: map<string, Pointer>, c: string): int {
    if c in m then m[c].timestamp else 0
  }

  function TsKey(m: map<string, Pointer>): string -> int {
    c => Ts(m, c)
  }

  /** A conversation's CID list: no repeats, only known pointers, ordered by pointer timestamp. */
  ghost predicate CacheListOk(list: seq<string>, m: map<string, Pointer>) {
    && Distinct(list)
    && (forall c :: c in list ==> c in m)
    && (forall i, j :: 0 <= i < j < |list| ==> Ts(m, list[i]) <= Ts(m, list[j]))
  }

  /** The invariant every operation of the synchronizer keeps. */
  ghost predicate Consistent(ix: ChatIndex) {
    && WellFormed(ix)
    && (forall c :: c in ix.messagePointers ==> c in ix.knownCIDs)
    && (forall c :: c in ix.messagePointers ==>
          ix.messagePointers[c].cid == c && ix.messagePointers[c].retryCount <= MAX_RETRIES)
    && (forall other :: other in ix.conversationCache ==>
          CacheListOk(ix.conversationCache[other], ix.messagePointers))
  }

  lemma SetPointerWellFormed(ix: ChatIndex, cid: string, p: Pointer)
    requires WellFormed(ix)
    ensures WellFormed(SetPointer(ix, cid, p))
    ensures SetPointer(ix, cid, p).messagePointers.Keys == ix.messagePointers.Keys + {cid}
  {
    if cid !in ix.messagePointers {
      DistinctAppend(ix.pointerOrder, cid);
    }
  }

  // ---------------------------------------------------------------------
  // Loading

  /** `loadOrCreateIndex`: the stored index when there is one, otherwise an empty one. */
  function LoadOrCreateIndex(walletAddress: string, stored: Option<StoredIndex>): ChatIndex {
    match stored
    case None => EmptyIndex(walletAddress)
    case Some(data) =>
      LoadPointers(ChatIndex(walletAddress, data.lastSync, set c | c in data.knownCIDs, map[], [],
                             data.conversationCache),
                   data.pointers)
  }

  function LoadPointers(ix: ChatIndex, ps: seq<Pointer>): ChatIndex {
    if ps == [] then ix
    else SetPointer(LoadPointers(ix, ps[..|ps| - 1]), ps[|ps| - 1].cid, ps[|ps| - 1])
  }

  lemma {:induction false} LoadPointersFacts(ix: ChatIndex, ps: seq<Pointer>)
    requires WellFormed(ix)
    ensures WellFormed(LoadPointers(ix, ps))
    ensures LoadPointers(ix, ps).walletAddress == ix.walletAddress
    ensures forall c :: c in LoadPointers(ix, ps).messagePointers ==>
              c in ix.messagePointers || LoadPointers(ix, ps).messagePointers[c].cid == c
  {
    if ps != [] {
      LoadPointersFacts(ix, ps[..|ps| - 1]);
      SetPointerWellFormed(LoadPointers(ix, ps[..|ps| - 1]), ps[|ps| - 1].cid, ps[|ps| - 1]);
    }
  }

  /** A new index satisfies the invariant; a loaded one keeps its order consistent and every pointer under its own CID. */
  lemma LoadOrCreateIndexFacts(walletAddress: string, stored: Option<StoredIndex>)
    ensures LoadOrCreateIndex(walletAddress, stored).walletAddress == walletAddress
    ensures stored.None? ==> Consistent(LoadOrCreateIndex(walletAddress, stored))
    ensures stored.None? ==> LoadOrCreateIndex(walletAddress, stored).lastSync == 0
    ensures WellFormed(LoadOrCreateIndex(walletAddress, stored))
    ensures forall c :: c in LoadOrCreateIndex(walletAddress, stored).messagePointers ==>
              LoadOrCreateIndex(walletAddress, stored).messagePointers[c].cid == c
  {
    if stored.Some? {
      var data := stored.value;
      var ix := ChatIndex(walletAddress, data.lastSync, set c | c in data.knownCIDs, map[], [],
                          data.conversationCache);
      LoadPointersFacts(ix, data.pointers);
    }
  }

  // ---------------------------------------------------------------------
  // Discovery

  /** What a discovery pass has produced so far: the updated index and the new pointers, in discovery order. */
  datatype Discovery = Discovery(index: ChatIndex, found: seq<Pointer>)

  /** The rows of one listing answer; a failed query contributes none. */
  function AnswerRows(answer: Option<seq<Pin>>): seq<Pin> {
    match answer
    case None => []
    case Some(rows) => rows
  }

  /** Whether discovery passes over `pin` without recording it. */
  predicate Skipped(ix: ChatIndex, pin: Pin) {
    || pin.keyvalues.None?
    || pin.hash in ix.knownCIDs
    || pin.keyvalues.value.timestamp < ix.lastSync - RESYNC_BUFFER
  }

  /** One iteration of the row loop of `discoverNewCIDs`. */
  function DiscoverPin(d: Discovery, pin: Pin, now: int): Discovery {
    if Skipped(d.index, pin) then d
    else
      var meta := pin.keyvalues.value;
      var p := Pointer(pin.hash, meta.from, meta.to, meta.timestamp, now, false, 0);
      var ix := SetPointer(d.index.(knownCIDs := d.index.knownCIDs + {pin.hash}), pin.hash, p);
      Discovery(ix, d.found + [p])
  }

  function DiscoverRows(ix: ChatIndex, rows: seq<Pin>, now: int): Discovery {
    if rows == [] then Discovery(ix, [])
    else DiscoverPin(DiscoverRows(ix, rows[..|rows| - 1], now), rows[|rows| - 1], now)
  }

  function PointerTime(p: Pointer): int {
    p.timestamp
  }

  /** Discovery changes only the known CIDs and the pointers, and leaves every existing pointer as it was. */
  ghost predicate DiscoveryStep(ix: ChatIndex, ix': ChatIndex) {
    && ix'.walletAddress == ix.walletAddress
    && ix'.lastSync == ix.lastSync
    && ix'.conversationCache == ix.conversationCache
    && ix.knownCIDs <= ix'.knownCIDs
    && (forall c :: c in ix.messagePointers ==> c in ix'.messagePointers && ix'.messagePointers[c] == ix.messagePointers[c])
  }

  /** Every pointer found is fresh, recorded under its CID in both the known set and the pointer map. */
  ghost predicate FreshPointer(ix: ChatIndex, ix': ChatIndex, p: Pointer) {
    && p.cid !in ix.knownCIDs
    && p.cid in ix'.knownCIDs
    && p.cid in ix'.messagePointers && ix'.messagePointers[p.cid] == p
    && !p.synced && p.retryCount == 0
    && p.timestamp >= ix.lastSync - RESYNC_BUFFER
  }

  lemma {:induction false} DiscoverRowsFacts(ix: ChatIndex, rows: seq<Pin>, now: int)
    requires Consistent(ix)
    ensures Consistent(DiscoverRows(ix, rows, now).index)
    ensures DiscoveryStep(ix, DiscoverRows(ix, rows, now).index)
    ensures forall p :: p in DiscoverRows(ix, rows, now).found ==> FreshPointer(ix, DiscoverRows(ix, rows, now).index, p)
    ensures forall i, j :: 0 <= i < j < |DiscoverRows(ix, rows, now).found| ==>
              DiscoverRows(ix, rows, now).found[i].cid != DiscoverRows(ix, rows, now).found[j].cid
    ensures forall c :: c in DiscoverRows(ix, rows, now).index.messagePointers && c !in ix.messagePointers ==>
              exists p :: p in DiscoverRows(ix, rows, now).found && p.cid == c
  {
    if rows != [] {
      var init := rows[..|rows| - 1];
      var pin := rows[|rows| - 1];
      var d := DiscoverRows(ix, init, now);
      DiscoverRowsFacts(ix, init, now);
      if !Skipped(d.index, pin) {
        var meta := pin.keyvalues.value;
        var p := Pointer(pin.hash, meta.from, meta.to, meta.timestamp, now, false, 0);
        var known := d.index.(knownCIDs := d.index.knownCIDs + {pin.hash});
        var ix' := SetPointer(known, pin.hash, p);
        SetPointerWellFormed(known, pin.hash, p);
        assert pin.hash !in d.index.messagePointers;
        forall other | other in ix'.conversationCache
          ensures CacheListOk(ix'.conversationCache[other], ix'.messagePointers)
        {
          var list := ix'.conversationCache[other];
          assert CacheListOk(list, d.index.messagePointers);
          forall i | 0 <= i < |list| ensures Ts(ix'.messagePointers, list[i]) == Ts(d.index.messagePointers, list[i]) {
            assert list[i] in d.index.messagePointers;
          }
        }
        forall q | q in d.found ensures FreshPointer(ix, ix', q) {
          assert q.cid in d.index.messagePointers;
        }
        var found' := d.found + [p];
        forall i, j | 0 <= i < j < |found'| ensures found'[i].cid != found'[j].cid {
          if j == |d.found| {
            assert found'[i] in d.found;
          }
        }
      }
    }
  }

  /** Every pin of `rows` is passed over by discovery on `ix`. */
  ghost predicate Covered(ix: ChatIndex, rows: seq<Pin>) {
    forall pin :: pin in rows ==> Skipped(ix, pin)
  }

  lemma {:induction false} CoveredMonotone(ix: ChatIndex, ix': ChatIndex, rows: seq<Pin>)
    requires Covered(ix, rows)
    requires ix.knownCIDs <= ix'.knownCIDs && ix'.lastSync == ix.lastSync
    ensures Covered(ix', rows)
  {
    forall pin | pin in rows ensures Skipped(ix', pin) {
      assert Skipped(ix, pin);
    }
  }

  /** After a pass every row is either skipped or known, so a second pass over the same rows skips them all. */
  lemma {:induction false} DiscoverRowsCovers(ix: ChatIndex, rows: seq<Pin>, now: int)
    ensures Covered(DiscoverRows(ix, rows, now).index, rows)
    ensures DiscoverRows(ix, rows, now).index.lastSync == ix.lastSync
    ensures ix.knownCIDs <= DiscoverRows(ix, rows, now).index.knownCIDs
  {
    if rows != [] {
      var init := rows[..|rows| - 1];
      var pin := rows[|rows| - 1];
      DiscoverRowsCovers(ix, init, now);
      var d := DiscoverRows(ix, init, now);
      var d' := DiscoverPin(d, pin, now);
      CoveredMonotone(d.index, d'.index, init);
      assert rows == init + [pin];
    }
  }

  /** Rediscovery is a no-op: when every row is skipped (known CID, no metadata, too old), the index is unchanged and nothing is found. */
  lemma {:induction false} RediscoverIsNoop(ix: ChatIndex, rows: seq<Pin>, now: int)
    requires Covered(ix, rows)
    ensures DiscoverRows(ix, rows, now) == Discovery(ix, [])
  {
    if rows != [] {
      var init := rows[..|rows| - 1];
      assert Covered(ix, init);
      RediscoverIsNoop(ix, init, now);
    }
  }

  /** Discovering the same rows twice changes nothing the second time. */
  lemma DiscoverIdempotent(ix: ChatIndex, rows: seq<Pin>, now: int, later: int)
    ensures DiscoverRows(DiscoverRows(ix, rows, now).index, rows, later)
         == Discovery(DiscoverRows(ix, rows, now).index, [])
  {
    DiscoverRowsCovers(ix, rows, now);
    RediscoverIsNoop(DiscoverRows(ix, rows, now).index, rows, later);
  }

  /** No relevant pin is missed: a pin with metadata, not known before, and recent enough ends up known and pointed to. */
  lemma {:induction false} DiscoverRecordsRecent(ix: ChatIndex, rows: seq<Pin>, now: int, pin: Pin)
    requires Consistent(ix)
    requires pin in rows && !Skipped(ix, pin)
    ensures pin.hash in DiscoverRows(ix, rows, now).index.knownCIDs
    ensures pin.hash in DiscoverRows(ix, rows, now).index.messagePointers
  {
    var init := rows[..|rows| - 1];
    var last := rows[|rows| - 1];
    assert rows == init + [last];
    DiscoverRowsFacts(ix, init, now);
    var d := DiscoverRows(ix, init, now);
    if pin in init {
      DiscoverRecordsRecent(ix, init, now, pin);
      DiscoverRowsFacts(ix, rows, now);
    } else {
      assert pin == last;
      if pin.hash in d.index.knownCIDs {
        // Known by an earlier row of this pass: that row put it in the pointers.
        assert pin.hash !in ix.messagePointers;
        assert pin.hash in d.index.messagePointers by {
          DiscoveredKnownHasPointer(ix, init, now, pin.hash);
        }
        DiscoverRowsFacts(ix, rows, now);
      }
    }
  }

  lemma {:induction false} DiscoveredKnownHasPointer(ix: ChatIndex, rows: seq<Pin>, now: int, cid: string)
    requires Consistent(ix)
    requires cid in DiscoverRows(ix, rows, now).index.knownCIDs && cid !in ix.knownCIDs
    ensures cid in DiscoverRows(ix, rows, now).index.messagePointers
  {
    if rows != [] {
      var init := rows[..|rows| - 1];
      DiscoverRowsFacts(ix, init, now);
      var d := DiscoverRows(ix, init, now);
      if cid in d.index.knownCIDs {
        DiscoveredKnownHasPointer(ix, init, now, cid);
        DiscoverRowsFacts(ix, rows, now);
      }
    }
  }

  lemma CacheListTransfer(list: seq<string>, m: map<string, Pointer>, m': map<string, Pointer>)
    requires CacheListOk(list, m)
    requires forall c :: c in m ==> c in m' && m'[c].timestamp == m[c].timestamp
    ensures CacheListOk(list, m')
  {
    forall i | 0 <= i < |list| ensures Ts(m', list[i]) == Ts(m, list[i]) {
      assert list[i] in m;
    }
  }

  // ---------------------------------------------------------------------
  // The work queue

  /** A pointer still to be fetched: not synced and not yet out of retries. */
  predicate Pending(p: Pointer) {
    !p.synced && p.retryCount < MAX_RETRIES
  }

  predicate IsSynced(p: Pointer) {
    p.synced
  }

  /** The `unsynced` list of `syncMessages`: pending pointers, oldest first. */
  function Unsynced(ix: ChatIndex): seq<Pointer> {
    SortBy(Filter(ValuesInOrder(ix.messagePointers, ix.pointerOrder), Pending), PointerTime)
  }

  /** The unsynced list holds exactly the pending pointers of the index, each as currently stored; exhausted and synced pointers are left out. */
  lemma UnsyncedFacts(ix: ChatIndex)
    requires Consistent(ix)
    ensures forall p :: p in Unsynced(ix) <==>
              p.cid in ix.messagePointers && ix.messagePointers[p.cid] == p && Pending(p)
  {
    var m := ix.messagePointers;
    var values := ValuesInOrder(m, ix.pointerOrder);
    forall p ensures p in Unsynced(ix) <==> p.cid in m && m[p.cid] == p && Pending(p) {
      SortByMembership(Filter(values, Pending), PointerTime, p);
      if p in values {
        var i :| 0 <= i < |values| && values[i] == p;
        assert ix.pointerOrder[i] in m;
      }
      if p.cid in m && m[p.cid] == p {
        var i :| 0 <= i < |ix.pointerOrder| && ix.pointerOrder[i] == p.cid;
        assert values[i] == p;
      }
    }
  }

  // ---------------------------------------------------------------------
  // Retrieval bookkeeping and the conversation cache

  /** The failure branch of `retrieveMessage`: count one more attempt while the pointer is under the limit. */
  function MarkFailed(ix: ChatIndex, cid: string): ChatIndex {
    if cid in ix.messagePointers && ix.messagePointers[cid].retryCount < MAX_RETRIES then
      var p := ix.messagePointers[cid];
      ix.(messagePointers := ix.messagePointers[cid := p.(retryCount := p.retryCount + 1)])
    else ix
  }

  /** A failed retrieval bumps the retry counter by one up to the limit of three and changes nothing else. */
  lemma MarkFailedFacts(ix: ChatIndex, cid: string)
    requires Consistent(ix)
    ensures Consistent(MarkFailed(ix, cid))
    ensures MarkFailed(ix, cid).messagePointers.Keys == ix.messagePointers.Keys
    ensures MarkFailed(ix, cid) == ix.(messagePointers := MarkFailed(ix, cid).messagePointers)
    ensures forall c :: c in ix.messagePointers ==>
              var p, p' := ix.messagePointers[c], MarkFailed(ix, cid).messagePointers[c];
              && p'.retryCount == (if c == cid && p.retryCount < MAX_RETRIES then p.retryCount + 1 else p.retryCount)
              && p' == p.(retryCount := p'.retryCount)
  {
    var ix' := MarkFailed(ix, cid);
    forall other | other in ix'.conversationCache
      ensures CacheListOk(ix'.conversationCache[other], ix'.messagePointers)
    {
      CacheListTransfer(ix.conversationCache[other], ix.messagePointers, ix'.messagePointers);
    }
  }

  /** A pointer matches a message with the same sender and recipient sent less than a second apart. */
  predicate Matches(p: Pointer, msg: WireMessage) {
    && p.from == msg.from
    && p.to == msg.to
    && -MATCH_TOLERANCE < p.timestamp - msg.timestamp < MATCH_TOLERANCE
  }

  predicate MatchAt(ix: ChatIndex, k: nat, msg: WireMessage)
    requires k < |ix.pointerOrder|
  {
    ix.pointerOrder[k] in ix.messagePointers && Matches(ix.messagePointers[ix.pointerOrder[k]], msg)
  }

  function FindFrom(ix: ChatIndex, msg: WireMessage, k: nat): (r: Option<string>)
    requires k <= |ix.pointerOrder|
    decreases |ix.pointerOrder| - k
    ensures r.None? <==> forall j :: k <= j < |ix.pointerOrder| ==> !MatchAt(ix, j, msg)
    ensures r.Some? ==> exists i :: (k <= i < |ix.pointerOrder| && ix.pointerOrder[i] == r.value && MatchAt(ix, i, msg)
                                     && forall j :: k <= j < i ==> !MatchAt(ix, j, msg))
  {
    if k == |ix.pointerOrder| then None
    else if MatchAt(ix, k, msg) then Some(ix.pointerOrder[k])
    else FindFrom(ix, msg, k + 1)
  }

  /** `findCIDForMessage`: the first pointer, in insertion order, that matches the message. */
  function FindCIDForMessage(ix: ChatIndex, msg: WireMessage): (r: Option<string>)
    ensures r.None? <==> forall j :: 0 <= j < |ix.pointerOrder| ==> !MatchAt(ix, j, msg)
    ensures r.Some? ==> r.value in ix.messagePointers && Matches(ix.messagePointers[r.value], msg)
    ensures r.Some? ==> exists i :: (0 <= i < |ix.pointerOrder| && ix.pointerOrder[i] == r.value
                                     && forall j :: 0 <= j < i ==> !MatchAt(ix, j, msg))
  {
    FindFrom(ix, msg, 0)
  }

  /** The conversation partner: the recipient of our own messages, otherwise the sender. */
  function CounterParty(ix: ChatIndex, msg: WireMessage): string {
    if msg.from == ix.walletAddress then msg.to else msg.from
  }

  /** `conversationCache.get(other) || []`. */
  function CacheList(ix: ChatIndex, other: string): seq<string> {
    if other in ix.conversationCache then ix.conversationCache[other] else []
  }

  /** What `updateConversationCache` does to the index. */
  function CacheUpdate(ix: ChatIndex, msg: WireMessage): ChatIndex {
    var other := CounterParty(ix, msg);
    var list := CacheList(ix, other);
    match FindCIDForMessage(ix, msg)
    case None => ix
    case Some(c) =>
      if c == "" || c in list then ix
      else ix.(conversationCache := ix.conversationCache[other := SortBy(list + [c], TsKey(ix.messagePointers))])
  }

  /** The cache update keeps the index invariant. */
  lemma CacheUpdateConsistent(ix: ChatIndex, msg: WireMessage)
    requires Consistent(ix)
    ensures Consistent(CacheUpdate(ix, msg))
  {
    var other := CounterParty(ix, msg);
    var list := CacheList(ix, other);
    var found := FindCIDForMessage(ix, msg);
    var m := ix.messagePointers;
    if found.Some? && found.value != "" && found.value !in list {
      var c := found.value;
      var list' := SortBy(list + [c], TsKey(m));
      var ix' := ix.(conversationCache := ix.conversationCache[other := list']);
      assert CacheUpdate(ix, msg) == ix';
      assert CacheListOk(list, m) by {
        if other in ix.conversationCache {
          assert CacheListOk(ix.conversationCache[other], m);
        }
      }
      NewCacheListOk(list, c, m);
      forall o | o in ix'.conversationCache ensures CacheListOk(ix'.conversationCache[o], m) {
        if o != other {
          assert ix'.conversationCache[o] == ix.conversationCache[o];
        }
      }
    } else {
      assert CacheUpdate(ix, msg) == ix;
    }
  }

  /**
   * The cache update files the message's CID under the counterparty only if it is
   * not already there, and touches no other list and nothing outside the cache.
   */
  lemma CacheUpdateFiles(ix: ChatIndex, msg: WireMessage)
    ensures CacheUpdate(ix, msg) == ix.(conversationCache := CacheUpdate(ix, msg).conversationCache)
    ensures forall o :: o != CounterParty(ix, msg) ==> CacheList(CacheUpdate(ix, msg), o) == CacheList(ix, o)
    ensures forall o :: o != CounterParty(ix, msg) ==>
              (o in CacheUpdate(ix, msg).conversationCache <==> o in ix.conversationCache)
    ensures FindCIDForMessage(ix, msg).None? || FindCIDForMessage(ix, msg).value == "" ==> CacheUpdate(ix, msg) == ix
    ensures FindCIDForMessage(ix, msg).Some? && FindCIDForMessage(ix, msg).value != "" ==>
              var c, list := FindCIDForMessage(ix, msg).value, CacheList(ix, CounterParty(ix, msg));
              var list' := CacheList(CacheUpdate(ix, msg), CounterParty(ix, msg));
              && c in list'
              && multiset(list') == multiset(list) + (if c in list then multiset{} else multiset{c})
  {
    var list := CacheList(ix, CounterParty(ix, msg));
    var found := FindCIDForMessage(ix, msg);
    if found.Some? && found.value != "" && found.value !in list {
      assert found.value in multiset(SortBy(list + [found.value], TsKey(ix.messagePointers)));
    }
  }

  lemma NewCacheListOk(list: seq<string>, c: string, m: map<string, Pointer>)
    requires CacheListOk(list, m) && c in m && c !in list
    ensures CacheListOk(SortBy(list + [c], TsKey(m)), m)
  {
    var list' := SortBy(list + [c], TsKey(m));
    DistinctAppend(list, c);
    forall x | x in list' ensures multiset(list')[x] == 1 && x in m {
      assert x in multiset(list + [c]);
    }
    forall i, j | 0 <= i < j < |list'| ensures Ts(m, list'[i]) <= Ts(m, list'[j]) {
      assert TsKey(m)(list'[i]) <= TsKey(m)(list'[j]);
    }
  }

  // ---------------------------------------------------------------------
  // Retrieval of the work queue

  /** The state of the batch loop: the index and the messages retrieved so far. */
  datatype Progress = Progress(index: ChatIndex, retrieved: seq<WireMessage>)

  /**
   * One queue entry: fetch the content; on success mark the stored pointer synced
   * and file the CID under its conversation, on failure count a retry.
   */
  function RetrieveStep(pr: Progress, p: Pointer, retrieve: Retrieval): Progress {
    match retrieve(p.cid)
    case None => Progress(MarkFailed(pr.index, p.cid), pr.retrieved)
    case Some(msg) =>
      var current := if p.cid in pr.index.messagePointers then pr.index.messagePointers[p.cid] else p;
      var ix := SetPointer(pr.index, p.cid, current.(synced := true));
      Progress(CacheUpdate(ix, msg), pr.retrieved + [msg])
  }

  function RetrieveAll(pr: Progress, queue: seq<Pointer>, retrieve: Retrieval): Progress {
    if queue == [] then pr
    else RetrieveStep(RetrieveAll(pr, queue[..|queue| - 1], retrieve), queue[|queue| - 1], retrieve)
  }

  /** A step does not look at the messages retrieved before it. */
  lemma RetrieveStepAcc(ix: ChatIndex, acc: seq<WireMessage>, p: Pointer, retrieve: Retrieval)
    ensures RetrieveStep(Progress(ix, acc), p, retrieve)
         == Progress(RetrieveStep(Progress(ix, []), p, retrieve).index,
                     acc + RetrieveStep(Progress(ix, []), p, retrieve).retrieved)
  {
  }

  lemma {:induction false} RetrieveAllAcc(ix: ChatIndex, acc: seq<WireMessage>, queue: seq<Pointer>, retrieve: Retrieval)
    ensures RetrieveAll(Progress(ix, acc), queue, retrieve)
         == Progress(RetrieveAll(Progress(ix, []), queue, retrieve).index,
                     acc + RetrieveAll(Progress(ix, []), queue, retrieve).retrieved)
  {
    if queue != [] {
      var init := queue[..|queue| - 1];
      RetrieveAllAcc(ix, acc, init, retrieve);
      var mid := RetrieveAll(Progress(ix, []), init, retrieve);
      RetrieveStepAcc(mid.index, acc + mid.retrieved, queue[|queue| - 1], retrieve);
      RetrieveStepAcc(mid.index, mid.retrieved, queue[|queue| - 1], retrieve);
    }
  }

  /** Retrieving two queues one after the other is retrieving their concatenation. */
  lemma {:induction false} RetrieveAllAppend(pr: Progress, a: seq<Pointer>, b: seq<Pointer>, retrieve: Retrieval)
    ensures RetrieveAll(pr, a + b, retrieve) == RetrieveAll(RetrieveAll(pr, a, retrieve), b, retrieve)
  {
    if b == [] {
      assert a + b == a;
    } else {
      assert (a + b)[..|a + b| - 1] == a + b[..|b| - 1];
      RetrieveAllAppend(pr, a, b[..|b| - 1], retrieve);
    }
  }

  /** Retrieving one more batch from where the earlier batches left off extends their progress. */
  lemma RetrieveAllExtend(pr: Progress, done: seq<Pointer>, batch: seq<Pointer>, retrieve: Retrieval,
                          ix: ChatIndex, acc: seq<WireMessage>, next: Progress)
    requires Progress(ix, acc) == RetrieveAll(pr, done, retrieve)
    requires next == RetrieveAll(Progress(ix, []), batch, retrieve)
    ensures Progress(next.index, acc + next.retrieved) == RetrieveAll(pr, done + batch, retrieve)
  {
    RetrieveAllAppend(pr, done, batch, retrieve);
    RetrieveAllAcc(ix, acc, batch, retrieve);
  }

  /** The messages of the queue entries whose retrieval succeeds, in queue order. */
  function Successes(queue: seq<Pointer>, retrieve: Retrieval): seq<WireMessage> {
    if queue == [] then []
    else
      var p := queue[|queue| - 1];
      Successes(queue[..|queue| - 1], retrieve) + (if retrieve(p.cid).Some? then [retrieve(p.cid).value] else [])
  }

  /** How many entries of the queue name `cid`. */
  function Occurrences(queue: seq<Pointer>, cid: string): nat {
    if queue == [] then 0
    else Occurrences(queue[..|queue| - 1], cid) + (if queue[|queue| - 1].cid == cid then 1 else 0)
  }

  lemma {:induction false} OccurrencesPositive(queue: seq<Pointer>, p: Pointer)
    requires p in queue
    ensures Occurrences(queue, p.cid) >= 1
  {
    if queue[|queue| - 1] != p {
      OccurrencesPositive(queue[..|queue| - 1], p);
    }
  }

  /** The index changes only in its pointers' flags and counters and in its conversation cache. */
  ghost predicate RetrievalStep(ix: ChatIndex, ix': ChatIndex) {
    && ix'.walletAddress == ix.walletAddress
    && ix'.lastSync == ix.lastSync
    && ix'.knownCIDs == ix.knownCIDs
    && ix'.pointerOrder == ix.pointerOrder
    && ix'.messagePointers.Keys == ix.messagePointers.Keys
    && (forall c :: c in ix.messagePointers ==>
          var p, p' := ix.messagePointers[c], ix'.messagePointers[c];
          p'.cid == p.cid && p'.from == p.from && p'.to == p.to && p'.timestamp == p.timestamp
          && (p.synced ==> p'.synced))
  }

  lemma RetrieveStepFacts(pr: Progress, p: Pointer, retrieve: Retrieval)
    requires Consistent(pr.index) && p.cid in pr.index.messagePointers
    ensures Consistent(RetrieveStep(pr, p, retrieve).index)
    ensures RetrievalStep(pr.index, RetrieveStep(pr, p, retrieve).index)
    ensures forall c :: c in pr.index.messagePointers && c != p.cid ==>
              RetrieveStep(pr, p, retrieve).index.messagePointers[c] == pr.index.messagePointers[c]
    ensures retrieve(p.cid).Some? ==> RetrieveStep(pr, p, retrieve).index.messagePointers[p.cid].synced
    ensures retrieve(p.cid).None? ==>
              var q, q' := pr.index.messagePointers[p.cid], RetrieveStep(pr, p, retrieve).index.messagePointers[p.cid];
              q'.synced == q.synced && q'.retryCount == (if q.retryCount < MAX_RETRIES then q.retryCount + 1 else q.retryCount)
    ensures RetrieveStep(pr, p, retrieve).retrieved
         == pr.retrieved + (if retrieve(p.cid).Some? then [retrieve(p.cid).value] else [])
  {
    var ix := pr.index;
    match retrieve(p.cid)
    case None =>
      MarkFailedFacts(ix, p.cid);
    case Some(msg) =>
      var current := ix.messagePointers[p.cid];
      var ix1 := SetPointer(ix, p.cid, current.(synced := true));
      SetPointerWellFormed(ix, p.cid, current.(synced := true));
      forall other | other in ix1.conversationCache
        ensures CacheListOk(ix1.conversationCache[other], ix1.messagePointers)
      {
        CacheListTransfer(ix.conversationCache[other], ix.messagePointers, ix1.messagePointers);
      }
      assert Consistent(ix1);
      CacheUpdateConsistent(ix1, msg);
      CacheUpdateFiles(ix1, msg);
  }

  /** Retrieving a work queue whose entries all have pointers keeps the invariant and the shape of the index. */
  lemma {:induction false} RetrieveAllConsistent(pr: Progress, queue: seq<Pointer>, retrieve: Retrieval)
    requires Consistent(pr.index)
    requires forall p :: p in queue ==> p.cid in pr.index.messagePointers
    ensures Consistent(RetrieveAll(pr, queue, retrieve).index)
    ensures RetrievalStep(pr.index, RetrieveAll(pr, queue, retrieve).index)
  {
    if queue != [] {
      var init := queue[..|queue| - 1];
      assert forall p :: p in init ==> p in queue;
      RetrieveAllConsistent(pr, init, retrieve);
      RetrieveStepFacts(RetrieveAll(pr, init, retrieve), queue[|queue| - 1], retrieve);
    }
  }

  /** Retrieval keeps the set of CIDs with a pointer. */
  lemma RetrieveAllKeys(pr: Progress, queue: seq<Pointer>, retrieve: Retrieval)
    requires Consistent(pr.index)
    requires forall p :: p in queue ==> p.cid in pr.index.messagePointers
    ensures RetrieveAll(pr, queue, retrieve).index.messagePointers.Keys == pr.index.messagePointers.Keys
  {
    RetrieveAllConsistent(pr, queue, retrieve);
  }

  /** The batch loop collects exactly the successful retrievals, in queue order. */
  lemma {:induction false} RetrieveAllCollects(pr: Progress, queue: seq<Pointer>, retrieve: Retrieval)
    ensures RetrieveAll(pr, queue, retrieve).retrieved == pr.retrieved + Successes(queue, retrieve)
  {
    if queue != [] {
      RetrieveAllCollects(pr, queue[..|queue| - 1], retrieve);
    }
  }

  /** Pointers no queue entry names are left exactly as they were. */
  lemma {:induction false} RetrieveAllUntouched(pr: Progress, queue: seq<Pointer>, retrieve: Retrieval, c: string)
    requires Consistent(pr.index)
    requires forall p :: p in queue ==> p.cid in pr.index.messagePointers
    requires c in pr.index.messagePointers && Occurrences(queue, c) == 0
    ensures RetrieveAll(pr, queue, retrieve).index.messagePointers.Keys == pr.index.messagePointers.Keys
    ensures RetrieveAll(pr, queue, retrieve).index.messagePointers[c] == pr.index.messagePointers[c]
  {
    RetrieveAllConsistent(pr, queue, retrieve);
    if queue != [] {
      var init := queue[..|queue| - 1];
      assert forall p :: p in init ==> p in queue;
      RetrieveAllUntouched(pr, init, retrieve, c);
      RetrieveAllConsistent(pr, init, retrieve);
      RetrieveStepFacts(RetrieveAll(pr, init, retrieve), queue[|queue| - 1], retrieve);
    }
  }

  /** Every queue entry whose retrieval succeeds leaves its pointer synced. */
  lemma {:induction false} RetrieveAllSynced(pr: Progress, queue: seq<Pointer>, retrieve: Retrieval, p: Pointer)
    requires Consistent(pr.index)
    requires forall q :: q in queue ==> q.cid in pr.index.messagePointers
    requires p in queue && retrieve(p.cid).Some?
    ensures RetrieveAll(pr, queue, retrieve).index.messagePointers.Keys == pr.index.messagePointers.Keys
    ensures RetrieveAll(pr, queue, retrieve).index.messagePointers[p.cid].synced
  {
    RetrieveAllConsistent(pr, queue, retrieve);
    var init := queue[..|queue| - 1];
    var last := queue[|queue| - 1];
    assert forall q :: q in init ==> q in queue;
    RetrieveAllConsistent(pr, init, retrieve);
    var mid := RetrieveAll(pr, init, retrieve);
    RetrieveStepFacts(mid, last, retrieve);
    if p.cid != last.cid {
      assert p in init;
      RetrieveAllSynced(pr, init, retrieve, p);
    }
  }

  /** A CID whose retrieval fails stays unsynced as before and counts one retry per queue entry, up to three. */
  lemma {:induction false} RetrieveAllRetries(pr: Progress, queue: seq<Pointer>, retrieve: Retrieval, c: string)
    requires Consistent(pr.index)
    requires forall q :: q in queue ==> q.cid in pr.index.messagePointers
    requires c in pr.index.messagePointers && retrieve(c).None?
    ensures RetrieveAll(pr, queue, retrieve).index.messagePointers.Keys == pr.index.messagePointers.Keys
    ensures var q, q' := pr.index.messagePointers[c], RetrieveAll(pr, queue, retrieve).index.messagePointers[c];
      && q'.synced == q.synced
      && q'.retryCount == (if q.retryCount + Occurrences(queue, c) < MAX_RETRIES
                           then q.retryCount + Occurrences(queue, c) else MAX_RETRIES)
  {
    if queue != [] {
      var init := queue[..|queue| - 1];
      var last := queue[|queue| - 1];
      var mid := RetrieveAll(pr, init, retrieve);
      var k := Occurrences(init, c);
      var q0 := pr.index.messagePointers[c];
      assert forall q :: q in init ==> q in queue;
      RetrieveAllRetries(pr, init, retrieve, c);
      assert c in mid.index.messagePointers;
      var q1 := mid.index.messagePointers[c];
      assert q1.synced == q0.synced;
      assert q1.retryCount == (if q0.retryCount + k < MAX_RETRIES then q0.retryCount + k else MAX_RETRIES);
      assert Consistent(mid.index) by {
        RetrieveAllConsistent(pr, init, retrieve);
      }
      assert last in queue;
      RetrieveStepFacts(mid, last, retrieve);
      assert Occurrences(queue, c) == k + (if last.cid == c then 1 else 0);
      var q2 := RetrieveAll(pr, queue, retrieve).index.messagePointers[c];
      if last.cid == c {
        assert q2.retryCount == (if q1.retryCount < MAX_RETRIES then q1.retryCount + 1 else q1.retryCount);
      } else {
        assert q2 == q1;
      }
    }
  }

  // ---------------------------------------------------------------------
  // A whole cycle

  datatype Cycle = Cycle(index: ChatIndex, result: SyncResult)

  /** The rows of both listing queries (messages to the wallet, then messages from it). */
  function ListedRows(toAnswer: Option<seq<Pin>>, fromAnswer: Option<seq<Pin>>): seq<Pin> {
    AnswerRows(toAnswer) + AnswerRows(fromAnswer)
  }

  /** `allToSync`: the new pointers (oldest first) followed by every pending pointer (oldest first). */
  function WorkQueue(d: Discovery): seq<Pointer> {
    SortBy(d.found, PointerTime) + Unsynced(d.index)
  }

  /** The body of `syncMessages` once the re-entrancy guard has been passed. */
  function SyncCycle(ix: ChatIndex, toAnswer: Option<seq<Pin>>, fromAnswer: Option<seq<Pin>>,
                     retrieve: Retrieval, now: int): Cycle
  {
    var d := DiscoverRows(ix, ListedRows(toAnswer, fromAnswer), now);
    var pr := RetrieveAll(Progress(d.index, []), WorkQueue(d), retrieve);
    Cycle(pr.index.(lastSync := now),
          SyncResult(SortBy(pr.retrieved, WireTime), [], [], |pr.retrieved|))
  }

  lemma WorkQueueFacts(ix: ChatIndex, rows: seq<Pin>, now: int)
    requires Consistent(ix)
    ensures var d := DiscoverRows(ix, rows, now);
      && (forall p :: p in WorkQueue(d) ==> p.cid in d.index.messagePointers)
      && (forall c :: c in ix.messagePointers && !Pending(ix.messagePointers[c]) ==> Occurrences(WorkQueue(d), c) == 0)
      && (forall c :: c in d.index.messagePointers && (c !in ix.messagePointers || Pending(ix.messagePointers[c])) ==>
            exists p :: p in WorkQueue(d) && p.cid == c)
  {
    var d := DiscoverRows(ix, rows, now);
    DiscoverRowsFacts(ix, rows, now);
    UnsyncedFacts(d.index);
    var queue := WorkQueue(d);
    forall p | p in queue ensures p.cid in d.index.messagePointers {
      if p in SortBy(d.found, PointerTime) {
        SortByMembership(d.found, PointerTime, p);
      }
    }
    forall c | c in ix.messagePointers && !Pending(ix.messagePointers[c])
      ensures Occurrences(queue, c) == 0
    {
      if Occurrences(queue, c) != 0 {
        var p := OccurrenceWitness(queue, c);
        if p in SortBy(d.found, PointerTime) {
          SortByMembership(d.found, PointerTime, p);
        }
      }
    }
    forall c | c in d.index.messagePointers && (c !in ix.messagePointers || Pending(ix.messagePointers[c]))
      ensures exists p :: p in queue && p.cid == c
    {
      if c !in ix.messagePointers {
        var p :| p in d.found && p.cid == c;
        SortByMembership(d.found, PointerTime, p);
        assert p in queue;
      } else {
        assert d.index.messagePointers[c] in Unsynced(d.index);
        assert d.index.messagePointers[c] in queue;
      }
    }
  }

  lemma {:induction false} OccurrenceWitness(queue: seq<Pointer>, cid: string) returns (p: Pointer)
    requires Occurrences(queue, cid) != 0
    ensures p in queue && p.cid == cid
  {
    if queue[|queue| - 1].cid == cid {
      p := queue[|queue| - 1];
    } else {
      p := OccurrenceWitness(queue[..|queue| - 1], cid);
    }
  }

  /**
   * What a cycle guarantees: the invariant (and with it the retry bound) is kept,
   * `lastSync` is stamped, known CIDs only grow, and the result is ordered and
   * counts its messages.
   */
  lemma CycleFacts(ix: ChatIndex, toAnswer: Option<seq<Pin>>, fromAnswer: Option<seq<Pin>>,
                   retrieve: Retrieval, now: int)
    requires Consistent(ix)
    ensures var cy := SyncCycle(ix, toAnswer, fromAnswer, retrieve, now);
      && Consistent(cy.index)
      && cy.index.lastSync == now
      && ix.knownCIDs <= cy.index.knownCIDs
      && SortedBy(cy.result.newMessages, WireTime)
      && cy.result.totalSynced == |cy.result.newMessages|
  {
    var rows := ListedRows(toAnswer, fromAnswer);
    var d := DiscoverRows(ix, rows, now);
    var queue := WorkQueue(d);
    DiscoverRowsFacts(ix, rows, now);
    WorkQueueFacts(ix, rows, now);
    var pr0 := Progress(d.index, []);
    RetrieveAllConsistent(pr0, queue, retrieve);
    RetrieveAllCollects(pr0, queue, retrieve);
  }

  /**
   * What a cycle does to each pointer: exhausted and already-synced pointers are
   * neither fetched nor changed; every new or pending pointer whose retrieval
   * succeeds ends up synced, and one whose retrieval fails stays unsynced with
   * its retry counter raised.
   */
  lemma CycleOutcomes(ix: ChatIndex, toAnswer: Option<seq<Pin>>, fromAnswer: Option<seq<Pin>>,
                      retrieve: Retrieval, now: int)
    requires Consistent(ix)
    ensures var cy := SyncCycle(ix, toAnswer, fromAnswer, retrieve, now);
      && (forall c :: c in ix.messagePointers && !Pending(ix.messagePointers[c]) ==>
            c in cy.index.messagePointers && cy.index.messagePointers[c] == ix.messagePointers[c])
      && (forall c :: c in cy.index.messagePointers && (c !in ix.messagePointers || Pending(ix.messagePointers[c])) ==>
            if retrieve(c).Some? then cy.index.messagePointers[c].synced
            else !cy.index.messagePointers[c].synced
                 && cy.index.messagePointers[c].retryCount > (if c in ix.messagePointers then ix.messagePointers[c].retryCount else 0))
  {
    var cy := SyncCycle(ix, toAnswer, fromAnswer, retrieve, now);
    forall c | c in ix.messagePointers && !Pending(ix.messagePointers[c])
      ensures c in cy.index.messagePointers && cy.index.messagePointers[c] == ix.messagePointers[c]
    {
      CycleKeepsSettled(ix, toAnswer, fromAnswer, retrieve, now, c);
    }
    forall c | c in cy.index.messagePointers && (c !in ix.messagePointers || Pending(ix.messagePointers[c]))
      ensures if retrieve(c).Some? then cy.index.messagePointers[c].synced
              else !cy.index.messagePointers[c].synced
                   && cy.index.messagePointers[c].retryCount > (if c in ix.messagePointers then ix.messagePointers[c].retryCount else 0)
    {
      CyclePendingOutcome(ix, toAnswer, fromAnswer, retrieve, now, c);
    }
  }

  /** A settled pointer is left as it was by a cycle. */
  lemma CycleKeepsSettled(ix: ChatIndex, toAnswer: Option<seq<Pin>>, fromAnswer: Option<seq<Pin>>,
                          retrieve: Retrieval, now: int, c: string)
    requires Consistent(ix)
    requires c in ix.messagePointers && !Pending(ix.messagePointers[c])
    ensures var cy := SyncCycle(ix, toAnswer, fromAnswer, retrieve, now);
      c in cy.index.messagePointers && cy.index.messagePointers[c] == ix.messagePointers[c]
  {
    var rows := ListedRows(toAnswer, fromAnswer);
    var d := DiscoverRows(ix, rows, now);
    var queue := WorkQueue(d);
    DiscoverRowsFacts(ix, rows, now);
    WorkQueueFacts(ix, rows, now);
    var pr0 := Progress(d.index, []);
    RetrieveAllUntouched(pr0, queue, retrieve, c);
  }

  /** A new or pending pointer ends a cycle synced when its content is retrieved, and with more retries otherwise. */
  lemma CyclePendingOutcome(ix: ChatIndex, toAnswer: Option<seq<Pin>>, fromAnswer: Option<seq<Pin>>,
                            retrieve: Retrieval, now: int, c: string)
    requires Consistent(ix)
    requires c in SyncCycle(ix, toAnswer, fromAnswer, retrieve, now).index.messagePointers
    requires c !in ix.messagePointers || Pending(ix.messagePointers[c])
    ensures var cy := SyncCycle(ix, toAnswer, fromAnswer, retrieve, now);
      if retrieve(c).Some? then cy.index.messagePointers[c].synced
      else !cy.index.messagePointers[c].synced
           && cy.index.messagePointers[c].retryCount > (if c in ix.messagePointers then ix.messagePointers[c].retryCount else 0)
  {
    var rows := ListedRows(toAnswer, fromAnswer);
    var d := DiscoverRows(ix, rows, now);
    var queue := WorkQueue(d);
    var pr0 := Progress(d.index, []);
    var after := RetrieveAll(pr0, queue, retrieve).index.messagePointers;
    assert SyncCycle(ix, toAnswer, fromAnswer, retrieve, now).index.messagePointers == after;
    assert Consistent(d.index) by {
      DiscoverRowsFacts(ix, rows, now);
    }
    assert forall p :: p in queue ==> p.cid in d.index.messagePointers by {
      WorkQueueFacts(ix, rows, now);
    }
    assert c in d.index.messagePointers by {
      RetrieveAllKeys(pr0, queue, retrieve);
    }
    DiscoveredPending(ix, rows, now, c);
    var p :| p in queue && p.cid == c;
    QueueOutcome(pr0, queue, retrieve, p);
  }

  /** A new or pending pointer that discovery keeps is pending, still has its retries and is in the work queue. */
  lemma DiscoveredPending(ix: ChatIndex, rows: seq<Pin>, now: int, c: string)
    requires Consistent(ix)
    requires c in DiscoverRows(ix, rows, now).index.messagePointers
    requires c !in ix.messagePointers || Pending(ix.messagePointers[c])
    ensures var d := DiscoverRows(ix, rows, now);
      && Pending(d.index.messagePointers[c])
      && d.index.messagePointers[c].retryCount == (if c in ix.messagePointers then ix.messagePointers[c].retryCount else 0)
      && exists p :: p in WorkQueue(d) && p.cid == c
  {
    var d := DiscoverRows(ix, rows, now);
    DiscoverRowsFacts(ix, rows, now);
    WorkQueueFacts(ix, rows, now);
    if c !in ix.messagePointers {
      var q :| q in d.found && q.cid == c;
      assert FreshPointer(ix, d.index, q);
    }
  }

  /** A pending pointer in the work queue ends retrieval synced when its content is retrieved, and with more retries otherwise. */
  lemma QueueOutcome(pr: Progress, queue: seq<Pointer>, retrieve: Retrieval, p: Pointer)
    requires Consistent(pr.index)
    requires forall q :: q in queue ==> q.cid in pr.index.messagePointers
    requires p in queue && Pending(pr.index.messagePointers[p.cid])
    ensures var after := RetrieveAll(pr, queue, retrieve).index.messagePointers;
      && p.cid in after
      && if retrieve(p.cid).Some? then after[p.cid].synced
         else !after[p.cid].synced && after[p.cid].retryCount > pr.index.messagePointers[p.cid].retryCount
  {
    if retrieve(p.cid).Some? {
      RetrieveAllSynced(pr, queue, retrieve, p);
    } else {
      OccurrencesPositive(queue, p);
      RetrieveAllRetries(pr, queue, retrieve, p.cid);
    }
  }

  // ---------------------------------------------------------------------
  // Statistics

  datatype SyncStats = SyncStats(
    totalCIDs: nat,
    syncedCIDs: nat,
    lastSync: Option<int>,
    conversationCount: nat,
    pendingRetries: nat)

  /** `getStats`; a `lastSync` of 0 is reported as no sync yet. */
  function GetStats(ix: ChatIndex): SyncStats {
    var values := ValuesInOrder(ix.messagePointers, ix.pointerOrder);
    SyncStats(|ix.messagePointers|, Count(values, IsSynced),
              if ix.lastSync != 0 then Some(ix.lastSync) else None,
              |ix.conversationCache|, Count(values, Pending))
  }

  /** Synced and pending pointers are disjoint parts of all pointers, and the pending count is the length of the work queue's unsynced part. */
  lemma StatsFacts(ix: ChatIndex)
    requires WellFormed(ix)
    ensures GetStats(ix).syncedCIDs + GetStats(ix).pendingRetries <= GetStats(ix).totalCIDs
    ensures GetStats(ix).pendingRetries == |Unsynced(ix)|
  {
    var values := ValuesInOrder(ix.messagePointers, ix.pointerOrder);
    DistinctCard(ix.pointerOrder);
    assert ix.messagePointers.Keys == set c | c in ix.pointerOrder;
    CountDisjoint(values, IsSynced, Pending);
  }

  /** `clearCache`: the index of the same wallet with nothing known and `lastSync` reset. */
  function Cleared(ix: ChatIndex): ChatIndex {
    EmptyIndex(ix.walletAddress)
  }

  // ---------------------------------------------------------------------
  // The double queueing of new CIDs

  /** A cycle reports exactly the successful retrievals of its work queue, oldest first, and counts them. */
  lemma CycleReports(ix: ChatIndex, toAnswer: Option<seq<Pin>>, fromAnswer: Option<seq<Pin>>,
                     retrieve: Retrieval, now: int)
    ensures var d := DiscoverRows(ix, ListedRows(toAnswer, fromAnswer), now);
      var cy := SyncCycle(ix, toAnswer, fromAnswer, retrieve, now);
      && cy.result.newMessages == SortBy(Successes(WorkQueue(d), retrieve), WireTime)
      && cy.result.totalSynced == |Successes(WorkQueue(d), retrieve)|
      && cy.index == RetrieveAll(Progress(d.index, []), WorkQueue(d), retrieve).index.(lastSync := now)
  {
    var d := DiscoverRows(ix, ListedRows(toAnswer, fromAnswer), now);
    RetrieveAllCollects(Progress(d.index, []), WorkQueue(d), retrieve);
    var retrieved := RetrieveAll(Progress(d.index, []), WorkQueue(d), retrieve).retrieved;
    assert retrieved == Successes(WorkQueue(d), retrieve) by {
      assert [] + Successes(WorkQueue(d), retrieve) == Successes(WorkQueue(d), retrieve);
    }
  }

  lemma {:induction false} OccurrencesAppend(a: seq<Pointer>, b: seq<Pointer>, cid: string)
    ensures Occurrences(a + b, cid) == Occurrences(a, cid) + Occurrences(b, cid)
  {
    if b == [] {
      assert a + b == a;
    } else {
      assert (a + b)[..|a + b| - 1] == a + b[..|b| - 1];
      OccurrencesAppend(a, b[..|b| - 1], cid);
    }
  }

  /** Each queue entry for a CID whose retrieval succeeds contributes one copy of its message. */
  lemma {:induction false} SuccessesCopies(queue: seq<Pointer>, retrieve: Retrieval, cid: string)
    requires retrieve(cid).Some?
    ensures multiset(Successes(queue, retrieve))[retrieve(cid).value] >= Occurrences(queue, cid)
  {
    if queue != [] {
      SuccessesCopies(queue[..|queue| - 1], retrieve, cid);
    }
  }

  /**
   * A newly discovered CID is in the work queue twice, once as new and once as a
   * pending pointer. So the cycle reports the message of a new CID at least twice,
   * and a new CID whose retrieval fails is charged at least two retries.
   */
  lemma NewPointersQueuedTwice(ix: ChatIndex, toAnswer: Option<seq<Pin>>, fromAnswer: Option<seq<Pin>>,
                               retrieve: Retrieval, now: int)
    requires Consistent(ix)
    ensures var d := DiscoverRows(ix, ListedRows(toAnswer, fromAnswer), now);
      forall p :: p in d.found ==> Occurrences(WorkQueue(d), p.cid) >= 2
    ensures var cy := SyncCycle(ix, toAnswer, fromAnswer, retrieve, now);
      forall c :: c in cy.index.messagePointers && c !in ix.messagePointers ==>
        if retrieve(c).Some? then multiset(cy.result.newMessages)[retrieve(c).value] >= 2
        else cy.index.messagePointers[c].retryCount >= 2
  {
    var rows := ListedRows(toAnswer, fromAnswer);
    var d := DiscoverRows(ix, rows, now);
    var queue := WorkQueue(d);
    DiscoverRowsFacts(ix, rows, now);
    UnsyncedFacts(d.index);
    forall p | p in d.found ensures Occurrences(queue, p.cid) >= 2 {
      SortByMembership(d.found, PointerTime, p);
      OccurrencesAppend(SortBy(d.found, PointerTime), Unsynced(d.index), p.cid);
      OccurrencesPositive(SortBy(d.found, PointerTime), p);
      OccurrencesPositive(Unsynced(d.index), p);
    }
    CycleReports(ix, toAnswer, fromAnswer, retrieve, now);
    WorkQueueFacts(ix, rows, now);
    var pr0 := Progress(d.index, []);
    RetrieveAllConsistent(pr0, queue, retrieve);
    var cy := SyncCycle(ix, toAnswer, fromAnswer, retrieve, now);
    forall c | c in cy.index.messagePointers && c !in ix.messagePointers
      ensures if retrieve(c).Some? then multiset(cy.result.newMessages)[retrieve(c).value] >= 2
              else cy.index.messagePointers[c].retryCount >= 2
    {
      var p :| p in d.found && p.cid == c;
      if retrieve(c).Some? {
        SuccessesCopies(queue, retrieve, c);
      } else {
        RetrieveAllRetries(pr0, queue, retrieve, c);
      }
    }
  }

  // ---------------------------------------------------------------------
  // Sync callbacks

  /** One call of a registered sync callback with a cycle's result. */
  datatype SyncDelivery = SyncDelivery(callback: nat, result: SyncResult)

  /** `syncCallbacks`, each callback named by a number, and the calls made to them so far, in order. */
  datatype SyncEvents = SyncEvents(callbacks: seq<nat>, delivered: seq<SyncDelivery>)

  /** The calls `forEach` makes: each callback once, in registration order, with the result. */
  function Deliveries(callbacks: seq<nat>, result: SyncResult): (r: seq<SyncDelivery>)
    ensures |r| == |callbacks|
    ensures forall i :: 0 <= i < |r| ==> r[i] == SyncDelivery(callbacks[i], result)
  {
    if callbacks == [] then []
    else [SyncDelivery(callbacks[0], result)] + Deliveries(callbacks[1..], result)
  }

  /** Registering one more callback adds one call, last. */
  lemma DeliveriesAppend(callbacks: seq<nat>, callback: nat, result: SyncResult)
    ensures Deliveries(callbacks + [callback], result) == Deliveries(callbacks, result) + [SyncDelivery(callback, result)]
  {
  }

  /**
   * The callbacks `forEach` reaches when `throws` says which callbacks throw
   * (and with what message): every callback up to and including the first
   * that throws, since the throw leaves the loop.
   */
  function Notified(callbacks: seq<nat>, throws: nat -> Option<string>): (r: seq<nat>)
    ensures r <= callbacks
    ensures forall i :: 0 <= i < |r| - 1 ==> throws(r[i]).None?
    ensures |r| < |callbacks| ==> |r| > 0 && throws(r[|r| - 1]).Some?
  {
    if callbacks == [] then []
    else if throws(callbacks[0]).Some? then [callbacks[0]]
    else [callbacks[0]] + Notified(callbacks[1..], throws)
  }

  /** The message of the first callback that throws, if any does. */
  function FirstThrow(callbacks: seq<nat>, throws: nat -> Option<string>): (r: Option<string>)
    ensures r.None? <==> forall c :: c in callbacks ==> throws(c).None?
    ensures r.None? ==> Notified(callbacks, throws) == callbacks
    ensures r.Some? ==> var called := Notified(callbacks, throws);
                        |called| > 0 && r == throws(called[|called| - 1])
  {
    if callbacks == [] then None
    else if throws(callbacks[0]).Some? then throws(callbacks[0])
    else
      var rest := FirstThrow(callbacks[1..], throws);
      assert forall c :: c in callbacks ==> c == callbacks[0] || c in callbacks[1..];
      rest
  }

  /**
   * When the callbacks before `i` all return, the `forEach` reaches the one at
   * `i`, and goes on past it exactly when it returns too.
   */
  lemma {:induction false} NotifiedSplit(callbacks: seq<nat>, i: nat, throws: nat -> Option<string>)
    requires i < |callbacks|
    requires forall j :: 0 <= j < i ==> throws(callbacks[j]).None?
    ensures throws(callbacks[i]).None? ==>
              && Notified(callbacks, throws) == callbacks[..i + 1] + Notified(callbacks[i + 1..], throws)
              && FirstThrow(callbacks, throws) == FirstThrow(callbacks[i + 1..], throws)
    ensures throws(callbacks[i]).Some? ==>
              Notified(callbacks, throws) == callbacks[..i + 1] && FirstThrow(callbacks, throws) == throws(callbacks[i])
  {
    if i == 0 {
      assert callbacks[..1] == [callbacks[0]];
    } else {
      var tail := callbacks[1..];
      assert throws(callbacks[0]).None?;
      forall j | 0 <= j < i - 1 ensures throws(tail[j]).None? {
        assert tail[j] == callbacks[j + 1];
      }
      NotifiedSplit(tail, i - 1, throws);
      assert tail[i - 1] == callbacks[i];
      assert tail[i..] == callbacks[i + 1..];
      if throws(callbacks[i]).None? {
        PrefixStep(callbacks, i, Notified(callbacks[i + 1..], throws));
      } else {
        PrefixStep(callbacks, i, []);
      }
    }
  }

  /** The first callback followed by the next `i` of the rest are the first `i + 1`. */
  lemma PrefixStep(callbacks: seq<nat>, i: nat, rest: seq<nat>)
    requires i < |callbacks|
    ensures [callbacks[0]] + (callbacks[1..][..i] + rest) == callbacks[..i + 1] + rest
  {
    assert [callbacks[0]] + callbacks[1..][..i] == callbacks[..i + 1];
  }

  /** The log grows by the call to the callback at `i`. */
  lemma DeliveriesStep(prior: seq<SyncDelivery>, callbacks: seq<nat>, i: nat, result: SyncResult)
    requires i < |callbacks|
    ensures prior + Deliveries(callbacks[..i], result) + [SyncDelivery(callbacks[i], result)]
         == prior + Deliveries(callbacks[..i + 1], result)
  {
    assert callbacks[..i + 1] == callbacks[..i] + [callbacks[i]];
    DeliveriesAppend(callbacks[..i], callbacks[i], result);
  }

  /** The text the outer `catch` of `syncMessages` adds to the errors. */
  function SyncFailed(message: string): string {
    "Sync failed: " + message
  }

  /** What `syncMessages` returns once the callbacks have run: a throw among them adds its error. */
  function AfterCallbacks(report: SyncResult, thrown: Option<string>): (r: SyncResult)
    ensures thrown.None? ==> r == report
    ensures thrown.Some? ==> r.errors == report.errors + [SyncFailed(thrown.value)]
    ensures r.newMessages == report.newMessages && r.updatedConversations == report.updatedConversations
    ensures r.totalSynced == report.totalSynced
  {
    if thrown.Some? then report.(errors := report.errors + [SyncFailed(thrown.value)]) else report
  }

  // ---------------------------------------------------------------------
  // The synchronizer object

  class MessageSyncManager {
    var chatIndex: ChatIndex
    var issyncing: bool
    /** The registered sync callbacks and every call made to them. */
    var events: SyncEvents

    /** The manager of a wallet, starting from the stored index if there is one. */
    constructor (walletAddress: string, stored: Option<StoredIndex>)
      ensures chatIndex == LoadOrCreateIndex(walletAddress, stored)
      ensures !issyncing
      ensures events == SyncEvents([], [])
    {
      chatIndex := LoadOrCreateIndex(walletAddress, stored);
      issyncing := false;
      events := SyncEvents([], []);
    }

    /** `onSync`: the callback is registered after those already there. */
    method OnSync(callback: nat)
      modifies this
      ensures events == old(events).(callbacks := old(events).callbacks + [callback])
      ensures chatIndex == old(chatIndex) && issyncing == old(issyncing)
    {
      events := events.(callbacks := events.callbacks + [callback]);
    }

    /**
     * `this.syncCallbacks.forEach((callback) => callback(result))`: each
     * callback is called in turn until one throws; that throw is the answer.
     */
    method NotifySync(result: SyncResult, throws: nat -> Option<string>) returns (thrown: Option<string>)
      modifies this
      ensures events == old(events).(delivered := old(events).delivered + Deliveries(Notified(old(events).callbacks, throws), result))
      ensures thrown == FirstThrow(old(events).callbacks, throws)
      ensures chatIndex == old(chatIndex) && issyncing == old(issyncing)
    {
      var callbacks := events.callbacks;
      var i := 0;
      thrown := None;
      while i < |callbacks| && thrown.None?
        invariant 0 <= i <= |callbacks|
        invariant chatIndex == old(chatIndex) && issyncing == old(issyncing)
        invariant events == old(events).(delivered := old(events).delivered + Deliveries(callbacks[..i], result))
        invariant thrown.None? ==> forall j :: 0 <= j < i ==> throws(callbacks[j]).None?
        invariant thrown.None? && 0 < i ==>
                    && Notified(callbacks, throws) == callbacks[..i] + Notified(callbacks[i..], throws)
                    && FirstThrow(callbacks, throws) == FirstThrow(callbacks[i..], throws)
        invariant thrown.Some? ==> Notified(callbacks, throws) == callbacks[..i] && thrown == FirstThrow(callbacks, throws)
      {
        NotifiedSplit(callbacks, i, throws);
        DeliveriesStep(old(events).delivered, callbacks, i, result);
        events := events.(delivered := events.delivered + [SyncDelivery(callbacks[i], result)]);
        thrown := throws(callbacks[i]);
        i := i + 1;
      }
      if thrown.None? {
        assert callbacks[..i] == callbacks;
        assert forall c :: c in callbacks ==> throws(c).None?;
      }
    }

    /** `discoverNewCIDs`: records every new recent pin of both listings and returns the new pointers, oldest first. */
    method DiscoverNewCIDs(toAnswer: Option<seq<Pin>>, fromAnswer: Option<seq<Pin>>, now: int)
      returns (newCIDs: seq<Pointer>)
      modifies this
      ensures chatIndex == DiscoverRows(old(chatIndex), ListedRows(toAnswer, fromAnswer), now).index
      ensures newCIDs == SortBy(DiscoverRows(old(chatIndex), ListedRows(toAnswer, fromAnswer), now).found, PointerTime)
      ensures issyncing == old(issyncing)
      ensures events == old(events)
    {
      var rows := ListedRows(toAnswer, fromAnswer);
      var found: seq<Pointer> := [];
      var i := 0;
      while i < |rows|
        invariant 0 <= i <= |rows|
        invariant Discovery(chatIndex, found) == DiscoverRows(old(chatIndex), rows[..i], now)
        invariant issyncing == old(issyncing)
        invariant events == old(events)
      {
        assert DiscoverRows(old(chatIndex), rows[..i + 1], now)
            == DiscoverPin(DiscoverRows(old(chatIndex), rows[..i], now), rows[i], now) by {
          assert rows[..i + 1][..i] == rows[..i];
        }
        found := DiscoverOne(rows[i], found, now);
        i := i + 1;
      }
      assert rows[..|rows|] == rows;
      newCIDs := SortBy(found, PointerTime);
    }

    /** One row of the loop of `discoverNewCIDs`: a new recent pin is recorded and its pointer added to `found`. */
    method DiscoverOne(pin: Pin, found: seq<Pointer>, now: int) returns (found': seq<Pointer>)
      modifies this
      ensures Discovery(chatIndex, found') == DiscoverPin(Discovery(old(chatIndex), found), pin, now)
      ensures issyncing == old(issyncing)
      ensures events == old(events)
    {
      found' := found;
      if pin.keyvalues.Some? && pin.hash !in chatIndex.knownCIDs
         && pin.keyvalues.value.timestamp >= chatIndex.lastSync - RESYNC_BUFFER
      {
        var meta := pin.keyvalues.value;
        var p := Pointer(pin.hash, meta.from, meta.to, meta.timestamp, now, false, 0);
        found' := found' + [p];
        chatIndex := chatIndex.(knownCIDs := chatIndex.knownCIDs + {pin.hash});
        chatIndex := SetPointer(chatIndex, pin.hash, p);
      }
    }

    /** `retrieveMessage`: the gateways' answer; a failure is charged to the CID's pointer. */
    method RetrieveMessage(cid: string, retrieve: Retrieval) returns (message: Option<WireMessage>)
      modifies this
      ensures message == retrieve(cid)
      ensures chatIndex == if message.None? then MarkFailed(old(chatIndex), cid) else old(chatIndex)
      ensures issyncing == old(issyncing)
      ensures events == old(events)
    {
      message := retrieve(cid);
      if message.None? {
        if cid in chatIndex.messagePointers && chatIndex.messagePointers[cid].retryCount < MAX_RETRIES {
          var pointer := chatIndex.messagePointers[cid];
          chatIndex := chatIndex.(messagePointers := chatIndex.messagePointers[cid := pointer.(retryCount := pointer.retryCount + 1)]);
        }
      }
    }

    /** `updateConversationCache`. */
    method UpdateConversationCache(message: WireMessage)
      modifies this
      ensures chatIndex == CacheUpdate(old(chatIndex), message)
      ensures issyncing == old(issyncing)
      ensures events == old(events)
    {
      var otherParty := CounterParty(chatIndex, message);
      var conversationCIDs := CacheList(chatIndex, otherParty);
      var messageCID := FindCIDForMessage(chatIndex, message);
      if messageCID.Some? && messageCID.value != "" && messageCID.value !in conversationCIDs {
        conversationCIDs := SortBy(conversationCIDs + [messageCID.value], TsKey(chatIndex.messagePointers));
        chatIndex := chatIndex.(conversationCache := chatIndex.conversationCache[otherParty := conversationCIDs]);
      }
    }

    /** The per-pointer task of a batch: fetch, and on success mark the pointer synced and file it in its conversation. */
    method SyncPointer(pointer: Pointer, retrieve: Retrieval) returns (message: Option<WireMessage>)
      modifies this
      ensures message == retrieve(pointer.cid)
      ensures RetrieveStep(Progress(old(chatIndex), []), pointer, retrieve)
           == Progress(chatIndex, if message.Some? then [message.value] else [])
      ensures issyncing == old(issyncing)
      ensures events == old(events)
    {
      message := RetrieveMessage(pointer.cid, retrieve);
      if message.Some? {
        var current := if pointer.cid in chatIndex.messagePointers then chatIndex.messagePointers[pointer.cid] else pointer;
        chatIndex := SetPointer(chatIndex, pointer.cid, current.(synced := true));
        UpdateConversationCache(message.value);
      }
    }

    /** One batch: each pointer's task in turn; the messages retrieved, in batch order. */
    method SyncBatch(batch: seq<Pointer>, retrieve: Retrieval) returns (messages: seq<WireMessage>)
      modifies this
      ensures Progress(chatIndex, messages) == RetrieveAll(Progress(old(chatIndex), []), batch, retrieve)
      ensures issyncing == old(issyncing)
      ensures events == old(events)
    {
      messages := [];
      var j := 0;
      while j < |batch|
        invariant 0 <= j <= |batch|
        invariant Progress(chatIndex, messages) == RetrieveAll(Progress(old(chatIndex), []), batch[..j], retrieve)
        invariant issyncing == old(issyncing)
        invariant events == old(events)
      {
        assert batch[..j + 1][..j] == batch[..j];
        assert RetrieveAll(Progress(old(chatIndex), []), batch[..j + 1], retrieve)
            == RetrieveStep(Progress(chatIndex, messages), batch[j], retrieve);
        ghost var before, acc := chatIndex, messages;
        var message := SyncPointer(batch[j], retrieve);
        RetrieveStepAcc(before, messages, batch[j], retrieve);
        if message.Some? {
          messages := messages + [message.value];
        }
        assert Progress(chatIndex, messages) == RetrieveStep(Progress(before, acc), batch[j], retrieve);
        j := j + 1;
      }
      assert batch[..|batch|] == batch;
    }

    /** The re-entrancy guard of `syncMessages`: a cycle starts only if none is running. */
    method BeginSync() returns (started: bool)
      modifies this
      ensures started == !old(issyncing)
      ensures issyncing
      ensures chatIndex == old(chatIndex)
      ensures events == old(events)
    {
      if issyncing {
        return false;
      }
      issyncing := true;
      started := true;
    }

    /** The batch loop of `syncMessages`: the queue in slices of `BATCH_SIZE`, collecting every retrieved message. */
    method RetrieveQueue(allToSync: seq<Pointer>, retrieve: Retrieval) returns (newMessages: seq<WireMessage>, totalSynced: nat)
      modifies this
      ensures Progress(chatIndex, newMessages) == RetrieveAll(Progress(old(chatIndex), []), allToSync, retrieve)
      ensures totalSynced == |newMessages|
      ensures issyncing == old(issyncing)
      ensures events == old(events)
    {
      newMessages := [];
      totalSynced := 0;
      var i := 0;
      while i < |allToSync|
        invariant 0 <= i <= |allToSync|
        invariant Progress(chatIndex, newMessages) == RetrieveAll(Progress(old(chatIndex), []), allToSync[..i], retrieve)
        invariant totalSynced == |newMessages|
        invariant issyncing == old(issyncing)
        invariant events == old(events)
      {
        var end := if i + BATCH_SIZE < |allToSync| then i + BATCH_SIZE else |allToSync|;
        var batch := allToSync[i..end];
        ghost var before := chatIndex;
        var batchResults := SyncBatch(batch, retrieve);
        assert allToSync[..end] == allToSync[..i] + batch;
        RetrieveAllExtend(Progress(old(chatIndex), []), allToSync[..i], batch, retrieve, before, newMessages, Progress(chatIndex, batchResults));
        newMessages := newMessages + batchResults;
        totalSynced := totalSynced + |batchResults|;
        i := end;
      }
      assert allToSync[..|allToSync|] == allToSync;
    }

    /**
     * The cycle proper, run once the guard is passed: the cycle's report goes
     * to the callbacks, and a callback that throws stops the others and adds
     * its error to what is returned; the flag is cleared on the way out.
     */
    method CompleteSync(toAnswer: Option<seq<Pin>>, fromAnswer: Option<seq<Pin>>, retrieve: Retrieval,
                        throws: nat -> Option<string>, now: int)
      returns (result: SyncResult)
      modifies this
      ensures var cy := SyncCycle(old(chatIndex), toAnswer, fromAnswer, retrieve, now);
        && chatIndex == cy.index
        && result == AfterCallbacks(cy.result, FirstThrow(old(events).callbacks, throws))
        && events == old(events).(delivered := old(events).delivered + Deliveries(Notified(old(events).callbacks, throws), cy.result))
      ensures !issyncing
    {
      ghost var d := DiscoverRows(chatIndex, ListedRows(toAnswer, fromAnswer), now);
      var newCIDs := DiscoverNewCIDs(toAnswer, fromAnswer, now);
      assert chatIndex == d.index;
      var unsynced := Unsynced(chatIndex);
      var allToSync := newCIDs + unsynced;
      assert allToSync == WorkQueue(d);
      ghost var pr := RetrieveAll(Progress(d.index, []), WorkQueue(d), retrieve);
      var newMessages, totalSynced := RetrieveQueue(allToSync, retrieve);
      assert chatIndex == pr.index && newMessages == pr.retrieved;
      assert SyncCycle(old(chatIndex), toAnswer, fromAnswer, retrieve, now)
          == Cycle(pr.index.(lastSync := now), SyncResult(SortBy(pr.retrieved, WireTime), [], [], |pr.retrieved|));
      chatIndex := chatIndex.(lastSync := now);
      var report := SyncResult(SortBy(newMessages, WireTime), [], [], totalSynced);
      var thrown := NotifySync(report, throws);
      result := AfterCallbacks(report, thrown);
      issyncing := false;
    }

    /**
     * `syncMessages`: an overlapping call returns the empty result and changes
     * nothing; otherwise one whole cycle runs and the flag is clear afterwards.
     * When no callback throws, every callback receives the result once.
     */
    method SyncMessages(toAnswer: Option<seq<Pin>>, fromAnswer: Option<seq<Pin>>, retrieve: Retrieval,
                        throws: nat -> Option<string>, now: int)
      returns (result: SyncResult)
      modifies this
      ensures old(issyncing) ==>
                result == EmptyResult() && chatIndex == old(chatIndex) && issyncing && events == old(events)
      ensures !old(issyncing) ==>
                var cy := SyncCycle(old(chatIndex), toAnswer, fromAnswer, retrieve, now);
                && chatIndex == cy.index && !issyncing
                && result == AfterCallbacks(cy.result, FirstThrow(old(events).callbacks, throws))
                && events == old(events).(delivered := old(events).delivered + Deliveries(Notified(old(events).callbacks, throws), cy.result))
      ensures !old(issyncing) && (forall c :: c in old(events).callbacks ==> throws(c).None?) ==>
                && Cycle(chatIndex, result) == SyncCycle(old(chatIndex), toAnswer, fromAnswer, retrieve, now)
                && events == old(events).(delivered := old(events).delivered + Deliveries(old(events).callbacks, result))
      ensures Consistent(old(chatIndex)) ==> Consistent(chatIndex)
    {
      var started := BeginSync();
      if !started {
        return EmptyResult();
      }
      result := CompleteSync(toAnswer, fromAnswer, retrieve, throws, now);
      if Consistent(old(chatIndex)) {
        CycleFacts(old(chatIndex), toAnswer, fromAnswer, retrieve, now);
      }
    }

    /** `clearCache`: forgets every CID, pointer and conversation and resets `lastSync`. */
    method ClearCache()
      modifies this
      ensures chatIndex == Cleared(old(chatIndex))
      ensures issyncing == old(issyncing)
      ensures events == old(events)
    {
      chatIndex := chatIndex.(knownCIDs := {}, messagePointers := map[], pointerOrder := [],
                              conversationCache := map[], lastSync := 0);
    }
  }
}

=== FILE: offline.dfy ===
/**
 * The offline retry queue of app/lib/offline-sync.ts: messages written while
 * offline wait in an insertion-ordered map (persisted as
 * `solchat_pending_messages`) and are retried by sync passes; a message
 * leaves the queue once it is sent, or once it has failed three times.
 *
 * Whether the browser is online is the parameter `online`; whether sending a
 * given message succeeds in a pass is the oracle `sent` (the source draws it
 * at random); the generated id of a queued message is the parameter `id`.
 * The `offlineSyncComplete` events a pass dispatches are logged in `events`.
 */
module Offline {
  import opened Common

  const MAX_RETRIES := 3

  datatype MessageType = Direct | Group

  datatype PendingMessage = PendingMessage(
    id: string,
    messageType: MessageType,
    from: string,
    to: Option<string>,
    groupId: Option<string>,
    content: string,
    timestamp: int,
    retryCount: nat)

  /** What the caller of `queueMessage` supplies: a pending message without id and retry count. */
  datatype Draft = Draft(
    messageType: MessageType,
    from: string,
    to: Option<string>,
    groupId: Option<string>,
    content: string,
    timestamp: int)

  /** The detail of an `offlineSyncComplete` event. */
  datatype SyncSummary = SyncSummary(synced: nat, failed: nat, pending: nat)

  function Pending(draft: Draft, id: string): PendingMessage {
    PendingMessage(id, draft.messageType, draft.from, draft.to, draft.groupId, draft.content, draft.timestamp, 0)
  }

  /** Every queued message still has a retry left. */
  ghost predicate RetriesBounded(pending: OrderedMap<PendingMessage>) {
    forall id :: id in pending.entries ==> pending.entries[id].retryCount < MAX_RETRIES
  }

  // ---------------------------------------------------------------------------
  // One sync pass
  // ---------------------------------------------------------------------------

  /** The loop's step for one id: an unsent message has its retry count raised by one. */
  function BumpOne(entries: map<string, PendingMessage>, id: string, sent: string -> bool): map<string, PendingMessage> {
    if !sent(id) && id in entries then entries[id := entries[id].(retryCount := entries[id].retryCount + 1)] else entries
  }

  /** The entries after the pass's loop has seen the first `n` ids. */
  function Bumped(entries: map<string, PendingMessage>, ids: seq<string>, n: nat, sent: string -> bool): map<string, PendingMessage>
    requires n <= |ids|
  {
    if n == 0 then entries else BumpOne(Bumped(entries, ids, n - 1, sent), ids[n - 1], sent)
  }

  /** The message under `id` is not sent and has now failed for the last time. */
  predicate Exhausted(entries: map<string, PendingMessage>, sent: string -> bool, id: string) {
    !sent(id) && id in entries && entries[id].retryCount + 1 >= MAX_RETRIES
  }

  function FailsNow(entries: map<string, PendingMessage>, sent: string -> bool): string -> bool {
    id => Exhausted(entries, sent, id)
  }

  /** The `forEach(delete)` over a list of ids. */
  function DeleteAll(m: OrderedMap<PendingMessage>, ids: seq<string>): OrderedMap<PendingMessage> {
    if ids == [] then m else MapDelete(DeleteAll(m, ids[..|ids| - 1]), ids[|ids| - 1])
  }

  /** The queue after a pass that ran: sent messages and final failures removed, the others retried once more. */
  function Pass(m: OrderedMap<PendingMessage>, sent: string -> bool): OrderedMap<PendingMessage>
    requires MapValid(m)
  {
    var bumped := OrderedMap(Bumped(m.entries, m.order, |m.order|, sent), m.order);
    DeleteAll(DeleteAll(bumped, Filter(m.order, sent)), Filter(m.order, FailsNow(m.entries, sent)))
  }

  /** In a duplicate-free list, the element at `n - 1` does not occur before it. */
  lemma DistinctLast(ids: seq<string>, n: nat)
    requires Distinct(ids) && 0 < n <= |ids|
    ensures ids[n - 1] !in ids[..n - 1]
  {
    var x := ids[n - 1];
    assert ids == ids[..n - 1] + ids[n - 1..];
    assert multiset(ids) == multiset(ids[..n - 1]) + multiset(ids[n - 1..]);
    assert x in ids[n - 1..];
    assert x in ids;
  }

  /**
   * Over a duplicate-free list of ids the loop raises the retry count of an
   * unsent message it has seen exactly once, and leaves every other message as
   * it was.
   */
  lemma {:induction false} BumpedAt(entries: map<string, PendingMessage>, ids: seq<string>, n: nat, sent: string -> bool, id: string)
    requires Distinct(ids) && n <= |ids|
    ensures id in Bumped(entries, ids, n, sent) <==> id in entries
    ensures id in entries ==>
      Bumped(entries, ids, n, sent)[id] ==
        if id in ids[..n] && !sent(id) then entries[id].(retryCount := entries[id].retryCount + 1) else entries[id]
  {
    if n > 0 {
      BumpedAt(entries, ids, n - 1, sent, id);
      assert ids[..n] == ids[..n - 1] + [ids[n - 1]];
      if id == ids[n - 1] {
        DistinctLast(ids, n);
      }
    }
  }

  /** The id the loop reaches next still has its message as it was before the pass. */
  lemma BumpedNext(entries: map<string, PendingMessage>, ids: seq<string>, n: nat, sent: string -> bool)
    requires Distinct(ids) && n < |ids| && ids[n] in entries
    ensures ids[n] in Bumped(entries, ids, n, sent)
    ensures Bumped(entries, ids, n, sent)[ids[n]] == entries[ids[n]]
  {
    BumpedAt(entries, ids, n, sent, ids[n]);
    DistinctLast(ids, n + 1);
  }

  /** Deleting a list of ids removes exactly those keys and keeps the map valid. */
  lemma {:induction false} DeleteAllFacts(m: OrderedMap<PendingMessage>, ids: seq<string>)
    requires MapValid(m)
    ensures MapValid(DeleteAll(m, ids))
    ensures forall id :: id in DeleteAll(m, ids).entries <==> id in m.entries && id !in ids
    ensures forall id :: id in DeleteAll(m, ids).entries ==> DeleteAll(m, ids).entries[id] == m.entries[id]
  {
    if ids != [] {
      var init, last := ids[..|ids| - 1], ids[|ids| - 1];
      assert ids == init + [last];
      DeleteAllFacts(m, init);
      MapDeleteFacts(DeleteAll(m, init), last);
      assert DeleteAll(m, ids).entries == DeleteAll(m, init).entries - {last};
      forall id ensures id in DeleteAll(m, ids).entries <==> id in m.entries && id !in ids {
        assert id in ids <==> id in init || id == last;
      }
    }
  }

  /**
   * After a pass every sent message is gone, and so is every message whose
   * raised retry count reached 3; each other message stays with its retry
   * count raised by one, and nothing is added. So the retry bound holds
   * after any pass, whatever it held before.
   */
  lemma PassFacts(m: OrderedMap<PendingMessage>, sent: string -> bool)
    requires MapValid(m)
    ensures var r := Pass(m, sent);
      && MapValid(r)
      && (forall id :: id in r.entries <==> id in m.entries && !sent(id) && m.entries[id].retryCount + 1 < MAX_RETRIES)
      && (forall id :: id in r.entries ==> r.entries[id] == m.entries[id].(retryCount := m.entries[id].retryCount + 1))
      && RetriesBounded(r)
  {
    var bumped := OrderedMap(Bumped(m.entries, m.order, |m.order|, sent), m.order);
    assert m.order[..|m.order|] == m.order;
    forall id ensures id in bumped.entries <==> id in m.entries
      ensures id in m.entries ==> bumped.entries[id] == if !sent(id) then m.entries[id].(retryCount := m.entries[id].retryCount + 1) else m.entries[id]
    {
      BumpedAt(m.entries, m.order, |m.order|, sent, id);
    }
    assert MapValid(bumped);
    var succ := Filter(m.order, sent);
    var failed := Filter(m.order, FailsNow(m.entries, sent));
    DeleteAllFacts(bumped, succ);
    DeleteAllFacts(DeleteAll(bumped, succ), failed);
  }

  // ---------------------------------------------------------------------------
  // The service
  // ---------------------------------------------------------------------------

  class OfflineSyncService {
    var pendingMessages: OrderedMap<PendingMessage>
    var syncInProgress: bool
    var events: seq<SyncSummary>

    /** The queue starts as it was persisted. */
    constructor(stored: OrderedMap<PendingMessage>)
      ensures pendingMessages == stored && !syncInProgress && events == []
    {
      pendingMessages := stored;
      syncInProgress := false;
      events := [];
    }

    ghost predicate Valid()
      reads this
    {
      MapValid(pendingMessages)
    }

    /** `queueMessage`: a new entry under the generated id, with no retries yet. */
    method QueueMessage(message: Draft, id: string) returns (queued: string)
      requires Valid()
      modifies this
      ensures Valid()
      ensures queued == id
      ensures pendingMessages == MapSet(old(pendingMessages), id, Pending(message, id))
      ensures pendingMessages.entries[id].retryCount == 0
      ensures old(RetriesBounded(pendingMessages)) ==> RetriesBounded(pendingMessages)
      ensures syncInProgress == old(syncInProgress) && events == old(events)
    {
      MapSetFacts(pendingMessages, id, Pending(message, id));
      pendingMessages := MapSet(pendingMessages, id, Pending(message, id));
      queued := id;
    }

    /**
     * `syncPendingMessages`: nothing happens while a pass runs, offline or
     * with an empty queue; otherwise every queued message is tried once, in
     * queue order, then the sent ones and the final failures are removed and
     * the outcome announced.
     */
    method SyncPendingMessages(online: bool, sent: string -> bool)
      requires Valid()
      modifies this
      ensures Valid()
      ensures old(syncInProgress) || !online || |old(pendingMessages).entries| == 0 ==>
        pendingMessages == old(pendingMessages) && events == old(events) && syncInProgress == old(syncInProgress)
      ensures !(old(syncInProgress) || !online || |old(pendingMessages).entries| == 0) ==>
        && pendingMessages == Pass(old(pendingMessages), sent)
        && events == old(events) + [SyncSummary(
             Count(old(pendingMessages).order, sent),
             Count(old(pendingMessages).order, FailsNow(old(pendingMessages).entries, sent)),
             |pendingMessages.entries|)]
        && !syncInProgress
    {
      if syncInProgress || !online || |pendingMessages.entries| == 0 {
        return;
      }
      ghost var passed := Pass(pendingMessages, sent);
      PassFacts(pendingMessages, sent);
      syncInProgress := true;
      var successfulSyncs, failedSyncs := AttemptAll(sent);
      DeleteIds(successfulSyncs);
      DeleteIds(failedSyncs);
      assert pendingMessages == passed;
      Announce(|successfulSyncs|, |failedSyncs|);
    }

    /** The end of a pass: the `offlineSyncComplete` event goes out and the next pass may start. */
    method Announce(synced: nat, failed: nat)
      modifies this
      ensures pendingMessages == old(pendingMessages) && !syncInProgress
      ensures events == old(events) + [SyncSummary(synced, failed, |pendingMessages.entries|)]
    {
      events := events + [SyncSummary(synced, failed, |pendingMessages.entries|)];
      syncInProgress := false;
    }

    /** The pass's loop: each queued message is tried once, in queue order; an unsent one is retried once more. */
    method AttemptAll(sent: string -> bool) returns (successfulSyncs: seq<string>, failedSyncs: seq<string>)
      requires Valid()
      modifies this
      ensures pendingMessages == OrderedMap(Bumped(old(pendingMessages).entries, old(pendingMessages).order, |old(pendingMessages).order|, sent), old(pendingMessages).order)
      ensures successfulSyncs == Filter(old(pendingMessages).order, sent)
      ensures failedSyncs == Filter(old(pendingMessages).order, FailsNow(old(pendingMessages).entries, sent))
      ensures syncInProgress == old(syncInProgress) && events == old(events)
    {
      var entries0 := pendingMessages.entries;
      var order := pendingMessages.order;
      successfulSyncs := [];
      failedSyncs := [];
      var k := 0;
      while k < |order|
        invariant 0 <= k <= |order|
        invariant pendingMessages.order == order
        invariant pendingMessages.entries == Bumped(entries0, order, k, sent)
        invariant successfulSyncs == FilterUpTo(order, k, sent)
        invariant failedSyncs == FilterUpTo(order, k, FailsNow(entries0, sent))
        invariant syncInProgress == old(syncInProgress) && events == old(events)
      {
        successfulSyncs, failedSyncs := AttemptOne(entries0, order, k, sent, successfulSyncs, failedSyncs);
        k := k + 1;
      }
      FilterUpToPrefix(order, k, sent);
      FilterUpToPrefix(order, k, FailsNow(entries0, sent));
      assert order[..k] == order;
    }

    /** One turn of the pass's loop: the message at position `k` is tried. */
    method AttemptOne(entries0: map<string, PendingMessage>, order: seq<string>, k: nat, sent: string -> bool,
                      successfulSyncs: seq<string>, failedSyncs: seq<string>)
      returns (successfulSyncs': seq<string>, failedSyncs': seq<string>)
      requires MapValid(OrderedMap(entries0, order)) && k < |order|
      requires pendingMessages == OrderedMap(Bumped(entries0, order, k, sent), order)
      requires successfulSyncs == FilterUpTo(order, k, sent)
      requires failedSyncs == FilterUpTo(order, k, FailsNow(entries0, sent))
      modifies this
      ensures pendingMessages == OrderedMap(Bumped(entries0, order, k + 1, sent), order)
      ensures successfulSyncs' == FilterUpTo(order, k + 1, sent)
      ensures failedSyncs' == FilterUpTo(order, k + 1, FailsNow(entries0, sent))
      ensures syncInProgress == old(syncInProgress) && events == old(events)
    {
      var id := order[k];
      assert id in entries0;
      BumpedNext(entries0, order, k, sent);
      var message := pendingMessages.entries[id];
      successfulSyncs', failedSyncs' := successfulSyncs, failedSyncs;
      if sent(id) {
        successfulSyncs' := successfulSyncs + [id];
      } else {
        message := message.(retryCount := message.retryCount + 1);
        pendingMessages := pendingMessages.(entries := pendingMessages.entries[id := message]);
        if message.retryCount >= MAX_RETRIES {
          failedSyncs' := failedSyncs + [id];
        }
      }
      assert FailsNow(entries0, sent)(id) <==> !sent(id) && message.retryCount >= MAX_RETRIES;
    }

    /** The `forEach(id => delete(id))` over a list of ids. */
    method DeleteIds(ids: seq<string>)
      modifies this
      ensures pendingMessages == DeleteAll(old(pendingMessages), ids)
      ensures syncInProgress == old(syncInProgress) && events == old(events)
    {
      var i := 0;
      while i < |ids|
        invariant 0 <= i <= |ids|
        invariant pendingMessages == DeleteAll(old(pendingMessages), ids[..i])
        invariant syncInProgress == old(syncInProgress) && events == old(events)
      {
        assert ids[..i + 1][..i] == ids[..i];
        pendingMessages := MapDelete(pendingMessages, ids[i]);
        i := i + 1;
      }
      assert ids[..i] == ids;
    }

    /** `getPendingMessagesCount`: the number of queued messages. */
    function GetPendingMessagesCount(): (r: nat)
      reads this
      ensures Valid() ==> r == |GetPendingMessages()|
    {
      assert Valid() ==> |MapValues(pendingMessages)| == |pendingMessages.entries| by {
        if Valid() {
          MapValuesFacts(pendingMessages);
        }
      }
      |pendingMessages.entries|
    }

    function GetPendingMessages(): seq<PendingMessage>
      reads this
    {
      MapValues(pendingMessages)
    }

    method ClearPendingMessages()
      modifies this
      ensures pendingMessages == EmptyMap() && Valid()
      ensures syncInProgress == old(syncInProgress) && events == old(events)
    {
      pendingMessages := EmptyMap();
    }

    /** `removePendingMessage`: reports whether the id was queued; it is not afterwards. */
    method RemovePendingMessage(id: string) returns (removed: bool)
      requires Valid()
      modifies this
      ensures Valid()
      ensures removed <==> id in old(pendingMessages).entries
      ensures pendingMessages == MapDelete(old(pendingMessages), id)
      ensures id !in pendingMessages.entries
      ensures forall other :: other != id ==>
        (other in pendingMessages.entries <==> other in old(pendingMessages).entries)
      ensures old(RetriesBounded(pendingMessages)) ==> RetriesBounded(pendingMessages)
      ensures syncInProgress == old(syncInProgress) && events == old(events)
    {
      removed := id in pendingMessages.entries;
      MapDeleteFacts(pendingMessages, id);
      pendingMessages := MapDelete(pendingMessages, id);
    }

    /** `retryMessage`: a queued message gets its full retry budget back, in place. */
    method RetryMessage(id: string)
      requires Valid()
      modifies this
      ensures Valid()
      ensures id in old(pendingMessages).entries ==>
        pendingMessages == MapSet(old(pendingMessages), id, old(pendingMessages).entries[id].(retryCount := 0))
      ensures id !in old(pendingMessages).entries ==> pendingMessages == old(pendingMessages)
      ensures pendingMessages.order == old(pendingMessages).order
      ensures pendingMessages.entries.Keys == old(pendingMessages).entries.Keys
      ensures forall other :: other != id && other in old(pendingMessages).entries ==>
        pendingMessages.entries[other] == old(pendingMessages).entries[other]
      ensures old(RetriesBounded(pendingMessages)) ==> RetriesBounded(pendingMessages)
      ensures syncInProgress == old(syncInProgress) && events == old(events)
    {
      if id in pendingMessages.entries {
        var message := pendingMessages.entries[id];
        message := message.(retryCount := 0);
        MapSetFacts(pendingMessages, id, message);
        pendingMessages := MapSet(pendingMessages, id, message);
      }
    }
  }
}

=== FILE: search.dfy ===
/**
 * The message search of app/lib/search.ts: the direct and group messages whose
 * lowercased content contains the lowercased query, newest first.
 */
module Search {
  import opened Common
  import opened Messages
  import opened Groups

  /** One search result: either kind of message. */
  datatype Hit = DirectHit(message: Message) | GroupHit(groupMessage: GroupMessage)

  function HitTime(h: Hit): int {
    match h
    case DirectHit(m) => m.timestamp
    case GroupHit(g) => g.timestamp
  }

  /** The sort key of `(a, b) => b.timestamp - a.timestamp`: ascending in it is newest first. */
  function NewestFirst(h: Hit): int {
    -HitTime(h)
  }

  /** `content.toLowerCase().includes(query.toLowerCase())`. */
  predicate Matches(content: string, query: string) {
    Contains(ToLower(content), ToLower(query))
  }

  /** The matching direct messages, in their order. */
  function DirectHits(messages: seq<Message>, query: string): (r: seq<Hit>)
    ensures forall h :: h in r ==> h.DirectHit?
    ensures forall m :: DirectHit(m) in r <==> m in messages && Matches(m.content, query)
    ensures |r| <= |messages|
  {
    if messages == [] then []
    else
      var last := messages[|messages| - 1];
      assert messages == messages[..|messages| - 1] + [last];
      DirectHits(messages[..|messages| - 1], query) + (if Matches(last.content, query) then [DirectHit(last)] else [])
  }

  /** The matching group messages, in their order. */
  function GroupHits(groupMessages: seq<GroupMessage>, query: string): (r: seq<Hit>)
    ensures forall h :: h in r ==> h.GroupHit?
    ensures forall g :: GroupHit(g) in r <==> g in groupMessages && Matches(g.content, query)
    ensures |r| <= |groupMessages|
  {
    if groupMessages == [] then []
    else
      var last := groupMessages[|groupMessages| - 1];
      assert groupMessages == groupMessages[..|groupMessages| - 1] + [last];
      GroupHits(groupMessages[..|groupMessages| - 1], query) + (if Matches(last.content, query) then [GroupHit(last)] else [])
  }

  /** `searchMessages`: both filtered lists, concatenated, then sorted newest first. */
  function SearchMessages(query: string, messages: seq<Message>, groupMessages: seq<GroupMessage>): seq<Hit> {
    SortBy(DirectHits(messages, query) + GroupHits(groupMessages, query), NewestFirst)
  }

  /**
   * A direct message is found exactly when its lowercased content contains
   * the lowercased query, and so is a group message; nothing else is found,
   * no result is repeated beyond its repetitions in the input, and the
   * results run from newest to oldest.
   */
  lemma SearchFacts(query: string, messages: seq<Message>, groupMessages: seq<GroupMessage>)
    ensures var r := SearchMessages(query, messages, groupMessages);
      && (forall m :: DirectHit(m) in r <==> m in messages && Matches(m.content, query))
      && (forall g :: GroupHit(g) in r <==> g in groupMessages && Matches(g.content, query))
      && multiset(r) == multiset(DirectHits(messages, query)) + multiset(GroupHits(groupMessages, query))
      && |r| <= |messages| + |groupMessages|
      && (forall i, j :: 0 <= i < j < |r| ==> HitTime(r[i]) >= HitTime(r[j]))
  {
    var all := DirectHits(messages, query) + GroupHits(groupMessages, query);
    var r := SearchMessages(query, messages, groupMessages);
    forall h ensures h in r <==> h in all {
      SortByMembership(all, NewestFirst, h);
    }
    forall i, j | 0 <= i < j < |r| ensures HitTime(r[i]) >= HitTime(r[j]) {
      assert NewestFirst(r[i]) <= NewestFirst(r[j]);
    }
  }

  /** Every string contains the empty string. */
  lemma {:induction false} ContainsEmpty(s: string)
    ensures Contains(s, "")
  {
  }

  /** An empty query finds every message of both kinds. */
  lemma EmptyQueryFindsAll(messages: seq<Message>, groupMessages: seq<GroupMessage>)
    ensures var r := SearchMessages("", messages, groupMessages);
      && (forall m :: m in messages ==> DirectHit(m) in r)
      && (forall g :: g in groupMessages ==> GroupHit(g) in r)
      && |r| == |messages| + |groupMessages|
  {
    forall m | m in messages ensures Matches(m.content, "") {
      ContainsEmpty(ToLower(m.content));
    }
    forall g | g in groupMessages ensures Matches(g.content, "") {
      ContainsEmpty(ToLower(g.content));
    }
    SearchFacts("", messages, groupMessages);
    AllMatchKeepsLength(messages, groupMessages);
  }

  /** With an empty query no message is filtered out. */
  lemma {:induction false} AllMatchKeepsLength(messages: seq<Message>, groupMessages: seq<GroupMessage>)
    ensures |DirectHits(messages, "")| == |messages|
    ensures |GroupHits(groupMessages, "")| == |groupMessages|
    decreases |messages| + |groupMessages|
  {
    if messages != [] {
      AllMatchKeepsLength(messages[..|messages| - 1], []);
      ContainsEmpty(ToLower(messages[|messages| - 1].content));
    }
    if groupMessages != [] {
      AllMatchKeepsLength([], groupMessages[..|groupMessages| - 1]);
      ContainsEmpty(ToLower(groupMessages[|groupMessages| - 1].content));
    }
  }
}

=== FILE: solana.dfy ===
/**
 * The address-validation cache of app/lib/solana.ts: the format check of a
 * Solana address (a length gate, then the public-key constructor), and the
 * five-minute cache of validation results that `validateAddress` consults
 * and fills.
 *
 * The `PublicKey` constructor of the Solana library is the function
 * `accepts` (true when the constructor would not throw), fixed for the
 * life of the service. The clock (`Date.now()`), the network existence
 * check and `navigator.onLine` are the parameters `now`, `networkExists`
 * and `online`, and the RPC health check is `healthy`.
 */
module Solana {
  import opened Common

  /** `CACHE_DURATION`: five minutes, in milliseconds. */
  const CACHE_DURATION := 5 * 60 * 1000

  const INVALID_FORMAT := "Invalid Solana address format"

  /** One entry of `addressCache`. */
  datatype CacheEntry = CacheEntry(isValid: bool, timestamp: int)

  /** What `validateAddress` resolves to; an absent optional field is `None`. */
  datatype Validation = Validation(
    isValid: bool,
    error: Option<string>,
    fromCache: Option<bool>,
    networkIssue: Option<bool>)

  /**
   * `isValidAddress`: an empty address, or one shorter than 32 or longer than
   * 44 characters, is refused without consulting the key constructor; any
   * other address is valid exactly when the constructor accepts it.
   */
  function IsValidAddress(address: string, accepts: string -> bool): (r: bool)
    ensures address == "" ==> !r
    ensures |address| < 32 || |address| > 44 ==> !r
    ensures 32 <= |address| <= 44 ==> (r <==> accepts(address))
    ensures r ==> accepts(address)
  {
    if address == "" || |address| < 32 || |address| > 44 then false
    else accepts(address)
  }

  /**
   * `getCachedValidation`: the cached result for the address, if there is
   * one and it was stored less than five minutes before `now`.
   */
  function CachedValidation(cache: map<string, CacheEntry>, address: string, now: int): (r: Option<bool>)
    ensures r.Some? <==> address in cache && now - cache[address].timestamp < CACHE_DURATION
    ensures r.Some? ==> r.value == cache[address].isValid
  {
    if address in cache && now - cache[address].timestamp < CACHE_DURATION then Some(cache[address].isValid)
    else None
  }

  /**
   * A result cached at time `t` is returned by every lookup before
   * `t + CACHE_DURATION` and by none from then on.
   */
  lemma CacheWindow(cache: map<string, CacheEntry>, address: string, isValid: bool, t: int, later: int)
    requires t <= later
    ensures var c := cache[address := CacheEntry(isValid, t)];
      CachedValidation(c, address, later) == (if later < t + CACHE_DURATION then Some(isValid) else None)
  {
    var c := cache[address := CacheEntry(isValid, t)];
    assert c[address] == CacheEntry(isValid, t);
  }

  /** Every cached result is the one the format check gives for its address. */
  ghost predicate CacheSound(cache: map<string, CacheEntry>, accepts: string -> bool) {
    forall a :: a in cache ==> cache[a].isValid == IsValidAddress(a, accepts)
  }

  class SolanaService {
    /** `addressCache`. */
    var addressCache: map<string, CacheEntry>
    /** The key constructor of the Solana library. */
    const accepts: string -> bool

    ghost predicate Valid()
      reads this
    {
      CacheSound(addressCache, accepts)
    }

    constructor(accepts: string -> bool)
      ensures this.accepts == accepts && addressCache == map[]
      ensures Valid()
    {
      this.accepts := accepts;
      addressCache := map[];
    }

    /** `setCachedValidation`: the entry for the address is replaced with the result and the time. */
    method SetCachedValidation(address: string, isValid: bool, now: int)
      modifies this
      ensures addressCache == old(addressCache)[address := CacheEntry(isValid, now)]
      ensures CachedValidation(addressCache, address, now) == Some(isValid)
    {
      addressCache := addressCache[address := CacheEntry(isValid, now)];
    }

    /**
     * `validateAddress`: a fresh cached result is returned as it is, marked
     * as coming from the cache. Otherwise the format is checked: an invalid
     * address is cached as invalid and reported with an error; a valid one
     * is cached as valid and reported valid whatever the network says, with a
     * network issue flagged only when the network check failed while the
     * browser is offline.
     *
     * Because the cache only ever holds format-check results, the answer is
     * always the format check's, cached or not; and a result that was just
     * checked is served from the cache for the next five minutes.
     */
    method ValidateAddress(address: string, now: int, networkExists: bool, online: bool) returns (r: Validation)
      requires Valid()
      modifies this
      ensures Valid()
      ensures r.isValid == IsValidAddress(address, accepts)
      ensures CachedValidation(old(addressCache), address, now).Some? ==>
        r == Validation(old(addressCache)[address].isValid, None, Some(true), None) && addressCache == old(addressCache)
      ensures CachedValidation(old(addressCache), address, now).None? ==>
        && addressCache == old(addressCache)[address := CacheEntry(r.isValid, now)]
        && r.fromCache == None
        && (!r.isValid ==> r == Validation(false, Some(INVALID_FORMAT), None, None))
        && (r.isValid ==> r == Validation(true, None, None, Some(!networkExists && !online)))
        && (forall later :: now <= later < now + CACHE_DURATION ==> CachedValidation(addressCache, address, later) == Some(r.isValid))
    {
      var cached := CachedValidation(addressCache, address, now);
      if cached.Some? {
        return Validation(cached.value, None, Some(true), None);
      }
      var isValidFormat := IsValidAddress(address, accepts);
      if !isValidFormat {
        SetCachedValidation(address, false, now);
        r := Validation(false, Some(INVALID_FORMAT), None, None);
      } else {
        SetCachedValidation(address, true, now);
        r := Validation(true, None, None, Some(!networkExists && !online));
      }
      forall later | now <= later < now + CACHE_DURATION
        ensures CachedValidation(addressCache, address, later) == Some(r.isValid)
      {
        CacheWindow(old(addressCache), address, r.isValid, now, later);
      }
    }

    /** `clearCache`: no address has a cached result afterwards. */
    method ClearCache()
      modifies this
      ensures addressCache == map[]
      ensures forall a, t :: CachedValidation(addressCache, a, t) == None
      ensures Valid()
    {
      addressCache := map[];
    }

    /** `recoverConnection`: the cache is cleared and the outcome is the health check's. */
    method RecoverConnection(healthy: bool) returns (recovered: bool)
      modifies this
      ensures recovered == healthy
      ensures addressCache == map[]
    {
      ClearCache();
      recovered := healthy;
    }
  }
}

=== FILE: spam.dfy ===
/**
 * The spam scoring of app/lib/spam-protection.ts: a set of blocked senders,
 * per-sender send times for rate limiting, and a bounded per-conversation
 * history of recent messages, combined into a score and an action.
 *
 * `Date.now()` is the parameter `now` (one reading per call). The part of the
 * content score that comes from regular expressions (runs of `!`/`?`, URLs,
 * crypto addresses) is the parameter `patternScore`; the keyword and capital
 * letter parts, the cap at 60 and everything else are modelled.
 */
module Spam {
  import opened Common

  const MAX_MESSAGES_PER_MINUTE := 10
  const MAX_MESSAGES_PER_HOUR := 100
  const DUPLICATE_MESSAGE_THRESHOLD := 3
  const MINUTE_MS := 60000
  const HOUR_MS := 3600000
  const DAY_MS := 86400000
  /** Messages of a conversation kept for the duplicate check. */
  const HISTORY_LIMIT := 50
  const CONTENT_CAP := 60

  const SUSPICIOUS_KEYWORDS: seq<string> := [
    "free money", "click here", "urgent", "limited time", "act now", "guaranteed",
    "risk free", "no obligation", "call now", "winner", "congratulations", "selected",
    "crypto giveaway", "double your", "investment opportunity", "get rich quick"]

  const SENDER_BLOCKED := "Sender is blocked"
  const RATE_EXCEEDED := "Rate limit exceeded"
  const HIGH_FREQUENCY := "High message frequency"
  const SUSPICIOUS_CONTENT := "Suspicious content detected"
  const REPETITIVE := "Duplicate or repetitive messages"
  const LENGTH_PATTERN := "Suspicious message length pattern"

  datatype Action = Allow | Warn | Block

  datatype SpamAnalysis = SpamAnalysis(action: Action, score: nat, reasons: seq<string>)

  datatype MessagePattern = MessagePattern(content: string, timestamp: int, from: string, to: string)

  // ---------------------------------------------------------------------------
  // Rate limiting
  // ---------------------------------------------------------------------------

  /** `now - ts < window` */
  function Within(now: int, window: int): int -> bool {
    (ts: int) => now - ts < window
  }

  /** The sender's times after `checkRateLimit`: those of the last hour, then `now`. */
  function RecentTimestamps(timestamps: seq<int>, now: int): seq<int> {
    Filter(timestamps, Within(now, HOUR_MS)) + [now]
  }

  /** The score for `minute` sends in the last minute and `hour` in the last hour. */
  function RateScore(minute: nat, hour: nat): nat {
    (if minute > MAX_MESSAGES_PER_MINUTE then 60 else if minute > 7 then 20 else 0)
    + (if hour > MAX_MESSAGES_PER_HOUR then 40 else if hour > 80 then 15 else 0)
  }

  /** `checkRateLimit`'s score over the recorded times. */
  function RateScoreOf(recent: seq<int>, now: int): nat {
    RateScore(Count(recent, Within(now, MINUTE_MS)), |recent|)
  }

  /**
   * The recorded times are those of the last hour plus `now`, so the current
   * send always counts in both windows and the minute count never exceeds the
   * hour count. More than 10 sends in a minute scores at least 60; the score
   * reaches 50, the "rate limit exceeded" level, exactly when the minute limit
   * is passed or the minute warning comes with the hour limit passed; it is
   * at most 100.
   */
  lemma RateFacts(timestamps: seq<int>, now: int)
    ensures var recent := RecentTimestamps(timestamps, now);
      var minute := Count(recent, Within(now, MINUTE_MS));
      && recent[|recent| - 1] == now
      && (forall ts :: ts in recent ==> now - ts < HOUR_MS)
      && (forall ts :: ts in timestamps && now - ts < HOUR_MS ==> ts in recent)
      && 1 <= minute <= |recent| <= |timestamps| + 1
      && (minute > MAX_MESSAGES_PER_MINUTE ==> RateScoreOf(recent, now) >= 60)
      && (RateScoreOf(recent, now) >= 50 <==> minute > MAX_MESSAGES_PER_MINUTE || (minute > 7 && |recent| > MAX_MESSAGES_PER_HOUR))
      && RateScoreOf(recent, now) <= 100
  {
    var kept := Filter(timestamps, Within(now, HOUR_MS));
    var recent := RecentTimestamps(timestamps, now);
    assert recent[..|recent| - 1] == kept;
    assert Filter(recent, Within(now, MINUTE_MS)) == Filter(kept, Within(now, MINUTE_MS)) + [now];
  }

  // ---------------------------------------------------------------------------
  // Content and length
  // ---------------------------------------------------------------------------

  function ContainedIn(lowerContent: string): string -> bool {
    (keyword: string) => Contains(lowerContent, keyword)
  }

  /** The suspicious keywords the lower-cased content contains, in list order. */
  function KeywordMatches(content: string): seq<string> {
    Filter(SUSPICIOUS_KEYWORDS, ContainedIn(ToLower(content)))
  }

  function IsUpper(c: char): bool {
    'A' <= c <= 'Z'
  }

  /** `capsRatio > 0.5 && content.length > 10`, with the ratio compared over integers. */
  function CapsScore(content: string): nat {
    if 2 * Count(content, IsUpper) > |content| && |content| > 10 then 20 else 0
  }

  /** `analyzeContent`: 15 per keyword, 20 for shouting, the pattern part, capped at 60. */
  function ContentScore(content: string, patternScore: nat): nat {
    var score := |KeywordMatches(content)| * 15 + CapsScore(content) + patternScore;
    if score < CONTENT_CAP then score else CONTENT_CAP
  }

  /**
   * The content score never exceeds 60; a keyword counts exactly when the
   * lower-cased content contains it, and each matched keyword adds 15 below
   * the cap, so any match scores at least 15.
   */
  lemma ContentScoreFacts(content: string, patternScore: nat)
    ensures ContentScore(content, patternScore) <= CONTENT_CAP
    ensures forall k :: k in KeywordMatches(content) <==> k in SUSPICIOUS_KEYWORDS && Contains(ToLower(content), k)
    ensures KeywordMatches(content) != [] ==> ContentScore(content, patternScore) >= 15
    ensures CapsScore(content) == 0 && patternScore == 0 && |KeywordMatches(content)| <= 4 ==>
      ContentScore(content, patternScore) == 15 * |KeywordMatches(content)|
    ensures ContentScore(content, patternScore) >= ContentScore(content, 0)
  {
  }

  /** `analyzeLengthPattern` */
  function LengthScore(content: string): nat {
    if |content| < 5 then 10 else if |content| > 1000 then 15 else 0
  }

  // ---------------------------------------------------------------------------
  // Edit distance and similarity
  // ---------------------------------------------------------------------------

  function Min3(a: nat, b: nat, c: nat): nat {
    if a <= b && a <= c then a else if b <= c then b else c
  }

  /**
   * The value `levenshteinDistance` leaves in `matrix[|s|][|t|]` for rows over
   * `s` and columns over `t`: a matching last character costs nothing,
   * otherwise one substitution, insertion or deletion more than the best
   * smaller case.
   */
  function Distance(s: string, t: string): nat
    decreases |s| + |t|
  {
    if |s| == 0 then |t|
    else if |t| == 0 then |s|
    else if s[|s| - 1] == t[|t| - 1] then Distance(s[..|s| - 1], t[..|t| - 1])
    else 1 + Min3(Distance(s[..|s| - 1], t[..|t| - 1]), Distance(s, t[..|t| - 1]), Distance(s[..|s| - 1], t))
  }

  /** One cell of the matrix, in terms of its three neighbours. */
  lemma DistanceStep(s: string, t: string, i: nat, j: nat)
    requires 1 <= i <= |s| && 1 <= j <= |t|
    ensures Distance(s[..i], t[..j]) ==
      if s[i - 1] == t[j - 1] then Distance(s[..i - 1], t[..j - 1])
      else 1 + Min3(Distance(s[..i - 1], t[..j - 1]), Distance(s[..i], t[..j - 1]), Distance(s[..i - 1], t[..j]))
  {
    assert s[..i][..i - 1] == s[..i - 1];
    assert t[..j][..j - 1] == t[..j - 1];
  }

  /** The distance lies between the difference of the lengths and the longer length. */
  lemma {:induction false} DistanceBounds(s: string, t: string)
    ensures Distance(s, t) <= Max(|s|, |t|)
    ensures Distance(s, t) >= |s| - |t| && Distance(s, t) >= |t| - |s|
    decreases |s| + |t|
  {
    if |s| > 0 && |t| > 0 {
      var s', t' := s[..|s| - 1], t[..|t| - 1];
      DistanceBounds(s', t');
      DistanceBounds(s, t');
      DistanceBounds(s', t);
    }
  }

  /** Only equal strings are at distance 0. */
  lemma {:induction false} DistanceZero(s: string, t: string)
    ensures Distance(s, t) == 0 <==> s == t
    decreases |s| + |t|
  {
    if |s| > 0 && |t| > 0 {
      var s', t' := s[..|s| - 1], t[..|t| - 1];
      DistanceZero(s', t');
      if s == t {
        assert s' == t';
      } else if s[|s| - 1] == t[|t| - 1] {
        assert s == s' + [s[|s| - 1]] && t == t' + [t[|t| - 1]];
      }
    }
  }

  /** The distance does not depend on which string indexes the rows. */
  lemma {:induction false} DistanceSymmetric(s: string, t: string)
    ensures Distance(s, t) == Distance(t, s)
    decreases |s| + |t|
  {
    if |s| > 0 && |t| > 0 {
      var s', t' := s[..|s| - 1], t[..|t| - 1];
      DistanceSymmetric(s', t');
      DistanceSymmetric(s, t');
      DistanceSymmetric(s', t);
    }
  }

  /**
   * `calculateSimilarity(a, b) > 0.8`, with the ratio `(L - d) / L` for the
   * longer length `L` compared over integers; two empty strings have
   * similarity 1. The distance is taken with the shorter string on the rows,
   * as `levenshteinDistance(longer, shorter)` does.
   */
  predicate Similar(a: string, b: string) {
    var longer := if |a| > |b| then a else b;
    var shorter := if |a| > |b| then b else a;
    |longer| == 0 || 5 * (|longer| - Distance(shorter, longer)) > 4 * |longer|
  }

  /**
   * Similarity is symmetric and reflexive, and similar strings have lengths
   * within a fifth of the longer one.
   */
  lemma SimilarFacts(a: string, b: string)
    ensures Similar(a, a)
    ensures Similar(a, b) <==> Similar(b, a)
    ensures Similar(a, b) && |a| <= |b| ==> |b| == 0 || 5 * |a| > 4 * |b|
    ensures Similar(a, b) && |b| <= |a| ==> |a| == 0 || 5 * |b| > 4 * |a|
  {
    DistanceZero(a, a);
    DistanceSymmetric(a, b);
    DistanceBounds(a, b);
    DistanceBounds(b, a);
  }

  // ---------------------------------------------------------------------------
  // Duplicates and history
  // ---------------------------------------------------------------------------

  function ConversationKey(from: string, to: string): string {
    from + "-" + to
  }

  function RecentPattern(now: int): MessagePattern -> bool {
    (m: MessagePattern) => now - m.timestamp < DAY_MS
  }

  function SameContent(content: string): MessagePattern -> bool {
    (m: MessagePattern) => m.content == content
  }

  function SimilarTo(content: string): MessagePattern -> bool {
    (m: MessagePattern) => Similar(m.content, content)
  }

  /** `checkDuplicateMessages` over the conversation's history. */
  function DuplicateScore(history: seq<MessagePattern>, content: string, now: int): nat {
    var recent := Filter(history, RecentPattern(now));
    if Count(recent, SameContent(content)) >= DUPLICATE_MESSAGE_THRESHOLD then 50
    else if Count(recent, SimilarTo(content)) >= 2 then 25
    else 0
  }

  /**
   * Three exact repeats in the last day score 50; otherwise two similar
   * messages there score 25, and anything else 0. Since an exact repeat is
   * similar, two or three repeats already score 25.
   */
  lemma DuplicateFacts(history: seq<MessagePattern>, content: string, now: int)
    ensures var recent := Filter(history, RecentPattern(now));
      var score := DuplicateScore(history, content, now);
      && (score == 50 <==> Count(recent, SameContent(content)) >= DUPLICATE_MESSAGE_THRESHOLD)
      && (score == 25 <==> Count(recent, SameContent(content)) < DUPLICATE_MESSAGE_THRESHOLD && Count(recent, SimilarTo(content)) >= 2)
      && (score == 0 <==> Count(recent, SameContent(content)) < DUPLICATE_MESSAGE_THRESHOLD && Count(recent, SimilarTo(content)) < 2)
      && Count(recent, SameContent(content)) <= Count(recent, SimilarTo(content))
  {
    var recent := Filter(history, RecentPattern(now));
    SimilarFacts(content, content);
    CountImplied(recent, SameContent(content), SimilarTo(content));
  }

  /** A condition that implies another is met by no more elements. */
  lemma {:induction false} CountImplied(s: seq<MessagePattern>, p: MessagePattern -> bool, q: MessagePattern -> bool)
    requires forall x :: p(x) ==> q(x)
    ensures Count(s, p) <= Count(s, q)
  {
    if s != [] {
      CountImplied(s[..|s| - 1], p, q);
    }
  }

  /** `messages.splice(0, messages.length - 50)` when over 50: the newest 50 stay. */
  function Kept(history: seq<MessagePattern>): seq<MessagePattern> {
    if |history| > HISTORY_LIMIT then history[|history| - HISTORY_LIMIT..] else history
  }

  /**
   * The kept history holds at most 50 entries, is the tail of the full one
   * (so the newest entry is kept), and equals it when it is within the limit.
   */
  lemma KeptFacts(history: seq<MessagePattern>)
    ensures var r := Kept(history);
      && |r| <= HISTORY_LIMIT
      && |r| == (if |history| < HISTORY_LIMIT then |history| else HISTORY_LIMIT)
      && r == history[|history| - |r|..]
      && (history != [] ==> r != [] && r[|r| - 1] == history[|history| - 1])
  {
  }

  ghost predicate HistoryBounded(messageHistory: map<string, seq<MessagePattern>>) {
    forall k :: k in messageHistory ==> |messageHistory[k]| <= HISTORY_LIMIT
  }

  // ---------------------------------------------------------------------------
  // The verdict
  // ---------------------------------------------------------------------------

  /** The action for a total score. */
  function ActionFor(score: nat): Action {
    if score >= 80 then Block else if score >= 40 then Warn else Allow
  }

  function ReasonIf(score: nat, reason: string): seq<string> {
    if score > 0 then [reason] else []
  }

  /** `analyzeMessage`'s result for an unblocked sender from the four partial scores. */
  function Assessed(rate: nat, content: nat, duplicate: nat, length: nat): SpamAnalysis {
    var score := rate + content + duplicate + length;
    SpamAnalysis(ActionFor(score), score,
      ReasonIf(rate, if rate >= 50 then RATE_EXCEEDED else HIGH_FREQUENCY)
      + ReasonIf(content, SUSPICIOUS_CONTENT)
      + ReasonIf(duplicate, REPETITIVE)
      + ReasonIf(length, LENGTH_PATTERN))
  }

  /**
   * The score is the sum of the four parts; the action is block from 80 on,
   * warn from 40 and allow below; there is one reason per part that scored,
   * the content reason exactly when the content scored, and the rate reason
   * says "exceeded" exactly from 50 on.
   */
  lemma AssessedFacts(rate: nat, content: nat, duplicate: nat, length: nat)
    ensures var a := Assessed(rate, content, duplicate, length);
      && a.score == rate + content + duplicate + length
      && (a.action == Block <==> a.score >= 80)
      && (a.action == Warn <==> 40 <= a.score < 80)
      && (a.action == Allow <==> a.score < 40)
      && |a.reasons| == (if rate > 0 then 1 else 0) + (if content > 0 then 1 else 0)
                        + (if duplicate > 0 then 1 else 0) + (if length > 0 then 1 else 0)
      && (SUSPICIOUS_CONTENT in a.reasons <==> content > 0)
      && (RATE_EXCEEDED in a.reasons <==> rate >= 50)
      && (a.reasons == [] <==> a.score == 0)
  {
    var a := Assessed(rate, content, duplicate, length);
    var r1 := ReasonIf(rate, if rate >= 50 then RATE_EXCEEDED else HIGH_FREQUENCY);
    var r2 := ReasonIf(content, SUSPICIOUS_CONTENT);
    var r3 := ReasonIf(duplicate, REPETITIVE);
    var r4 := ReasonIf(length, LENGTH_PATTERN);
    assert a.reasons == r1 + r2 + r3 + r4;
    assert SUSPICIOUS_CONTENT in a.reasons <==> SUSPICIOUS_CONTENT in r1 || SUSPICIOUS_CONTENT in r2 || SUSPICIOUS_CONTENT in r3 || SUSPICIOUS_CONTENT in r4;
    assert RATE_EXCEEDED in a.reasons <==> RATE_EXCEEDED in r1 || RATE_EXCEEDED in r2 || RATE_EXCEEDED in r3 || RATE_EXCEEDED in r4;
  }

  /** The verdict assembled part by part, as `analyzeMessage` does, is `Assessed`. */
  lemma AssessedIs(rate: nat, content: nat, duplicate: nat, length: nat, reasons: seq<string>)
    requires reasons == ReasonIf(rate, if rate >= 50 then RATE_EXCEEDED else HIGH_FREQUENCY)
      + ReasonIf(content, SUSPICIOUS_CONTENT) + ReasonIf(duplicate, REPETITIVE) + ReasonIf(length, LENGTH_PATTERN)
    ensures var score := rate + content + duplicate + length;
      SpamAnalysis(ActionFor(score), score, reasons) == Assessed(rate, content, duplicate, length)
  {
  }

  // ---------------------------------------------------------------------------
  // The service
  // ---------------------------------------------------------------------------

  function LoadTimestamps(rateLimits: map<string, seq<int>>, from: string): seq<int> {
    if from in rateLimits then rateLimits[from] else []
  }

  function LoadHistory(messageHistory: map<string, seq<MessagePattern>>, key: string): seq<MessagePattern> {
    if key in messageHistory then messageHistory[key] else []
  }

  /** The inner loop of `levenshteinDistance`: row `i` of the matrix, from the row above it. */
  method FillRow(matrix: array2<nat>, str1: string, str2: string, i: nat)
    requires matrix.Length0 == |str2| + 1 && matrix.Length1 == |str1| + 1
    requires 1 <= i <= |str2| && matrix[i, 0] == i
    requires forall r, c :: 0 <= r < i && 0 <= c <= |str1| ==> matrix[r, c] == Distance(str2[..r], str1[..c])
    modifies matrix
    ensures forall r, c :: 0 <= r <= i && 0 <= c <= |str1| ==> matrix[r, c] == Distance(str2[..r], str1[..c])
    ensures forall r, c :: 0 <= r <= |str2| && r != i && 0 <= c <= |str1| ==> matrix[r, c] == old(matrix[r, c])
  {
    var j := 1;
    while j <= |str1|
      invariant 1 <= j <= |str1| + 1
      invariant forall c :: 0 <= c < j ==> matrix[i, c] == Distance(str2[..i], str1[..c])
      invariant forall r, c :: 0 <= r <= |str2| && r != i && 0 <= c <= |str1| ==> matrix[r, c] == old(matrix[r, c])
    {
      DistanceStep(str2, str1, i, j);
      if str2[i - 1] == str1[j - 1] {
        matrix[i, j] := matrix[i - 1, j - 1];
      } else {
        matrix[i, j] := Min3(matrix[i - 1, j - 1] + 1, matrix[i, j - 1] + 1, matrix[i - 1, j] + 1);
      }
      j := j + 1;
    }
  }

  class SpamProtectionService {
    /** The persisted `solchat_blocked_addresses`. */
    var blockedAddresses: set<string>
    var messageHistory: map<string, seq<MessagePattern>>
    var rateLimits: map<string, seq<int>>

    constructor(blockedAddresses: set<string>)
      ensures this.blockedAddresses == blockedAddresses
      ensures messageHistory == map[] && rateLimits == map[]
    {
      this.blockedAddresses := blockedAddresses;
      messageHistory := map[];
      rateLimits := map[];
    }

    /**
     * `analyzeMessage`: a blocked sender is refused with score 100 before
     * anything is recorded; otherwise the four partial scores are added, the
     * send time recorded and the message kept in the conversation's history.
     */
    method AnalyzeMessage(from: string, to: string, content: string, now: int, patternScore: nat) returns (analysis: SpamAnalysis)
      modifies this
      ensures from in old(blockedAddresses) ==>
        && analysis == SpamAnalysis(Block, 100, [SENDER_BLOCKED])
        && messageHistory == old(messageHistory) && rateLimits == old(rateLimits)
      ensures from !in old(blockedAddresses) ==>
        var recent := RecentTimestamps(LoadTimestamps(old(rateLimits), from), now);
        var key := ConversationKey(from, to);
        var history := LoadHistory(old(messageHistory), key);
        && analysis == Assessed(RateScoreOf(recent, now), ContentScore(content, patternScore),
                                DuplicateScore(history, content, now), LengthScore(content))
        && rateLimits == old(rateLimits)[from := recent]
        && messageHistory == old(messageHistory)[key := Kept(history + [MessagePattern(content, now, from, to)])]
      ensures blockedAddresses == old(blockedAddresses)
      ensures old(HistoryBounded(messageHistory)) ==> HistoryBounded(messageHistory)
    {
      if IsBlocked(from) {
        return SpamAnalysis(Block, 100, [SENDER_BLOCKED]);
      }
      var rateLimitScore := CheckRateLimit(from, now);
      var contentScore := ContentScore(content, patternScore);
      var duplicateScore := CheckDuplicateMessages(from, to, content, now);
      var lengthScore := LengthScore(content);
      analysis := Verdict(rateLimitScore, contentScore, duplicateScore, lengthScore);
      StoreMessage(from, to, content, now);
    }

    /** The scoring steps of `analyzeMessage`: each part that scored adds to the total and gives its reason. */
    method Verdict(rateLimitScore: nat, contentScore: nat, duplicateScore: nat, lengthScore: nat) returns (analysis: SpamAnalysis)
      ensures analysis == Assessed(rateLimitScore, contentScore, duplicateScore, lengthScore)
    {
      var score := 0;
      var reasons := [];
      if rateLimitScore > 0 {
        score := score + rateLimitScore;
        reasons := reasons + [if rateLimitScore >= 50 then RATE_EXCEEDED else HIGH_FREQUENCY];
      }
      ghost var rateReasons := ReasonIf(rateLimitScore, if rateLimitScore >= 50 then RATE_EXCEEDED else HIGH_FREQUENCY);
      assert reasons == rateReasons;
      if contentScore > 0 {
        score := score + contentScore;
        reasons := reasons + [SUSPICIOUS_CONTENT];
      }
      assert reasons == rateReasons + ReasonIf(contentScore, SUSPICIOUS_CONTENT);
      if duplicateScore > 0 {
        score := score + duplicateScore;
        reasons := reasons + [REPETITIVE];
      }
      assert reasons == rateReasons + ReasonIf(contentScore, SUSPICIOUS_CONTENT) + ReasonIf(duplicateScore, REPETITIVE);
      if lengthScore > 0 {
        score := score + lengthScore;
        reasons := reasons + [LENGTH_PATTERN];
      }
      AssessedIs(rateLimitScore, contentScore, duplicateScore, lengthScore, reasons);
      analysis := SpamAnalysis(ActionFor(score), score, reasons);
    }

    /** `checkRateLimit`: drops the sender's times older than an hour and records `now`. */
    method CheckRateLimit(from: string, now: int) returns (score: nat)
      modifies this
      ensures rateLimits == old(rateLimits)[from := RecentTimestamps(LoadTimestamps(old(rateLimits), from), now)]
      ensures score == RateScoreOf(rateLimits[from], now)
      ensures messageHistory == old(messageHistory) && blockedAddresses == old(blockedAddresses)
    {
      var timestamps := LoadTimestamps(rateLimits, from);
      var recentTimestamps := Filter(timestamps, Within(now, HOUR_MS));
      recentTimestamps := recentTimestamps + [now];
      rateLimits := rateLimits[from := recentTimestamps];
      var messagesLastMinute := Count(recentTimestamps, Within(now, MINUTE_MS));
      var messagesLastHour := |recentTimestamps|;
      score := 0;
      if messagesLastMinute > MAX_MESSAGES_PER_MINUTE {
        score := score + 60;
      } else if messagesLastMinute > 7 {
        score := score + 20;
      }
      if messagesLastHour > MAX_MESSAGES_PER_HOUR {
        score := score + 40;
      } else if messagesLastHour > 80 {
        score := score + 15;
      }
    }

    /** `checkDuplicateMessages`: the similar messages are counted one comparison at a time. */
    method CheckDuplicateMessages(from: string, to: string, content: string, now: int) returns (score: nat)
      ensures score == DuplicateScore(LoadHistory(messageHistory, ConversationKey(from, to)), content, now)
    {
      var messages := LoadHistory(messageHistory, ConversationKey(from, to));
      var recentMessages := Filter(messages, RecentPattern(now));
      var duplicates := Count(recentMessages, SameContent(content));
      if duplicates >= DUPLICATE_MESSAGE_THRESHOLD {
        return 50;
      }
      var similarMessages := 0;
      var k := 0;
      while k < |recentMessages|
        invariant 0 <= k <= |recentMessages|
        invariant similarMessages == Count(recentMessages[..k], SimilarTo(content))
      {
        assert recentMessages[..k + 1][..k] == recentMessages[..k];
        var similar := CalculateSimilarity(recentMessages[k].content, content);
        if similar {
          similarMessages := similarMessages + 1;
        }
        k := k + 1;
      }
      assert recentMessages[..k] == recentMessages;
      if similarMessages >= 2 {
        return 25;
      }
      return 0;
    }

    /** `calculateSimilarity(str1, str2) > 0.8` */
    method CalculateSimilarity(str1: string, str2: string) returns (similar: bool)
      ensures similar == Similar(str1, str2)
    {
      var longer := if |str1| > |str2| then str1 else str2;
      var shorter := if |str1| > |str2| then str2 else str1;
      if |longer| == 0 {
        return true;
      }
      var editDistance := LevenshteinDistance(longer, shorter);
      similar := 5 * (|longer| - editDistance) > 4 * |longer|;
    }

    /** `levenshteinDistance`: the matrix has a row per prefix of `str2` and a column per prefix of `str1`. */
    method LevenshteinDistance(str1: string, str2: string) returns (distance: nat)
      ensures distance == Distance(str2, str1)
    {
      var matrix := new nat[|str2| + 1, |str1| + 1];
      var i := 0;
      while i <= |str2|
        invariant 0 <= i <= |str2| + 1
        invariant forall r :: 0 <= r < i ==> matrix[r, 0] == r
      {
        matrix[i, 0] := i;
        i := i + 1;
      }
      var j := 0;
      while j <= |str1|
        invariant 0 <= j <= |str1| + 1
        invariant forall r :: 0 <= r <= |str2| ==> matrix[r, 0] == r
        invariant forall c :: 0 <= c < j ==> matrix[0, c] == c
      {
        matrix[0, j] := j;
        j := j + 1;
      }
      i := 1;
      while i <= |str2|
        invariant 1 <= i <= |str2| + 1
        invariant forall r, c :: 0 <= r < i && 0 <= c <= |str1| ==> matrix[r, c] == Distance(str2[..r], str1[..c])
        invariant forall r :: i <= r <= |str2| ==> matrix[r, 0] == r
      {
        FillRow(matrix, str1, str2, i);
        i := i + 1;
      }
      assert str2[..|str2|] == str2 && str1[..|str1|] == str1;
      distance := matrix[|str2|, |str1|];
    }

    /** `storeMessage`: the message joins its conversation's history, of which the newest 50 are kept. */
    method StoreMessage(from: string, to: string, content: string, now: int)
      modifies this
      ensures var key := ConversationKey(from, to);
        messageHistory == old(messageHistory)[key := Kept(LoadHistory(old(messageHistory), key) + [MessagePattern(content, now, from, to)])]
      ensures rateLimits == old(rateLimits) && blockedAddresses == old(blockedAddresses)
      ensures old(HistoryBounded(messageHistory)) ==> HistoryBounded(messageHistory)
    {
      var conversationKey := ConversationKey(from, to);
      var messages := LoadHistory(messageHistory, conversationKey);
      messages := messages + [MessagePattern(content, now, from, to)];
      if |messages| > HISTORY_LIMIT {
        messages := messages[|messages| - HISTORY_LIMIT..];
      }
      messageHistory := messageHistory[conversationKey := messages];
    }

    method BlockAddress(address: string)
      modifies this
      ensures blockedAddresses == old(blockedAddresses) + {address}
      ensures IsBlocked(address)
      ensures messageHistory == old(messageHistory) && rateLimits == old(rateLimits)
    {
      blockedAddresses := blockedAddresses + {address};
    }

    method UnblockAddress(address: string)
      modifies this
      ensures blockedAddresses == old(blockedAddresses) - {address}
      ensures !IsBlocked(address)
      ensures messageHistory == old(messageHistory) && rateLimits == old(rateLimits)
    {
      blockedAddresses := blockedAddresses - {address};
    }

    /** `isBlocked`: `blockedAddresses.has(address)`. */
    predicate IsBlocked(address: string)
      reads this
    {
      address in blockedAddresses
    }

    method ClearMessageHistory()
      modifies this
      ensures messageHistory == map[] && rateLimits == map[]
      ensures blockedAddresses == old(blockedAddresses)
    {
      messageHistory := map[];
      rateLimits := map[];
    }
  }
}

=== FILE: storage.dfy ===
/**
 * The storage router of app/lib/storage-manager.ts: which backend (Arweave,
 * IPFS or the local store) a message goes to, the fallback from Arweave to
 * IPFS, the routing of retrieval by id prefix, and the polling check that
 * forwards newly synced IPFS messages addressed to the wallet.
 *
 * The backends are not called: what the Arweave upload returned (or that it
 * threw) is the parameter `arweave`, what the IPFS store answers (an id or
 * its rejection) is `ipfs`, the messages an IPFS sync returned are
 * `ipfsMessages`, and the clock and the random suffix of a local id are `now`
 * and `suffix`. The
 * persisted preference is the field `savedPreference`, and each call of the
 * registered new-messages callback is logged in `deliveries`.
 */
module Storage {
  import opened Common
  import opened ContentStore
  import opened Messages

  datatype StorageType = Arweave | Ipfs | Local

  /** What the Arweave upload did. */
  datatype ArweaveOutcome = Returned(id: string) | Threw

  /** Where `retrieveMessage` sends an id. */
  datatype Retrieval = FromArweave | FromIpfs | NotRetrieved

  /** The string `saveStoragePreference` writes. */
  function Name(t: StorageType): string {
    match t
    case Arweave => "arweave"
    case Ipfs => "ipfs"
    case Local => "local"
  }

  /** A stored preference is accepted only if it names one of the three backends. */
  function ParsePreference(stored: Option<string>): (r: Option<StorageType>)
    ensures r.Some? <==> stored.Some? && stored.value in {"arweave", "ipfs", "local"}
    ensures r.Some? ==> Name(r.value) == stored.value
  {
    if stored == Some("arweave") then Some(Arweave)
    else if stored == Some("ipfs") then Some(Ipfs)
    else if stored == Some("local") then Some(Local)
    else None
  }

  /** A saved preference loads back as the same backend. */
  lemma PreferenceRoundTrip(t: StorageType)
    ensures ParsePreference(Some(Name(t))) == Some(t)
  {
  }

  /** The id of a failed Arweave upload, which sends the message to IPFS instead. */
  predicate IsArweaveFailure(id: string) {
    Contains(id, "arweave_insufficient_balance") || (Contains(id, "arweave_") && Contains(id, "_failed"))
  }

  /** The id of a message kept only in the local store. */
  function LocalId(now: nat, suffix: string): (r: string)
    ensures StartsWith(r, "local_")
  {
    "local_" + NatToString(now) + "_" + suffix
  }

  /** `retrieveMessage`'s routing by id prefix. */
  function RetrieveRoute(id: string): (r: Retrieval)
    ensures r == FromArweave <==> StartsWith(id, "arweave_")
    ensures r == FromIpfs <==> !StartsWith(id, "arweave_") && (StartsWith(id, "Qm") || StartsWith(id, "bafy"))
  {
    if StartsWith(id, "arweave_") then FromArweave
    else if StartsWith(id, "Qm") || StartsWith(id, "bafy") then FromIpfs
    else NotRetrieved
  }

  /** A local id is never sent to a backend for retrieval: the message is already in the local store. */
  lemma LocalIdsStayLocal(now: nat, suffix: string)
    ensures RetrieveRoute(LocalId(now, suffix)) == NotRetrieved
  {
    var id := LocalId(now, suffix);
    assert id[0] == 'l';
  }

  /** An IPFS message as the app's message: unread, with a placeholder Arweave id and `text` as the default kind. */
  function Received(w: WireMessage, now: nat): (m: Message)
    ensures m.id == w.id && m.from == w.from && m.to == w.to && m.content == w.content
    ensures m.timestamp == w.timestamp
    ensures w.encryptedContent.Some? ==> m.encryptedContent == Has(w.encryptedContent.value)
    ensures w.encryptedContent.None? ==> m.encryptedContent == Undefined
    ensures m.isRead == Has(false) && m.messageType.Has? && m.status == Missing
    ensures w.messageType.Some? ==> m.messageType == Has(w.messageType.value)
    ensures w.messageType.None? ==> m.messageType == Has(Text)
  {
    Message(
      w.id, w.from, w.to, w.content, Written(w.encryptedContent), w.timestamp,
      Has("ipfs_" + NatToString(now)), Has(false),
      Has(if w.messageType.Some? then w.messageType.value else Text),
      Missing)
  }

  /** The messages the polling check forwards: the converted ones addressed to the wallet, in sync order. */
  function Incoming(ipfsMessages: seq<WireMessage>, walletAddress: string, now: nat): seq<Message> {
    if ipfsMessages == [] then []
    else
      var last := ipfsMessages[|ipfsMessages| - 1];
      Incoming(ipfsMessages[..|ipfsMessages| - 1], walletAddress, now)
        + (if last.to == walletAddress then [Received(last, now)] else [])
  }

  /**
   * The forwarded messages are exactly the conversions of the synced
   * messages addressed to the wallet: never more of them, all unread, all to
   * the wallet, none dropped.
   */
  lemma {:induction false} IncomingFacts(ipfsMessages: seq<WireMessage>, walletAddress: string, now: nat)
    ensures |Incoming(ipfsMessages, walletAddress, now)| <= |ipfsMessages|
    ensures forall m :: m in Incoming(ipfsMessages, walletAddress, now) ==>
      m.to == walletAddress && m.isRead == Has(false) && exists w :: w in ipfsMessages && m == Received(w, now)
    ensures forall w :: w in ipfsMessages && w.to == walletAddress ==> Received(w, now) in Incoming(ipfsMessages, walletAddress, now)
  {
    if ipfsMessages != [] {
      var init := ipfsMessages[..|ipfsMessages| - 1];
      assert ipfsMessages == init + [ipfsMessages[|ipfsMessages| - 1]];
      IncomingFacts(init, walletAddress, now);
    }
  }

  class StorageManager {
    var currentStorage: StorageType
    /** The `solchat_storage_preference` entry of localStorage. */
    var savedPreference: Option<string>
    /** Whether `startPolling` has registered a new-messages callback. */
    var callbackRegistered: bool
    /** Every batch handed to the new-messages callback, oldest first. */
    var deliveries: seq<seq<Message>>

    /** `loadStoragePreference`: a valid stored preference is taken, anything else leaves the default `local`. */
    constructor(stored: Option<string>)
      ensures ParsePreference(stored).Some? ==> currentStorage == ParsePreference(stored).value
      ensures ParsePreference(stored).None? ==> currentStorage == Local
      ensures savedPreference == stored && !callbackRegistered && deliveries == []
    {
      currentStorage := Local;
      savedPreference := stored;
      callbackRegistered := false;
      deliveries := [];
      var preference := ParsePreference(stored);
      if preference.Some? {
        currentStorage := preference.value;
      }
    }

    /** `setCurrentStorage`: the backend changes and is persisted, so a later load picks it again. */
    method SetCurrentStorage(t: StorageType)
      modifies this
      ensures currentStorage == t && savedPreference == Some(Name(t))
      ensures ParsePreference(savedPreference) == Some(t)
      ensures callbackRegistered == old(callbackRegistered) && deliveries == old(deliveries)
    {
      currentStorage := t;
      savedPreference := Some(Name(t));
      PreferenceRoundTrip(t);
    }

    /**
     * `storeMessage`: in Arweave mode a failed or throwing upload falls back
     * to IPFS; IPFS mode uses IPFS; local mode makes a `local_` id. Whatever
     * the IPFS store answers, an id or a rejection, is passed on unchanged.
     */
    function StoreMessage(arweave: ArweaveOutcome, ipfs: Result<string>, now: nat, suffix: string): (r: Result<string>)
      reads this
      ensures currentStorage == Arweave && arweave.Returned? && !IsArweaveFailure(arweave.id) ==> r == Ok(arweave.id)
      ensures currentStorage == Arweave && (arweave.Threw? || IsArweaveFailure(arweave.id)) ==> r == ipfs
      ensures currentStorage == Ipfs ==> r == ipfs
      ensures currentStorage == Local ==> r.Ok? && StartsWith(r.value, "local_") && RetrieveRoute(r.value) == NotRetrieved
      ensures r.Err? ==> r == ipfs && currentStorage != Local
    {
      match currentStorage
      case Arweave =>
        if arweave.Threw? || IsArweaveFailure(arweave.id) then ipfs else Ok(arweave.id)
      case Ipfs => ipfs
      case Local =>
        LocalIdsStayLocal(now, suffix);
        Ok(LocalId(now, suffix))
    }

    /** `startPolling`'s registration of the callback; the timer itself is not modelled. */
    method StartPolling()
      modifies this
      ensures callbackRegistered
      ensures currentStorage == old(currentStorage) && savedPreference == old(savedPreference) && deliveries == old(deliveries)
    {
      callbackRegistered := true;
    }

    /**
     * `checkForNewMessages`: only in IPFS mode are synced messages looked at;
     * those addressed to the wallet are converted, and the callback is called
     * once with them when there is at least one and a callback is registered.
     */
    method CheckForNewMessages(walletAddress: string, ipfsMessages: seq<WireMessage>, now: nat)
      modifies this
      ensures var found := if old(currentStorage) == Ipfs then Incoming(ipfsMessages, walletAddress, now) else [];
        deliveries == old(deliveries) + (if |found| > 0 && callbackRegistered then [found] else [])
      ensures currentStorage == old(currentStorage) && savedPreference == old(savedPreference)
      ensures callbackRegistered == old(callbackRegistered)
    {
      var newMessages: seq<Message> := [];
      if currentStorage == Ipfs {
        var i := 0;
        while i < |ipfsMessages|
          invariant 0 <= i <= |ipfsMessages|
          invariant newMessages == Incoming(ipfsMessages[..i], walletAddress, now)
        {
          assert ipfsMessages[..i + 1][..i] == ipfsMessages[..i];
          var message := Received(ipfsMessages[i], now);
          if message.to == walletAddress {
            newMessages := newMessages + [message];
          }
          i := i + 1;
        }
        assert ipfsMessages[..i] == ipfsMessages;
      }
      if |newMessages| > 0 && callbackRegistered {
        deliveries := deliveries + [newMessages];
      }
    }
  }
}

=== FILE: utils.dfy ===
/**
 * The display helpers of lib/utils.js: class-name joining, relative
 * timestamps, address truncation, the base58 address check and the
 * address-derived avatar colour.
 */
module Utils {
  import opened Common

  // ---------------------------------------------------------------------------
  // cn
  // ---------------------------------------------------------------------------

  /** An argument of `cn`: a class string, or a falsy value (`false`, `null`, `undefined`). */
  datatype ClassValue = ClassName(name: string) | Falsy

  predicate Truthy(v: ClassValue) {
    v.ClassName? && v.name != ""
  }

  /** The class strings that survive `filter(Boolean)`, in order. */
  function TruthyNames(classes: seq<ClassValue>): (r: seq<string>)
    ensures |r| <= |classes|
    ensures forall s :: s in r <==> ClassName(s) in classes && s != ""
  {
    if classes == [] then []
    else
      var last := classes[|classes| - 1];
      assert classes == classes[..|classes| - 1] + [last];
      TruthyNames(classes[..|classes| - 1]) + (if Truthy(last) then [last.name] else [])
  }

  /** `cn(...classes)`: the truthy class strings joined by single spaces. */
  function Cn(classes: seq<ClassValue>): string {
    Join(TruthyNames(classes), " ")
  }

  function SumLengths(parts: seq<string>): nat {
    if parts == [] then 0 else SumLengths(parts[..|parts| - 1]) + |parts[|parts| - 1]|
  }

  /** A join is the parts, in order, with one separator between each neighbouring pair. */
  lemma {:induction false} JoinFacts(parts: seq<string>, sep: string)
    ensures |parts| > 0 ==> |Join(parts, sep)| == SumLengths(parts) + (|parts| - 1) * |sep|
    ensures |parts| > 0 ==> StartsWith(Join(parts, sep), parts[0])
    ensures |parts| > 0 ==> var j := Join(parts, sep); var last := parts[|parts| - 1];
      |last| <= |j| && j[|j| - |last|..] == last
    ensures parts == [] ==> Join(parts, sep) == ""
  {
    if |parts| > 1 {
      var init := parts[..|parts| - 1];
      JoinFacts(init, sep);
      var j := Join(init, sep);
      assert Join(parts, sep) == j + sep + parts[|parts| - 1];
      assert (j + sep + parts[|parts| - 1])[..|parts[0]|] == j[..|parts[0]|];
      assert init[0] == parts[0];
    }
  }

  /**
   * Falsy arguments contribute nothing: appending one leaves the result
   * unchanged, and only truthy class strings, each once per occurrence,
   * make up the length of the result.
   */
  lemma CnFacts(classes: seq<ClassValue>)
    ensures Cn(classes + [Falsy]) == Cn(classes)
    ensures Cn(classes + [ClassName("")]) == Cn(classes)
    ensures (forall v :: v in classes ==> !Truthy(v)) ==> Cn(classes) == ""
    ensures var names := TruthyNames(classes);
      |names| > 0 ==> |Cn(classes)| == SumLengths(names) + |names| - 1
  {
    assert (classes + [Falsy])[..|classes|] == classes;
    assert TruthyNames(classes + [Falsy]) == TruthyNames(classes);
    assert (classes + [ClassName("")])[..|classes|] == classes;
    assert TruthyNames(classes + [ClassName("")]) == TruthyNames(classes);
    JoinFacts(TruthyNames(classes), " ");
  }

  // ---------------------------------------------------------------------------
  // formatTimestamp
  // ---------------------------------------------------------------------------

  const MINUTE_MS := 60000
  const HOUR_MS := 3600000
  const DAY_MS := 86400000

  /** What `formatTimestamp` shows; the locale date string is left to the locale. */
  datatype Display = JustNow | MinutesAgo(minutes: nat) | HoursAgo(hours: nat) | LocaleDate(timestamp: int)

  /** The text of a display; `None` stands for `toLocaleDateString()`. */
  function Render(d: Display): Option<string> {
    match d
    case JustNow => Some("Just now")
    case MinutesAgo(m) => Some(NatToString(m) + "m ago")
    case HoursAgo(h) => Some(NatToString(h) + "h ago")
    case LocaleDate(_) => None
  }

  /** `formatTimestamp(timestamp)` with the clock reading `now`. */
  function FormatTimestamp(timestamp: int, now: int): (r: Display)
    ensures r.JustNow? <==> now - timestamp < MINUTE_MS
    ensures r.MinutesAgo? ==>
      1 <= r.minutes < 60 && r.minutes * MINUTE_MS <= now - timestamp < (r.minutes + 1) * MINUTE_MS
    ensures r.HoursAgo? ==>
      1 <= r.hours < 24 && r.hours * HOUR_MS <= now - timestamp < (r.hours + 1) * HOUR_MS
    ensures r.LocaleDate? <==> now - timestamp >= DAY_MS
    ensures r.LocaleDate? ==> r.timestamp == timestamp
  {
    var diff := now - timestamp;
    if diff < MINUTE_MS then JustNow
    else if diff < HOUR_MS then MinutesAgo(diff / MINUTE_MS)
    else if diff < DAY_MS then HoursAgo(diff / HOUR_MS)
    else LocaleDate(timestamp)
  }

  /** How old a display says the message is, in milliseconds at least. */
  function ShownAge(d: Display): int {
    match d
    case JustNow => 0
    case MinutesAgo(m) => m * MINUTE_MS
    case HoursAgo(h) => h * HOUR_MS
    case LocaleDate(_) => DAY_MS
  }

  /** As the clock moves on, the same message never looks younger. */
  lemma FormatMonotone(timestamp: int, now: int, later: int)
    requires now <= later
    ensures ShownAge(FormatTimestamp(timestamp, now)) <= ShownAge(FormatTimestamp(timestamp, later))
  {
    var a, b := FormatTimestamp(timestamp, now), FormatTimestamp(timestamp, later);
    if a.MinutesAgo? && b.MinutesAgo? {
      assert a.minutes * MINUTE_MS <= now - timestamp < (b.minutes + 1) * MINUTE_MS;
    }
    if a.HoursAgo? && b.HoursAgo? {
      assert a.hours * HOUR_MS <= now - timestamp < (b.hours + 1) * HOUR_MS;
    }
  }

  // ---------------------------------------------------------------------------
  // truncateAddress
  // ---------------------------------------------------------------------------

  const ELLIPSIS := "..."

  /** `truncateAddress(address, length)` as written: short addresses are kept whole. */
  function TruncateAddressAsWritten(address: string, length: nat): (r: string)
    ensures |address| <= length + 4 ==> r == address
    ensures |address| > length + 4 ==>
      |r| == length + 7 && StartsWith(r, address[..length]) && r[length..length + 3] == ELLIPSIS && r[length + 3..] == address[|address| - 4..]
  {
    if address == "" then ""
    else if |address| <= length + 4 then address
    else address[..length] + ELLIPSIS + address[|address| - 4..]
  }

  /** An address one character over the threshold comes out longer than it went in. */
  lemma TruncateAddressLengthens()
    ensures var a := "ABCDEFGHIJKLM";
      |TruncateAddressAsWritten(a, 8)| == 15 && |a| == 13
  {
  }

  /** `truncateAddress` with the threshold at which the ellipsis actually saves characters. */
  function TruncateAddress(address: string, length: nat): (r: string)
    ensures |address| <= length + 7 ==> r == address
    ensures |address| > length + 7 ==>
      |r| == length + 7 && StartsWith(r, address[..length]) && r[length..length + 3] == ELLIPSIS && r[length + 3..] == address[|address| - 4..]
  {
    if address == "" then ""
    else if |address| <= length + 7 then address
    else address[..length] + ELLIPSIS + address[|address| - 4..]
  }

  /** The corrected truncation never lengthens an address, and agrees with the written one wherever that shortens. */
  lemma TruncateAddressFacts(address: string, length: nat)
    ensures |TruncateAddress(address, length)| <= |address|
    ensures |address| <= length + 4 || |address| > length + 7 ==>
      TruncateAddress(address, length) == TruncateAddressAsWritten(address, length)
  {
  }

  // ---------------------------------------------------------------------------
  // isValidSolanaAddress
  // ---------------------------------------------------------------------------

  /** The characters from `lo` to `hi`, in order. */
  function CharRange(lo: char, hi: char): (r: string)
    requires lo <= hi && hi as int < 0xD800
    ensures |r| == hi as int - lo as int + 1
    ensures forall c :: c in r <==> lo <= c <= hi
    decreases hi as int - lo as int
  {
    if lo == hi then [lo]
    else
      var rest := CharRange((lo as int + 1) as char, hi);
      assert forall c :: c in [lo] + rest <==> lo <= c <= hi;
      [lo] + rest
  }

  /** The Bitcoin base58 alphabet: digits and letters without `0`, `O`, `I` and `l`. */
  function Base58Alphabet(): string {
    CharRange('1', '9') + CharRange('A', 'H') + CharRange('J', 'N') + CharRange('P', 'Z')
      + CharRange('a', 'k') + CharRange('m', 'z')
  }

  /** The character class `[A-HJ-NP-Za-km-z1-9]`. */
  predicate IsBase58Char(c: char) {
    ('A' <= c <= 'H') || ('J' <= c <= 'N') || ('P' <= c <= 'Z') || ('a' <= c <= 'k') || ('m' <= c <= 'z') || ('1' <= c <= '9')
  }

  /** The character class is exactly the alphabet, which has 58 letters. */
  lemma Base58AlphabetFacts(c: char)
    ensures |Base58Alphabet()| == 58
    ensures IsBase58Char(c) <==> c in Base58Alphabet()
  {
  }

  /** `isValidSolanaAddress`: 32 to 44 characters, every one of them base58. */
  function IsValidSolanaAddress(address: string): (r: bool)
    ensures r <==> 32 <= |address| <= 44 && forall i :: 0 <= i < |address| ==> address[i] in Base58Alphabet()
    ensures r ==> '0' !in address && 'O' !in address && 'I' !in address && 'l' !in address
  {
    forall i | 0 <= i < |address| ensures IsBase58Char(address[i]) <==> address[i] in Base58Alphabet() {
      Base58AlphabetFacts(address[i]);
    }
    if address == "" then false
    else if |address| < 32 || |address| > 44 then false
    else forall i :: 0 <= i < |address| ==> IsBase58Char(address[i])
  }

  // ---------------------------------------------------------------------------
  // generateAvatarColor
  // ---------------------------------------------------------------------------

  const AVATAR_COLORS := [
    "from-purple-500 to-blue-500",
    "from-green-500 to-teal-500",
    "from-orange-500 to-red-500",
    "from-pink-500 to-purple-500",
    "from-blue-500 to-indigo-500"]

  const TWO_32 := 0x1_0000_0000
  const TWO_31 := 0x8000_0000

  /** ECMAScript's ToInt32: the value modulo 2^32, read as a signed 32-bit integer. */
  function ToInt32(x: int): (r: int)
    ensures -TWO_31 <= r < TWO_31
    ensures (r - x) % TWO_32 == 0
  {
    (x + TWO_31) % TWO_32 - TWO_31
  }

  /** One step of the reduce: `((acc << 5) - acc + code) & ((acc << 5) - acc + code)`. */
  function HashStep(acc: int, c: char): int {
    var shifted := ToInt32(acc * 32);
    ToInt32(shifted - acc + c as int)
  }

  /** The reduce over the characters, from 0. */
  function Hash(s: string): int {
    if s == [] then 0 else HashStep(Hash(s[..|s| - 1]), s[|s| - 1])
  }

  /** The same hash without any wrap-around: the polynomial sum of the codes in powers of 31. */
  function Polynomial(s: string): int {
    if s == [] then 0 else 31 * Polynomial(s[..|s| - 1]) + s[|s| - 1] as int
  }

  /** Two numbers with the same residue modulo 2^32 have the same ToInt32. */
  lemma ToInt32Congruent(x: int, y: int)
    requires (x - y) % TWO_32 == 0
    ensures ToInt32(x) == ToInt32(y)
  {
    var k := (x - y) / TWO_32;
    assert x + TWO_31 == (y + TWO_31) + k * TWO_32;
  }

  /** Scaling and adding preserve congruence modulo 2^32. */
  lemma CongruentStep(a: int, b: int, m: int, c: int)
    requires (a - b) % TWO_32 == 0
    ensures (m * a + c - (m * b + c)) % TWO_32 == 0
  {
    var k := (a - b) / TWO_32;
    assert a - b == k * TWO_32;
    assert m * a + c - (m * b + c) == (m * k) * TWO_32;
  }

  /** The wrapped reduce is the polynomial hash read as a signed 32-bit integer. */
  lemma {:induction false} HashIsPolynomial(s: string)
    ensures Hash(s) == ToInt32(Polynomial(s))
  {
    if s != [] {
      var init, c := s[..|s| - 1], s[|s| - 1];
      HashIsPolynomial(init);
      var acc := Hash(init);
      var shifted := ToInt32(acc * 32);
      // shifted - acc + c is congruent to 31 * acc + c, and acc to Polynomial(init).
      assert (shifted - acc + c as int - (31 * acc + c as int)) % TWO_32 == 0 by {
        assert (shifted - acc * 32) % TWO_32 == 0;
      }
      CongruentStep(acc, Polynomial(init), 31, c as int);
      assert (31 * acc + c as int - Polynomial(s)) % TWO_32 == 0;
      assert (shifted - acc + c as int - Polynomial(s)) % TWO_32 == 0 by {
        var d1 := shifted - acc + c as int - (31 * acc + c as int);
        var d2 := 31 * acc + c as int - Polynomial(s);
        assert d1 % TWO_32 == 0 && d2 % TWO_32 == 0;
        ModSum(d1, d2);
      }
      ToInt32Congruent(shifted - acc + c as int, Polynomial(s));
    }
  }

  lemma ModSum(a: int, b: int)
    requires a % TWO_32 == 0 && b % TWO_32 == 0
    ensures (a + b) % TWO_32 == 0
  {
    var i, j := a / TWO_32, b / TWO_32;
    assert a + b == (i + j) * TWO_32;
  }

  /** `Math.abs(hash) % colors.length`. */
  function ColorIndex(address: string): (i: nat)
    ensures i < |AVATAR_COLORS|
  {
    var h := Hash(address);
    (if h < 0 then -h else h) % |AVATAR_COLORS|
  }

  /** `generateAvatarColor`: the same address always gets the same one of the five gradients. */
  function GenerateAvatarColor(address: string): (color: string)
    ensures color in AVATAR_COLORS
    ensures color == AVATAR_COLORS[ColorIndex(address)]
  {
    AVATAR_COLORS[ColorIndex(address)]
  }

  /** The colour depends only on the polynomial hash of the address modulo 2^32. */
  lemma AvatarColorFromPolynomial(a: string, b: string)
    requires (Polynomial(a) - Polynomial(b)) % TWO_32 == 0
    ensures GenerateAvatarColor(a) == GenerateAvatarColor(b)
  {
    HashIsPolynomial(a);
    HashIsPolynomial(b);
    ToInt32Congruent(Polynomial(a), Polynomial(b));
  }
}
